=== FILE: README.md ===
# GenePattern job-runner core, modelled in Dafny

GenePattern runs analysis modules ("tasks") as operating-system processes. This project models the parts of its server that decide *what* runs and *how the result is tracked*. The code that runs processes, touches files or talks to the database is not modelled.

- **Command-line templating** (`substitute.dfy`, module `Templating`). A module's command line cites properties as `<name>`. Each citation is replaced by the property's value, with the formal parameter's `prefix_when_specified` put in front of a non-empty value. A citation of an optional parameter that expands to nothing becomes `null`. A value is never itself re-expanded.
- **Argument vector** (`argv.dfy`, module `Argv`). The first word is split off and tokenised. Each token is substituted. Tokens that become `null` are removed from the array. Every token except the program is substituted a second time, so one property may cite another.
- **Validation** (`validator.dfy`, module `Validation`). `validateParameters` checks the formal and actual parameters: duplicates, undefined or uncited names, missing required values, reserved names, and values outside a choice list. `validateSubstitutions` checks that every `<name>` on the command line can be resolved. Every problem is collected, and none stops the scan.
- **R names** (`r_names.dfy`, module `RNames`). `isRSafe` and `rEncode`.
- **Output harvest** (`harvest.dfy`, module `Harvest`). The files a job leaves behind, minus its captured stdout and stderr, stably sorted by modification time.
- **Task helpers** (`task_helpers.dfy`, module `TaskHelpers`). `makeDirName`, `getJobDir`, `htmlEncode`, `csvToVector` and `hasEnding`.
- **Job properties** (`setup_props.dfy`, module `SetupProps`). The property table `setupProps` builds from the actual parameters, including the derived `_path`, `_file`, `_extension` and `_basename` entries of input files.
- **Manifest decoding** (`manifest.dfy`, module `Manifest`). The `pN_…` entries of a task zip's manifest become the task's parameters. What is left becomes the task's attributes.
- **External-queue executor** (`drm_executor.dfy`, module `DrmExecutor`, class `JobExecutor`). It submits jobs to a job runner and keeps a lookup table from GP job number to runner id and state. It polls the queued ids and re-queues the ids still running after a delay.
- **Executor registry** (`command_manager.dfy`, module `CommandRegistry`, class `BasicCommandManager`). Executors are kept by id in insertion order. One of them is the pipeline executor. The registry resolves a job's executor, starts and stops all executors, and reconciles jobs at server start.
- **Drop-down selections** (`file_downloader.dfy`, module `Downloads`, class `FileDownloader`). Picks out the input values that were chosen from a file drop-down.
- **Server settings page** (`server_settings.dfy`, module `Settings`, class `ServerSettingsBean`). Edits the comma-separated lists in the server's properties: client domains and repository URLs. Also covers client modes, restoring defaults and proxy settings.
- **ODF writer** (`odf_writer.dfy`, module `Odf`, class `OdfWriter`). The output name and the header block of GenePattern's tab-separated data format.
- **Module categories** (`categories.dfy`, module `Categories`). The sorted set of task types that the module creator offers.

Support modules:
- `Wrappers`: `Option` and `Result`. A Java `null` is `None`; an exception is an `Err`.
- `JavaText`: the `String` and `StringTokenizer` operations the code relies on.
- `Seqs`: sequence facts used by the proofs.

Java `String`s are `string`s. Integers are unbounded, except where the source parses or prints an `int`; those places state the `int` range explicitly.

## Model

| member | source | states |
|---|---|---|
| Templating.ParamTable | src/org/genepattern/server/genepattern/GenePatternAnalysisTask.java:915-918 | every formal's name is a key, each key maps to a formal of that name from the list, and a name maps to the last formal that carries it (`Hashtable.put` replaces) |
| Templating.IndexByName | src/org/genepattern/server/genepattern/GenePatternAnalysisTask.java:915-918 | the loop that fills the table builds exactly `ParamTable` |
| Templating.Replace | src/org/genepattern/server/genepattern/GenePatternAnalysisTask.java:3484-3502 | with a non-empty `find`, the loop's result is every non-overlapping occurrence replaced, left to right (`ReplaceAll`) |
| Templating.ReplaceCopies | src/org/genepattern/server/genepattern/GenePatternAnalysisTask.java:3489-3494 | text in which no occurrence starts is copied unchanged |
| Templating.ReplaceStep | src/org/genepattern/server/genepattern/GenePatternAnalysisTask.java:3490-3499 | one step: the text up to the next occurrence, the replacement, then the rest after the occurrence; with none, the rest as it is |
| Templating.ReplaceAllOneChar | src/org/genepattern/server/genepattern/GenePatternAnalysisTask.java:3484-3502 | replacing a one-character string replaces each occurrence of that character and keeps every other character |
| Templating.ReplaceAllNonEmpty | src/org/genepattern/server/genepattern/GenePatternAnalysisTask.java:3484-3502 | a non-empty text with a non-empty replacement stays non-empty |
| Templating.Replacement | src/org/genepattern/server/genepattern/GenePatternAnalysisTask.java:938-972 | the replacement is empty exactly when the property is missing or empty |
| Templating.ReplacementFor | src/org/genepattern/server/genepattern/GenePatternAnalysisTask.java:938-972 | the step-by-step computation (missing value, attributes, prefix, Program Files) equals `Replacement` |
| Templating.ValuesApply | src/org/genepattern/server/genepattern/GenePatternAnalysisTask.java:938-972 | the value function of the pass gives `Replacement` for every name |
| Templating.Substitute | src/org/genepattern/server/genepattern/GenePatternAnalysisTask.java:906-982 | the in-buffer loop gives exactly `SubstituteSpec`: null stays null, an empty result is null unless a required formal was cited, and otherwise the one-pass expansion over the original text |
| Templating.ExpandStops | src/org/genepattern/server/genepattern/GenePatternAnalysisTask.java:921-929 | when no `<`, or no `>` after it, remains, the text is kept as it is and no required formal is cited |
| Templating.ExpandRedirect | src/org/genepattern/server/genepattern/GenePatternAnalysisTask.java:930-936 | a blank before the next `>` keeps the text up to and including the blank, and the pass resumes after it |
| Templating.ExpandPlaceholder | src/org/genepattern/server/genepattern/GenePatternAnalysisTask.java:937-976 | a placeholder is replaced by its value, the text before it is kept, the pass resumes after the closing `>`, and a required formal is cited when this name marks one |
| Templating.ExpandLiteral | src/org/genepattern/server/genepattern/GenePatternAnalysisTask.java:921-922 | text without a `<` is kept as it is |
| Templating.SubstituteLiteral | src/org/genepattern/server/genepattern/GenePatternAnalysisTask.java:906-982 | a non-empty line without a placeholder substitutes to itself |
| Templating.PlaceholderExpands | src/org/genepattern/server/genepattern/GenePatternAnalysisTask.java:937-976 | `a<name>c` gives `a`, the value, then the expansion of `c`; the value is not scanned again |
| Templating.StdinRedirectKept | src/org/genepattern/server/genepattern/GenePatternAnalysisTask.java:930-936 | `a<x y…` keeps `a<x ` as it is and carries on after the blank |
| Templating.UnclosedPlaceholderKept | src/org/genepattern/server/genepattern/GenePatternAnalysisTask.java:924-929 | a `<` with no `>` after it stops the pass: the whole text is kept |
| Templating.UnknownNameBecomesEmpty | src/org/genepattern/server/genepattern/GenePatternAnalysisTask.java:938-946 | a placeholder whose name has no property becomes the empty string, not an error |
| Templating.SingleToken | src/org/genepattern/server/genepattern/GenePatternAnalysisTask.java:937-976 | a line that is one placeholder expands to its value |
| Templating.OptionalEmptyTokenIsNull | src/org/genepattern/server/genepattern/GenePatternAnalysisTask.java:956-981 | a single placeholder with an empty value and no required formal substitutes to null |
| Templating.RequiredTokenIsKept | src/org/genepattern/server/genepattern/GenePatternAnalysisTask.java:956-981 | a single placeholder of a formal with attributes but no "optional" one is never null, even with an empty value |
| Templating.PrefixOnlyWhenSpecified | src/org/genepattern/server/genepattern/GenePatternAnalysisTask.java:964-968 | a non-empty prefix is put before a non-empty value, and nothing is added to an empty one |
| Templating.NoBlankNoProgramFiles | src/org/genepattern/server/genepattern/GenePatternAnalysisTask.java:971-972 | the Program Files rewrite leaves values without a blank alone |
| Templating.ValueIsNotRescanned | src/org/genepattern/server/genepattern/GenePatternAnalysisTask.java:974-976 | a value that looks like a placeholder is inserted verbatim, so one pass does not resolve nested placeholders |
| Templating.ExpandStable | src/org/genepattern/server/genepattern/GenePatternAnalysisTask.java:921-976 | when no inserted value holds a `<`, a second pass over what a pass produced gives the same text: placeholders are gone, and kept redirections and unclosed `<` are kept again |
| Templating.ExpandAfterPrefix | src/org/genepattern/server/genepattern/GenePatternAnalysisTask.java:921-976 | text without a `<` in front of a line is kept, and the line is expanded as if on its own |
| Templating.ResolvedResultIsStable | src/org/genepattern/server/genepattern/GenePatternAnalysisTask.java:469-471 | when no inserted replacement (a value with its prefix) holds a `<`, substituting the result of a substitution again gives it back unchanged, except that an empty result kept for a required formal becomes null |
| Argv.Kept | src/org/genepattern/server/genepattern/GenePatternAnalysisTask.java:511-519 | removing the null slots leaves no null slot and never lengthens the array |
| Argv.KeptAppend | src/org/genepattern/server/genepattern/GenePatternAnalysisTask.java:512-517 | compacting two pieces and joining them is compacting the joined array: survivors keep their order |
| Argv.KeptLength | src/org/genepattern/server/genepattern/GenePatternAnalysisTask.java:512 | each null slot removed shortens the array by exactly one |
| Argv.KeptMembers | src/org/genepattern/server/genepattern/GenePatternAnalysisTask.java:511-519 | a value survives compaction exactly when it is not null |
| Argv.KeptNoNull | src/org/genepattern/server/genepattern/GenePatternAnalysisTask.java:511-519 | an array without null slots is left as it is |
| Argv.SubstituteEach | src/org/genepattern/server/genepattern/GenePatternAnalysisTask.java:509-510 | each slot is substituted on its own, and the length is kept |
| Argv.FillRound | src/org/genepattern/server/genepattern/GenePatternAnalysisTask.java:507-520 | one round of the tokenizer loop keeps its invariant, whether the substituted token survives or its slot is removed and the index steps back |
| Argv.FillSlots | src/org/genepattern/server/genepattern/GenePatternAnalysisTask.java:504-520 | the tokenizer loop yields the part filled before it, then the tokens that do not substitute to null, substituted, in order |
| Argv.SecondPassSpec | src/org/genepattern/server/genepattern/GenePatternAnalysisTask.java:555-569 | the program slot is kept as it is, and the array never grows |
| Argv.SecondPassLength | src/org/genepattern/server/genepattern/GenePatternAnalysisTask.java:560-568 | the second pass shortens the array by the number of slots after the first that substitute to null |
| Argv.PassRound | src/org/genepattern/server/genepattern/GenePatternAnalysisTask.java:557-569 | one round of the second pass keeps its invariant, whichever branch it takes |
| Argv.SecondPass | src/org/genepattern/server/genepattern/GenePatternAnalysisTask.java:555-569 | the in-place second pass gives exactly the program followed by the surviving re-substituted slots |
| Argv.BuildCommandTokens | src/org/genepattern/server/genepattern/GenePatternAnalysisTask.java:484-569 | the array built step by step (quoted or unquoted program, both passes, compaction) equals the corrected construction `BuildSpec` |
| Argv.FirstWordLineTokens | src/org/genepattern/server/genepattern/GenePatternAnalysisTask.java:494-504 | re-tokenizing the rebuilt line gives the tokens of the substituted program, then exactly the tokens that followed it |
| Argv.LeadingBlankRepeatsLastChar | src/org/genepattern/server/genepattern/GenePatternAnalysisTask.java:502-503 | as written, a line " w" is rebuilt as w followed by w's last character again |
| Argv.LeadingBlankKeepsWord | src/org/genepattern/server/genepattern/GenePatternAnalysisTask.java:502-503 | cutting after the first token, a line " w" is rebuilt as w |
| Argv.UnclosedQuoteThrows | src/org/genepattern/server/genepattern/GenePatternAnalysisTask.java:524-557 | as written, a quoted program without its closing quote leaves the array null and the second pass throws |
| Argv.UnclosedQuoteReported | src/org/genepattern/server/genepattern/GenePatternAnalysisTask.java:524-528 | corrected, a quoted program without its closing quote is reported as a problem and no array is built |
| Argv.FirstWordLineAgrees | src/org/genepattern/server/genepattern/GenePatternAnalysisTask.java:502-503 | on a line that does not start with whitespace, the source's cut at the first token's length is the cut after the token |
| Argv.BuildAgrees | src/org/genepattern/server/genepattern/GenePatternAnalysisTask.java:484-569 | on a line that starts with neither whitespace nor an unclosed quote, the array the source builds is the corrected one |
| Argv.Echo | src/org/genepattern/server/genepattern/GenePatternAnalysisTask.java:571-575 | the echo loop gives the slots joined by single blanks, and throws when the array is empty or its first slot is null |
| Argv.EchoTokens | src/org/genepattern/server/genepattern/GenePatternAnalysisTask.java:571-575 | tokenizing the echoed line gives the tokens back when none is empty or holds whitespace |
| Argv.PrefixTokens | src/org/genepattern/server/genepattern/GenePatternAnalysisTask.java:476-480 | a non-empty command prefix contributes its own tokens in front of the command's |
| Argv.TwoPassesResolveNested | src/org/genepattern/server/genepattern/GenePatternAnalysisTask.java:555-559 | two passes resolve one level of citation: a placeholder whose value is another placeholder becomes that one's value |
| Validation.FirstFormal | src/org/genepattern/server/genepattern/GenePatternAnalysisTask.java:1813-1820 | the index found is the first formal with the name, and none means no formal has it |
| Validation.FindFormal | src/org/genepattern/server/genepattern/GenePatternAnalysisTask.java:1810-1820 | the loop that breaks at the first matching formal finds exactly `FirstFormal` |
| Validation.FindChoice | src/org/genepattern/server/genepattern/GenePatternAnalysisTask.java:1878-1894 | the loop over the choice entries finds a match exactly when the value equals the first or second token of some entry |
| Validation.ReservedProblems | src/org/genepattern/server/genepattern/GenePatternAnalysisTask.java:1852-1862 | one problem per reserved name that equals the parameter's name ignoring case, and a problem exactly when some does |
| Validation.CheckReserved | src/org/genepattern/server/genepattern/GenePatternAnalysisTask.java:1852-1862 | the loop over the reserved names reports exactly `ReservedProblems` |
| Validation.CheckFormal | src/org/genepattern/server/genepattern/GenePatternAnalysisTask.java:1829-1934 | corrected (see ## Findings, lines 1866-1867): the checks against a formal report citation, reserved-name, default and value problems in the order of `validateParameters`, and a formal without attributes is checked as required with no default instead of throwing |
| Validation.CheckActual | src/org/genepattern/server/genepattern/GenePatternAnalysisTask.java:1786-1935 | corrected (see ## Findings, lines 1866-1867): the body of the loop over the actual parameters reports exactly `ActualProblems`: a repeated name, then nothing for a name needing no citation, an undefined name, or the formal's checks |
| Validation.CheckActuals | src/org/genepattern/server/genepattern/GenePatternAnalysisTask.java:1784-1936 | corrected (see ## Findings, lines 1866-1867): the loop over the actual parameters, with the names seen so far, reports exactly `ParameterProblems` |
| Validation.ValidateParameters | src/org/genepattern/server/genepattern/GenePatternAnalysisTask.java:1763-1943 | corrected (see ## Findings, lines 1866-1867 and 1982-1983): the R-safe task name, the blank command line, the actual parameters, then the substitutions, in that order (`ValidationSpec`) |
| Validation.ActualProblemsKept | src/org/genepattern/server/genepattern/GenePatternAnalysisTask.java:1785-1935 | nothing stops the scan: every problem of every actual parameter is in the result |
| Validation.ProblemsPrefix | src/org/genepattern/server/genepattern/GenePatternAnalysisTask.java:1785-1935 | the problems of the first parameters begin the problems of more of them |
| Validation.ProblemHasSource | src/org/genepattern/server/genepattern/GenePatternAnalysisTask.java:1785-1935 | each reported problem comes from one actual parameter |
| Validation.DuplicateReported | src/org/genepattern/server/genepattern/GenePatternAnalysisTask.java:1788-1796 | a name declared twice is reported |
| Validation.DuplicateOnlyWhenRepeated | src/org/genepattern/server/genepattern/GenePatternAnalysisTask.java:1788-1796 | only a name declared at two positions is reported as declared twice |
| Validation.DuplicateSource | src/org/genepattern/server/genepattern/GenePatternAnalysisTask.java:1788-1796 | a duplicate report comes from a parameter whose name was seen before |
| Validation.UndefinedReported | src/org/genepattern/server/genepattern/GenePatternAnalysisTask.java:1805-1827 | a parameter no formal has, and that is not one of the unrequired names, is reported |
| Validation.UncitedReported | src/org/genepattern/server/genepattern/GenePatternAnalysisTask.java:1831-1840 | a required formal that the command line does not cite is reported |
| Validation.UndefinedOnlyWhenUndeclared | src/org/genepattern/server/genepattern/GenePatternAnalysisTask.java:1805-1827 | a name is reported as missing from the definition only when an actual parameter has it, it is not one of the unrequired names, and no formal has it |
| Validation.UncitedOnlyWhenRequired | src/org/genepattern/server/genepattern/GenePatternAnalysisTask.java:1831-1840 | a name is reported as uncited only when an actual parameter has it, it is not one of the unrequired names, the first formal of that name is required, and the command line does not cite it |
| Validation.NullAttributesThrow | src/org/genepattern/server/genepattern/GenePatternAnalysisTask.java:1866-1867 | as written, a parameter whose formal has no attributes reaches the default lookup on null and throws |
| Validation.NullAttributesAreRequired | src/org/genepattern/server/genepattern/GenePatternAnalysisTask.java:1831-1873 | corrected, a formal without attributes is required and has no default: uncited, it is reported, and no default problem arises |
| Validation.CheckName | src/org/genepattern/server/genepattern/GenePatternAnalysisTask.java:1991-2015 | a name is reported unless it ends with the input-path suffix, has a property, or is an optional formal's |
| Validation.ScanRound | src/org/genepattern/server/genepattern/GenePatternAnalysisTask.java:1977-1990 | corrected (see ## Findings, lines 1982-1983): one round, taking a blank just before the `>` as a stdin redirection, moves forward and consumes the names the substitution looks up up to where the next round starts, or stops when none remain |
| Validation.RoundKeeps | src/org/genepattern/server/genepattern/GenePatternAnalysisTask.java:1977-2018 | corrected (see ## Findings, lines 1982-1983): each round keeps the scan invariant, and a stopping round has reported everything |
| Validation.ValidateSubstitutions | src/org/genepattern/server/genepattern/GenePatternAnalysisTask.java:1968-2020 | corrected (see ## Findings, lines 1982-1983): the scan appends to the problems given exactly one problem for each looked-up name that nothing covers, in order |
| Validation.ExpandReadsOnlyCited | src/org/genepattern/server/genepattern/GenePatternAnalysisTask.java:1938-1941 | the names the validation checks are all the substitution reads: two property tables that agree on them substitute the same text |
| Validation.ReportedIff | src/org/genepattern/server/genepattern/GenePatternAnalysisTask.java:1991-2015 | a name is reported exactly when it is looked up and neither a property, the input-path suffix nor an optional formal covers it |
| Validation.BlankBeforeCloseReported | src/org/genepattern/server/genepattern/GenePatternAnalysisTask.java:1982-1990 | as written, `<name >` is checked as the name with its trailing blank, and reported |
| Validation.BlankBeforeCloseSkipped | src/org/genepattern/server/genepattern/GenePatternAnalysisTask.java:1982-1988 | corrected, `<name >` is a stdin redirection as it is for the substitution: nothing is looked up or reported |
| RNames.RSafeIff | src/org/genepattern/server/genepattern/GenePatternAnalysisTask.java:2076-2098 | a name is R-safe exactly when it is non-empty, holds only ASCII letters, digits and periods, starts with neither a period nor a digit, and is not one of the reserved words |
| RNames.SafeHasNoQuote | src/org/genepattern/server/genepattern/GenePatternAnalysisTask.java:2076-2098 | a safe name holds no double quote |
| RNames.REncode | src/org/genepattern/server/genepattern/GenePatternAnalysisTask.java:2109-2117 | the encoded name is never shorter than the name |
| RNames.EscapeLength | src/org/genepattern/server/genepattern/GenePatternAnalysisTask.java:2115 | escaping double quotes never shortens a name |
| RNames.REncodeIdentityIff | src/org/genepattern/server/genepattern/GenePatternAnalysisTask.java:2109-2117 | `rEncode` leaves a name unchanged exactly when the name is R-safe |
| RNames.UnescapeEscape | src/org/genepattern/server/genepattern/GenePatternAnalysisTask.java:2115 | undoing the escaped double quotes gives the text before escaping |
| RNames.DecodeEncode | src/org/genepattern/server/genepattern/GenePatternAnalysisTask.java:2109-2117 | stripping the quotes and undoing the quote escaping gives back the original name, safe or not, so `rEncode` loses nothing |
| RNames.BackslashUnreadable | src/org/genepattern/server/genepattern/GenePatternAnalysisTask.java:2115 | as written, the name `a\` is encoded as `"a\"`, a literal R cannot read because its backslash escapes the closing quote |
| RNames.BackslashMisread | src/org/genepattern/server/genepattern/GenePatternAnalysisTask.java:2115 | as written, the name `a\n` (backslash, letter n) is encoded as `"a\n"`, which R reads as "a" and a newline |
| RNames.ConstantUnread | src/org/genepattern/server/genepattern/GenePatternAnalysisTask.java:2080-2086 | as written, `isRSafe` accepts `TRUE` because its reserved words are lower-case, so `rEncode` writes it bare and R reads the logical constant, not a name |
| RNames.RReadEncodeForR | src/org/genepattern/server/genepattern/GenePatternAnalysisTask.java:2109-2117 | corrected (see ## Findings, lines 2080-2086 and 2115): with R's case-sensitive reserved words quoted and backslashes escaped as well as double quotes, R reads back every encoded name, safe or not, as the name itself |
| RNames.RReadEncode | src/org/genepattern/server/genepattern/GenePatternAnalysisTask.java:2109-2117 | for every name without a backslash, R reads back what `rEncode` as written produces as the name itself, except the words R reserves in their own case (`TRUE`, `NA`, `Inf`, …) that `isRSafe` lets through bare, which R does not read as a name |
| RNames.EscapeAgrees | src/org/genepattern/server/genepattern/GenePatternAnalysisTask.java:2115 | on a text without a backslash, escaping only double quotes is the same as escaping backslashes and double quotes |
| Harvest.CompareModified | src/org/genepattern/server/genepattern/GenePatternAnalysisTask.java:764-772 | the comparator returns -1, 0 or 1, negative exactly when the first file is older and zero exactly when the times are equal |
| Harvest.Outputs | src/org/genepattern/server/genepattern/GenePatternAnalysisTask.java:755-760 | the listing filter drops every standard-output and standard-error entry and keeps each other entry as often as listed |
| Harvest.InsertSorted | src/org/genepattern/server/genepattern/GenePatternAnalysisTask.java:763-773 | inserting an entry into a list sorted by time keeps it sorted |
| Harvest.SortByModified | src/org/genepattern/server/genepattern/GenePatternAnalysisTask.java:763-773 | the sort's result is ordered by modification time and a permutation of its input |
| Harvest.InsertStable | src/org/genepattern/server/genepattern/GenePatternAnalysisTask.java:763-773 | inserting puts the new entry after the entries of its own time |
| Harvest.SortStable | src/org/genepattern/server/genepattern/GenePatternAnalysisTask.java:763-773 | the sort is stable: the entries of any one time keep their listing order |
| Harvest.HarvestSpec | src/org/genepattern/server/genepattern/GenePatternAnalysisTask.java:754-773 | the harvested outputs: no captured stream, every other entry as often as listed, ordered by time, equal times in listing order |
| Harvest.HarvestNames | src/org/genepattern/server/genepattern/GenePatternAnalysisTask.java:755-760 | no harvested entry is the standard-output or standard-error file |
| TaskHelpers.MakeDirNameSpec | src/org/genepattern/server/genepattern/GenePatternAnalysisTask.java:1280-1307 | the directory name ends with ".version.invariant", starts with a prefix of the task name, keeps the whole name when it fits, is exactly 255 characters when cut, and the call throws exactly when the suffix alone is longer than 255 |
| TaskHelpers.JobDirOneSeparator | src/org/genepattern/server/genepattern/GenePatternAnalysisTask.java:2410-2416 | a jobs directory with or without its trailing separator names the same job directory |
| TaskHelpers.CsvToVector | src/org/genepattern/server/genepattern/GenePatternAnalysisTask.java:3987-3994 | the loop collects exactly the tokens of the list between commas, semicolons and blanks |
| TaskHelpers.CsvRoundTrip | src/org/genepattern/server/genepattern/GenePatternAnalysisTask.java:3987-3994 | non-empty, separator-free entries written with commas read back as themselves |
| TaskHelpers.NoExtensionNoEnding | src/org/genepattern/server/genepattern/GenePatternAnalysisTask.java:3972-3984 | a file name without a period, or ending with one, never has an ending, since the tokenizer never yields an empty ending |
| TaskHelpers.HasEndingIgnoresCase | src/org/genepattern/server/genepattern/GenePatternAnalysisTask.java:3972-3976 | the endings are compared ignoring case |
| TaskHelpers.EntityIndexOf | src/org/genepattern/server/genepattern/GenePatternAnalysisTask.java:3706-3717 | searching the characters string built by the static initializer finds the first table entry for a character, or -1 |
| TaskHelpers.HtmlEncode | src/org/genepattern/server/genepattern/GenePatternAnalysisTask.java:3615-3632 | the loop gives the empty string for null and otherwise each character escaped by the first entry of the program's table for it, or kept |
| TaskHelpers.EncodePlain | src/org/genepattern/server/genepattern/GenePatternAnalysisTask.java:3622-3630 | text without any character of the table is left as it is |
| TaskHelpers.EncodeAppend | src/org/genepattern/server/genepattern/GenePatternAnalysisTask.java:3622-3630 | the encoding works character by character: encoding two pieces and joining them is encoding the whole |
| TaskHelpers.DecodeChar | src/org/genepattern/server/genepattern/GenePatternAnalysisTask.java:3640-3642 | with a readable table, one escaped character reads back as itself under the table's own inverse |
| TaskHelpers.DecodeEncode | src/org/genepattern/server/genepattern/GenePatternAnalysisTask.java:3615-3632 | for any table whose ampersand is escaped and whose names are distinct and free of semicolons, the table's own inverse gives back the text the encoding loop escaped |
| TaskHelpers.EntitiesReadable | src/org/genepattern/server/genepattern/GenePatternAnalysisTask.java:3640-3700 | the program's table of 122 entries escapes the ampersand, and its entity names are pairwise distinct and hold no semicolon |
| TaskHelpers.HtmlDecodeEncode | src/org/genepattern/server/genepattern/GenePatternAnalysisTask.java:3615-3632 | with the program's table, reading back what `htmlEncode` wrote gives the original text; null was written as the empty text |
| SetupProps.PopulateActuals | src/org/genepattern/server/genepattern/GenePatternAnalysisTask.java:1508-1515 | the first loop puts each actual under its name, in order (`PutActuals`) |
| SetupProps.PutActualsLast | src/org/genepattern/server/genepattern/GenePatternAnalysisTask.java:1509-1514 | after the first loop each actual's name holds the value of the last actual of that name, a null value as the empty string |
| SetupProps.PutActualsOthers | src/org/genepattern/server/genepattern/GenePatternAnalysisTask.java:1509-1514 | the first loop adds exactly the actuals' names, and every key no actual names keeps its entry |
| SetupProps.StripAxis | src/org/genepattern/server/genepattern/GenePatternAnalysisTask.java:1541-1548 | the result is a suffix of the file name, and a name not starting with "Axis" is left alone |
| SetupProps.AfterLast | src/org/genepattern/server/genepattern/GenePatternAnalysisTask.java:1566-1574 | what follows the last separator is a suffix without that separator |
| SetupProps.UrlBase | src/org/genepattern/server/genepattern/GenePatternAnalysisTask.java:1563-1575 | the base name of a URL is a suffix holding none of '?', '&' and '=' |
| SetupProps.Extension | src/org/genepattern/server/genepattern/GenePatternAnalysisTask.java:1552-1562 | the extension holds no period |
| SetupProps.StemExtension | src/org/genepattern/server/genepattern/GenePatternAnalysisTask.java:1552-1562 | the stem, a period and the extension rebuild a file name with a period; without one the stem is the name and the extension empty |
| SetupProps.EntriesLookup | src/org/genepattern/server/genepattern/GenePatternAnalysisTask.java:1538-1579 | with distinct suffixes the five entries of one parameter are all there, none overwrites another, and nothing else changes |
| SetupProps.DeriveInputEntries | src/org/genepattern/server/genepattern/GenePatternAnalysisTask.java:1536-1579 | an input file adds its name in the job directory, the job directory, the name without the upload prefix, the extension, and a base name that with the extension rebuilds the local file name and holds no query separators for a URL; nothing else changes |
| SetupProps.FindFirstFormal | src/org/genepattern/server/genepattern/GenePatternAnalysisTask.java:1527-1583 | the inner search stops at the first formal with the actual's name |
| SetupProps.DeriveInputProps | src/org/genepattern/server/genepattern/GenePatternAnalysisTask.java:1525-1584 | the second loop adds the derived entries of every actual whose first formal of that name is an input file with a non-empty value (`InputProps`) |
| SetupProps.InputPropsOthers | src/org/genepattern/server/genepattern/GenePatternAnalysisTask.java:1525-1584 | a key no input actual derives is left as it was |
| SetupProps.NoInputsNoChange | src/org/genepattern/server/genepattern/GenePatternAnalysisTask.java:1525-1584 | without input files the second loop leaves the table as the first loop built it |
| SetupProps.SetupParameterProps | src/org/genepattern/server/genepattern/GenePatternAnalysisTask.java:1506-1584 | a null actuals array leaves the table alone; otherwise the first loop, then the second |
| Manifest.Prefix | src/org/genepattern/server/genepattern/GenePatternAnalysisTask.java:2785 | a parameter's prefix is "p", its number and an underscore |
| Manifest.PrefixShape | src/org/genepattern/server/genepattern/GenePatternAnalysisTask.java:2785 | a key of parameter i is "p", the digits of i, an underscore, then anything |
| Manifest.PrefixUnique | src/org/genepattern/server/genepattern/GenePatternAnalysisTask.java:2816 | only one parameter's prefix starts a given key |
| Manifest.PrefixDisjoint | src/org/genepattern/server/genepattern/GenePatternAnalysisTask.java:2816 | two different parameters' prefixes never start the same key |
| Manifest.AttributeNameAfterPrefix | src/org/genepattern/server/genepattern/GenePatternAnalysisTask.java:2821 | cutting after the first underscore drops exactly the prefix |
| Manifest.Take | src/org/genepattern/server/genepattern/GenePatternAnalysisTask.java:2791-2796 | a removal reads the entry's value, or the empty string when it is missing, and the entry is gone |
| Manifest.NamedFacts | src/org/genepattern/server/genepattern/GenePatternAnalysisTask.java:2799-2812 | the named lookup removes only entries of the names it visits, keeps every attribute it was given, and finds each name whose entry is present |
| Manifest.PrefixedAttrsLookup | src/org/genepattern/server/genepattern/GenePatternAnalysisTask.java:2814-2823 | each remaining entry of the parameter is an attribute under what follows the prefix, and nothing else is |
| Manifest.FieldsFacts | src/org/genepattern/server/genepattern/GenePatternAnalysisTask.java:2785-2797 | name, value and description come from their entries, and exactly those three entries are removed |
| Manifest.AttributesRest | src/org/genepattern/server/genepattern/GenePatternAnalysisTask.java:2799-2823 | reading the attributes removes exactly the parameter's entries |
| Manifest.AttributesHave | src/org/genepattern/server/genepattern/GenePatternAnalysisTask.java:2799-2823 | every entry of the parameter becomes an attribute, with its own value unless it is one of the named attributes |
| Manifest.StripFields | src/org/genepattern/server/genepattern/GenePatternAnalysisTask.java:2785-2823 | one round leaves the table without the parameter's entries |
| Manifest.DecodeKey | src/org/genepattern/server/genepattern/GenePatternAnalysisTask.java:2784-2840 | an entry is left for the task attributes, with its value, exactly when no decoded parameter owns it |
| Manifest.DecodeOk | src/org/genepattern/server/genepattern/GenePatternAnalysisTask.java:2784-2829 | with no empty name entry the decoding succeeds |
| Manifest.DecodeSpec | src/org/genepattern/server/genepattern/GenePatternAnalysisTask.java:2784-2829 | one parameter per name entry, in order of number, each read from a table still holding its entries |
| Manifest.DecodeRound | src/org/genepattern/server/genepattern/GenePatternAnalysisTask.java:2785-2828 | a number with a non-empty name entry appends its parameter |
| Manifest.EntriesKept | src/org/genepattern/server/genepattern/GenePatternAnalysisTask.java:2784-2829 | the entries of parameter n are unchanged when its turn comes |
| Manifest.EntryKept | src/org/genepattern/server/genepattern/GenePatternAnalysisTask.java:2784-2829 | an entry of parameter n is in the table left before it exactly when it is in the original, with the same value |
| Manifest.DecodeManifestSpec | src/org/genepattern/server/genepattern/GenePatternAnalysisTask.java:2784-2831 | every parameter with a name entry comes out described by its entries (name, value, description, attributes), in order of number |
| Manifest.CompleteDescribed | src/org/genepattern/server/genepattern/GenePatternAnalysisTask.java:2791-2827 | reading the fields and attributes from a table that holds the parameter's entries describes it |
| Manifest.DecodeFails | src/org/genepattern/server/genepattern/GenePatternAnalysisTask.java:2786-2790 | the first empty name entry ends the decoding with its number, whatever follows |
| Manifest.DecodeErrStays | src/org/genepattern/server/genepattern/GenePatternAnalysisTask.java:2788-2790 | an error is final |
| Manifest.DecodeParameters | src/org/genepattern/server/genepattern/GenePatternAnalysisTask.java:2784-2831 | the loop over the numbers 1 to MAX_PARAMETERS gives exactly `DecodeManifest` |
| Manifest.DecodeParameter | src/org/genepattern/server/genepattern/GenePatternAnalysisTask.java:2785-2828 | one round of the loop: the step `DecodeOne` takes, and the parameter completed from its entries |
| Manifest.NamedAttributes | src/org/genepattern/server/genepattern/GenePatternAnalysisTask.java:2799-2812 | the loop over the named attributes gives exactly `Named` |
| Manifest.OtherAttributes | src/org/genepattern/server/genepattern/GenePatternAnalysisTask.java:2814-2823 | the loop over the remaining entries adds each of the parameter's entries under what follows its prefix, and removes exactly those entries |
| Manifest.OtherKey | src/org/genepattern/server/genepattern/GenePatternAnalysisTask.java:2815-2821 | the entry taken is still there with its original value, and its attribute name follows the prefix |
| Manifest.OtherAttrsStep | src/org/genepattern/server/genepattern/GenePatternAnalysisTask.java:2818-2822 | taking one entry keeps the attributes equal to those of the entries taken |
| Manifest.PrefixedAttrsAdd | src/org/genepattern/server/genepattern/GenePatternAnalysisTask.java:2818-2822 | taking one more entry of the parameter adds its attribute |
| DrmExecutor.InsertRecord | src/org/genepattern/server/executor/drm/JobExecutor.java:404 | inserting a job's row keeps the lookup table consistent |
| DrmExecutor.UpdateRecordLookup | src/org/genepattern/server/executor/drm/JobExecutor.java:410-414 | after an update the job's runner id and state are the new ones, a set id leads back to the job, and every other job's id and every other id's job are as before |
| DrmExecutor.Record | src/org/genepattern/server/executor/drm/JobExecutor.java:252-267 | recording a status keeps the lookup table consistent |
| DrmExecutor.GetValuePrecedence | src/org/genepattern/server/executor/drm/JobExecutor.java:427-436 | a worker-configuration entry wins over the server configuration, which is used otherwise; there is no value exactly when neither has one |
| DrmExecutor.ParseInt | src/org/genepattern/server/executor/drm/JobExecutor.java:379-389 | a parsed count is within the range of an int |
| DrmExecutor.ParsePrinted | src/org/genepattern/server/executor/drm/JobExecutor.java:379-389 | parsing the decimal text of an int gives it back, with or without a minus sign |
| DrmExecutor.ConfigureSpec | src/org/genepattern/server/executor/drm/JobExecutor.java:353-402 | the submission carries the queue, memory, walltime, node and cpu counts, the worker's values first; it fails exactly when a value does not parse, with the first such error in the order walltime, node count, cpu count |
| DrmExecutor.DelayMonotone | src/org/genepattern/server/executor/drm/JobExecutor.java:182-194 | a job that has run longer never waits less before it is polled again |
| DrmExecutor.SubmittedNotStartedThrows | src/org/genepattern/server/executor/drm/JobExecutor.java:173-174 | as written, a job with a submit time but no start time makes `getDelay_proposed` throw |
| DrmExecutor.GetDelayProposedSpec | src/org/genepattern/server/executor/drm/JobExecutor.java:161-195 | corrected, the delay is between one and sixty seconds, never fails, agrees with the written code wherever that does not throw, and measures from the submit time when the job has not started |
| DrmExecutor.HandleCompletedSpec | src/org/genepattern/server/executor/drm/JobExecutor.java:114-142 | a job number comes back exactly when a row holds the runner id; a missing exit code counts as -1, and the runner's message goes with a non-zero exit code only |
| DrmExecutor.HandleRunningJobSpec | src/org/genepattern/server/executor/drm/JobExecutor.java:474-497 | JOB_ERROR exactly when the job has no runner id or the runner knows no status; a completion is handed back only for a terminated job |
| DrmExecutor.SubmitSpec | src/org/genepattern/server/executor/drm/JobExecutor.java:404-424 | the row is inserted before the runner is asked; an exception leaves the queue alone; an unset id is recorded FAILED and is an error; a set id is recorded QUEUED, leads back to the job, and is queued when there is room |
| DrmExecutor.PollSpec | src/org/genepattern/server/executor/drm/JobExecutor.java:275-306 | the head id leaves the queue, its status is recorded, and it is scheduled again after one second exactly when its job is neither terminated nor undetermined |
| DrmExecutor.PollKeepsTracked | src/org/genepattern/server/executor/drm/JobExecutor.java:275-306 | polling never loses a running job: only a terminated or undetermined job stops being tracked |
| DrmExecutor.FireKeepsTracked | src/org/genepattern/server/executor/drm/JobExecutor.java:293-305 | the timer moving a scheduled id back to the queue keeps the tracked ids |
| DrmExecutor.OfferAllIs | src/org/genepattern/server/executor/drm/JobExecutor.java:239-250 | the running ids that fit in the queue are queued in order and the rest are refused |
| DrmExecutor.JobExecutor.Start | src/org/genepattern/server/executor/drm/JobExecutor.java:232-250 | a fresh queue holding the ids that fit; the refused ids are the rest |
| DrmExecutor.JobExecutor.UpdateStatus | src/org/genepattern/server/executor/drm/JobExecutor.java:252-267 | the lookup table records the status; the queue and timer are unchanged |
| DrmExecutor.JobExecutor.RunCommand | src/org/genepattern/server/executor/drm/JobExecutor.java:336-425 | a configuration error fails before anything is recorded; otherwise the state and result are those of `Submit` |
| DrmExecutor.JobExecutor.PollOnce | src/org/genepattern/server/executor/drm/JobExecutor.java:275-306 | one turn of the handler loop changes the state as `Poll` does |
| DrmExecutor.JobExecutor.FireRequeue | src/org/genepattern/server/executor/drm/JobExecutor.java:293-305 | the timer firing changes the state as `Fire` does |
| CommandRegistry.Empty | src/org/genepattern/server/executor/BasicCommandManager.java:206-217 | the fresh registry is consistent |
| CommandRegistry.AddSpec | src/org/genepattern/server/executor/BasicCommandManager.java:210-215 | an id already present is refused with nothing changed; a new one goes at the end of the insertion order with its executor |
| CommandRegistry.Installed | src/org/genepattern/server/executor/BasicCommandManager.java:354-363 | after installing, the id has an executor |
| CommandRegistry.InstalledSpec | src/org/genepattern/server/executor/BasicCommandManager.java:344-361 | installing keeps every entry, adds a new pipeline executor only for a missing id, at the end of the order, and that executor is distinct from all others |
| CommandRegistry.InitPipelineSpec | src/org/genepattern/server/executor/BasicCommandManager.java:337-352 | the pipeline id becomes the configured one, or the default, and has an executor; every earlier entry stays |
| CommandRegistry.ResolveSpec | src/org/genepattern/server/executor/BasicCommandManager.java:227-266 | a pipeline job resolves to the pipeline executor; any other job to its configured id, or the first id when none is configured, failing when that id has no executor or the registry is empty |
| CommandRegistry.StartLoop | src/org/genepattern/server/executor/BasicCommandManager.java:284-302 | the start loop starts at most one executor per id |
| CommandRegistry.StartLoopCount | src/org/genepattern/server/executor/BasicCommandManager.java:284-302 | with the pipeline id present, the loop starts one executor for each other id |
| CommandRegistry.StartLoopNone | src/org/genepattern/server/executor/BasicCommandManager.java:284-302 | with the pipeline id absent, the loop starts the executor of every id, in order |
| CommandRegistry.StartLoopFrom | src/org/genepattern/server/executor/BasicCommandManager.java:284-302 | every executor the loop starts is that of an id other than the pipeline id |
| CommandRegistry.StartAllSpec | src/org/genepattern/server/executor/BasicCommandManager.java:280-306 | the pipeline id is settled and present, one start per other id comes first, and the pipeline executor is started last |
| CommandRegistry.StopLoop | src/org/genepattern/server/executor/BasicCommandManager.java:324-334 | the stop loop never stops the pipeline executor again |
| CommandRegistry.StopAllSpec | src/org/genepattern/server/executor/BasicCommandManager.java:313-335 | the pipeline executor is stopped first and only once, and every executor in the registry is stopped |
| CommandRegistry.StatusChanged | src/org/genepattern/server/executor/BasicCommandManager.java:108-111 | a status name missing from the status table fails on unboxing; otherwise the status changed exactly when the ids differ |
| CommandRegistry.ReconcileOneSpec | src/org/genepattern/server/executor/BasicCommandManager.java:73-104 | corrected (see ## Findings, BasicCommandManager.java:88-92): a job gets at most one status write: none for a negative "ignore" answer, the new status only when the executor's answer is a status id that differs from the recorded one, the error status when resolving or asking fails; no negative status but the error status is written, and the registry keeps its entries |
| CommandRegistry.IgnoreAnswerWritten | src/org/genepattern/server/executor/BasicCommandManager.java:88-92 | as written, an executor answering -1 for a job with a recorded status id gets -1 written as that job's status |
| CommandRegistry.IgnoreAnswerSkipped | src/org/genepattern/server/executor/BasicCommandManager.java:88-92 | corrected, an executor's -1 answer writes nothing and leaves the registry as the written code does |
| CommandRegistry.ReconcileSpec | src/org/genepattern/server/executor/BasicCommandManager.java:69-106 | the whole startup pass keeps the registry consistent and its entries; its writes are each job's writes in job order, each job resolved with the registry the jobs before it left, at most one write per job and under that job's number |
| CommandRegistry.ReconcileKeeps | src/org/genepattern/server/executor/BasicCommandManager.java:69-106 | the startup pass keeps the registry consistent and every entry it had, and writes no more statuses than there are jobs |
| CommandRegistry.ReconcileWrites | src/org/genepattern/server/executor/BasicCommandManager.java:73-104 | the writes of the startup pass are the writes of each job in turn, in job order |
| CommandRegistry.StartEach | src/org/genepattern/server/executor/BasicCommandManager.java:284-302 | the start loop gives exactly `StartLoop` |
| CommandRegistry.StopEach | src/org/genepattern/server/executor/BasicCommandManager.java:324-334 | the stop loop gives exactly `StopLoop` |
| CommandRegistry.BasicCommandManager.AddCommandExecutor | src/org/genepattern/server/executor/BasicCommandManager.java:210-215 | the registry changes, and the call answers, as `Add` says |
| CommandRegistry.BasicCommandManager.SetPipelineExecutor | src/org/genepattern/server/executor/BasicCommandManager.java:218-220 | only the pipeline id changes |
| CommandRegistry.BasicCommandManager.GetCommandExecutorById | src/org/genepattern/server/executor/BasicCommandManager.java:222-224 | an executor comes back exactly when the id has one, and it is that one |
| CommandRegistry.BasicCommandManager.Install | src/org/genepattern/server/executor/BasicCommandManager.java:354-363 | the registry becomes `Installed`, and the executor returned is the id's |
| CommandRegistry.BasicCommandManager.GetPipelineExecutor | src/org/genepattern/server/executor/BasicCommandManager.java:354-363 | as `PipelineExecutor` |
| CommandRegistry.BasicCommandManager.InitPipelineExecutor | src/org/genepattern/server/executor/BasicCommandManager.java:337-352 | as `InitPipeline` |
| CommandRegistry.BasicCommandManager.GetCommandExecutor | src/org/genepattern/server/executor/BasicCommandManager.java:227-261 | as `Resolve` |
| CommandRegistry.BasicCommandManager.StartCommandExecutors | src/org/genepattern/server/executor/BasicCommandManager.java:280-306 | as `StartAll` |
| CommandRegistry.BasicCommandManager.StopCommandExecutors | src/org/genepattern/server/executor/BasicCommandManager.java:313-335 | as `StopAll` |
| CommandRegistry.BasicCommandManager.HandleJobsOnServerStartup | src/org/genepattern/server/executor/BasicCommandManager.java:69-106 | corrected (see ## Findings, BasicCommandManager.java:88-92) to skip a negative answer: the loop leaves the registry and returns the writes of `Reconcile` over the jobs in order, so the manager stays valid and `ReconcileSpec` describes the writes job by job |
| Downloads.SelectedChoice | src/org/genepattern/server/executor/FileDownloader.java:130-163 | a selection always has a non-empty value |
| Downloads.SelectedChoiceSpec | src/org/genepattern/server/executor/FileDownloader.java:130-180 | a parameter is selected only when it is an input file with a non-empty value and a drop-down; a value under the remote directory is taken as it is, a remote directory when it ends with a slash; any other value is selected exactly when the lookup finds a choice with a value, and then it is that choice |
| Downloads.Contribution | src/org/genepattern/server/executor/FileDownloader.java:107-122 | each parameter contributes at most one selection |
| Downloads.SelectedChoicesAppend | src/org/genepattern/server/executor/FileDownloader.java:107-123 | selections keep the order of the parameters |
| Downloads.SelectedChoicesSnoc | src/org/genepattern/server/executor/FileDownloader.java:108-121 | a parameter no formal describes adds nothing, and a selected one adds its selection at the end |
| Downloads.SelectedChoicesFrom | src/org/genepattern/server/executor/FileDownloader.java:107-123 | every selection on the list is some parameter's selection, and has a value |
| Downloads.InitSelectedChoices | src/org/genepattern/server/executor/FileDownloader.java:104-128 | the loop with its lazily created list gives exactly the selections in parameter order, the empty list for none |
| Downloads.FileDownloader.constructor | src/org/genepattern/server/executor/FileDownloader.java:86-88 | the downloader holds the job's selections |
| Downloads.HasSelectedChoicesIff | src/org/genepattern/server/executor/FileDownloader.java:186-188 | a downloader has selections exactly when some parameter of the job is selected |
| Settings.ClientModeOf | src/org/genepattern/server/webapp/jsf/ServerSettingsBean.java:185-192 | the client mode is "Local", "Any" or "Specified"; it is one of the first two exactly when that is the stored value, and a stored "Local" or "Any" is always the answer |
| Settings.TerminatedJoin | src/org/genepattern/server/webapp/jsf/ServerSettingsBean.java:275-279 | the buffer of a non-empty list, without its last comma, is the comma-joined list |
| Settings.TerminatedEmpty | src/org/genepattern/server/webapp/jsf/ServerSettingsBean.java:278 | the buffer is empty exactly when no element was kept |
| Settings.CutTerminated | src/org/genepattern/server/webapp/jsf/ServerSettingsBean.java:278-279 | cutting the buffer's last comma, or taking "" for an empty buffer, gives the comma-joined list |
| Settings.Collect | src/org/genepattern/server/webapp/jsf/ServerSettingsBean.java:272-277 | the loop buffers exactly the kept elements, each followed by a comma |
| Settings.Occurs | src/org/genepattern/server/webapp/jsf/ServerSettingsBean.java:243-249 | the search finds the element exactly when it is set and among the pieces; a null one matches nothing |
| Settings.RemoveDomainSpec | src/org/genepattern/server/webapp/jsf/ServerSettingsBean.java:269-281 | removal keeps exactly the pieces other than the mode, in order, joined by commas, "" when none remains, and what it stores splits into kept pieces only |
| Settings.RemovedDomainGone | src/org/genepattern/server/webapp/jsf/ServerSettingsBean.java:269-281 | after removing a non-empty domain it is no longer among the pieces |
| Settings.RemoveDomainKeepsOut | src/org/genepattern/server/webapp/jsf/ServerSettingsBean.java:269-281 | a removal never brings back a domain that was not listed |
| Settings.SplitOnlyAll | src/org/genepattern/server/webapp/jsf/ServerSettingsBean.java:241 | every piece `split` keeps is one of the pieces between commas |
| Settings.AppendEntry | src/org/genepattern/server/webapp/jsf/ServerSettingsBean.java:250-251 | appending a comma and an entry adds that entry, keeps the non-empty entries there were, and adds no other |
| Settings.AddedDomainSpec | src/org/genepattern/server/webapp/jsf/ServerSettingsBean.java:250-254 | adding a domain lists it, keeps the others, adds nothing else, and changes nothing when it is already listed |
| Settings.WithoutLocalAnySpec | src/org/genepattern/server/webapp/jsf/ServerSettingsBean.java:238-239 | after the two removals neither "Local" nor "Any" is listed |
| Settings.AddSpecifiedSpec | src/org/genepattern/server/webapp/jsf/ServerSettingsBean.java:236-256 | in the Specified mode the added domain is listed, "Local" and "Any" are not (unless added), nothing is added when the domain was there, and no other entry changes; in another mode nothing changes |
| Settings.AddRepositorySpec | src/org/genepattern/server/webapp/jsf/ServerSettingsBean.java:423-439 | the current URL is listed afterwards, the URLs there are kept and no other is added, and adding again changes nothing |
| Settings.DefaultFirstSpec | src/org/genepattern/server/webapp/jsf/ServerSettingsBean.java:450-457 | the new list starts with the default and holds it nowhere else, holds neither the current URL nor any URL not listed before, and keeps every other listed URL |
| Settings.KeptInJoin | src/org/genepattern/server/webapp/jsf/ServerSettingsBean.java:453-457 | a non-empty, comma-free element survives the join as a piece |
| Settings.RemoveRepositorySpec | src/org/genepattern/server/webapp/jsf/ServerSettingsBean.java:446-459 | with a list and a default, the current URL becomes the default and the list is rebuilt default-first unless the current URL was the default; without either the call throws and nothing changes; no other entry changes |
| Settings.FirstPiece | src/org/genepattern/server/webapp/jsf/ServerSettingsBean.java:450 | the first piece of a joined list is its first element |
| Settings.EmptySelectionThrows | src/org/genepattern/server/webapp/jsf/ServerSettingsBean.java:411-417 | as written, clearing every selection cuts at -1 and throws, leaving the settings alone |
| Settings.SetSelectItemsSpec | src/org/genepattern/server/webapp/jsf/ServerSettingsBean.java:394-417 | corrected, the edit never fails, stores the joined selections, agrees with the written code wherever that succeeds, and reads back as the same list for comma-free selections that do not end with an empty one |
| Settings.RestoreKeysSpec | src/org/genepattern/server/webapp/jsf/ServerSettingsBean.java:759-772 | each covered key ends with its default, or is removed and reported when it has none; every other key keeps its entry, and only such keys are reported |
| Settings.RestoreSpec | src/org/genepattern/server/webapp/jsf/ServerSettingsBean.java:751-778 | restoring a mode touches no key outside it, and in the Repositories mode with the Module or Suite subtype no key outside that subtype |
| Settings.SetProxySpec | src/org/genepattern/server/webapp/jsf/ServerSettingsBean.java:528-549 | the http and ftp entries both hold the value, and no other entry changes |
| Settings.RestoreLoop | src/org/genepattern/server/webapp/jsf/ServerSettingsBean.java:759-772 | the restore loop gives exactly `RestoreKeys` |
| Settings.ServerSettingsBean.constructor | src/org/genepattern/server/webapp/jsf/ServerSettingsBean.java:46-105 | the page opens on the first mode in sorted order, with the "Local" client mode and no specified domain |
| Settings.ServerSettingsBean.SetCurrentMode | src/org/genepattern/server/webapp/jsf/ServerSettingsBean.java:144-146 | only the page's mode changes |
| Settings.ServerSettingsBean.GetCurrentClientMode | src/org/genepattern/server/webapp/jsf/ServerSettingsBean.java:185-192 | the client mode read from the settings is remembered and returned |
| Settings.ServerSettingsBean.SetCurrentClientMode | src/org/genepattern/server/webapp/jsf/ServerSettingsBean.java:197-203 | "Local" or "Any" is stored and clears the specified domain; "Specified" changes only the page |
| Settings.ServerSettingsBean.SetSpecifiedClientMode | src/org/genepattern/server/webapp/jsf/ServerSettingsBean.java:215-217 | only the specified domain changes |
| Settings.ServerSettingsBean.RemoveDomain | src/org/genepattern/server/webapp/jsf/ServerSettingsBean.java:269-281 | the settings become `RemoveDomainIn`'s, or stay when the list is missing and the call throws |
| Settings.ServerSettingsBean.AddSpecifiedClientMode | src/org/genepattern/server/webapp/jsf/ServerSettingsBean.java:236-256 | the settings and outcome are `AddSpecified`'s |
| Settings.ServerSettingsBean.RemoveSpecifiedClientMode | src/org/genepattern/server/webapp/jsf/ServerSettingsBean.java:263-267 | the specified domain is removed as `RemoveDomainIn` says |
| Settings.ServerSettingsBean.SetSpecifiedClientModes | src/org/genepattern/server/webapp/jsf/ServerSettingsBean.java:229-231 | corrected (see ## Findings, ServerSettingsBean.java:411-417): the client list becomes the joined selections, and an empty selection stores "" instead of throwing; comma-free selections that do not end with an empty one are read back by `GetSpecifiedClientModes` |
| Settings.ServerSettingsBean.GetSpecifiedClientModes | src/org/genepattern/server/webapp/jsf/ServerSettingsBean.java:222-224 | the domains are the pieces of the client list, none when it is missing, and no domain holds the separating comma |
| Settings.ServerSettingsBean.SetSelected | src/org/genepattern/server/webapp/jsf/ServerSettingsBean.java:411-417 | corrected (see ## Findings, ServerSettingsBean.java:411-417): the entry becomes the joined selections, and an empty selection stores "" instead of throwing |
| Settings.ServerSettingsBean.AddRepositoryURL | src/org/genepattern/server/webapp/jsf/ServerSettingsBean.java:423-439 | the settings and outcome are `AddRepository`'s |
| Settings.ServerSettingsBean.GetRepositoryURLs | src/org/genepattern/server/webapp/jsf/ServerSettingsBean.java:464-467 | the current URL is added, then the list's pieces are returned |
| Settings.ServerSettingsBean.SetRepositoryURLs | src/org/genepattern/server/webapp/jsf/ServerSettingsBean.java:472-474 | corrected (see ## Findings, ServerSettingsBean.java:411-417): the list becomes the joined selections, and an empty selection stores "" instead of throwing |
| Settings.ServerSettingsBean.RemoveRepositoryURL | src/org/genepattern/server/webapp/jsf/ServerSettingsBean.java:446-459 | the settings and outcome are `RemoveRepositoryAndReset`'s |
| Settings.ServerSettingsBean.Restore | src/org/genepattern/server/webapp/jsf/ServerSettingsBean.java:751-778 | the settings and reported keys are `RestoreMode`'s |
| Settings.ServerSettingsBean.SetProxyHost | src/org/genepattern/server/webapp/jsf/ServerSettingsBean.java:528-531 | both host entries hold the host, so `GetProxyHost` reads it back |
| Settings.ServerSettingsBean.SetProxyPort | src/org/genepattern/server/webapp/jsf/ServerSettingsBean.java:537-540 | both port entries hold the port, so `GetProxyPort` reads it back |
| Settings.ServerSettingsBean.SetProxyUser | src/org/genepattern/server/webapp/jsf/ServerSettingsBean.java:546-549 | both user entries hold the user, so `GetProxyUser` reads it back |
| Settings.ServerSettingsBean.SetProxyPassword | src/org/genepattern/server/webapp/jsf/ServerSettingsBean.java:565-568 | both password entries go to the system properties, so `GetProxyPassword` reads it back, and the settings are unchanged |
| Settings.ServerSettingsBean.GetProxyHost | src/org/genepattern/server/webapp/jsf/ServerSettingsBean.java:533-535 | the host is the http entry, the one of the two `setProxyHost` writes that is read, and none when it is missing |
| Settings.ServerSettingsBean.GetProxyPort | src/org/genepattern/server/webapp/jsf/ServerSettingsBean.java:542-544 | the port is the http entry that `setProxyPort` writes, none when missing |
| Settings.ServerSettingsBean.GetProxyUser | src/org/genepattern/server/webapp/jsf/ServerSettingsBean.java:551-553 | the user is the http entry that `setProxyUser` writes, none when missing |
| Settings.ServerSettingsBean.GetProxyPassword | src/org/genepattern/server/webapp/jsf/ServerSettingsBean.java:558-560 | the password is the http one among the system properties, none when missing |
| Odf.FixNameSpec | src/org/genepattern/io/OdfWriter.java:40-45 | the fixed name ends with ".odf" in any case, starts with the given name, equals it exactly when it already ended so, and fixing twice is fixing once |
| Odf.ValueOf | src/org/genepattern/io/OdfWriter.java:62-64 | the decimal text of an int is never empty, and starts with '-' exactly for a negative int |
| Odf.ValueOfInjective | src/org/genepattern/io/OdfWriter.java:62-64 | different ints are written as different texts |
| Odf.FieldsTabJoin | src/org/genepattern/io/OdfWriter.java:72-77 | the tab-separated values read back one field per value when none holds a tab |
| Odf.ArrayLineSpec | src/org/genepattern/io/OdfWriter.java:70-79 | an array line starts with its key and a colon, and what follows reads back as its values |
| Odf.HeaderBlockSpec | src/org/genepattern/io/OdfWriter.java:81-102 | the block opens with the version and the count, and the count is the number of lines that follow it: column names, column types when set, the model, one line per header in the order added, and the data-line count last |
| Odf.TextAppend | src/org/genepattern/io/OdfWriter.java:82-100 | printed lines accumulate: the text of two runs of lines is the one text then the other |
| Odf.TabJoinSnoc | src/org/genepattern/io/OdfWriter.java:72-77 | one more value adds a tab (unless it is the first) and the value |
| Odf.OdfWriter.constructor | src/org/genepattern/io/OdfWriter.java:27-38 | the writer writes to the fixed name, holds no headers and no column types, and has written the execution log's lines when asked to prepend it |
| Odf.OdfWriter.AddHeader | src/org/genepattern/io/OdfWriter.java:58-60 | the header is appended and nothing is written |
| Odf.OdfWriter.AddIntHeader | src/org/genepattern/io/OdfWriter.java:62-64 | the header with the int's decimal text is appended and nothing is written |
| Odf.OdfWriter.SetColumnTypes | src/org/genepattern/io/OdfWriter.java:125-127 | only the column types change |
| Odf.OdfWriter.PrintArray | src/org/genepattern/io/OdfWriter.java:70-79 | the loop writes exactly the array line and a line break |
| Odf.OdfWriter.PrintHeader | src/org/genepattern/io/OdfWriter.java:81-102 | exactly the lines of the header block are written, and the headers and types are unchanged |
| Odf.OdfWriter.PrintHeaderLines | src/org/genepattern/io/OdfWriter.java:94-99 | the header loop writes one `key=value` line per header, in the order added |
| Categories.CompareZeroIff | mod_creator/src/org/genepattern/modules/ModuleQueryServlet.java:93-103 | the comparator finds two categories equal only when they are the same string, so names that differ in case are both kept |
| Categories.CompareIgnoresCaseFirst | mod_creator/src/org/genepattern/modules/ModuleQueryServlet.java:93-103 | names whose lower-case forms differ are ordered by those, and names differing only in case by the case-sensitive order |
| Categories.CompareAntisymmetric | mod_creator/src/org/genepattern/modules/ModuleQueryServlet.java:93-103 | a comes before b exactly when b compares after a |
| Categories.CompareTotal | mod_creator/src/org/genepattern/modules/ModuleQueryServlet.java:93-103 | any two different names are ordered one way or the other |
| Categories.CompareTransitive | mod_creator/src/org/genepattern/modules/ModuleQueryServlet.java:93-103 | the order is transitive, so the comparator is a total order as the sorted set requires |
| Categories.SortedDistinct | mod_creator/src/org/genepattern/modules/ModuleQueryServlet.java:92-105 | a strictly ascending list holds each name once |
| Categories.InsertSpec | mod_creator/src/org/genepattern/modules/ModuleQueryServlet.java:110 | adding to the sorted set keeps it sorted, and its names are those before and the new one |
| Categories.SortedCons | mod_creator/src/org/genepattern/modules/ModuleQueryServlet.java:92-105 | a name before every name of a sorted list can be put in front of it |
| Categories.AllCategoriesSpec | mod_creator/src/org/genepattern/modules/ModuleQueryServlet.java:92-115 | the categories are sorted and distinct, and a name is among them exactly when it is some task's task type and not blank |
| Categories.GetAllCategories | mod_creator/src/org/genepattern/modules/ModuleQueryServlet.java:105-113 | the loop over the task cache gives exactly `AllCategories` |
| JavaText.ToLower | src/org/genepattern/io/OdfWriter.java:41 | `toLowerCase` keeps the length and lowers each character |
| JavaText.ToLowerTwice | src/org/genepattern/io/OdfWriter.java:41 | lowering a lowered name changes nothing |
| JavaText.TrimEmptyIff | mod_creator/src/org/genepattern/modules/ModuleQueryServlet.java:108 | a string trims to empty exactly when all its characters are at or below a space |
| JavaText.CompareToZeroIff | mod_creator/src/org/genepattern/modules/ModuleQueryServlet.java:98-100 | `compareTo` is zero exactly for equal strings |
| JavaText.CompareToAntisymmetric | mod_creator/src/org/genepattern/modules/ModuleQueryServlet.java:98-100 | `a` before `b` exactly when `b` after `a` |
| JavaText.CompareToTransitive | mod_creator/src/org/genepattern/modules/ModuleQueryServlet.java:98-100 | the lexicographic order is transitive |
| JavaText.SplitAllJoin | src/org/genepattern/server/webapp/jsf/ServerSettingsBean.java:241 | splitting comma-joined comma-free pieces, keeping trailing empties, gives the pieces back |
| JavaText.SplitJoin | src/org/genepattern/server/webapp/jsf/ServerSettingsBean.java:399 | `split(",")` gives back comma-joined comma-free pieces whose last piece is not empty |
| JavaText.SplitJoinPrefix | src/org/genepattern/server/webapp/jsf/ServerSettingsBean.java:453-457 | `split(",")` of comma-joined comma-free pieces gives them back in order, less any trailing empty ones |
| JavaText.Tokens | src/org/genepattern/server/genepattern/GenePatternAnalysisTask.java:2088-2089 | `StringTokenizer` tokens are non-empty and hold no delimiter |
| JavaText.NoTokensIff | src/org/genepattern/server/genepattern/GenePatternAnalysisTask.java:2088-2091 | `countTokens() == 0` exactly when every character is a delimiter |
| JavaText.TokensOfSingle | src/org/genepattern/server/genepattern/GenePatternAnalysisTask.java:498-499 | a delimiter-free non-empty string is its own single token |
| DrmExecutor.DelayFor | src/org/genepattern/server/executor/drm/JobExecutor.java:182-194 | the step function's delay is between one and sixty seconds |
| DrmExecutor.Configure | src/org/genepattern/server/executor/drm/JobExecutor.java:353-402 | a configured submission is for the given job and carries the given extra arguments |
| DrmExecutor.JobExecutor.constructor | src/org/genepattern/server/executor/drm/JobExecutor.java:56-62 | a new executor has an empty lookup table, an empty queue and nothing scheduled |
| CommandRegistry.BasicCommandManager.constructor | src/org/genepattern/server/executor/BasicCommandManager.java:206-217 | a new registry is empty, and its pipeline id is the default one |
| Harvest.Insert | src/org/genepattern/server/genepattern/GenePatternAnalysisTask.java:764-772 | one insertion step of the sort adds the file and keeps every other file |
| JavaText.Trim | mod_creator/src/org/genepattern/modules/ModuleQueryServlet.java:108 | `trim` is no longer than the string, and what it keeps starts and ends above a space |
| JavaText.FileName | src/org/genepattern/server/genepattern/GenePatternAnalysisTask.java:1536-1538 | `File.getName()` holds no separator |

## Left out

- Process execution: the job's `runCommand` (`Runtime.exec`, the stream-reader threads, `waitFor`), `getEnv` and the `terminate…` methods. These are operating-system and concurrency concerns.
- File system: staging and restoring input files, copying, URL downloads and `writeStringToFile`. The harvest takes the directory listing, with each file's modification time, as an input.
- Templating.Replacement: the absolute path that `substitute` gives the `resources` property (GenePatternAnalysisTask.java:951) is not modelled, because it asks the file system. That property's value is used as stored.
- Persistence: the analysis DAO, Hibernate and the property tables. The job store is a map. The statuses read from and written to the database are inputs and outputs of the reconciliation.
- Executor threading: the blocking `take` and `put`, the scheduled executor service, interrupts and the daemon threads. The queue is a bounded sequence. Scheduled re-queues are a list of pending entries, and the poll thread and the timer are single steps (`PollOnce`, `FireRequeue`).
- DrmExecutor.JobExecutor.FireRequeue: a `put` on a full queue would block. Here it leaves the state unchanged.
- DrmExecutor.JobExecutor.RunCommand: likewise, a `put` on a full queue would block; here the job is recorded but not queued. The `IllegalArgumentException("jobInfo==null")` guard (JobExecutor.java:337-339; `terminateJob` has the same one) is not modelled: a job record is never null in the model.
- DrmExecutor.ParseInt: reads ASCII digits only. `Integer.parseInt` also accepts the other Unicode decimal digits (any character `Character.digit` maps to 0-9), so such a text is a parse error here but a number in the source.
- CommandRegistry.BasicCommandManager.HandleJobsOnServerStartup: resolves each job's executor through its own registry. The source asks `CommandManagerFactory.getCommandManager()`, which in a running server is this same manager but need not be; the factory is not part of this model.
- The job runner (`startJob`, `getStatus`, `cancelJob`) and its reflective loading in `initJobRunner`: its answers are parameters. `terminateJob` and `stop` only forward to the runner and are not modelled.
- The DRM lookup implementations (`DrmLookup`): the lookup table is a map from GP job number to runner id and state, plus a reverse index. A status update for an id with no GP job number changes nothing.
- The `DrmJobState` hierarchy is not part of this model. `is` is modelled as a state being equal to, or refining, another listed state.
- The walltime parser and the configuration property names are parameters of the executor's configuration step.
- The command executors themselves and the job configuration: the registry returns the `start`, `stop` and `handle` calls it makes, in order, and takes the executors' answers as inputs.
- The drop-down descriptions (`ChoiceInfo`, `Choice`, the `ChoiceInfoHelper`) are not part of this model. A description is its remote directory plus a lookup function, and the downloads (`startDownloadAndWait`) are left out.
- Validation: `ParameterInfo`'s attribute and choice parsing and the message texts are not part of this model. A problem is a datatype value. The names that need no property are an input.
- TaskHelpers.MakeDirNameSpec: the invariant part of the name (the task's LSID or the base-36 hash of its name) is a parameter. `hashCode` is not modelled.
- TaskHelpers: the `jobs` system property and the configured file endings are inputs.
- RNames.RRead: reads the escapes of R string literals that name one character; octal, hexadecimal and Unicode escapes are read as errors. An unquoted text is read as a name only when `isRSafe` accepts it and R does not reserve it; R's other identifiers (with an underscore, say) are read as not a name, since `rEncode` never writes them bare.
- TaskHelpers.Decode: it is the inverse of the program's own entity table, not an HTML reader. A browser reads `&euro;` as U+20AC while the table writes it for U+0080, HTML5 reads `&#128;` to `&#159;` as Windows-1252 characters, and `divid` is not an HTML entity name (HTML's is `divide`).
- Manifest: reading the zip and `Properties` parsing are left out. The manifest is a map from key to value.
- Web and network plumbing: zip import and export, `getUserID`, the module repository scraping, and the servlet's routing and upload handling in `ModuleQueryServlet`.
- Categories: the task cache is given as the sequence of the tasks' `taskType` attributes. The `TreeSet` is a strictly sorted sequence.
- Settings: the constructor's authorization check and property-file loading, `saveSettings` and `PropertiesManager`, the log views (`getLog`, `getLogHeader`), `shutDownServer`, the database and radio-button setters, and the custom-settings table are not modelled. The page holds its settings and defaults as maps.
- Settings.FIRST_MODE: the mode the page opens on is taken to be "Access", the first key of the `TreeMap` of modes. The map's ordering is not modelled.
- Settings.ServerSettingsBean.SetProxyPassword: the password is kept in a map that stands for the JVM's system properties.
- TaskHelpers.JobDir: `File.separator` is taken to be '/'. `getJobDir` (GenePatternAnalysisTask.java:2410-2416) tests for a trailing `File.separator` but appends "/", so where the separator is '\\' a jobs directory ending in '/' gets a second '/' and `JobDirOneSeparator` would not hold there. Only the Windows "Program Files" rewrite of `substitute` (lines 971-972) is kept.
- JavaText.FileName: likewise takes `File.separator` to be '/', so a '\\'-separated path is one name.
- Odf: `addHeader(String, double)` (floating-point printing) and the file read of `appendExecutionLog` are left out; the log's lines are given to the constructor. The platform line separator is "\n". A null `columnNames` is not modelled.
- JavaText.ToLower: lowers ASCII letters only; Java's full Unicode case mapping is not modelled.
- JavaText: Java strings are sequences of characters. Surrogate pairs and encodings are not modelled.

## Findings

| source | as written | input that shows it | evidently intended | confidence | as-written member | corrected member |
|---|---|---|---|---|---|---|
| src/org/genepattern/server/executor/drm/JobExecutor.java:173-174 | when a job has a submit time but no start time, the elapsed time is computed from the start time, which is null | a status submitted at time 0 that has not started | measure the delay from the submit time | not executed | DrmExecutor.SubmittedNotStartedThrows | DrmExecutor.GetDelayProposedSpec |
| src/org/genepattern/server/genepattern/GenePatternAnalysisTask.java:524-528 | a command line opening with a quote that never closes leaves the token array null, which the second pass dereferences (line 557) | the command line `"perl x` | report the missing closing quote as a problem of the job | not executed | Argv.UnclosedQuoteThrows | Argv.UnclosedQuoteReported |
| src/org/genepattern/server/genepattern/GenePatternAnalysisTask.java:502-503 | the rest of the line is cut at the first token's length counted from the line's start, not from the token's end | the first-word line ` perl` gives `perll` | the word itself, `perl` | not executed | Argv.LeadingBlankRepeatsLastChar | Argv.LeadingBlankKeepsWord |
| src/org/genepattern/server/genepattern/GenePatternAnalysisTask.java:1982-1983 | the blank test adds one to the blank's index before comparing it with the closing delimiter, so a blank just before `>` is not seen, unlike in `substitute` (930-936) | the command line `<a >` | skip it as `substitute` does, leaving it untouched | not executed | Validation.BlankBeforeCloseReported | Validation.BlankBeforeCloseSkipped |
| src/org/genepattern/server/executor/BasicCommandManager.java:88-92 | the executor's answer is compared with the recorded status and written when different, though the DRM executor answers -1 to mean "leave the job alone" (JobExecutor.java:488-496) | a running job that the DRM still runs or has just finished, so `handleRunningJob` answers -1 | write nothing for a negative answer | not executed | CommandRegistry.IgnoreAnswerWritten | CommandRegistry.IgnoreAnswerSkipped |
| src/org/genepattern/server/genepattern/GenePatternAnalysisTask.java:1866-1867 | a formal with no attribute table is dereferenced when its actual is checked | a formal parameter whose attributes are null | treat it as a required parameter without choices | not executed | Validation.NullAttributesThrow | Validation.NullAttributesAreRequired |
| src/org/genepattern/server/webapp/jsf/ServerSettingsBean.java:411-417 | the buffer's last comma is cut with `substring(0, length - 1)` even when the buffer is empty | an empty selection list | store the empty list "" | not executed | Settings.EmptySelectionThrows | Settings.SetSelectItemsSpec |
| src/org/genepattern/server/genepattern/GenePatternAnalysisTask.java:2115 | only double quotes are escaped inside the quoted name, so a backslash in the name escapes the character after it when R reads the literal | the name `a\` (R meets no closing quote); the name `a\n` reads back with a newline | escape each backslash as well, so R reads the literal as the name | not executed | RNames.BackslashUnreadable | RNames.RReadEncodeForR |
| src/org/genepattern/server/genepattern/GenePatternAnalysisTask.java:2080-2086 | the reserved words are compared exactly and are all lower-case, so R's constants `TRUE`, `FALSE`, `NULL`, `NA`, `Inf` and `NaN` pass as safe names and `rEncode` leaves them unquoted | the name `TRUE`, which R reads as the logical constant | refuse R's reserved words in R's own case, so `rEncode` quotes them | not executed | RNames.ConstantUnread | RNames.RReadEncodeForR |

=== FILE: argv.dfy ===
/** The argument vector of a module's process, built from its command line: the line
    is split on whitespace, each token is substituted, a token that substitutes to
    null is removed from the array, and every token but the program is then
    substituted a second time so that one property may cite another. A Java String[]
    is a sequence of slots here, a null slot being None. */
module Argv {
  import opened Wrappers
  import opened Seqs
  import opened JavaText
  import opened Templating

  /** What Java's string concatenation and StringBuffer.append print for a possibly
      null string. */
  function NullAsText(v: Option<string>): string {
    if v.Some? then v.value else "null"
  }

  /** The slots of a freshly allocated String[] of length `n`. */
  function Nulls(n: nat): (r: seq<Option<string>>)
    ensures |r| == n && forall i :: 0 <= i < n ==> r[i] == None
  {
    if n == 0 then [] else [None] + Nulls(n - 1)
  }

  /** The tokens of a StringTokenizer as array slots. */
  function Slots(toks: seq<string>): (r: seq<Option<string>>)
    ensures |r| == |toks| && forall i :: 0 <= i < |toks| ==> r[i] == Some(toks[i])
  {
    if |toks| == 0 then [] else [Some(toks[0])] + Slots(toks[1..])
  }

  // ---------------------------------------------------------------- compaction

  /** The slots of an array with every null slot removed, in order. */
  function Kept(xs: seq<Option<string>>): (r: seq<Option<string>>)
    ensures |r| <= |xs|
    ensures forall i :: 0 <= i < |r| ==> r[i].Some?
  {
    if |xs| == 0 then [] else (if xs[0].Some? then [xs[0]] else []) + Kept(xs[1..])
  }

  /** The number of null slots. */
  function NullCount(xs: seq<Option<string>>): nat {
    if |xs| == 0 then 0 else (if xs[0].None? then 1 else 0) + NullCount(xs[1..])
  }

  /** Removing the nulls of two pieces and joining them is removing the nulls of the
      joined array: the surviving slots keep their relative order. */
  lemma {:induction false} KeptAppend(a: seq<Option<string>>, b: seq<Option<string>>)
    ensures Kept(a + b) == Kept(a) + Kept(b)
    decreases |a|
  {
    if |a| > 0 {
      KeptAppend(a[1..], b);
      assert (a + b)[1..] == a[1..] + b;
      Assoc3(if a[0].Some? then [a[0]] else [], Kept(a[1..]), Kept(b));
    } else {
      assert a + b == b;
    }
  }

  /** Each null slot removed shrinks the array by exactly one. */
  lemma {:induction false} KeptLength(xs: seq<Option<string>>)
    ensures |Kept(xs)| == |xs| - NullCount(xs)
    decreases |xs|
  {
    if |xs| > 0 {
      KeptLength(xs[1..]);
    }
  }

  /** A slot value survives exactly when it is not null. */
  lemma {:induction false} KeptMembers(xs: seq<Option<string>>)
    ensures forall v :: v in Kept(xs) <==> v in xs && v.Some?
    decreases |xs|
  {
    if |xs| > 0 {
      KeptMembers(xs[1..]);
      assert xs == [xs[0]] + xs[1..];
    }
  }

  /** An array without a null slot is left as it is. */
  lemma {:induction false} KeptNoNull(xs: seq<Option<string>>)
    requires forall i :: 0 <= i < |xs| ==> xs[i].Some?
    ensures Kept(xs) == xs
    decreases |xs|
  {
    if |xs| > 0 {
      KeptNoNull(xs[1..]);
      assert xs == [xs[0]] + xs[1..];
    }
  }

  /** Appending one slot. */
  lemma KeptSnoc(xs: seq<Option<string>>, x: Option<string>)
    ensures Kept(xs + [x]) == Kept(xs) + (if x.Some? then [x] else [])
  {
    KeptAppend(xs, [x]);
    assert [x][1..] == [];
  }

  // ---------------------------------------------------------------- substitution of slots

  /** Every slot substituted; substitute maps null to null. */
  function SubstituteEach(xs: seq<Option<string>>, props: map<string, string>, formals: seq<Formal>): (r: seq<Option<string>>)
    ensures |r| == |xs|
    ensures forall i :: 0 <= i < |xs| ==> r[i] == SubstituteSpec(xs[i], props, formals)
  {
    if |xs| == 0 then [] else [SubstituteSpec(xs[0], props, formals)] + SubstituteEach(xs[1..], props, formals)
  }

  lemma SubstituteEachSnoc(xs: seq<Option<string>>, x: Option<string>, props: map<string, string>, formals: seq<Formal>)
    ensures SubstituteEach(xs + [x], props, formals)
         == SubstituteEach(xs, props, formals) + [SubstituteSpec(x, props, formals)]
  {
  }

  lemma SlotsSnoc(toks: seq<string>, k: nat)
    requires k < |toks|
    ensures Slots(toks[..k + 1]) == Slots(toks[..k]) + [Some(toks[k])]
  {
  }

  lemma NullsCons(n: nat)
    requires n > 0
    ensures Nulls(n) == [None] + Nulls(n - 1)
  {
  }

  /** The surviving substituted slots after one more token. */
  lemma FillStep(toks: seq<string>, k: nat, props: map<string, string>, formals: seq<Formal>)
    requires k < |toks|
    ensures var v := SubstituteSpec(Some(toks[k]), props, formals);
      Kept(SubstituteEach(Slots(toks[..k + 1]), props, formals))
      == Kept(SubstituteEach(Slots(toks[..k]), props, formals)) + (if v.Some? then [v] else [])
  {
    SlotsSnoc(toks, k);
    SubstituteEachSnoc(Slots(toks[..k]), Some(toks[k]), props, formals);
    KeptSnoc(SubstituteEach(Slots(toks[..k]), props, formals), SubstituteSpec(Some(toks[k]), props, formals));
  }

  /** The loop invariant of FillSlots: the slots so far are the head, the surviving
      substituted tokens read so far, and the null slots still to be filled. */
  ghost predicate Filled(head: seq<Option<string>>, toks: seq<string>, k: nat, slots: seq<Option<string>>,
                         props: map<string, string>, formals: seq<Formal>)
    requires k <= |toks|
  {
    slots == head + Kept(SubstituteEach(Slots(toks[..k]), props, formals)) + Nulls(|toks| - k)
  }

  /** One round of FillSlots keeps its invariant, whether the substituted token
      survives or its slot is removed. */
  lemma FillRound(head: seq<Option<string>>, toks: seq<string>, k: nat, slots: seq<Option<string>>, i: nat,
                  v: Option<string>, props: map<string, string>, formals: seq<Formal>)
    requires k < |toks| && Filled(head, toks, k, slots, props, formals)
    requires i == |slots| - (|toks| - k) && v == SubstituteSpec(Some(toks[k]), props, formals)
    ensures i < |slots[i := v]|
    ensures v.None? ==> Filled(head, toks, k + 1, slots[i := v][..i] + slots[i := v][i + 1..], props, formals)
    ensures v.Some? ==> Filled(head, toks, k + 1, slots[i := v], props, formals)
  {
    var p := head + Kept(SubstituteEach(Slots(toks[..k]), props, formals));
    var rest := Nulls(|toks| - k - 1);
    FillStep(toks, k, props, formals);
    NullsCons(|toks| - k);
    Assoc3(p, [None], rest);
    WriteSlot(p, None, v, rest);
    if v.None? {
      RemoveSlot(p, v, rest);
    } else {
      Assoc3(head, Kept(SubstituteEach(Slots(toks[..k]), props, formals)), [v]);
    }
  }

  /** The array after the first pass: the part filled before the tokenizer loop,
      then the tokens that do not substitute to null, substituted. */
  function FirstPassSpec(head: seq<Option<string>>, toks: seq<string>, props: map<string, string>, formals: seq<Formal>)
    : seq<Option<string>>
  {
    head + Kept(SubstituteEach(Slots(toks), props, formals))
  }

  /** The tokenizer loop: the next token is substituted into the next slot; a slot
      that comes out null is removed by copying the array without it, and the slot
      index steps back. `head` is the part of the array filled before the loop. */
  method FillSlots(head: seq<Option<string>>, toks: seq<string>, props: map<string, string>, formals: seq<Formal>)
    returns (slots: seq<Option<string>>)
    ensures slots == FirstPassSpec(head, toks, props, formals)
  {
    slots := head + Nulls(|toks|);
    var i: int := |head|;
    var k := 0;
    assert toks[..0] == [];
    while k < |toks|
      invariant 0 <= k <= |toks| && i == |slots| - (|toks| - k)
      invariant Filled(head, toks, k, slots, props, formals)
    {
      var token := toks[k];
      var v := Substitute(Some(token), props, formals);
      FillRound(head, toks, k, slots, i, v, props, formals);
      slots := slots[i := v];
      if v.None? {
        slots := slots[..i] + slots[i + 1..];
        i := i - 1;
      }
      i := i + 1;
      k := k + 1;
    }
    assert toks[..k] == toks;
  }

  // ---------------------------------------------------------------- the second pass

  /** The array after the second pass: the first slot, the program, is kept as it
      is; every other slot is substituted again and removed if it comes out null. */
  function SecondPassSpec(slots: seq<Option<string>>, props: map<string, string>, formals: seq<Formal>): (r: seq<Option<string>>)
    ensures |slots| > 0 ==> |r| > 0 && r[0] == slots[0]
    ensures |r| <= |slots|
  {
    if |slots| == 0 then [] else [slots[0]] + Kept(SubstituteEach(slots[1..], props, formals))
  }

  /** Each slot after the first that comes out null shrinks the array by one. */
  lemma SecondPassLength(slots: seq<Option<string>>, props: map<string, string>, formals: seq<Formal>)
    requires |slots| > 0
    ensures |SecondPassSpec(slots, props, formals)| == |slots| - NullCount(SubstituteEach(slots[1..], props, formals))
  {
    KeptLength(SubstituteEach(slots[1..], props, formals));
  }

  /** The loop invariant of SecondPass: the program, the survivors of the slots
      done so far, and the slots not yet visited. */
  ghost predicate Passed(slots: seq<Option<string>>, k: nat, r: seq<Option<string>>,
                         props: map<string, string>, formals: seq<Formal>)
  {
    0 < k <= |slots| && r == [slots[0]] + Kept(SubstituteEach(slots[1..k], props, formals)) + slots[k..]
  }

  /** One round of SecondPass keeps its invariant. */
  lemma PassRound(slots: seq<Option<string>>, k: nat, r: seq<Option<string>>, i: nat, v: Option<string>,
                  props: map<string, string>, formals: seq<Formal>)
    requires Passed(slots, k, r, props, formals) && k < |slots| && i == |r| - (|slots| - k)
    requires v == SubstituteSpec(slots[k], props, formals)
    ensures i < |r| && r[i] == slots[k]
    ensures v.None? ==> Passed(slots, k + 1, r[i := v][..i] + r[i := v][i + 1..], props, formals)
    ensures v.Some? ==> Passed(slots, k + 1, r[i := v], props, formals)
  {
    var p := [slots[0]] + Kept(SubstituteEach(slots[1..k], props, formals));
    var rest := slots[k + 1..];
    DropCons(slots, k);
    Assoc3(p, [slots[k]], rest);
    WriteSlot(p, slots[k], v, rest);
    SliceSnoc(slots, 1, k);
    SubstituteEachSnoc(slots[1..k], slots[k], props, formals);
    KeptSnoc(SubstituteEach(slots[1..k], props, formals), v);
    if v.None? {
      RemoveSlot(p, v, rest);
    } else {
      Assoc3([slots[0]], Kept(SubstituteEach(slots[1..k], props, formals)), [v]);
    }
  }

  /** The second substitution pass of `onJob`, which lets a property cite another
      (p2=<p1>.res): every slot but the first is substituted again, in place, and a
      slot that comes out null is removed by copying the array without it. */
  method SecondPass(slots: seq<Option<string>>, props: map<string, string>, formals: seq<Formal>)
    returns (r: seq<Option<string>>)
    ensures r == SecondPassSpec(slots, props, formals)
  {
    r := slots;
    var i := 1;
    ghost var k := 1;
    if |slots| > 0 {
      assert slots[1..1] == [];
      DropCons(slots, 0);
    }
    while i < |r|
      invariant |slots| == 0 ==> r == []
      invariant |slots| > 0 ==> Passed(slots, k, r, props, formals) && i == |r| - (|slots| - k)
      decreases |r| - i
    {
      PassRound(slots, k, r, i, SubstituteSpec(slots[k], props, formals), props, formals);
      var v := Substitute(r[i], props, formals);
      r := r[i := v];
      if v.None? {
        r := r[..i] + r[i + 1..];
        i := i - 1;
      }
      i := i + 1;
      k := k + 1;
    }
    if |slots| > 0 {
      assert slots[1..k] == slots[1..] && slots[k..] == [];
    }
  }

  // ---------------------------------------------------------------- the whole line


  /** The array of tokens, or why there is none: a quoted program name without its
      closing quote is reported as a problem; a blank line makes the tokenizer throw. */
  datatype Built = Built(slots: seq<Option<string>>) | MissingClosingQuote | Thrown(error: JavaError)

  /** The line the unquoted program name is re-tokenized from: the first token is
      substituted on its own, so that a property may hold a program and its options,
      and the text after the token follows it. */
  function FirstWordLine(cmdLine: string, props: map<string, string>, formals: seq<Formal>): string
    requires |Tokens(cmdLine, WHITESPACE)| > 0
  {
    NullAsText(SubstituteSpec(Some(Tokens(cmdLine, WHITESPACE)[0]), props, formals)) + AfterFirst(cmdLine, WHITESPACE)
  }

  /** The same line as `onJob` cuts it: at the length of the first token, which is
      where the token ends only when the line does not start with whitespace. */
  function FirstWordLineAsWritten(cmdLine: string, props: map<string, string>, formals: seq<Formal>): string
    requires |Tokens(cmdLine, WHITESPACE)| > 0
  {
    TokensFirst(cmdLine, WHITESPACE);
    var first := Tokens(cmdLine, WHITESPACE)[0];
    NullAsText(SubstituteSpec(Some(first), props, formals)) + cmdLine[|first|..]
  }

  /** The array `onJob` builds from a command line, after both passes, corrected (see
      ## Findings in the README, lines 502-503 and 524-528): the first word is cut at
      its token's end, and a missing closing quote is reported. */
  function BuildSpec(cmdLine: string, props: map<string, string>, formals: seq<Formal>): Built {
    if !StartsWith(cmdLine, "\"") then
      if |Tokens(cmdLine, WHITESPACE)| == 0 then Thrown(NoSuchElement)
      else
        var line := FirstWordLine(cmdLine, props, formals);
        Built(SecondPassSpec(FirstPassSpec([], Tokens(line, WHITESPACE), props, formals), props, formals))
    else
      var endQuote := IndexOfChar(cmdLine, '"', 1);
      if endQuote == -1 then MissingClosingQuote
      else
        var first := SubstituteSpec(Some(cmdLine[1..endQuote]), props, formals);
        var rest := Tokens(cmdLine[endQuote + 1..], WHITESPACE);
        Built(SecondPassSpec(FirstPassSpec([first], rest, props, formals), props, formals))
  }

  /** The array as `onJob` builds it: the first word is cut at the length of its
      token, and a missing closing quote leaves the array null, which the second
      pass dereferences. */
  function BuildAsWritten(cmdLine: string, props: map<string, string>, formals: seq<Formal>): Built {
    if !StartsWith(cmdLine, "\"") then
      if |Tokens(cmdLine, WHITESPACE)| == 0 then Thrown(NoSuchElement)
      else
        var line := FirstWordLineAsWritten(cmdLine, props, formals);
        Built(SecondPassSpec(FirstPassSpec([], Tokens(line, WHITESPACE), props, formals), props, formals))
    else
      var endQuote := IndexOfChar(cmdLine, '"', 1);
      if endQuote == -1 then Thrown(NullPointer)
      else
        var first := SubstituteSpec(Some(cmdLine[1..endQuote]), props, formals);
        var rest := Tokens(cmdLine[endQuote + 1..], WHITESPACE);
        Built(SecondPassSpec(FirstPassSpec([first], rest, props, formals), props, formals))
  }

  /** The argument array of a command line, built step by step as `onJob` does, with
      its two corrections (see `BuildSpec`):
      tokenize, substitute each token into its slot, compact, then substitute every
      slot but the first once more. */
  method BuildCommandTokens(cmdLine: string, props: map<string, string>, formals: seq<Formal>) returns (b: Built)
    ensures b == BuildSpec(cmdLine, props, formals)
  {
    var slots: seq<Option<string>>;
    if !StartsWith(cmdLine, "\"") {
      var toks := Tokens(cmdLine, WHITESPACE);
      if |toks| == 0 {
        return Thrown(NoSuchElement);
      }
      TokensFirst(cmdLine, WHITESPACE);
      var lead := LeadLength(cmdLine, WHITESPACE);
      var end := lead + RunLength(cmdLine[lead..], WHITESPACE);
      var program := Substitute(Some(toks[0]), props, formals);
      var line := NullAsText(program) + cmdLine[end..];
      assert cmdLine[end..] == AfterFirst(cmdLine, WHITESPACE);
      assert line == FirstWordLine(cmdLine, props, formals);
      slots := FillSlots([], Tokens(line, WHITESPACE), props, formals);
    } else {
      var endQuote := IndexOfChar(cmdLine, '"', 1);
      if endQuote == -1 {
        return MissingClosingQuote;
      }
      var program := Substitute(Some(cmdLine[1..endQuote]), props, formals);
      slots := FillSlots([program], Tokens(cmdLine[endQuote + 1..], WHITESPACE), props, formals);
    }
    slots := SecondPass(slots, props, formals);
    return Built(slots);
  }

  // ---------------------------------------------------------------- properties of the build

  /** The re-tokenized line carries the substituted program name and then exactly
      the tokens that followed the first one. */
  lemma FirstWordLineTokens(cmdLine: string, props: map<string, string>, formals: seq<Formal>)
    requires |Tokens(cmdLine, WHITESPACE)| > 0
    ensures Tokens(FirstWordLine(cmdLine, props, formals), WHITESPACE)
         == Tokens(NullAsText(SubstituteSpec(Some(Tokens(cmdLine, WHITESPACE)[0]), props, formals)), WHITESPACE)
            + Tokens(cmdLine, WHITESPACE)[1..]
  {
    TokensAfterFirst(cmdLine, NullAsText(SubstituteSpec(Some(Tokens(cmdLine, WHITESPACE)[0]), props, formals)), WHITESPACE);
  }

  /** A line starting with a blank: `onJob` cuts it one character short of the
      end of the program token, so " perl" is re-tokenized as "perll"; the corrected
      cut gives "perl" back. */
  lemma LeadingBlankRepeatsLastChar(w: string, props: map<string, string>, formals: seq<Formal>)
    requires |w| > 0 && LEFT !in w && forall i :: 0 <= i < |w| ==> w[i] !in WHITESPACE
    ensures Tokens([' '] + w, WHITESPACE) == [w]
    ensures FirstWordLineAsWritten([' '] + w, props, formals) == w + [w[|w| - 1]]
  {
    BlankThenWord(w, WHITESPACE);
    SubstituteLiteral(w, props, formals);
    ConsLast(' ', w);
  }

  /** The corrected cut keeps such a line as the word itself. */
  lemma LeadingBlankKeepsWord(w: string, props: map<string, string>, formals: seq<Formal>)
    requires |w| > 0 && LEFT !in w && forall i :: 0 <= i < |w| ==> w[i] !in WHITESPACE
    ensures FirstWordLine([' '] + w, props, formals) == w
  {
    BlankThenWord(w, WHITESPACE);
    SubstituteLiteral(w, props, formals);
    assert w + [] == w;
  }


  /** As written, a quoted program name without its closing quote makes the second
      pass dereference the null array. */
  lemma UnclosedQuoteThrows(w: string, props: map<string, string>, formals: seq<Formal>)
    requires '"' !in w
    ensures BuildAsWritten("\"" + w, props, formals) == Thrown(NullPointer)
  {
    UnclosedQuote(w);
  }

  /** Corrected, a quoted program name without its closing quote is reported as a
      problem and no array is built. */
  lemma UnclosedQuoteReported(w: string, props: map<string, string>, formals: seq<Formal>)
    requires '"' !in w
    ensures BuildSpec("\"" + w, props, formals) == MissingClosingQuote
  {
    UnclosedQuote(w);
  }

  /** On a line that does not start with whitespace the cut `onJob` makes is the
      corrected one. */
  lemma FirstWordLineAgrees(cmdLine: string, props: map<string, string>, formals: seq<Formal>)
    requires |cmdLine| > 0 && cmdLine[0] !in WHITESPACE
    ensures |Tokens(cmdLine, WHITESPACE)| > 0
    ensures FirstWordLineAsWritten(cmdLine, props, formals) == FirstWordLine(cmdLine, props, formals)
  {
    assert |Tokens(cmdLine, WHITESPACE)| > 0;
    TokensFirst(cmdLine, WHITESPACE);
    assert LeadLength(cmdLine, WHITESPACE) == 0;
    assert cmdLine[0..] == cmdLine;
  }

  /** So `onJob` as written and the corrected build give the same array on every ordinary
      line: one that starts with neither whitespace nor a quote left unclosed. */
  lemma BuildAgrees(cmdLine: string, props: map<string, string>, formals: seq<Formal>)
    requires |cmdLine| > 0 && cmdLine[0] !in WHITESPACE
    requires StartsWith(cmdLine, "\"") ==> IndexOfChar(cmdLine, '"', 1) != -1
    ensures BuildAsWritten(cmdLine, props, formals) == BuildSpec(cmdLine, props, formals)
  {
    if !StartsWith(cmdLine, "\"") {
      FirstWordLineAgrees(cmdLine, props, formals);
    }
  }

  lemma UnclosedQuote(w: string)
    requires '"' !in w
    ensures StartsWith("\"" + w, "\"") && IndexOfChar("\"" + w, '"', 1) == -1
  {
    var s := "\"" + w;
    assert s[..1] == "\"";
    assert forall k :: 1 <= k < |s| ==> s[k] == w[k - 1];
    IndexOfCharNone(s, '"', 1);
  }

  // ---------------------------------------------------------------- the echoed line

  /** The slots joined by single blanks, as StringBuffer.append prints them. */
  function EchoText(slots: seq<Option<string>>): string
    requires |slots| > 0
  {
    if |slots| == 1 then NullAsText(slots[0])
    else EchoText(slots[..|slots| - 1]) + " " + NullAsText(slots[|slots| - 1])
  }

  /** The command line shown when validation fails: the StringBuffer is created from
      the first slot, which throws when the array is empty or the slot is null. */
  function EchoSpec(slots: seq<Option<string>>): Result<string, JavaError> {
    if |slots| == 0 then Err(IndexOutOfBounds)
    else if slots[0].None? then Err(NullPointer)
    else Ok(EchoText(slots))
  }

  /** The loop of `onJob` that echoes the command line. */
  method Echo(slots: seq<Option<string>>) returns (r: Result<string, JavaError>)
    ensures r == EchoSpec(slots)
  {
    if |slots| == 0 {
      return Err(IndexOutOfBounds);
    }
    if slots[0].None? {
      return Err(NullPointer);
    }
    var line := slots[0].value;
    var i := 1;
    assert slots[..1] == [slots[0]];
    while i < |slots|
      invariant 1 <= i <= |slots|
      invariant line == EchoText(slots[..i])
    {
      assert slots[..i + 1][..i] == slots[..i];
      line := line + " ";
      line := line + NullAsText(slots[i]);
      i := i + 1;
    }
    assert slots[..i] == slots;
    return Ok(line);
  }

  /** Tokenizing the echoed line gives the tokens back when none is empty or holds
      whitespace: the echo is a faithful picture of the argument array. */
  lemma {:induction false} EchoTokens(ts: seq<string>)
    requires |ts| > 0
    requires forall i :: 0 <= i < |ts| ==> |ts[i]| > 0 && forall j :: 0 <= j < |ts[i]| ==> ts[i][j] !in WHITESPACE
    ensures Tokens(EchoText(Slots(ts)), WHITESPACE) == ts
    decreases |ts|
  {
    var n := |ts|;
    if n == 1 {
      TokensOfSingle(ts[0], WHITESPACE);
    } else {
      var p := ts[..n - 1];
      SlotsPrefix(ts, n - 1);
      EchoTokens(p);
      TokensAround(EchoText(Slots(p)), ' ', ts[n - 1], WHITESPACE);
      TokensOfSingle(ts[n - 1], WHITESPACE);
      TakeSnoc(ts, n - 1);
    }
  }

  lemma SlotsPrefix(ts: seq<string>, k: nat)
    requires k <= |ts|
    ensures Slots(ts)[..k] == Slots(ts[..k])
  {
  }

  // ---------------------------------------------------------------- around the build

  /** The command line run behind the COMMAND_PREFIX property when that is set and
      non-empty. */
  function WithPrefix(cmdLine: string, prefix: Option<string>): string {
    if prefix.Some? && |prefix.value| > 0 then prefix.value + " " + cmdLine else cmdLine
  }

  /** The prefix contributes its own tokens in front of the command's. */
  lemma PrefixTokens(cmdLine: string, prefix: string)
    requires |prefix| > 0
    ensures Tokens(WithPrefix(cmdLine, Some(prefix)), WHITESPACE) == Tokens(prefix, WHITESPACE) + Tokens(cmdLine, WHITESPACE)
  {
    TokensAround(prefix, ' ', cmdLine, WHITESPACE);
  }

  /** The validation step's view of the command line: substituted twice, it is
      undefined when null or blank. */
  predicate CommandLineUndefined(cmdLine: string, props: map<string, string>, formals: seq<Formal>) {
    var c := SubstituteSpec(SubstituteSpec(Some(cmdLine), props, formals), props, formals);
    c.None? || Trim(c.value) == ""
  }

  /** Two passes resolve one level of citation: `<outer>` whose value is `<inner>`
      becomes the replacement of `inner`. */
  lemma TwoPassesResolveNested(outer: string, inner: string, props: map<string, string>, formals: seq<Formal>)
    requires RIGHT !in outer && ' ' !in outer && RIGHT !in inner && ' ' !in inner
    requires outer in props && props[outer] == [LEFT] + inner + [RIGHT]
    requires outer !in ParamTable(formals)
    requires inner in props && props[inner] != ""
    ensures SubstituteSpec(SubstituteSpec(Some([LEFT] + outer + [RIGHT]), props, formals), props, formals)
         == Some(Replacement(inner, props, ParamTable(formals)))
  {
    var table := ParamTable(formals);
    ValueIsNotRescanned(outer, inner, props, formals);
    ValuesApply(inner, props, table);
    SingleToken(inner, Values(props, table), table);
  }
}

=== FILE: categories.dfy ===
/** The module categories the module creator offers: the task types of the
    installed tasks, without blank ones, each once, in a sorted set whose order
    ignores case and breaks ties by the case-sensitive order. The task cache is
    given as the sequence of the tasks' task-type attributes. */
module Categories {
  import opened Wrappers
  import opened JavaText

  /** The sorted set's comparator. */
  function Compare(a: string, b: string): int {
    var r := CompareTo(ToLower(a), ToLower(b));
    if r == 0 then CompareTo(a, b) else r
  }

  /** `a` comes before `b` in the set. */
  predicate Before(a: string, b: string) {
    Compare(a, b) < 0
  }

  /** The comparator finds two categories equal only when they are the same string:
      names that differ only in case are both kept. */
  lemma CompareZeroIff(a: string, b: string)
    ensures Compare(a, b) == 0 <==> a == b
  {
    CompareToZeroIff(ToLower(a), ToLower(b));
    CompareToZeroIff(a, b);
  }

  /** The order ignores case first: names whose lower-case forms differ are ordered
      by those, and names that differ only in case by the case-sensitive order. */
  lemma CompareIgnoresCaseFirst(a: string, b: string)
    ensures CompareTo(ToLower(a), ToLower(b)) < 0 ==> Before(a, b)
    ensures ToLower(a) == ToLower(b) ==> (Before(a, b) <==> CompareTo(a, b) < 0)
  {
    CompareToZeroIff(ToLower(a), ToLower(b));
  }

  lemma CompareAntisymmetric(a: string, b: string)
    ensures Before(a, b) <==> Compare(b, a) > 0
  {
    var la, lb := ToLower(a), ToLower(b);
    CompareToZeroIff(la, lb);
    CompareToZeroIff(lb, la);
    CompareToAntisymmetric(la, lb);
    CompareToAntisymmetric(a, b);
  }

  /** Any two different names are ordered one way or the other. */
  lemma CompareTotal(a: string, b: string)
    requires a != b
    ensures Before(a, b) || Before(b, a)
  {
    CompareZeroIff(a, b);
    CompareAntisymmetric(b, a);
  }

  lemma CompareTransitive(a: string, b: string, c: string)
    requires Before(a, b) && Before(b, c)
    ensures Before(a, c)
  {
    var la, lb, lc := ToLower(a), ToLower(b), ToLower(c);
    CompareToSignTransitive(la, lb, lc);
    if CompareTo(la, lc) == 0 {
      CompareToZeroIff(la, lc);
      CompareToAntisymmetric(la, lb);
      CompareToZeroIff(la, lb);
      CompareToZeroIff(lb, lc);
      CompareToTransitive(a, b, c);
    }
  }

  /** Strictly ascending in the set's order, so each name at most once. */
  ghost predicate Sorted(s: seq<string>) {
    forall i, j :: 0 <= i < j < |s| ==> Before(s[i], s[j])
  }

  lemma SortedDistinct(s: seq<string>, i: int, j: int)
    requires Sorted(s) && 0 <= i < j < |s|
    ensures s[i] != s[j]
  {
    CompareZeroIff(s[i], s[i]);
  }

  /** `add` on the sorted set: a name the comparator finds equal to one present
      changes nothing; another is placed before the first name it precedes. */
  function Insert(s: seq<string>, x: string): seq<string>
    decreases |s|
  {
    if |s| == 0 then [x]
    else
      var r := Compare(x, s[0]);
      if r == 0 then s
      else if r < 0 then [x] + s
      else [s[0]] + Insert(s[1..], x)
  }

  /** Adding keeps the set sorted, and its names are those before and the new one. */
  lemma {:induction false} InsertSpec(s: seq<string>, x: string)
    requires Sorted(s)
    ensures Sorted(Insert(s, x))
    ensures forall y :: y in Insert(s, x) <==> y in s || y == x
    decreases |s|
  {
    if |s| > 0 {
      var r := Compare(x, s[0]);
      CompareZeroIff(x, s[0]);
      if r < 0 {
        forall j | 0 <= j < |s| ensures Before(x, s[j]) {
          if j > 0 {
            CompareTransitive(x, s[0], s[j]);
          }
        }
        SortedCons(x, s);
      } else if r > 0 {
        var rest := Insert(s[1..], x);
        InsertSpec(s[1..], x);
        CompareAntisymmetric(s[0], x);
        forall j | 0 <= j < |rest| ensures Before(s[0], rest[j]) {
          assert rest[j] in s[1..] || rest[j] == x;
        }
        SortedCons(s[0], rest);
        assert s == [s[0]] + s[1..];
      }
    }
  }

  lemma SortedCons(a: string, t: seq<string>)
    requires Sorted(t)
    requires forall j :: 0 <= j < |t| ==> Before(a, t[j])
    ensures Sorted([a] + t)
  {
    var s := [a] + t;
    forall i, j | 0 <= i < j < |s| ensures Before(s[i], s[j]) {
      if i > 0 {
        assert s[i] == t[i - 1] && s[j] == t[j - 1];
      }
    }
  }

  /** A task type that is missing, or nothing but characters at or below a space. */
  predicate Blank(taskType: Option<string>) {
    taskType.None? || |Trim(taskType.value)| == 0
  }

  /** `getAllCategories` over the task types of the cached tasks, in cache order. */
  function AllCategories(taskTypes: seq<Option<string>>): seq<string>
    decreases |taskTypes|
  {
    if |taskTypes| == 0 then []
    else
      var n := |taskTypes| - 1;
      var c := AllCategories(taskTypes[..n]);
      if Blank(taskTypes[n]) then c else Insert(c, taskTypes[n].value)
  }

  /** The categories are sorted, each appears once, and a name is among them exactly
      when it is the task type of some task and is not blank. */
  lemma {:induction false} AllCategoriesSpec(taskTypes: seq<Option<string>>, c: string)
    ensures Sorted(AllCategories(taskTypes))
    ensures c in AllCategories(taskTypes) <==> Some(c) in taskTypes && |Trim(c)| > 0
    decreases |taskTypes|
  {
    if |taskTypes| > 0 {
      var n := |taskTypes| - 1;
      var prev := AllCategories(taskTypes[..n]);
      AllCategoriesSpec(taskTypes[..n], c);
      assert taskTypes == taskTypes[..n] + [taskTypes[n]];
      assert Some(c) in taskTypes <==> Some(c) in taskTypes[..n] || taskTypes[n] == Some(c);
      if !Blank(taskTypes[n]) {
        InsertSpec(prev, taskTypes[n].value);
        assert AllCategories(taskTypes) == Insert(prev, taskTypes[n].value);
      } else {
        assert AllCategories(taskTypes) == prev;
      }
    }
  }

  /** The loop over the task cache, adding each non-blank task type to the set. */
  method GetAllCategories(taskTypes: seq<Option<string>>) returns (categories: seq<string>)
    ensures categories == AllCategories(taskTypes)
  {
    categories := [];
    for i := 0 to |taskTypes|
      invariant categories == AllCategories(taskTypes[..i])
    {
      assert taskTypes[..i + 1][..i] == taskTypes[..i];
      var taskType := taskTypes[i];
      if taskType.None? || |Trim(taskType.value)| == 0 {
        // ignore missing and blank task types
      } else {
        categories := Insert(categories, taskType.value);
      }
    }
    assert taskTypes[..|taskTypes|] == taskTypes;
  }
}

=== FILE: command_manager.dfy ===
/** The executor registry: an insertion-ordered table from executor id to command
    executor, one id of which names the executor for pipelines. It routes a job to
    its executor, starts and stops the executors in a fixed order, and reconciles
    the jobs left running when the server starts. The executors themselves, the job
    configuration and the database are outside the model: their answers are inputs
    and the calls made on them are returned in order. */
module CommandRegistry {
  import opened Wrappers
  import opened JavaText

  /** The id the pipeline executor has when the configuration names none. */
  const DEFAULT_PIPELINE_EXEC_ID := "org.genepattern.server.executor.PipelineExecutor"

  /** A command executor, compared by identity: one registered from the
      configuration, or a default pipeline executor the registry created itself
      (the `serial`-th one). */
  datatype Executor = Configured(handle: nat) | DefaultPipeline(serial: nat)

  /** The registry: the ids in insertion order, the executor of each id, the
      pipeline id, and the number of default pipeline executors created so far. */
  datatype Registry = Registry(order: seq<string>, execs: map<string, Executor>,
                               pipelineExecId: string, created: nat)

  predicate Distinct(s: seq<string>) {
    forall i, j :: 0 <= i < j < |s| ==> s[i] != s[j]
  }

  /** The order lists each id of the table once, and every default pipeline
      executor in the table was created before. */
  ghost predicate RegistryValid(r: Registry) {
    Distinct(r.order)
    && (forall k :: k in r.execs <==> k in r.order)
    && (forall k :: k in r.execs && r.execs[k].DefaultPipeline? ==> r.execs[k].serial < r.created)
  }

  function Empty(): (r: Registry)
    ensures RegistryValid(r)
  {
    Registry([], map[], DEFAULT_PIPELINE_EXEC_ID, 0)
  }

  datatype RegistryError = DuplicateId(id: string) | NoSuchExecutor(id: string) | NoExecutors

  /** `addCommandExecutor`. */
  function Add(r: Registry, id: string, e: Executor): (Registry, Result<(), RegistryError>) {
    if id in r.execs then (r, Err(DuplicateId(id)))
    else (r.(order := r.order + [id], execs := r.execs[id := e]), Ok(()))
  }

  /** An id already present is refused and nothing changes; a new one goes at the
      end of the order with its executor. */
  lemma AddSpec(r: Registry, id: string, e: Executor)
    requires RegistryValid(r)
    ensures var (r', res) := Add(r, id, e);
      (e.Configured? ==> RegistryValid(r'))
      && (id in r.execs ==> r' == r && res == Err(DuplicateId(id)))
      && (id !in r.execs ==>
            res.Ok? && r'.order == r.order + [id] && r'.execs == r.execs[id := e]
            && r'.pipelineExecId == r.pipelineExecId)
  {
  }

  /** The table entry for `id`, the default pipeline executor being created and
      added at the end when there is none. */
  function Installed(r: Registry, id: string): (r': Registry)
    ensures id in r'.execs
  {
    if id in r.execs then r
    else r.(order := r.order + [id], execs := r.execs[id := DefaultPipeline(r.created)],
            created := r.created + 1)
  }

  /** `getPipelineExecutor`: the executor under the pipeline id, installed if missing. */
  function PipelineExecutor(r: Registry): (Registry, Executor) {
    var r' := Installed(r, r.pipelineExecId);
    (r', r'.execs[r.pipelineExecId])
  }

  /** `initPipelineExecutor`: the pipeline id becomes the configured one (or the
      default), and its executor is installed if missing. */
  function InitPipeline(r: Registry, configured: Option<string>): Registry {
    var id := configured.GetOr(DEFAULT_PIPELINE_EXEC_ID);
    Installed(r.(pipelineExecId := id), id)
  }

  /** Installing keeps the table valid, keeps every entry there was, and the
      executor it creates is a new one, unlike every executor in the table. */
  lemma InstalledSpec(r: Registry, id: string)
    requires RegistryValid(r)
    ensures var r' := Installed(r, id);
      RegistryValid(r') && r'.pipelineExecId == r.pipelineExecId
      && (id in r.execs ==> r' == r)
      && (id !in r.execs ==>
            r'.order == r.order + [id] && r'.execs[id] == DefaultPipeline(r.created)
            && (forall k :: k in r.execs ==> r'.execs[k] == r.execs[k] && r.execs[k] != r'.execs[id]))
  {
  }

  /** After `initPipelineExecutor` the pipeline id is the configured one, or the
      default, and the table has an entry for it. */
  lemma InitPipelineSpec(r: Registry, configured: Option<string>)
    requires RegistryValid(r)
    ensures var r' := InitPipeline(r, configured);
      RegistryValid(r') && r'.pipelineExecId in r'.execs
      && (configured.Some? ==> r'.pipelineExecId == configured.value)
      && (configured.None? ==> r'.pipelineExecId == DEFAULT_PIPELINE_EXEC_ID)
      && (forall k :: k in r.execs ==> k in r'.execs && r'.execs[k] == r.execs[k])
  {
    InstalledSpec(r.(pipelineExecId := configured.GetOr(DEFAULT_PIPELINE_EXEC_ID)),
                  configured.GetOr(DEFAULT_PIPELINE_EXEC_ID));
  }

  /** `getFirstCmdExecId`: the first id inserted; the iterator of an empty table has
      no next element. */
  function FirstId(r: Registry): Result<string, RegistryError> {
    if |r.order| == 0 then Err(NoExecutors) else Ok(r.order[0])
  }

  /** `getCommandExecutor`: a pipeline job gets the pipeline executor; any other job
      the executor of its configured id, or of the first id when none is configured. */
  function Resolve(r: Registry, isPipeline: bool, configuredId: Option<string>)
    : (Registry, Result<Executor, RegistryError>)
  {
    if isPipeline then
      var (r', e) := PipelineExecutor(r);
      (r', Ok(e))
    else
      var id := if configuredId.Some? then Ok(configuredId.value) else FirstId(r);
      if id.Err? then (r, Err(id.error))
      else if id.value in r.execs then (r, Ok(r.execs[id.value]))
      else (r, Err(NoSuchExecutor(id.value)))
  }

  /** A pipeline job always resolves to the pipeline executor, whatever id is
      configured for it; any other job leaves the table as it is and resolves to
      its configured id, or else to the first one, and fails when that id has no
      executor. */
  lemma ResolveSpec(r: Registry, isPipeline: bool, configuredId: Option<string>)
    requires RegistryValid(r)
    ensures var (r', res) := Resolve(r, isPipeline, configuredId);
      RegistryValid(r')
      && (isPipeline ==> r' == PipelineExecutor(r).0 && res == Ok(r'.execs[r.pipelineExecId]))
      && (!isPipeline ==> r' == r)
      && (!isPipeline && configuredId.Some? ==>
            (res.Ok? <==> configuredId.value in r.execs)
            && (res.Ok? ==> res.value == r.execs[configuredId.value])
            && (res.Err? ==> res.error == NoSuchExecutor(configuredId.value)))
      && (!isPipeline && configuredId.None? && |r.order| == 0 ==> res == Err(NoExecutors))
      && (!isPipeline && configuredId.None? && |r.order| > 0 ==> res == Ok(r.execs[r.order[0]]))
  {
    InstalledSpec(r, r.pipelineExecId);
  }

  /** The executors the start loop starts: those of the ids other than the pipeline
      id, in insertion order. */
  function StartLoop(order: seq<string>, execs: map<string, Executor>, pipelineExecId: string)
    : (s: seq<Executor>)
    requires forall k :: k in order ==> k in execs
    ensures |s| <= |order|
  {
    if |order| == 0 then []
    else
      var k := order[|order| - 1];
      StartLoop(order[..|order| - 1], execs, pipelineExecId)
      + (if k != pipelineExecId then [execs[k]] else [])
  }

  /** `startCommandExecutors`: the pipeline id is settled, every other executor is
      started in insertion order, and the pipeline executor last. A start that fails
      is logged and the loop goes on, so the calls made do not depend on failures. */
  function StartAll(r: Registry, configured: Option<string>): (res: (Registry, seq<Executor>))
    requires RegistryValid(r)
  {
    InitPipelineSpec(r, configured);
    var r1 := InitPipeline(r, configured);
    var (r2, p) := PipelineExecutor(r1);
    (r2, StartLoop(r1.order, r1.execs, r1.pipelineExecId) + [p])
  }

  /** The start loop starts exactly the ids other than the pipeline id, once each and
      in order: it has one start per such id. */
  lemma {:induction false} StartLoopCount(order: seq<string>, execs: map<string, Executor>, pipelineExecId: string)
    requires forall k :: k in order ==> k in execs
    requires Distinct(order) && pipelineExecId in order
    ensures |StartLoop(order, execs, pipelineExecId)| == |order| - 1
    decreases |order|
  {
    var n := |order| - 1;
    var k := order[n];
    if k == pipelineExecId {
      assert pipelineExecId !in order[..n] by {
        forall i | 0 <= i < n ensures order[..n][i] != pipelineExecId {
          assert order[i] != order[n];
        }
      }
      StartLoopNone(order[..n], execs, pipelineExecId);
    } else {
      assert pipelineExecId in order[..n] by {
        var i :| 0 <= i < |order| && order[i] == pipelineExecId;
        assert i < n && order[..n][i] == pipelineExecId;
      }
      StartLoopCount(order[..n], execs, pipelineExecId);
    }
  }

  lemma {:induction false} StartLoopNone(order: seq<string>, execs: map<string, Executor>, pipelineExecId: string)
    requires forall k :: k in order ==> k in execs
    requires pipelineExecId !in order
    ensures StartLoop(order, execs, pipelineExecId) == seq(|order|, i requires 0 <= i < |order| => execs[order[i]])
    decreases |order|
  {
    if |order| > 0 {
      StartLoopNone(order[..|order| - 1], execs, pipelineExecId);
    }
  }

  /** Every executor the start loop starts is the executor of an id other than the
      pipeline id. */
  lemma {:induction false} StartLoopFrom(order: seq<string>, execs: map<string, Executor>, pipelineExecId: string, i: nat)
    requires forall k :: k in order ==> k in execs
    requires i < |StartLoop(order, execs, pipelineExecId)|
    ensures exists k :: k in order && k != pipelineExecId && StartLoop(order, execs, pipelineExecId)[i] == execs[k]
    decreases |order|
  {
    var n := |order| - 1;
    var front := StartLoop(order[..n], execs, pipelineExecId);
    if i < |front| {
      StartLoopFrom(order[..n], execs, pipelineExecId, i);
      var k :| k in order[..n] && k != pipelineExecId && front[i] == execs[k];
      assert k in order;
    } else {
      assert order[n] in order;
    }
  }

  /** The start: afterwards the pipeline id is settled and present; the pipeline
      executor is started last; before it, one start for each of the other ids,
      each the executor of such an id. */
  lemma StartAllSpec(r: Registry, configured: Option<string>)
    requires RegistryValid(r)
    ensures var (r', starts) := StartAll(r, configured);
      RegistryValid(r') && r' == InitPipeline(r, configured)
      && |starts| == |r'.order|
      && starts[|starts| - 1] == r'.execs[r'.pipelineExecId]
      && (forall i :: 0 <= i < |starts| - 1 ==>
            exists k :: k in r'.execs && k != r'.pipelineExecId && starts[i] == r'.execs[k])
  {
    InitPipelineSpec(r, configured);
    var r1 := InitPipeline(r, configured);
    var (r', starts) := StartAll(r, configured);
    assert r' == r1;
    StartLoopCount(r1.order, r1.execs, r1.pipelineExecId);
    forall i | 0 <= i < |starts| - 1
      ensures exists k :: k in r'.execs && k != r'.pipelineExecId && starts[i] == r'.execs[k]
    {
      StartLoopFrom(r1.order, r1.execs, r1.pipelineExecId, i);
    }
  }

  /** The executors the stop loop stops: those, in insertion order, that are not the
      pipeline executor `p`. */
  function StopLoop(order: seq<string>, execs: map<string, Executor>, p: Executor): (s: seq<Executor>)
    requires forall k :: k in order ==> k in execs
    ensures forall i :: 0 <= i < |s| ==> s[i] != p
  {
    if |order| == 0 then []
    else
      var k := order[|order| - 1];
      StopLoop(order[..|order| - 1], execs, p) + (if execs[k] != p then [execs[k]] else [])
  }

  /** `stopCommandExecutors`: the pipeline executor is stopped first (installed if
      missing), then every other executor in insertion order. A failing stop is
      logged and the loop goes on. */
  function StopAll(r: Registry): (Registry, seq<Executor>)
    requires RegistryValid(r)
  {
    InstalledSpec(r, r.pipelineExecId);
    var (r', p) := PipelineExecutor(r);
    (r', [p] + StopLoop(r'.order, r'.execs, p))
  }

  lemma {:induction false} StopLoopCovers(order: seq<string>, execs: map<string, Executor>, p: Executor, k: string)
    requires forall k :: k in order ==> k in execs
    requires k in order && execs[k] != p
    ensures execs[k] in StopLoop(order, execs, p)
    decreases |order|
  {
    var n := |order| - 1;
    if order[n] != k {
      assert k in order[..n] by {
        var i :| 0 <= i < |order| && order[i] == k;
        assert order[..n][i] == k;
      }
      StopLoopCovers(order[..n], execs, p, k);
    }
  }

  /** The stop: the pipeline executor is stopped first and only then, and every
      executor in the table is stopped. */
  lemma StopAllSpec(r: Registry)
    requires RegistryValid(r)
    ensures var (r', stops) := StopAll(r);
      RegistryValid(r') && r' == PipelineExecutor(r).0
      && |stops| > 0 && stops[0] == r'.execs[r'.pipelineExecId]
      && (forall i :: 1 <= i < |stops| ==> stops[i] != stops[0])
      && (forall k :: k in r'.execs ==> r'.execs[k] in stops)
  {
    InstalledSpec(r, r.pipelineExecId);
    var (r', stops) := StopAll(r);
    var p := r'.execs[r'.pipelineExecId];
    forall k | k in r'.execs
      ensures r'.execs[k] in stops
    {
      if r'.execs[k] != p {
        StopLoopCovers(r'.order, r'.execs, p, k);
      }
    }
  }

  // ---------------------------------------------------------------- startup

  /** A job the database reports as processing: its number and status name, whether
      it is a pipeline, and the executor id the job configuration gives it. */
  datatype RunningJob = RunningJob(jobNo: int, status: string, isPipeline: bool,
                                   configuredId: Option<string>)

  /** A status written to the database for a job. */
  datatype StatusWrite = StatusWrite(jobNo: int, status: int)

  /** `statusChanged`: the status name is looked up in the status table; a name the
      table does not hold unboxes null. */
  function StatusChanged(statusMap: map<string, int>, origStatus: string, updatedStatusId: int)
    : (r: Result<bool, JavaError>)
    ensures r.Err? <==> origStatus !in statusMap
    ensures r.Ok? ==> (r.value <==> statusMap[origStatus] != updatedStatusId)
  {
    if origStatus in statusMap then Ok(statusMap[origStatus] != updatedStatusId)
    else Err(NullPointer)
  }

  /** One job of `handleJobsOnServerStartup` as written: the job is resolved to its
      executor, which says what its status is now (`handleRunningJob`; None when it
      throws); a status that differs from the recorded one is written, and any
      failure writes the error status. A negative answer, which the executors use to
      mean "leave the job alone", is written like any other. */
  function ReconcileOneAsWritten(r: Registry, job: RunningJob, statusMap: map<string, int>,
                                 handle: (Executor, int) -> Option<int>, jobError: int)
    : (Registry, seq<StatusWrite>)
  {
    var (r', e) := Resolve(r, job.isPipeline, job.configuredId);
    if e.Err? then (r', [StatusWrite(job.jobNo, jobError)])
    else
      var updated := handle(e.value, job.jobNo);
      if updated.None? then (r', [StatusWrite(job.jobNo, jobError)])
      else
        var changed := StatusChanged(statusMap, job.status, updated.value);
        if changed.Err? then (r', [StatusWrite(job.jobNo, jobError)])
        else if changed.value then (r', [StatusWrite(job.jobNo, updated.value)])
        else (r', [])
  }

  /** One job of `handleJobsOnServerStartup`, corrected (see ## Findings in the
      README, BasicCommandManager.java:88-92) to write nothing when the executor
      answers with a negative "ignore" value. */
  function ReconcileOne(r: Registry, job: RunningJob, statusMap: map<string, int>,
                        handle: (Executor, int) -> Option<int>, jobError: int)
    : (Registry, seq<StatusWrite>)
  {
    var (r', e) := Resolve(r, job.isPipeline, job.configuredId);
    if e.Ok? && handle(e.value, job.jobNo).Some? && handle(e.value, job.jobNo).value < 0 then (r', [])
    else ReconcileOneAsWritten(r, job, statusMap, handle, jobError)
  }

  /** As written, an executor that answers "ignore" (-1) for a job whose recorded
      status is a status id gets -1 written as the job's status. */
  lemma IgnoreAnswerWritten(r: Registry, job: RunningJob, statusMap: map<string, int>,
                            handle: (Executor, int) -> Option<int>, jobError: int)
    requires Resolve(r, job.isPipeline, job.configuredId).1.Ok?
    requires handle(Resolve(r, job.isPipeline, job.configuredId).1.value, job.jobNo) == Some(-1)
    requires job.status in statusMap && statusMap[job.status] >= 0
    ensures ReconcileOneAsWritten(r, job, statusMap, handle, jobError).1 == [StatusWrite(job.jobNo, -1)]
  {
  }

  /** Corrected, the "ignore" answer leaves the job's status alone, whatever its
      recorded status is. */
  lemma IgnoreAnswerSkipped(r: Registry, job: RunningJob, statusMap: map<string, int>,
                            handle: (Executor, int) -> Option<int>, jobError: int)
    requires Resolve(r, job.isPipeline, job.configuredId).1.Ok?
    requires handle(Resolve(r, job.isPipeline, job.configuredId).1.value, job.jobNo) == Some(-1)
    ensures ReconcileOne(r, job, statusMap, handle, jobError).1 == []
    ensures ReconcileOne(r, job, statusMap, handle, jobError).0 == ReconcileOneAsWritten(r, job, statusMap, handle, jobError).0
  {
  }

  /** `handleJobsOnServerStartup` over the jobs, in order. */
  function Reconcile(r: Registry, jobs: seq<RunningJob>, statusMap: map<string, int>,
                     handle: (Executor, int) -> Option<int>, jobError: int)
    : (Registry, seq<StatusWrite>)
  {
    if |jobs| == 0 then (r, [])
    else
      var (r1, w1) := Reconcile(r, jobs[..|jobs| - 1], statusMap, handle, jobError);
      var (r2, w2) := ReconcileOne(r1, jobs[|jobs| - 1], statusMap, handle, jobError);
      (r2, w1 + w2)
  }

  /** One job: its status is written only when the executor answers with a status
      id (not negative) other than the recorded one, and set to the error status
      when resolving, asking the executor or reading the recorded status fails; so
      no negative status is ever written but the error status. */
  lemma ReconcileOneSpec(r: Registry, job: RunningJob, statusMap: map<string, int>,
                         handle: (Executor, int) -> Option<int>, jobError: int)
    requires RegistryValid(r)
    ensures var (r', w) := ReconcileOne(r, job, statusMap, handle, jobError);
      var (r1, e) := Resolve(r, job.isPipeline, job.configuredId);
      RegistryValid(r') && r' == r1 && |w| <= 1
      && (forall k :: k in r.execs ==> k in r'.execs && r'.execs[k] == r.execs[k])
      && (forall i :: 0 <= i < |w| ==> w[i].jobNo == job.jobNo)
      && (e.Err? ==> w == [StatusWrite(job.jobNo, jobError)])
      && (e.Ok? && handle(e.value, job.jobNo).Some? && handle(e.value, job.jobNo).value < 0 ==> w == [])
      && (e.Ok? && handle(e.value, job.jobNo).Some? && handle(e.value, job.jobNo).value >= 0 && job.status in statusMap ==>
            var u := handle(e.value, job.jobNo).value;
            (w == [] <==> statusMap[job.status] == u)
            && (w != [] ==> w == [StatusWrite(job.jobNo, u)]))
      && (e.Ok? && (handle(e.value, job.jobNo).None?
                    || (handle(e.value, job.jobNo).value >= 0 && job.status !in statusMap)) ==>
            w == [StatusWrite(job.jobNo, jobError)])
      && (forall i :: 0 <= i < |w| ==> w[i].status >= 0 || w[i].status == jobError)
  {
    ResolveSpec(r, job.isPipeline, job.configuredId);
    InstalledSpec(r, r.pipelineExecId);
  }

  /** The writes for the job at `i`, made with the registry the jobs before it left. */
  function JobWrites(r: Registry, jobs: seq<RunningJob>, i: nat, statusMap: map<string, int>,
                     handle: (Executor, int) -> Option<int>, jobError: int): seq<StatusWrite>
    requires i < |jobs|
  {
    ReconcileOne(Reconcile(r, jobs[..i], statusMap, handle, jobError).0, jobs[i], statusMap, handle, jobError).1
  }

  /** The writes of several jobs, one job's after the other's. */
  function Concat(ws: seq<seq<StatusWrite>>): seq<StatusWrite> {
    if |ws| == 0 then [] else Concat(ws[..|ws| - 1]) + ws[|ws| - 1]
  }

  /** The writes of the jobs one after the other, each job's made with the registry
      the jobs before it left. */
  function AllJobWrites(r: Registry, jobs: seq<RunningJob>, statusMap: map<string, int>,
                        handle: (Executor, int) -> Option<int>, jobError: int): seq<seq<StatusWrite>>
  {
    seq(|jobs|, i requires 0 <= i < |jobs| => JobWrites(r, jobs, i, statusMap, handle, jobError))
  }

  /** The whole reconciliation keeps the table valid and keeps every entry it had;
      its writes are those of each job in turn, each job handled with the registry
      the jobs before it left, and each job gets at most one write, under its own
      number. */
  lemma ReconcileSpec(r: Registry, jobs: seq<RunningJob>, statusMap: map<string, int>,
                      handle: (Executor, int) -> Option<int>, jobError: int)
    requires RegistryValid(r)
    ensures var (r', w) := Reconcile(r, jobs, statusMap, handle, jobError);
      RegistryValid(r') && |w| <= |jobs|
      && (forall k :: k in r.execs ==> k in r'.execs && r'.execs[k] == r.execs[k])
      && w == Concat(AllJobWrites(r, jobs, statusMap, handle, jobError))
    ensures forall i :: 0 <= i < |jobs| ==>
      var wi := JobWrites(r, jobs, i, statusMap, handle, jobError);
      |wi| <= 1 && forall x :: x in wi ==> x.jobNo == jobs[i].jobNo
  {
    ReconcileKeeps(r, jobs, statusMap, handle, jobError);
    ReconcileWrites(r, jobs, statusMap, handle, jobError);
    forall i | 0 <= i < |jobs|
      ensures var wi := JobWrites(r, jobs, i, statusMap, handle, jobError);
              |wi| <= 1 && forall x :: x in wi ==> x.jobNo == jobs[i].jobNo
    {
      ReconcileKeeps(r, jobs[..i], statusMap, handle, jobError);
      ReconcileOneSpec(Reconcile(r, jobs[..i], statusMap, handle, jobError).0, jobs[i], statusMap, handle, jobError);
    }
  }

  /** The registry stays valid and keeps its entries, and there are no more writes
      than jobs. */
  lemma {:induction false} ReconcileKeeps(r: Registry, jobs: seq<RunningJob>, statusMap: map<string, int>,
                                          handle: (Executor, int) -> Option<int>, jobError: int)
    requires RegistryValid(r)
    ensures var (r', w) := Reconcile(r, jobs, statusMap, handle, jobError);
      RegistryValid(r') && |w| <= |jobs|
      && (forall k :: k in r.execs ==> k in r'.execs && r'.execs[k] == r.execs[k])
    decreases |jobs|
  {
    if |jobs| > 0 {
      var n := |jobs| - 1;
      ReconcileKeeps(r, jobs[..n], statusMap, handle, jobError);
      var (r1, w1) := Reconcile(r, jobs[..n], statusMap, handle, jobError);
      ReconcileOneSpec(r1, jobs[n], statusMap, handle, jobError);
    }
  }

  /** The writes are the jobs' writes, in order. */
  lemma {:induction false} ReconcileWrites(r: Registry, jobs: seq<RunningJob>, statusMap: map<string, int>,
                                           handle: (Executor, int) -> Option<int>, jobError: int)
    ensures Reconcile(r, jobs, statusMap, handle, jobError).1 == Concat(AllJobWrites(r, jobs, statusMap, handle, jobError))
    decreases |jobs|
  {
    if |jobs| > 0 {
      var n := |jobs| - 1;
      ReconcileWrites(r, jobs[..n], statusMap, handle, jobError);
      var all := AllJobWrites(r, jobs, statusMap, handle, jobError);
      var front := AllJobWrites(r, jobs[..n], statusMap, handle, jobError);
      assert all[..n] == front by {
        forall i | 0 <= i < n ensures all[..n][i] == front[i] {
          assert jobs[..n][..i] == jobs[..i];
        }
      }
      assert all[n] == JobWrites(r, jobs, n, statusMap, handle, jobError);
    }
  }

  /** The start loop of `startCommandExecutors`: the executors it starts, in order. */
  method StartEach(ids: seq<string>, table: map<string, Executor>, pid: string) returns (starts: seq<Executor>)
    requires forall k :: k in ids ==> k in table
    ensures starts == StartLoop(ids, table, pid)
  {
    starts := [];
    var i := 0;
    while i < |ids|
      invariant 0 <= i <= |ids|
      invariant starts == StartLoop(ids[..i], table, pid)
    {
      assert ids[..i + 1][..i] == ids[..i];
      if ids[i] != pid {
        starts := starts + [table[ids[i]]];
      }
      i := i + 1;
    }
    assert ids[..i] == ids;
  }

  /** The loop of `stopCommandExecutors`: the executors other than `p` it stops, in
      order. */
  method StopEach(ids: seq<string>, table: map<string, Executor>, p: Executor) returns (stops: seq<Executor>)
    requires forall k :: k in ids ==> k in table
    ensures stops == StopLoop(ids, table, p)
  {
    stops := [];
    var i := 0;
    while i < |ids|
      invariant 0 <= i <= |ids|
      invariant stops == StopLoop(ids[..i], table, p)
    {
      assert ids[..i + 1][..i] == ids[..i];
      if table[ids[i]] != p {
        stops := stops + [table[ids[i]]];
      }
      i := i + 1;
    }
    assert ids[..i] == ids;
  }

  // ---------------------------------------------------------------- the class

  class BasicCommandManager {
    var order: seq<string>
    var execs: map<string, Executor>
    var pipelineExecId: string
    var created: nat

    function State(): Registry
      reads this
    {
      Registry(order, execs, pipelineExecId, created)
    }

    ghost predicate Valid()
      reads this
    {
      RegistryValid(State())
    }

    constructor ()
      ensures Valid() && State() == Empty()
    {
      order := [];
      execs := map[];
      pipelineExecId := DEFAULT_PIPELINE_EXEC_ID;
      created := 0;
    }

    method AddCommandExecutor(id: string, e: Executor) returns (r: Result<(), RegistryError>)
      modifies this
      requires Valid() && e.Configured?
      ensures Valid() && (State(), r) == Add(old(State()), id, e)
    {
      if id in execs {
        return Err(DuplicateId(id));
      }
      execs := execs[id := e];
      order := order + [id];
      return Ok(());
    }

    /** `setPipelineExecutor`. */
    method SetPipelineExecutor(id: string)
      modifies this
      requires Valid()
      ensures Valid() && State() == old(State()).(pipelineExecId := id)
    {
      pipelineExecId := id;
    }

    method GetCommandExecutorById(id: string) returns (e: Option<Executor>)
      requires Valid()
      ensures e.Some? <==> id in execs
      ensures e.Some? ==> e.value == execs[id]
    {
      if id in execs {
        return Some(execs[id]);
      }
      return None;
    }

    method Install(id: string) returns (e: Executor)
      modifies this
      requires Valid()
      ensures Valid() && State() == Installed(old(State()), id) && e == execs[id]
    {
      InstalledSpec(State(), id);
      if id !in execs {
        e := DefaultPipeline(created);
        execs := execs[id := e];
        order := order + [id];
        created := created + 1;
      }
      e := execs[id];
    }

    method GetPipelineExecutor() returns (e: Executor)
      modifies this
      requires Valid()
      ensures Valid() && (State(), e) == PipelineExecutor(old(State()))
    {
      e := Install(pipelineExecId);
    }

    /** `initPipelineExecutor`; `configured` is the `pipeline.executor` default
        property. */
    method InitPipelineExecutor(configured: Option<string>)
      modifies this
      requires Valid()
      ensures Valid() && State() == InitPipeline(old(State()), configured)
    {
      pipelineExecId := if configured.Some? then configured.value else DEFAULT_PIPELINE_EXEC_ID;
      var _ := Install(pipelineExecId);
    }

    method GetCommandExecutor(isPipeline: bool, configuredId: Option<string>)
      returns (r: Result<Executor, RegistryError>)
      modifies this
      requires Valid()
      ensures Valid() && (State(), r) == Resolve(old(State()), isPipeline, configuredId)
    {
      if isPipeline {
        var e := GetPipelineExecutor();
        return Ok(e);
      }
      var id: string;
      if configuredId.Some? {
        id := configuredId.value;
      } else {
        if |order| == 0 {
          return Err(NoExecutors);
        }
        id := order[0];
      }
      if id !in execs {
        return Err(NoSuchExecutor(id));
      }
      return Ok(execs[id]);
    }

    /** `startCommandExecutors`; returns the executors started, in order. */
    method StartCommandExecutors(configured: Option<string>) returns (starts: seq<Executor>)
      modifies this
      requires Valid()
      ensures Valid() && (State(), starts) == StartAll(old(State()), configured)
    {
      InitPipelineExecutor(configured);
      InitPipelineSpec(old(State()), configured);
      starts := StartEach(order, execs, pipelineExecId);
      var p := GetPipelineExecutor();
      starts := starts + [p];
    }

    /** `stopCommandExecutors`; returns the executors stopped, in order. */
    method StopCommandExecutors() returns (stops: seq<Executor>)
      modifies this
      requires Valid()
      ensures Valid() && (State(), stops) == StopAll(old(State()))
    {
      var p := GetPipelineExecutor();
      var rest := StopEach(order, execs, p);
      stops := [p] + rest;
    }

    /** `handleJobsOnServerStartup`; returns the status writes, in order. */
    method HandleJobsOnServerStartup(jobs: seq<RunningJob>, statusMap: map<string, int>,
                                     handle: (Executor, int) -> Option<int>, jobError: int)
      returns (writes: seq<StatusWrite>)
      modifies this
      requires Valid()
      ensures Valid() && (State(), writes) == Reconcile(old(State()), jobs, statusMap, handle, jobError)
    {
      writes := [];
      var i := 0;
      while i < |jobs|
        invariant 0 <= i <= |jobs|
        invariant Valid() && (State(), writes) == Reconcile(old(State()), jobs[..i], statusMap, handle, jobError)
      {
        assert jobs[..i + 1][..i] == jobs[..i];
        var job := jobs[i];
        ghost var before := State();
        ReconcileOneSpec(before, job, statusMap, handle, jobError);
        var e := GetCommandExecutor(job.isPipeline, job.configuredId);
        var w: seq<StatusWrite>;
        if e.Err? {
          w := [StatusWrite(job.jobNo, jobError)];
        } else {
          var updated := handle(e.value, job.jobNo);
          if updated.None? {
            w := [StatusWrite(job.jobNo, jobError)];
          } else if updated.value < 0 {
            w := [];
          } else {
            var changed := StatusChanged(statusMap, job.status, updated.value);
            if changed.Err? {
              w := [StatusWrite(job.jobNo, jobError)];
            } else if changed.value {
              w := [StatusWrite(job.jobNo, updated.value)];
            } else {
              w := [];
            }
          }
        }
        assert (State(), w) == ReconcileOne(before, job, statusMap, handle, jobError);
        writes := writes + w;
        i := i + 1;
      }
      assert jobs[..i] == jobs;
    }
  }
}

=== FILE: drm_executor.dfy ===
/** The executor that hands GenePattern jobs to an external queuing system (a job
    runner) and tracks them: a lookup table from GP job number to the runner's job id
    and its last state, a bounded queue of the runner ids still to be polled, and the
    delayed re-queues scheduled for ids that are still running. The runner, the
    server configuration and the clock are inputs; the poll thread, the scheduler
    thread and blocking are reduced to single steps. */
module DrmExecutor {
  import opened Wrappers
  import opened JavaText

  /** The capacity of the queue of runner ids. */
  const BOUND: nat := 100000
  const SEC: int := 1000
  const MINUTE: int := 60 * SEC

  const INT_MIN: int := -0x8000_0000
  const INT_MAX: int := 0x7fff_ffff

  /** The state names the executor itself records or asks about. */
  const TERMINATED := "TERMINATED"
  const UNDETERMINED := "UNDETERMINED"
  const FAILED := "FAILED"
  const QUEUED := "QUEUED"

  /** A runner state: its own name and the names of the states it refines. */
  datatype DrmJobState = DrmJobState(name: string, parents: seq<string>)

  /** `state.is(other)`: the state is `other` or refines it. */
  predicate Is(state: DrmJobState, other: string) {
    state.name == other || other in state.parents
  }

  /** What the runner reports about one of its jobs; times are in milliseconds. */
  datatype DrmJobStatus = DrmJobStatus(
    drmJobId: string, state: DrmJobState,
    exitCode: Option<int>, message: Option<string>,
    submitTime: Option<int>, startTime: Option<int>)

  /** `isSet`: not null and not empty. */
  predicate IsSet(s: Option<string>) {
    s.Some? && |s.value| > 0
  }

  // ---------------------------------------------------------------- lookup table

  /** One GP job's row: the runner id and the state last recorded for it. */
  datatype Row = Row(drmJobId: Option<string>, state: Option<string>)

  /** The lookup table: the rows by GP job number, and the GP job number of every
      runner id a row holds. */
  datatype Lookup = Lookup(rows: map<int, Row>, byDrm: map<string, int>)

  /** The reverse index only names rows that hold the id. */
  predicate LookupValid(t: Lookup) {
    forall d :: d in t.byDrm ==> t.byDrm[d] in t.rows && t.rows[t.byDrm[d]].drmJobId == Some(d)
  }

  /** `lookupGpJobNo`. */
  function GpJobNo(t: Lookup, drmJobId: string): Option<int> {
    if drmJobId in t.byDrm then Some(t.byDrm[drmJobId]) else None
  }

  /** `lookupDrmJobId`. */
  function DrmJobId(t: Lookup, gpJobNo: int): Option<string> {
    if gpJobNo in t.rows then t.rows[gpJobNo].drmJobId else None
  }

  /** The reverse index without the ids of one row. */
  function Unlink(byDrm: map<string, int>, gpJobNo: int): map<string, int> {
    map d | d in byDrm && byDrm[d] != gpJobNo :: byDrm[d]
  }

  /** `insertJobRecord`: a fresh row for the job, with no runner id yet. */
  function InsertRecord(t: Lookup, gpJobNo: int): (r: Lookup)
    ensures LookupValid(t) ==> LookupValid(r)
  {
    Lookup(t.rows[gpJobNo := Row(None, None)], Unlink(t.byDrm, gpJobNo))
  }

  /** `updateJobStatus`: the job's row holds the id and the state. */
  function UpdateRecord(t: Lookup, gpJobNo: int, drmJobId: Option<string>, state: string): (r: Lookup)
    ensures LookupValid(t) ==> LookupValid(r)
  {
    var u := Unlink(t.byDrm, gpJobNo);
    Lookup(t.rows[gpJobNo := Row(drmJobId, Some(state))],
           if IsSet(drmJobId) then u[drmJobId.value := gpJobNo] else u)
  }

  /** After an update the job's id and state are the new ones, a set id leads back
      to the job, and every other row is as it was. */
  lemma UpdateRecordLookup(t: Lookup, gpJobNo: int, drmJobId: Option<string>, state: string)
    requires LookupValid(t)
    ensures var r := UpdateRecord(t, gpJobNo, drmJobId, state);
      DrmJobId(r, gpJobNo) == drmJobId && r.rows[gpJobNo].state == Some(state)
      && (IsSet(drmJobId) ==> GpJobNo(r, drmJobId.value) == Some(gpJobNo))
      && (forall g :: g != gpJobNo ==> DrmJobId(r, g) == DrmJobId(t, g))
      && (forall d :: GpJobNo(r, d).Some? && d != drmJobId.GetOr("") ==> GpJobNo(r, d) == GpJobNo(t, d))
  {
  }

  /** `updateStatus`: a status is recorded on the row of the job its id belongs to;
      no status, or an id that no row holds, changes nothing. */
  function Record(t: Lookup, status: Option<DrmJobStatus>): (r: Lookup)
    ensures LookupValid(t) ==> LookupValid(r)
  {
    if status.None? then t
    else match GpJobNo(t, status.value.drmJobId)
      case None => t
      case Some(g) => UpdateRecord(t, g, Some(status.value.drmJobId), status.value.state.name)
  }

  // ---------------------------------------------------------------- executor state

  /** A re-queue scheduled on the timer: the runner id and the delay in milliseconds. */
  datatype Requeue = Requeue(drmJobId: string, delay: int)

  /** The executor: the lookup table, the queue of runner ids to poll, and the
      re-queues waiting on the timer. */
  datatype Exec = Exec(table: Lookup, queue: seq<string>, scheduled: seq<Requeue>)

  predicate ExecValid(e: Exec) {
    LookupValid(e.table) && |e.queue| <= BOUND
  }

  /** The runner's answer to `startJob`: an id (perhaps null or empty), or an
      exception. */
  datatype StartAnswer = Started(id: Option<string>) | StartThrew(message: string)

  /** Why `runCommand` fails: a walltime the parser refuses, a count that is not an int, an exception
      from the runner, or an id that is not set. */
  datatype ExecError = BadWalltime(value: string) | BadCount(prop: string, value: string)
                     | StartFailed(message: string)
                     | InvalidDrmJobId(gpJobNo: int)

  /** A completed job as it is handed back to the server: the job number, the exit
      code, and the message when the exit code is not zero and the runner gave one. */
  datatype Completion = Completion(gpJobNo: int, exitCode: int, message: Option<string>)

  /** What one turn of the poll loop did. */
  datatype PollOutcome = Idle | Completed(completion: Option<Completion>) | Anomaly | Requeued

  // ---------------------------------------------------------------- configuration

  /** `getValue`: a worker-configuration entry wins over the server configuration. */
  function GetValue(workerConfig: map<string, string>, server: map<string, string>, prop: string)
    : (r: Option<string>)
  {
    if prop in workerConfig then Some(workerConfig[prop])
    else if prop in server then Some(server[prop])
    else None
  }

  lemma GetValuePrecedence(workerConfig: map<string, string>, server: map<string, string>, prop: string)
    ensures prop in workerConfig ==> GetValue(workerConfig, server, prop) == Some(workerConfig[prop])
    ensures prop !in workerConfig && prop in server ==> GetValue(workerConfig, server, prop) == Some(server[prop])
    ensures GetValue(workerConfig, server, prop).None? <==> prop !in workerConfig && prop !in server
  {
  }

  /** `getWorkerConfig`: the table the server configuration holds under the worker's
      name, or the empty table when no worker is named or none is held. */
  function WorkerConfig(workerName: Option<string>, workers: map<string, map<string, string>>)
    : map<string, string>
  {
    if workerName.None? then map[]
    else if workerName.value in workers then workers[workerName.value]
    else map[]
  }

  predicate AllDigits(s: string) {
    forall i :: 0 <= i < |s| ==> '0' <= s[i] <= '9'
  }

  function DigitsValue(s: string): nat
    requires AllDigits(s)
  {
    if |s| == 0 then 0 else DigitsValue(s[..|s| - 1]) * 10 + (s[|s| - 1] as int - 48)
  }

  /** `Integer.parseInt`: an optional sign, then at least one digit, within the range
      of an int. */
  function ParseInt(s: string): (r: Option<int>)
    ensures r.Some? ==> INT_MIN <= r.value <= INT_MAX
  {
    if |s| == 0 then None
    else
      var body := if s[0] == '-' || s[0] == '+' then s[1..] else s;
      if |body| == 0 || !AllDigits(body) then None
      else
        var v := if s[0] == '-' then 0 - DigitsValue(body) as int else DigitsValue(body) as int;
        if INT_MIN <= v <= INT_MAX then Some(v) else None
  }

  lemma {:induction false} DigitsValueOfNat(n: nat)
    ensures AllDigits(NatToString(n)) && DigitsValue(NatToString(n)) == n
    decreases n
  {
    NatToStringDigits(n);
    if n >= 10 {
      var s := NatToString(n);
      assert s[..|s| - 1] == NatToString(n / 10);
      DigitsValueOfNat(n / 10);
    }
  }

  /** Parsing the text of an int gives the int back, with or without a minus sign. */
  lemma ParsePrinted(n: nat)
    ensures n <= INT_MAX ==> ParseInt(NatToString(n)) == Some(n)
    ensures n <= -INT_MIN ==> ParseInt("-" + NatToString(n)) == Some(-(n as int))
  {
    DigitsValueOfNat(n);
    var s := NatToString(n);
    NatToStringDigits(n);
    assert ("-" + s)[1..] == s;
  }

  /** The names under which the queue, memory, walltime, node count and cpu count
      are configured. */
  datatype PropNames = PropNames(queue: string, memory: string, walltime: string,
                                 nodeCount: string, cpuCount: string)

  /** What `runCommand` hands to the runner besides the command itself. */
  datatype Submission = Submission(
    gpJobNo: int, workerName: Option<string>, workerConfig: map<string, string>,
    queue: Option<string>, memory: Option<string>, walltime: Option<string>,
    nodeCount: Option<int>, cpuCount: Option<int>, extraArgs: seq<string>)

  /** A count property: absent, an int, or a configuration error. */
  function Count(workerConfig: map<string, string>, server: map<string, string>, prop: string)
    : Result<Option<int>, ExecError>
  {
    match GetValue(workerConfig, server, prop)
    case None => Ok(None)
    case Some(v) => if ParseInt(v).Some? then Ok(Some(ParseInt(v).value)) else Err(BadCount(prop, v))
  }

  /** The job submission the builder produces, or the first configuration error, in
      the order walltime, node count, cpu count. `walltimeParses` stands for the
      walltime parser; `extraArgs` are the server's values for the extra arguments. */
  function Configure(gpJobNo: int, workerName: Option<string>, workers: map<string, map<string, string>>,
                     server: map<string, string>, extraArgs: seq<string>, names: PropNames,
                     walltimeParses: string -> bool): (r: Result<Submission, ExecError>)
    ensures r.Ok? ==> r.value.gpJobNo == gpJobNo && r.value.extraArgs == extraArgs
  {
    var wc := WorkerConfig(workerName, workers);
    var walltime := GetValue(wc, server, names.walltime);
    var nodes := Count(wc, server, names.nodeCount);
    var cpus := Count(wc, server, names.cpuCount);
    if walltime.Some? && !walltimeParses(walltime.value) then Err(BadWalltime(walltime.value))
    else if nodes.Err? then Err(nodes.error)
    else if cpus.Err? then Err(cpus.error)
    else Ok(Submission(gpJobNo, workerName, wc,
                       GetValue(wc, server, names.queue), GetValue(wc, server, names.memory),
                       walltime, nodes.value, cpus.value, extraArgs))
  }

  /** The submission carries each configured value, the worker's own first; the
      first value that does not parse is the error. */
  lemma ConfigureSpec(gpJobNo: int, workerName: Option<string>, workers: map<string, map<string, string>>,
                      server: map<string, string>, extraArgs: seq<string>, names: PropNames,
                      walltimeParses: string -> bool)
    ensures var r := Configure(gpJobNo, workerName, workers, server, extraArgs, names, walltimeParses);
      var wc := WorkerConfig(workerName, workers);
      var w := GetValue(wc, server, names.walltime);
      var n := GetValue(wc, server, names.nodeCount);
      var c := GetValue(wc, server, names.cpuCount);
      var wOk := w.None? || walltimeParses(w.value);
      var nOk := n.None? || ParseInt(n.value).Some?;
      var cOk := c.None? || ParseInt(c.value).Some?;
      (r.Ok? <==> wOk && nOk && cOk)
      && (!wOk ==> r == Err(BadWalltime(w.value)))
      && (wOk && !nOk ==> r == Err(BadCount(names.nodeCount, n.value)))
      && (wOk && nOk && !cOk ==> r == Err(BadCount(names.cpuCount, c.value)))
      && (r.Ok? ==>
            r.value.queue == GetValue(wc, server, names.queue)
            && r.value.memory == GetValue(wc, server, names.memory)
            && r.value.walltime == w
            && r.value.nodeCount == (if n.Some? then ParseInt(n.value) else None)
            && r.value.cpuCount == (if c.Some? then ParseInt(c.value) else None))
  {
  }

  // ---------------------------------------------------------------- delays

  /** `getDelay`, the delay the poll loop uses: one second, whatever the status. */
  function GetDelay(drmJobId: string, status: Option<DrmJobStatus>): int {
    SEC
  }

  /** The step function of `getDelay_proposed` on the time since the job started. */
  function DelayFor(delta: int): (d: int)
    ensures SEC <= d <= 60 * SEC
  {
    if delta < MINUTE then SEC
    else if delta < 2 * MINUTE then 2 * SEC
    else if delta < 5 * MINUTE then 10 * SEC
    else if delta < 10 * MINUTE then 30 * SEC
    else 60 * SEC
  }

  /** A job that has run longer never waits less. */
  lemma DelayMonotone(a: int, b: int)
    requires a <= b
    ensures DelayFor(a) <= DelayFor(b)
  {
  }

  /** `getDelay_proposed` as written: with a submit time but no start time it reads
      the start time, which is null. */
  function GetDelayProposedAsWritten(status: Option<DrmJobStatus>, now: int): Result<int, JavaError> {
    if status.None? then Ok(SEC)
    else if status.value.startTime.Some? then Ok(DelayFor(now - status.value.startTime.value))
    else if status.value.submitTime.Some? then Err(NullPointer)
    else Ok(DelayFor(SEC))
  }

  /** A job that was submitted but has not started makes the written code throw. */
  lemma SubmittedNotStartedThrows()
    ensures GetDelayProposedAsWritten(
      Some(DrmJobStatus("42", DrmJobState(QUEUED, []), None, None, Some(0), None)), 5000)
      == Err(NullPointer)
  {
  }

  /** `getDelay_proposed` as evidently intended: the time since the job started, or
      else since it was submitted, or one second when neither is known. */
  function GetDelayProposed(status: Option<DrmJobStatus>, now: int): int {
    if status.None? then SEC
    else if status.value.startTime.Some? then DelayFor(now - status.value.startTime.value)
    else if status.value.submitTime.Some? then DelayFor(now - status.value.submitTime.value)
    else DelayFor(SEC)
  }

  /** The corrected delay never fails, agrees with the written code wherever that one
      does not throw, and follows the step function of the elapsed time. */
  lemma GetDelayProposedSpec(status: Option<DrmJobStatus>, now: int)
    ensures var d := GetDelayProposed(status, now);
      SEC <= d <= 60 * SEC
      && (GetDelayProposedAsWritten(status, now).Ok? ==> GetDelayProposedAsWritten(status, now).value == d)
      && (status.None? ==> d == SEC)
      && (status.Some? && status.value.startTime.None? && status.value.submitTime.Some? ==>
            d == DelayFor(now - status.value.submitTime.value))
      && (status.Some? && status.value.startTime.None? && status.value.submitTime.None? ==> d == SEC)
  {
  }

  // ---------------------------------------------------------------- completion

  /** `handleCompletedJob`: a missing exit code counts as -1, and the runner's message
      goes along only with a non-zero exit code. A runner id that no row holds gives
      no job number, and the call fails (the failure is logged). */
  function HandleCompleted(t: Lookup, status: DrmJobStatus): (r: Option<Completion>) {
    match GpJobNo(t, status.drmJobId)
    case None => None
    case Some(g) =>
      var exitCode := status.exitCode.GetOr(-1);
      Some(Completion(g, exitCode, if exitCode != 0 then status.message else None))
  }

  lemma HandleCompletedSpec(t: Lookup, status: DrmJobStatus)
    ensures var r := HandleCompleted(t, status);
      (r.Some? <==> status.drmJobId in t.byDrm)
      && (r.Some? ==>
            r.value.gpJobNo == t.byDrm[status.drmJobId]
            && (status.exitCode.None? ==> r.value.exitCode == -1)
            && (status.exitCode.Some? ==> r.value.exitCode == status.exitCode.value)
            && (r.value.exitCode == 0 ==> r.value.message.None?)
            && (r.value.exitCode != 0 ==> r.value.message == status.message))
  {
  }

  /** What `handleRunningJob` answers: JOB_ERROR, or "ignore" (-1), after handing
      back a terminated job. */
  datatype RunningAnswer = JobError | Ignore(completion: Option<Completion>)

  /** `handleRunningJob`: `status` is the runner's answer for the job's runner id. */
  function HandleRunningJob(t: Lookup, gpJobNo: int, status: Option<DrmJobStatus>): (r: RunningAnswer) {
    if DrmJobId(t, gpJobNo).None? then JobError
    else if status.None? then JobError
    else if Is(status.value.state, TERMINATED) then Ignore(HandleCompleted(t, status.value))
    else Ignore(None)
  }

  lemma HandleRunningJobSpec(t: Lookup, gpJobNo: int, status: Option<DrmJobStatus>)
    ensures var r := HandleRunningJob(t, gpJobNo, status);
      (r.JobError? <==> DrmJobId(t, gpJobNo).None? || status.None?)
      && (r.Ignore? && r.completion.Some? ==> Is(status.value.state, TERMINATED))
      && (r.Ignore? && Is(status.value.state, TERMINATED) ==>
            r.completion == HandleCompleted(t, status.value))
  {
  }

  // ---------------------------------------------------------------- steps

  /** `runCommand` once the submission is built: the record is inserted before the
      runner is asked; an id that is not set is recorded as FAILED and is an error;
      a set id is recorded as QUEUED and appended to the queue. A full queue blocks
      the `put` until the thread is interrupted, which returns without queueing. */
  function Submit(e: Exec, gpJobNo: int, answer: StartAnswer): (Exec, Result<(), ExecError>) {
    var t := InsertRecord(e.table, gpJobNo);
    match answer
    case StartThrew(m) => (Exec(t, e.queue, e.scheduled), Err(StartFailed(m)))
    case Started(id) =>
      if !IsSet(id) then
        (Exec(UpdateRecord(t, gpJobNo, id, FAILED), e.queue, e.scheduled), Err(InvalidDrmJobId(gpJobNo)))
      else
        var q := if |e.queue| < BOUND then e.queue + [id.value] else e.queue;
        (Exec(UpdateRecord(t, gpJobNo, id, QUEUED), q, e.scheduled), Ok(()))
  }

  /** A submission: the job's row, the queue and the error, for each answer. */
  lemma SubmitSpec(e: Exec, gpJobNo: int, answer: StartAnswer)
    requires ExecValid(e)
    ensures var (e', r) := Submit(e, gpJobNo, answer);
      ExecValid(e') && e'.scheduled == e.scheduled
      && gpJobNo in e'.table.rows
      && (answer.StartThrew? ==>
            r == Err(StartFailed(answer.message)) && e'.queue == e.queue
            && e'.table.rows[gpJobNo] == Row(None, None))
      && (answer.Started? && !IsSet(answer.id) ==>
            r == Err(InvalidDrmJobId(gpJobNo)) && e'.queue == e.queue
            && e'.table.rows[gpJobNo] == Row(answer.id, Some(FAILED)))
      && (answer.Started? && IsSet(answer.id) ==>
            r.Ok? && e'.table.rows[gpJobNo] == Row(answer.id, Some(QUEUED))
            && GpJobNo(e'.table, answer.id.value) == Some(gpJobNo)
            && (|e.queue| < BOUND ==> e'.queue == e.queue + [answer.id.value]))
  {
    var t := InsertRecord(e.table, gpJobNo);
    if answer.Started? {
      UpdateRecordLookup(t, gpJobNo, answer.id, if IsSet(answer.id) then QUEUED else FAILED);
    }
  }

  /** One turn of the poll loop: the head id is taken, the runner's status for it is
      recorded, and then a terminated job is handed back, an undetermined one is
      dropped, and any other (or no status) is scheduled again after the delay. With
      an empty queue the `take` waits and nothing happens. */
  function Poll(e: Exec, status: Option<DrmJobStatus>): (r: (Exec, PollOutcome)) {
    if |e.queue| == 0 then (e, Idle)
    else
      var id := e.queue[0];
      var t := Record(e.table, status);
      if status.Some? && Is(status.value.state, TERMINATED) then
        (Exec(t, e.queue[1..], e.scheduled), Completed(HandleCompleted(t, status.value)))
      else if status.Some? && Is(status.value.state, UNDETERMINED) then
        (Exec(t, e.queue[1..], e.scheduled), Anomaly)
      else
        (Exec(t, e.queue[1..], e.scheduled + [Requeue(id, GetDelay(id, status))]), Requeued)
  }

  /** The polled id leaves the queue; it is scheduled again, after one second,
      exactly when its job is neither terminated nor undetermined. */
  lemma PollSpec(e: Exec, status: Option<DrmJobStatus>)
    requires ExecValid(e) && |e.queue| > 0
    ensures var (e', o) := Poll(e, status);
      var again := !(status.Some? && (Is(status.value.state, TERMINATED) || Is(status.value.state, UNDETERMINED)));
      ExecValid(e') && e'.queue == e.queue[1..] && e'.table == Record(e.table, status)
      && (again ==> o == Requeued && e'.scheduled == e.scheduled + [Requeue(e.queue[0], SEC)])
      && (!again ==> e'.scheduled == e.scheduled)
      && (o.Completed? <==> status.Some? && Is(status.value.state, TERMINATED))
  {
  }

  /** The multiset of runner ids still tracked, queued or scheduled. */
  function Tracked(e: Exec): multiset<string> {
    multiset(e.queue) + multiset(Ids(e.scheduled))
  }

  function Ids(s: seq<Requeue>): (r: seq<string>)
    ensures |r| == |s|
  {
    seq(|s|, i requires 0 <= i < |s| => s[i].drmJobId)
  }

  /** Polling never loses an id that is still running: only a terminated or
      undetermined job stops being tracked. */
  lemma PollKeepsTracked(e: Exec, status: Option<DrmJobStatus>)
    requires |e.queue| > 0
    ensures var (e', o) := Poll(e, status);
      (o == Requeued ==> Tracked(e') == Tracked(e))
      && (o != Requeued ==> Tracked(e') == Tracked(e) - multiset{e.queue[0]})
  {
    var (e', o) := Poll(e, status);
    assert e.queue == [e.queue[0]] + e.queue[1..];
    if o == Requeued {
      assert Ids(e'.scheduled) == Ids(e.scheduled) + [e.queue[0]];
    }
  }

  /** The timer fires for the scheduled re-queue at position `k`: the id goes back
      at the end of the queue; on a full queue the `put` waits and nothing happens. */
  function Fire(e: Exec, k: nat): (r: Exec)
    requires k < |e.scheduled|
  {
    if |e.queue| < BOUND then
      Exec(e.table, e.queue + [e.scheduled[k].drmJobId], e.scheduled[..k] + e.scheduled[k + 1..])
    else e
  }

  lemma FireKeepsTracked(e: Exec, k: nat)
    requires ExecValid(e) && k < |e.scheduled|
    ensures ExecValid(Fire(e, k)) && Tracked(Fire(e, k)) == Tracked(e)
  {
    if |e.queue| < BOUND {
      var s := e.scheduled;
      IdsSplit(s, k);
    }
  }

  lemma IdsSplit(s: seq<Requeue>, k: nat)
    requires k < |s|
    ensures multiset(Ids(s)) == multiset(Ids(s[..k] + s[k + 1..])) + multiset{s[k].drmJobId}
  {
    var ia, ib := Ids(s[..k]), Ids(s[k + 1..]);
    assert Ids(s) == ia + [s[k].drmJobId] + ib;
    assert Ids(s[..k] + s[k + 1..]) == ia + ib;
  }

  /** `initJobsOnStartup` on a queue: each id is offered in turn, and an offer to a
      full queue is refused (and logged). */
  function OfferAll(q: seq<string>, jobs: seq<string>): seq<string>
    decreases |jobs|
  {
    if |jobs| == 0 then q
    else OfferAll(if |q| < BOUND then q + [jobs[0]] else q, jobs[1..])
  }

  function Min(a: int, b: int): int {
    if a < b then a else b
  }

  /** The ids that fit are queued in order and the rest are refused. */
  lemma {:induction false} OfferAllIs(q: seq<string>, jobs: seq<string>)
    requires |q| <= BOUND
    ensures OfferAll(q, jobs) == q + jobs[..Min(|jobs|, BOUND - |q|)]
    decreases |jobs|
  {
    if |jobs| > 0 {
      if |q| < BOUND {
        OfferAllIs(q + [jobs[0]], jobs[1..]);
        assert jobs[1..][..Min(|jobs| - 1, BOUND - |q| - 1)] == jobs[1..Min(|jobs|, BOUND - |q|)];
        assert [jobs[0]] + jobs[1..Min(|jobs|, BOUND - |q|)] == jobs[..Min(|jobs|, BOUND - |q|)];
      } else {
        OfferAllIs(q, jobs[1..]);
      }
    }
  }

  // ---------------------------------------------------------------- the executor

  class JobExecutor {
    var table: Lookup
    var runningJobs: seq<string>
    var scheduled: seq<Requeue>

    function State(): Exec
      reads this
    {
      Exec(table, runningJobs, scheduled)
    }

    ghost predicate Valid()
      reads this
    {
      ExecValid(State())
    }

    constructor ()
      ensures Valid() && State() == Exec(Lookup(map[], map[]), [], [])
    {
      table := Lookup(map[], map[]);
      runningJobs := [];
      scheduled := [];
    }

    /** `start`: a new empty queue, then every id the table reports as running is
        offered to it. Returns the refused ids. */
    method Start(jobs: seq<string>) returns (refused: seq<string>)
      modifies this
      requires Valid()
      ensures Valid() && table == old(table) && scheduled == old(scheduled)
      ensures runningJobs == OfferAll([], jobs)
      ensures runningJobs + refused == jobs
    {
      runningJobs := [];
      refused := [];
      var i := 0;
      while i < |jobs|
        invariant 0 <= i <= |jobs|
        invariant table == old(table) && scheduled == old(scheduled)
        invariant |runningJobs| <= BOUND
        invariant OfferAll(runningJobs, jobs[i..]) == OfferAll([], jobs)
        invariant runningJobs + refused == jobs[..i]
        invariant |refused| > 0 ==> |runningJobs| == BOUND
      {
        assert jobs[i..][1..] == jobs[i + 1..];
        assert jobs[..i + 1] == jobs[..i] + [jobs[i]];
        if |runningJobs| < BOUND {
          assert refused == [];
          runningJobs := runningJobs + [jobs[i]];
        } else {
          refused := refused + [jobs[i]];
        }
        i := i + 1;
      }
      assert jobs[i..] == [];
    }

    /** `updateStatus`. */
    method UpdateStatus(status: Option<DrmJobStatus>)
      modifies this
      requires Valid()
      ensures Valid() && table == Record(old(table), status)
      ensures runningJobs == old(runningJobs) && scheduled == old(scheduled)
    {
      if status.None? {
        return;
      }
      var gpJobNo := GpJobNo(table, status.value.drmJobId);
      if gpJobNo.Some? {
        table := UpdateRecord(table, gpJobNo.value, Some(status.value.drmJobId), status.value.state.name);
      }
    }

    /** `runCommand`: the submission is built first (a configuration error fails
        before anything is recorded), then submitted; `answer` is the runner's. */
    method RunCommand(gpJobNo: int, workerName: Option<string>, workers: map<string, map<string, string>>,
                      server: map<string, string>, extraArgs: seq<string>, names: PropNames,
                      walltimeParses: string -> bool, answer: StartAnswer)
      returns (r: Result<(), ExecError>)
      modifies this
      requires Valid()
      ensures Valid()
      ensures var c := Configure(gpJobNo, workerName, workers, server, extraArgs, names, walltimeParses);
        (c.Err? ==> r == Err(c.error) && State() == old(State()))
        && (c.Ok? ==> (State(), r) == Submit(old(State()), gpJobNo, answer))
    {
      var submission := Configure(gpJobNo, workerName, workers, server, extraArgs, names, walltimeParses);
      if submission.Err? {
        return Err(submission.error);
      }
      table := InsertRecord(table, gpJobNo);
      match answer {
        case StartThrew(m) =>
          return Err(StartFailed(m));
        case Started(id) =>
          if !IsSet(id) {
            table := UpdateRecord(table, gpJobNo, id, FAILED);
            return Err(InvalidDrmJobId(gpJobNo));
          }
          table := UpdateRecord(table, gpJobNo, id, QUEUED);
          if |runningJobs| < BOUND {
            runningJobs := runningJobs + [id.value];
          }
          return Ok(());
      }
    }

    /** One turn of the handler loop; `status` is the runner's answer for the head id. */
    method PollOnce(status: Option<DrmJobStatus>) returns (outcome: PollOutcome)
      modifies this
      requires Valid()
      ensures Valid()
      ensures (State(), outcome) == Poll(old(State()), status)
    {
      if |runningJobs| == 0 {
        return Idle;
      }
      var drmJobId := runningJobs[0];
      runningJobs := runningJobs[1..];
      UpdateStatus(status);
      if status.Some? && Is(status.value.state, TERMINATED) {
        outcome := Completed(HandleCompleted(table, status.value));
      } else if status.Some? && Is(status.value.state, UNDETERMINED) {
        outcome := Anomaly;
      } else {
        var delay := GetDelay(drmJobId, status);
        scheduled := scheduled + [Requeue(drmJobId, delay)];
        outcome := Requeued;
      }
    }

    /** The timer fires for the scheduled re-queue at position `k`. */
    method FireRequeue(k: nat)
      modifies this
      requires Valid() && k < |scheduled|
      ensures Valid() && State() == Fire(old(State()), k)
    {
      if |runningJobs| < BOUND {
        runningJobs := runningJobs + [scheduled[k].drmJobId];
        scheduled := scheduled[..k] + scheduled[k + 1..];
      }
    }
  }
}

=== FILE: file_downloader.dfy ===
/** Before a job starts, the downloader picks out the input values that were
    selected from a file drop-down, so that those files can be fetched into the
    cache first. A value counts as selected when it lies under the drop-down's
    remote directory, or when the drop-down's own lookup finds a choice for it
    whose value is set. The formal parameters' drop-down descriptions and their
    lookup are inputs. */
module Downloads {
  import opened Wrappers
  import opened JavaText
  import opened Seqs

  /** A drop-down entry: its value and whether it names a remote directory. */
  datatype Choice = Choice(value: Option<string>, isRemoteDir: bool)

  /** A drop-down description: its remote directory, if any, and the lookup of a
      choice by value. */
  datatype ChoiceInfo = ChoiceInfo(choiceDir: Option<string>, lookup: string -> Option<Choice>)

  /** A formal parameter: whether it is an input file, and its drop-down
      description, if it has one. */
  datatype Formal = Formal(isInputFile: bool, choiceInfo: Option<ChoiceInfo>)

  /** An actual parameter of the job. */
  datatype Actual = Actual(name: string, value: Option<string>)

  /** `isPrefix`: a value under the drop-down's remote directory. */
  predicate IsPrefix(choiceInfo: Option<ChoiceInfo>, value: Option<string>) {
    choiceInfo.Some? && choiceInfo.value.choiceDir.Some? && value.Some?
    && StartsWith(value.value, choiceInfo.value.choiceDir.value)
  }

  /** `isRemoteDir`: a value that ends with a slash. */
  predicate IsRemoteDir(value: Option<string>) {
    value.Some? && EndsWith(value.value, "/")
  }

  /** A choice whose value is set and not empty. */
  predicate HasValue(c: Choice) {
    c.value.Some? && |c.value.value| > 0
  }

  /** `getSelectedChoicesForParam`. */
  function SelectedChoice(actual: Actual, formal: Formal): (r: Option<Choice>)
    ensures r.Some? ==> HasValue(r.value)
  {
    if !formal.isInputFile then None
    else if actual.value.None? || |actual.value.value| == 0 then None
    else if formal.choiceInfo.None? then None
    else if IsPrefix(formal.choiceInfo, actual.value) then
      Some(Choice(actual.value, IsRemoteDir(actual.value)))
    else
      var c := formal.choiceInfo.value.lookup(actual.value.value);
      if formal.isInputFile && c.Some? && HasValue(c.value) then c else None
  }

  /** A parameter is selected only when it is an input file with a non-empty value
      and a drop-down; a value under the remote directory is taken as it is, with
      no lookup, and a remote directory when it ends with a slash; any other value
      is selected exactly when the lookup finds a choice with a value, and then that
      choice is the selection. */
  lemma SelectedChoiceSpec(actual: Actual, formal: Formal)
    ensures var r := SelectedChoice(actual, formal);
      (r.Some? ==> formal.isInputFile && actual.value.Some? && |actual.value.value| > 0
                   && formal.choiceInfo.Some?)
      && (formal.isInputFile && actual.value.Some? && |actual.value.value| > 0 && formal.choiceInfo.Some? ==>
            (IsPrefix(formal.choiceInfo, actual.value) ==>
               r == Some(Choice(actual.value, EndsWith(actual.value.value, "/"))))
            && (!IsPrefix(formal.choiceInfo, actual.value) ==>
               var c := formal.choiceInfo.value.lookup(actual.value.value);
               (r.Some? <==> c.Some? && HasValue(c.value)) && (r.Some? ==> r == c)))
  {
  }

  /** What a parameter contributes to the list: nothing when no formal has its name
      (a completed job may hold such), else its selection, if any. */
  function Contribution(formals: map<string, Formal>, actual: Actual): (r: seq<Choice>)
    ensures |r| <= 1
  {
    if actual.name !in formals then []
    else
      var c := SelectedChoice(actual, formals[actual.name]);
      if c.Some? then [c.value] else []
  }

  function ContributionOf(formals: map<string, Formal>): Actual -> seq<Choice> {
    actual => Contribution(formals, actual)
  }

  /** The selections of the job's parameters, in parameter order. */
  function SelectedChoices(formals: map<string, Formal>, actuals: seq<Actual>): seq<Choice> {
    FlatMap(actuals, ContributionOf(formals))
  }

  /** The list of a run of parameters followed by another is the one list followed
      by the other: selections keep the order of the parameters. */
  lemma SelectedChoicesAppend(formals: map<string, Formal>, a: seq<Actual>, b: seq<Actual>)
    ensures SelectedChoices(formals, a + b) == SelectedChoices(formals, a) + SelectedChoices(formals, b)
  {
    FlatMapAppend(a, b, ContributionOf(formals));
  }

  /** A parameter no formal describes contributes nothing, and one that is selected
      adds its selection at the end. */
  lemma SelectedChoicesSnoc(formals: map<string, Formal>, a: seq<Actual>, x: Actual)
    ensures x.name !in formals ==> SelectedChoices(formals, a + [x]) == SelectedChoices(formals, a)
    ensures x.name in formals && SelectedChoice(x, formals[x.name]).Some? ==>
      SelectedChoices(formals, a + [x]) == SelectedChoices(formals, a) + [SelectedChoice(x, formals[x.name]).value]
  {
    assert (a + [x])[..|a|] == a;
  }

  /** Every selection on the list is one of the parameters' selections, and so has
      a value. */
  lemma SelectedChoicesFrom(formals: map<string, Formal>, actuals: seq<Actual>, c: Choice)
    requires c in SelectedChoices(formals, actuals)
    ensures HasValue(c)
    ensures exists i :: 0 <= i < |actuals| && actuals[i].name in formals
                        && SelectedChoice(actuals[i], formals[actuals[i].name]) == Some(c)
  {
    FlatMapFrom(actuals, ContributionOf(formals), c);
    var i :| 0 <= i < |actuals| && c in ContributionOf(formals)(actuals[i]);
    assert actuals[i].name in formals && SelectedChoice(actuals[i], formals[actuals[i].name]) == Some(c);
  }

  /** `initSelectedChoices`: the list is created lazily, on the first selection,
      and the empty list stands for none. */
  method InitSelectedChoices(formals: map<string, Formal>, actuals: seq<Actual>) returns (r: seq<Choice>)
    ensures r == SelectedChoices(formals, actuals)
  {
    var selected: Option<seq<Choice>> := None;
    var i := 0;
    while i < |actuals|
      invariant 0 <= i <= |actuals|
      invariant selected.None? ==> SelectedChoices(formals, actuals[..i]) == []
      invariant selected.Some? ==> selected.value == SelectedChoices(formals, actuals[..i])
    {
      assert actuals[..i + 1][..i] == actuals[..i];
      var actual := actuals[i];
      if actual.name in formals {
        var c := SelectedChoice(actual, formals[actual.name]);
        if c.Some? {
          if selected.None? {
            selected := Some([]);
          }
          selected := Some(selected.value + [c.value]);
        }
      }
      i := i + 1;
    }
    assert actuals[..i] == actuals;
    if selected.None? {
      return [];
    }
    return selected.value;
  }

  /** The downloader of one job, holding the job's selections. */
  class FileDownloader {
    const selectedChoices: seq<Choice>

    constructor (formals: map<string, Formal>, actuals: seq<Actual>)
      ensures selectedChoices == SelectedChoices(formals, actuals)
    {
      var s := InitSelectedChoices(formals, actuals);
      selectedChoices := s;
    }

    /** `hasSelectedChoices`. */
    predicate HasSelectedChoices() {
      |selectedChoices| > 0
    }
  }

  /** A downloader has selections exactly when one of the job's parameters is
      selected. */
  lemma HasSelectedChoicesIff(d: FileDownloader, formals: map<string, Formal>, actuals: seq<Actual>)
    requires d.selectedChoices == SelectedChoices(formals, actuals)
    ensures d.HasSelectedChoices() <==>
      exists i :: 0 <= i < |actuals| && actuals[i].name in formals
                  && SelectedChoice(actuals[i], formals[actuals[i].name]).Some?
  {
    FlatMapEmpty(actuals, ContributionOf(formals));
    if !d.HasSelectedChoices() {
      forall i | 0 <= i < |actuals| && actuals[i].name in formals
        ensures SelectedChoice(actuals[i], formals[actuals[i].name]).None?
      {
        assert ContributionOf(formals)(actuals[i]) == [];
      }
    } else {
      var i :| 0 <= i < |actuals| && ContributionOf(formals)(actuals[i]) != [];
      assert actuals[i].name in formals;
    }
  }
}

=== FILE: harvest.dfy ===
/** The output harvest at the end of a job: the files left in the job directory,
    except the captured standard output and error, ordered by their modification
    time. The listing filter and `Arrays.sort` with the time comparator are library
    calls; they are modelled here as functions on the listing. */
module Harvest {
  import opened Seqs

  /** A directory entry: its name and its modification time in milliseconds. */
  datatype OutFile = OutFile(name: string, modified: int)

  /** The comparator: the sign of the difference of the modification times. */
  function CompareModified(f1: OutFile, f2: OutFile): (r: int)
    ensures r == -1 || r == 0 || r == 1
    ensures r < 0 <==> f1.modified < f2.modified
    ensures r == 0 <==> f1.modified == f2.modified
  {
    if f1.modified < f2.modified then -1
    else if f1.modified == f2.modified then 0
    else 1
  }

  /** The listing filter: every entry whose name is neither the standard-error nor
      the standard-output file, in listing order. */
  function Outputs(dir: seq<OutFile>, stdout: string, stderr: string): (r: seq<OutFile>)
    ensures |r| <= |dir|
    ensures forall i :: 0 <= i < |r| ==> r[i].name != stdout && r[i].name != stderr
    ensures forall f :: multiset(r)[f] == if f.name == stdout || f.name == stderr then 0 else multiset(dir)[f]
  {
    if |dir| == 0 then []
    else
      var n := |dir| - 1;
      assert dir == dir[..n] + [dir[n]];
      Outputs(dir[..n], stdout, stderr)
      + (if dir[n].name != stderr && dir[n].name != stdout then [dir[n]] else [])
  }

  predicate SortedByModified(s: seq<OutFile>) {
    forall i, j :: 0 <= i < j < |s| ==> s[i].modified <= s[j].modified
  }

  /** Where an entry goes: after the last entry that is not newer than it, searched
      from the end, so that equal times keep the order in which they arrive. */
  function InsertPos(f: OutFile, s: seq<OutFile>): (p: nat)
    ensures p <= |s|
    ensures p > 0 ==> s[p - 1].modified <= f.modified
    ensures forall i :: p <= i < |s| ==> s[i].modified > f.modified
  {
    if |s| == 0 then 0
    else if s[|s| - 1].modified <= f.modified then |s|
    else InsertPos(f, s[..|s| - 1])
  }

  function Insert(f: OutFile, s: seq<OutFile>): (r: seq<OutFile>)
    ensures |r| == |s| + 1
    ensures multiset(r) == multiset(s) + multiset{f}
  {
    var p := InsertPos(f, s);
    SplitAt(s, p);
    s[..p] + [f] + s[p..]
  }

  lemma InsertSorted(f: OutFile, s: seq<OutFile>)
    requires SortedByModified(s)
    ensures SortedByModified(Insert(f, s))
  {
    var p := InsertPos(f, s);
    var r := Insert(f, s);
    forall i, j | 0 <= i < j < |r|
      ensures r[i].modified <= r[j].modified
    {
      if j < p {
        assert r[i] == s[i] && r[j] == s[j];
      } else if j == p {
        assert r[i] == s[i] && r[j] == f;
        assert s[i].modified <= s[p - 1].modified;
      } else if i < p {
        assert r[i] == s[i] && r[j] == s[j - 1];
      } else if i == p {
        assert r[i] == f && r[j] == s[j - 1];
      } else {
        assert r[i] == s[i - 1] && r[j] == s[j - 1];
      }
    }
  }

  /** A stable sort of the entries by modification time, one insertion per entry in
      listing order. */
  function SortByModified(s: seq<OutFile>): (r: seq<OutFile>)
    ensures SortedByModified(r)
    ensures multiset(r) == multiset(s)
  {
    if |s| == 0 then []
    else
      var n := |s| - 1;
      assert s == s[..n] + [s[n]];
      InsertSorted(s[n], SortByModified(s[..n]));
      Insert(s[n], SortByModified(s[..n]))
  }

  /** The harvested output files of a job. */
  function HarvestOutputs(dir: seq<OutFile>, stdout: string, stderr: string): seq<OutFile> {
    SortByModified(Outputs(dir, stdout, stderr))
  }

  /** The entries with modification time `t`, in order. */
  function WithTime(s: seq<OutFile>, t: int): (r: seq<OutFile>)
    ensures forall i :: 0 <= i < |r| ==> r[i].modified == t
  {
    if |s| == 0 then []
    else
      var n := |s| - 1;
      WithTime(s[..n], t) + (if s[n].modified == t then [s[n]] else [])
  }

  lemma {:induction false} WithTimeAppend(a: seq<OutFile>, b: seq<OutFile>, t: int)
    ensures WithTime(a + b, t) == WithTime(a, t) + WithTime(b, t)
    decreases |b|
  {
    if |b| > 0 {
      var n := |b| - 1;
      WithTimeAppend(a, b[..n], t);
      assert (a + b)[..|a| + n] == a + b[..n];
      Assoc3(WithTime(a, t), WithTime(b[..n], t), if b[n].modified == t then [b[n]] else []);
    } else {
      assert a + b == a;
    }
  }

  lemma {:induction false} WithTimeNone(s: seq<OutFile>, t: int)
    requires forall i :: 0 <= i < |s| ==> s[i].modified != t
    ensures WithTime(s, t) == []
    decreases |s|
  {
    if |s| > 0 {
      WithTimeNone(s[..|s| - 1], t);
    }
  }

  lemma WithTime3(a: seq<OutFile>, f: OutFile, b: seq<OutFile>, t: int)
    ensures WithTime(a + [f] + b, t) == WithTime(a, t) + WithTime([f], t) + WithTime(b, t)
  {
    WithTimeAppend(a + [f], b, t);
    WithTimeAppend(a, [f], t);
  }

  /** Inserting puts the new entry after the entries with its own time. */
  lemma InsertStable(f: OutFile, s: seq<OutFile>, t: int)
    ensures WithTime(Insert(f, s), t) == WithTime(s, t) + WithTime([f], t)
  {
    var p := InsertPos(f, s);
    var a := s[..p];
    var b := s[p..];
    WithTime3(a, f, b, t);
    WithTimeAppend(a, b, t);
    SplitAt(s, p);
    if f.modified == t {
      WithTimeNone(b, t);
      EmptyLast(WithTime(a, t), WithTime([f], t), WithTime(b, t));
    } else {
      assert [f][..0] == [];
      EmptyMid(WithTime(a, t), WithTime([f], t), WithTime(b, t));
    }
  }

  /** The sort is stable: the entries with any one time are in listing order. */
  lemma {:induction false} SortStable(s: seq<OutFile>, t: int)
    ensures WithTime(SortByModified(s), t) == WithTime(s, t)
    decreases |s|
  {
    if |s| > 0 {
      var n := |s| - 1;
      SortStable(s[..n], t);
      InsertStable(s[n], SortByModified(s[..n]), t);
      WithTimeAppend(s[..n], [s[n]], t);
      assert s[..n] + [s[n]] == s;
      assert [s[n]][..0] == [];
    }
  }

  /** The harvested list: no captured stream, the other entries each as often as in
      the listing, ordered by time, and entries of equal time in listing order. */
  lemma HarvestSpec(dir: seq<OutFile>, stdout: string, stderr: string, t: int)
    ensures var r := HarvestOutputs(dir, stdout, stderr);
      SortedByModified(r)
      && (forall i :: 0 <= i < |r| ==> r[i].name != stdout && r[i].name != stderr)
      && (forall f :: multiset(r)[f] == if f.name == stdout || f.name == stderr then 0 else multiset(dir)[f])
      && WithTime(r, t) == WithTime(Outputs(dir, stdout, stderr), t)
  {
    var o := Outputs(dir, stdout, stderr);
    SortStable(o, t);
    HarvestNames(dir, stdout, stderr);
  }

  lemma HarvestNames(dir: seq<OutFile>, stdout: string, stderr: string)
    ensures var r := HarvestOutputs(dir, stdout, stderr);
      forall i :: 0 <= i < |r| ==> r[i].name != stdout && r[i].name != stderr
  {
    var o := Outputs(dir, stdout, stderr);
    var r := SortByModified(o);
    forall i | 0 <= i < |r|
      ensures r[i].name != stdout && r[i].name != stderr
    {
      InMultiset(r, o, r[i]);
      var k :| 0 <= k < |o| && o[k] == r[i];
    }
  }
}

=== FILE: java_text.dfy ===
/** The parts of java.lang.String and java.util.StringTokenizer that the modelled code
    relies on, written out so that their edge cases (no match, empty strings, trailing
    empty pieces of a split) are explicit. A Java String is a `string` here. */
module JavaText {
  /** The runtime exceptions the modelled code can raise: NoSuchElementException,
      NullPointerException, ArrayIndexOutOfBoundsException and
      StringIndexOutOfBoundsException. */
  datatype JavaError = NoSuchElement | NullPointer | IndexOutOfBounds | StringIndexOutOfBounds

  import opened Seqs

  /** String.indexOf(char, fromIndex): the first position at or after `from` holding `c`,
      or -1. */
  function IndexOfChar(s: string, c: char, from: nat): (r: int)
    ensures r == -1 || (from <= r < |s| && s[r] == c)
    decreases |s| - from
  {
    if from >= |s| then -1
    else if s[from] == c then from
    else IndexOfChar(s, c, from + 1)
  }

  /** No position between `from` and the one found holds `c`; -1 means no position
      from `from` on does. */
  lemma {:induction false} IndexOfCharFirst(s: string, c: char, from: nat)
    ensures var r := IndexOfChar(s, c, from);
      (r != -1 ==> forall k :: from <= k < r ==> s[k] != c)
      && (r == -1 ==> forall k :: from <= k < |s| ==> s[k] != c)
    decreases |s| - from
  {
    if from < |s| && s[from] != c {
      IndexOfCharFirst(s, c, from + 1);
    }
  }

  /** A position holding `c` with no `c` between `from` and it is the one found. */
  lemma {:induction false} IndexOfCharIs(s: string, c: char, from: nat, r: nat)
    requires from <= r < |s| && s[r] == c
    requires forall k :: from <= k < r ==> s[k] != c
    ensures IndexOfChar(s, c, from) == r
    decreases r - from
  {
    if from < r {
      IndexOfCharIs(s, c, from + 1, r);
    }
  }

  /** With no `c` from `from` on, nothing is found. */
  lemma {:induction false} IndexOfCharNone(s: string, c: char, from: nat)
    requires forall k :: from <= k < |s| ==> s[k] != c
    ensures IndexOfChar(s, c, from) == -1
    decreases |s| - from
  {
    if from < |s| {
      IndexOfCharNone(s, c, from + 1);
    }
  }

  /** String.lastIndexOf(char): the last position holding `c`, or -1. */
  function LastIndexOfChar(s: string, c: char): (r: int)
    ensures r == -1 || 0 <= r < |s|
    ensures r != -1 ==> s[r] == c && forall k :: r < k < |s| ==> s[k] != c
    ensures r == -1 ==> forall k :: 0 <= k < |s| ==> s[k] != c
  {
    if |s| == 0 then -1
    else if s[|s| - 1] == c then |s| - 1
    else LastIndexOfChar(s[..|s| - 1], c)
  }

  predicate MatchAt(s: string, pat: string, k: nat) {
    k + |pat| <= |s| && s[k..k + |pat|] == pat
  }

  /** String.indexOf(String, fromIndex). */
  function IndexOfString(s: string, pat: string, from: nat): (r: int)
    ensures r == -1 || from <= r <= |s| - |pat|
    decreases |s| - from
  {
    if from + |pat| > |s| then -1
    else if s[from..from + |pat|] == pat then from
    else IndexOfString(s, pat, from + 1)
  }

  /** The position found is the first match at or after `from`; -1 means there is
      none. */
  lemma {:induction false} IndexOfStringFirst(s: string, pat: string, from: nat)
    ensures var r := IndexOfString(s, pat, from);
      (r != -1 ==> MatchAt(s, pat, r) && forall k :: from <= k < r ==> !MatchAt(s, pat, k))
      && (r == -1 ==> forall k :: from <= k ==> !MatchAt(s, pat, k))
    decreases |s| - from
  {
    if from + |pat| <= |s| && s[from..from + |pat|] != pat {
      IndexOfStringFirst(s, pat, from + 1);
    }
  }

  /** A search from position k of `s` is the search from 0 of the suffix s[k..],
      shifted by k. */
  lemma IndexOfStringSuffix(s: string, pat: string, k: nat)
    requires k <= |s|
    ensures IndexOfString(s, pat, k)
         == (if IndexOfString(s[k..], pat, 0) == -1 then -1 else k + IndexOfString(s[k..], pat, 0))
  {
    var t := s[k..];
    IndexOfStringFirst(s, pat, k);
    IndexOfStringFirst(t, pat, 0);
    forall j | k <= j
      ensures MatchAt(s, pat, j) <==> MatchAt(t, pat, j - k)
    {
      if j + |pat| <= |s| {
        assert s[j..j + |pat|] == t[j - k..j - k + |pat|];
      }
    }
    var r := IndexOfString(t, pat, 0);
    if r != -1 {
      assert MatchAt(s, pat, k + r);
    }
  }

  /** String.contains / indexOf(pat) != -1. */
  predicate Contains(s: string, pat: string) {
    IndexOfString(s, pat, 0) != -1
  }

  predicate StartsWith(s: string, prefix: string) {
    |prefix| <= |s| && s[..|prefix|] == prefix
  }

  predicate EndsWith(s: string, suffix: string) {
    |suffix| <= |s| && s[|s| - |suffix|..] == suffix
  }

  /** The first position of `c` in `p + s` at or after |p| + k is found in `s`. */
  lemma {:induction false} IndexOfCharAfterPrefix(p: string, s: string, c: char, k: nat)
    ensures IndexOfChar(p + s, c, |p| + k)
         == (if IndexOfChar(s, c, k) == -1 then -1 else |p| + IndexOfChar(s, c, k))
    decreases |s| - k
  {
    if k < |s| {
      assert (p + s)[|p| + k] == s[k];
      if s[k] != c {
        IndexOfCharAfterPrefix(p, s, c, k + 1);
      }
    }
  }

  // ---------------------------------------------------------------- case and blanks

  /** Character.toLowerCase on the ASCII letters; other characters are unchanged. */
  function LowerChar(c: char): char {
    if 'A' <= c <= 'Z' then (c as int + 32) as char else c
  }

  /** String.toLowerCase, restricted to the ASCII letters. */
  function ToLower(s: string): (r: string)
    ensures |r| == |s| && forall i :: 0 <= i < |s| ==> r[i] == LowerChar(s[i])
  {
    if |s| == 0 then [] else [LowerChar(s[0])] + ToLower(s[1..])
  }

  /** Lower-casing twice is lower-casing once. */
  lemma ToLowerTwice(s: string)
    ensures ToLower(ToLower(s)) == ToLower(s)
  {
    var once := ToLower(s);
    assert forall i :: 0 <= i < |s| ==> LowerChar(once[i]) == once[i];
  }

  lemma ToLowerAppend(a: string, b: string)
    ensures ToLower(a + b) == ToLower(a) + ToLower(b)
  {
    var l, la, lb := ToLower(a + b), ToLower(a), ToLower(b);
    assert forall i :: 0 <= i < |a + b| ==> l[i] == (la + lb)[i];
  }

  /** String.trim: drop every leading and trailing character at or below U+0020. */
  function Trim(s: string): (r: string)
    ensures |r| <= |s|
    ensures |r| > 0 ==> ' ' < r[0] && ' ' < r[|r| - 1]
  {
    TrimEnd(TrimStart(s))
  }

  function TrimStart(s: string): (r: string)
    ensures |r| <= |s| && (|r| > 0 ==> ' ' < r[0]) && r == s[|s| - |r|..]
  {
    if |s| > 0 && s[0] <= ' ' then TrimStart(s[1..]) else s
  }

  function TrimEnd(s: string): (r: string)
    ensures |r| <= |s| && (|r| > 0 ==> ' ' < r[|r| - 1]) && r == s[..|r|]
  {
    if |s| > 0 && s[|s| - 1] <= ' ' then TrimEnd(s[..|s| - 1]) else s
  }

  /** trim().length() == 0 holds exactly for the strings made of characters at or
      below U+0020. */
  lemma {:induction false} TrimEmptyIff(s: string)
    ensures Trim(s) == "" <==> forall i :: 0 <= i < |s| ==> s[i] <= ' '
  {
    var a := TrimStart(s);
    TrimStartEmptyIff(s);
    if a != "" {
      assert TrimEnd(a) != "" by { assert ' ' < a[0]; TrimEndKeepsVisible(a); }
    }
  }

  lemma {:induction false} TrimStartEmptyIff(s: string)
    ensures TrimStart(s) == "" <==> forall i :: 0 <= i < |s| ==> s[i] <= ' '
    decreases |s|
  {
    if |s| > 0 && s[0] <= ' ' {
      TrimStartEmptyIff(s[1..]);
      assert forall i :: 1 <= i < |s| ==> s[i] == s[1..][i - 1];
    }
  }

  lemma {:induction false} TrimEndKeepsVisible(s: string)
    requires |s| > 0 && ' ' < s[0]
    ensures TrimEnd(s) != ""
    decreases |s|
  {
    if s[|s| - 1] <= ' ' {
      TrimEndKeepsVisible(s[..|s| - 1]);
    }
  }

  // ---------------------------------------------------------------- numbers

  function DigitChar(d: nat): (c: char)
    requires d < 10
    ensures '0' <= c <= '9'
  {
    (48 + d) as char
  }

  /** String.valueOf(int) / Integer.toString for a non-negative value. */
  function NatToString(n: nat): (r: string)
    ensures |r| > 0
    ensures |r| == 1 <==> n < 10
    decreases n
  {
    if n < 10 then [DigitChar(n)] else NatToString(n / 10) + [DigitChar(n % 10)]
  }

  /** The text of a number is all digits. */
  lemma {:induction false} NatToStringDigits(n: nat)
    ensures forall i :: 0 <= i < |NatToString(n)| ==> '0' <= NatToString(n)[i] <= '9'
    decreases n
  {
    if n >= 10 {
      NatToStringDigits(n / 10);
    }
  }

  /** Different numbers print differently. */
  lemma {:induction false} NatToStringInjective(m: nat, n: nat)
    ensures NatToString(m) == NatToString(n) ==> m == n
    decreases m
  {
    var a := NatToString(m);
    if m >= 10 && n >= 10 && a == NatToString(n) {
      assert a[..|a| - 1] == NatToString(m / 10);
      assert NatToString(n)[..|a| - 1] == NatToString(n / 10);
      NatToStringInjective(m / 10, n / 10);
    }
  }


  // ---------------------------------------------------------------- comparison

  /** String.compareTo: the difference of the first differing characters, otherwise
      the difference of the lengths. */
  function CompareTo(a: string, b: string): int
    decreases |a|
  {
    if |a| == 0 || |b| == 0 then |a| - |b|
    else if a[0] != b[0] then a[0] as int - b[0] as int
    else CompareTo(a[1..], b[1..])
  }

  lemma {:induction false} CompareToZeroIff(a: string, b: string)
    ensures CompareTo(a, b) == 0 <==> a == b
    decreases |a|
  {
    if |a| > 0 && |b| > 0 && a[0] == b[0] {
      CompareToZeroIff(a[1..], b[1..]);
      assert a == [a[0]] + a[1..] && b == [b[0]] + b[1..];
    }
  }

  lemma {:induction false} CompareToAntisymmetric(a: string, b: string)
    ensures CompareTo(a, b) < 0 <==> CompareTo(b, a) > 0
    decreases |a|
  {
    if |a| > 0 && |b| > 0 && a[0] == b[0] {
      CompareToAntisymmetric(a[1..], b[1..]);
    }
  }

  lemma {:induction false} CompareToTransitive(a: string, b: string, c: string)
    requires CompareTo(a, b) < 0 && CompareTo(b, c) < 0
    ensures CompareTo(a, c) < 0
    decreases |a|
  {
    if |a| > 0 && |b| > 0 && |c| > 0 && a[0] == b[0] && b[0] == c[0] {
      CompareToTransitive(a[1..], b[1..], c[1..]);
    }
  }

  lemma {:induction false} CompareToSignTransitive(a: string, b: string, c: string)
    requires CompareTo(a, b) <= 0 && CompareTo(b, c) <= 0
    ensures CompareTo(a, c) <= 0
  {
    CompareToZeroIff(a, b);
    CompareToZeroIff(b, c);
    if CompareTo(a, b) < 0 && CompareTo(b, c) < 0 {
      CompareToTransitive(a, b, c);
    }
  }

  // ---------------------------------------------------------------- split and join

  /** The pieces of `s` between commas, trailing empty pieces included. */
  function SplitAll(s: string): (r: seq<string>)
    ensures |r| > 0
    ensures forall i :: 0 <= i < |r| ==> ',' !in r[i]
    decreases |s|
  {
    var k := IndexOfChar(s, ',', 0);
    IndexOfCharFirst(s, ',', 0);
    if k == -1 then [s] else [s[..k]] + SplitAll(s[k + 1..])
  }

  function DropTrailingEmpty(xs: seq<string>): (r: seq<string>)
    ensures |r| <= |xs| && r == xs[..|r|]
    ensures |r| > 0 ==> r[|r| - 1] != ""
    ensures forall i :: |r| <= i < |xs| ==> xs[i] == ""
  {
    if |xs| > 0 && xs[|xs| - 1] == "" then DropTrailingEmpty(xs[..|xs| - 1]) else xs
  }

  /** String.split(",") with no limit: a string without a comma is its own single
      piece (so "" gives [""]); otherwise the pieces, with the trailing empty ones
      removed (so "," gives []). */
  function Split(s: string): (r: seq<string>)
    ensures forall i :: 0 <= i < |r| ==> ',' !in r[i]
  {
    if ',' !in s then [s] else DropTrailingEmpty(SplitAll(s))
  }

  /** The elements joined with a comma between each two. */
  function Join(xs: seq<string>): string {
    if |xs| == 0 then ""
    else if |xs| == 1 then xs[0]
    else xs[0] + "," + Join(xs[1..])
  }

  lemma {:induction false} SplitAllJoin(xs: seq<string>)
    requires |xs| > 0
    requires forall i :: 0 <= i < |xs| ==> ',' !in xs[i]
    ensures SplitAll(Join(xs)) == xs
    decreases |xs|
  {
    var s := Join(xs);
    if |xs| == 1 {
      IndexOfCharNone(s, ',', 0);
    } else {
      var rest := Join(xs[1..]);
      assert s == xs[0] + "," + rest;
      assert (xs[0] + "," + rest)[|xs[0]|] == ',';
      assert forall j :: 0 <= j < |xs[0]| ==> s[j] == xs[0][j];
      IndexOfCharIs(s, ',', 0, |xs[0]|);
      assert s[..|xs[0]|] == xs[0];
      assert s[|xs[0]| + 1..] == rest;
      SplitAllJoin(xs[1..]);
      assert xs == [xs[0]] + xs[1..];
    }
  }

  lemma {:induction false} JoinHasComma(xs: seq<string>)
    requires |xs| > 1
    ensures ',' in Join(xs)
  {
    var s := Join(xs);
    assert s == xs[0] + "," + Join(xs[1..]);
    assert s[|xs[0]|] == ',';
  }

  lemma {:induction false} JoinCommaFree(xs: seq<string>)
    requires forall i :: 0 <= i < |xs| ==> ',' !in xs[i]
    requires |xs| <= 1
    ensures ',' !in Join(xs)
  {
  }

  /** Splitting a joined list gives the list back when no element holds a comma and
      the list does not end with an empty element. */
  lemma {:induction false} SplitJoin(xs: seq<string>)
    requires |xs| > 0 && xs[|xs| - 1] != ""
    requires forall i :: 0 <= i < |xs| ==> ',' !in xs[i]
    ensures Split(Join(xs)) == xs
  {
    if |xs| == 1 {
      assert Join(xs) == xs[0];
    } else {
      JoinHasComma(xs);
      SplitAllJoin(xs);
    }
  }

  /** Joining one more element adds a comma and the element. */
  lemma {:induction false} JoinSnoc(xs: seq<string>, x: string)
    requires |xs| > 0
    ensures Join(xs + [x]) == Join(xs) + "," + x
    decreases |xs|
  {
    if |xs| == 1 {
      assert (xs + [x])[1..] == [x];
    } else {
      assert (xs + [x])[1..] == xs[1..] + [x];
      JoinSnoc(xs[1..], x);
    }
  }

  /** Appending a comma and a comma-free piece appends that piece to the pieces. */
  lemma {:induction false} SplitAllSnoc(a: string, c: string)
    requires ',' !in c
    ensures SplitAll(a + "," + c) == SplitAll(a) + [c]
    decreases |a|
  {
    var s := a + "," + c;
    var k := IndexOfChar(a, ',', 0);
    IndexOfCharFirst(a, ',', 0);
    if k == -1 {
      assert s[|a|] == ',';
      forall j | 0 <= j < |a| ensures s[j] != ',' {
        assert s[j] == a[j];
      }
      IndexOfCharIs(s, ',', 0, |a|);
      assert s[..|a|] == a;
      assert s[|a| + 1..] == c;
      IndexOfCharNone(c, ',', 0);
      IndexOfCharNone(a, ',', 0);
    } else {
      forall j | 0 <= j < k ensures s[j] != ',' {
        assert s[j] == a[j];
      }
      assert s[k] == a[k];
      IndexOfCharIs(s, ',', 0, k);
      assert s[..k] == a[..k];
      assert s[k + 1..] == a[k + 1..] + "," + c;
      SplitAllSnoc(a[k + 1..], c);
    }
  }

  /** Every piece between commas survives the split, unless it is empty. */
  lemma SplitAllInSplit(s: string, x: string)
    requires x in SplitAll(s) && x != ""
    ensures x in Split(s)
  {
    if ',' !in s {
      IndexOfCharNone(s, ',', 0);
    } else {
      var all := SplitAll(s);
      var r := Split(s);
      var i :| 0 <= i < |all| && all[i] == x;
      assert i < |r| && r[i] == all[i];
    }
  }

  /** The split of a joined list holds only elements of the list. */
  lemma SplitJoinWithin(xs: seq<string>, x: string)
    requires |xs| > 0
    requires forall i :: 0 <= i < |xs| ==> ',' !in xs[i]
    requires x in Split(Join(xs))
    ensures x in xs
  {
    if |xs| == 1 {
      assert Join(xs) == xs[0];
    } else {
      JoinHasComma(xs);
      SplitAllJoin(xs);
      var r := Split(Join(xs));
      var i :| 0 <= i < |r| && r[i] == x;
      assert r[i] == xs[i];
    }
  }

  /** Splitting the join of comma-free pieces gives the pieces back, less any
      trailing empty ones: a prefix of the list. */
  lemma SplitJoinPrefix(xs: seq<string>)
    requires |xs| > 0
    requires forall i :: 0 <= i < |xs| ==> ',' !in xs[i]
    ensures |Split(Join(xs))| <= |xs| && Split(Join(xs)) == xs[..|Split(Join(xs))|]
  {
    if |xs| == 1 {
      assert Join(xs) == xs[0];
    } else {
      JoinHasComma(xs);
      SplitAllJoin(xs);
    }
  }

  // ---------------------------------------------------------------- tokens

  /** The delimiters of a default java.util.StringTokenizer. */
  const WHITESPACE: set<char> := {' ', '\t', '\n', '\r', '\U{000C}'}

  /** The length of the run of non-delimiters at the start of `s`. */
  function RunLength(s: string, delims: set<char>): (n: nat)
    ensures n <= |s|
    ensures forall i :: 0 <= i < n ==> s[i] !in delims
    ensures n < |s| ==> s[n] in delims
  {
    if |s| == 0 || s[0] in delims then 0 else 1 + RunLength(s[1..], delims)
  }

  /** The tokens a java.util.StringTokenizer returns: the maximal runs of
      non-delimiter characters, in order. */
  function Tokens(s: string, delims: set<char>): (r: seq<string>)
    ensures forall i :: 0 <= i < |r| ==> |r[i]| > 0
    ensures forall i, j :: 0 <= i < |r| && 0 <= j < |r[i]| ==> r[i][j] !in delims
    decreases |s|
  {
    if |s| == 0 then []
    else if s[0] in delims then Tokens(s[1..], delims)
    else
      var n := RunLength(s, delims);
      [s[..n]] + Tokens(s[n..], delims)
  }

  /** StringTokenizer.countTokens() is zero exactly when every character is a
      delimiter. */
  lemma {:induction false} NoTokensIff(s: string, delims: set<char>)
    ensures |Tokens(s, delims)| == 0 <==> forall i :: 0 <= i < |s| ==> s[i] in delims
    decreases |s|
  {
    if |s| > 0 && s[0] in delims {
      NoTokensIff(s[1..], delims);
      assert forall i :: 1 <= i < |s| ==> s[i] == s[1..][i - 1];
    }
  }

  /** A non-empty string free of delimiters is a single token. */
  lemma {:induction false} TokensOfSingle(t: string, delims: set<char>)
    requires |t| > 0
    requires forall i :: 0 <= i < |t| ==> t[i] !in delims
    ensures Tokens(t, delims) == [t]
  {
    RunLengthAll(t, delims);
    assert t[0] !in delims;
    assert t[..|t|] == t;
    assert Tokens(t[|t|..], delims) == [];
  }

  lemma {:induction false} RunLengthAll(t: string, delims: set<char>)
    requires forall i :: 0 <= i < |t| ==> t[i] !in delims
    ensures RunLength(t, delims) == |t|
    decreases |t|
  {
    if |t| > 0 {
      RunLengthAll(t[1..], delims);
    }
  }

  /** The number of delimiters before the first token of `s`. */
  function LeadLength(s: string, delims: set<char>): (n: nat)
    ensures n <= |s|
    ensures forall i :: 0 <= i < n ==> s[i] in delims
    ensures n < |s| ==> s[n] !in delims
  {
    if |s| == 0 || s[0] !in delims then 0 else 1 + LeadLength(s[1..], delims)
  }

  /** The first token of `s` is the run after the leading delimiters, and the
      tokens after it are the tokens of the text that follows it. */
  predicate SplitsFirst(s: string, delims: set<char>)
    requires |Tokens(s, delims)| > 0
  {
    var lead := LeadLength(s, delims);
    var end := lead + RunLength(s[lead..], delims);
    end <= |s| && Tokens(s, delims)[0] == s[lead..end] && Tokens(s, delims)[1..] == Tokens(s[end..], delims)
  }

  lemma {:induction false} TokensFirst(s: string, delims: set<char>)
    requires |Tokens(s, delims)| > 0
    ensures SplitsFirst(s, delims)
    decreases |s|
  {
    if s[0] in delims {
      TokensFirst(s[1..], delims);
      TokensFirstSkip(s, delims);
    } else {
      var end := RunLength(s, delims);
      assert s[0..] == s;
      ConsTail(s[..end], Tokens(s[end..], delims));
    }
  }

  /** The step of TokensFirst over a leading delimiter. */
  lemma TokensFirstSkip(s: string, delims: set<char>)
    requires |s| > 0 && s[0] in delims && |Tokens(s[1..], delims)| > 0 && SplitsFirst(s[1..], delims)
    ensures |Tokens(s, delims)| > 0 && SplitsFirst(s, delims)
  {
    var t := s[1..];
    var lead := LeadLength(s, delims);
    var end := lead + RunLength(s[lead..], delims);
    assert lead == 1 + LeadLength(t, delims);
    TailDrop(s, lead - 1);
    TailSlice(s, lead - 1, end - 1);
    TailDrop(s, end - 1);
  }

  /** A leading delimiter is skipped. */
  lemma TokensSkipDelim(d: char, b: string, delims: set<char>)
    requires d in delims
    ensures Tokens([d] + b, delims) == Tokens(b, delims)
  {
    assert ([d] + b)[1..] == b;
  }

  /** What follows the first token: the text from the character that ends it. */
  function AfterFirst(s: string, delims: set<char>): (r: string)
    requires |Tokens(s, delims)| > 0
    ensures |r| < |s| && r == s[|s| - |r|..]
    ensures Tokens(r, delims) == Tokens(s, delims)[1..]
  {
    TokensFirst(s, delims);
    var lead := LeadLength(s, delims);
    s[lead + RunLength(s[lead..], delims)..]
  }

  /** Whatever is put in front of the text after the first token, the tokens that
      followed the first one follow the tokens of what was put in front. */
  lemma TokensAfterFirst(s: string, a: string, delims: set<char>)
    requires |Tokens(s, delims)| > 0
    ensures Tokens(a + AfterFirst(s, delims), delims) == Tokens(a, delims) + Tokens(s, delims)[1..]
  {
    TokensFirst(s, delims);
    var lead := LeadLength(s, delims);
    var end := lead + RunLength(s[lead..], delims);
    var r := AfterFirst(s, delims);
    assert r == s[end..];
    if end == |s| {
      assert a + r == a;
    } else {
      var d := s[end];
      assert d == s[lead..][end - lead];
      DropCons(s, end);
      Assoc3(a, [d], s[end + 1..]);
      TokensAround(a, d, s[end + 1..], delims);
      TokensSkipDelim(d, s[end + 1..], delims);
    }
  }

  /** A blank followed by a word: the word is the only token and ends the line. */
  lemma BlankThenWord(w: string, delims: set<char>)
    requires ' ' in delims && |w| > 0 && forall i :: 0 <= i < |w| ==> w[i] !in delims
    ensures Tokens([' '] + w, delims) == [w]
    ensures AfterFirst([' '] + w, delims) == []
  {
    TokensSkipDelim(' ', w, delims);
    TokensOfSingle(w, delims);
    assert ([' '] + w)[1..] == w;
    RunLengthAll(w, delims);
    assert LeadLength([' '] + w, delims) == 1;
  }

  /** A token never spans a delimiter: the run of `a + [d] + b` with `d` a delimiter
      ends inside `a` or at `d`. */
  lemma {:induction false} RunLengthBefore(a: string, d: char, b: string, delims: set<char>)
    requires d in delims
    ensures RunLength(a + [d] + b, delims) == RunLength(a, delims)
    decreases |a|
  {
    if |a| > 0 && a[0] !in delims {
      RunLengthBefore(a[1..], d, b, delims);
      assert (a + [d] + b)[1..] == a[1..] + [d] + b;
    }
  }

  /** A delimiter separates tokens: the tokens of `a`, a delimiter and `b` are the
      tokens of `a` followed by those of `b`. */
  lemma {:induction false} TokensAround(a: string, d: char, b: string, delims: set<char>)
    requires d in delims
    ensures Tokens(a + [d] + b, delims) == Tokens(a, delims) + Tokens(b, delims)
    decreases |a|
  {
    var s := a + [d] + b;
    if |a| == 0 {
      assert s[1..] == b;
    } else if a[0] in delims {
      TokensAround(a[1..], d, b, delims);
      assert s[1..] == a[1..] + [d] + b;
    } else {
      var n := RunLength(a, delims);
      TokensAround(a[n..], d, b, delims);
      TokensAroundRun(a, d, b, delims, n);
    }
  }

  /** The step of TokensAround when `a` starts with a token: that token is the
      first of both sides. */
  lemma TokensAroundRun(a: string, d: char, b: string, delims: set<char>, n: nat)
    requires d in delims && |a| > 0 && a[0] !in delims && n == RunLength(a, delims)
    requires Tokens(a[n..] + [d] + b, delims) == Tokens(a[n..], delims) + Tokens(b, delims)
    ensures Tokens(a + [d] + b, delims) == Tokens(a, delims) + Tokens(b, delims)
  {
    var s := a + [d] + b;
    RunLengthBefore(a, d, b, delims);
    assert s[..n] == a[..n];
    assert s[n..] == a[n..] + [d] + b;
    Assoc3([a[..n]], Tokens(a[n..], delims), Tokens(b, delims));
  }

  // ---------------------------------------------------------------- file names

  function DropTrailingSlashes(p: string): (r: string)
    ensures |r| <= |p| && r == p[..|r|]
    ensures |r| > 0 ==> r[|r| - 1] != '/'
  {
    if |p| > 0 && p[|p| - 1] == '/' then DropTrailingSlashes(p[..|p| - 1]) else p
  }

  /** java.io.File.getName on a '/'-separated path: the text after the last
      separator, once trailing separators are normalised away. */
  function FileName(p: string): (r: string)
    ensures '/' !in r
  {
    var q := DropTrailingSlashes(p);
    var k := LastIndexOfChar(q, '/');
    q[k + 1..]
  }
}

=== FILE: manifest.dfy ===
/** The parameter decoder of a task zip's manifest: the properties `p1_name`,
    `p1_value`, `p1_description` and the other `p1_<attribute>` entries, then `p2_…`
    and so on, become the task's parameters; every property a parameter consumes is
    removed from the table, and what is left becomes the task's own attributes. */
module Manifest {
  import opened Wrappers
  import opened JavaText

  type Props = map<string, string>

  /** The attribute names that are looked up first (PARAM_INFO_ATTRIBUTES), and the
      type attribute whose input-file value also sets the mode and type entries. */
  datatype AttributeKeys = AttributeKeys(
    names: seq<string>,
    typeAttr: string, inputFileType: string,
    modeKey: string, inputMode: string,
    typeKey: string, fileType: string)

  datatype ParamInfo = ParamInfo(name: string, value: string, description: string,
                                 attributes: Option<map<string, string>>)

  /** "p" + i + "_". */
  function Prefix(i: nat): (pre: string)
    ensures |pre| >= 3 && pre[0] == 'p' && pre[|pre| - 1] == '_'
  {
    "p" + NatToString(i) + "_"
  }

  /** A key of parameter `i`: "p", the digits of `i`, an underscore, then anything. */
  lemma PrefixShape(i: nat, k: string)
    requires StartsWith(k, Prefix(i))
    ensures var a := NatToString(i);
      |k| >= |a| + 2 && k[1..|a| + 1] == a && k[|a| + 1] == '_'
  {
    var a := NatToString(i);
    var pre := Prefix(i);
    assert k[..|pre|] == pre;
    assert pre[1..|a| + 1] == a;
    assert k[1..|a| + 1] == pre[1..|a| + 1];
  }

  /** Only one parameter's prefix starts a given key. */
  lemma PrefixUnique(i: nat, j: nat, k: string)
    requires StartsWith(k, Prefix(i)) && StartsWith(k, Prefix(j))
    ensures i == j
  {
    var a := NatToString(i);
    var b := NatToString(j);
    PrefixShape(i, k);
    PrefixShape(j, k);
    NatToStringDigits(i);
    NatToStringDigits(j);
    DigitsBeforeUnderscore(k, a);
    DigitsBeforeUnderscore(k, b);
    assert |a| == |b|;
    NatToStringInjective(i, j);
  }

  lemma DigitsBeforeUnderscore(k: string, a: string)
    requires |k| >= |a| + 1 && k[1..|a| + 1] == a
    requires forall m :: 0 <= m < |a| ==> '0' <= a[m] <= '9'
    ensures forall m :: 1 <= m <= |a| ==> k[m] != '_'
  {
    forall m | 1 <= m <= |a|
      ensures k[m] != '_'
    {
      assert k[m] == a[m - 1];
    }
  }

  /** The prefixes of two different parameters never start the same key. */
  lemma PrefixDisjoint(i: nat, j: nat, k: string)
    requires i != j
    requires StartsWith(k, Prefix(i))
    ensures !StartsWith(k, Prefix(j))
  {
    if StartsWith(k, Prefix(j)) {
      PrefixUnique(i, j, k);
    }
  }

  /** The first underscore of the prefix is its last character. */
  predicate UnderscoreEnds(pre: string) {
    |pre| > 0 && pre[|pre| - 1] == '_' && forall m :: 0 <= m < |pre| - 1 ==> pre[m] != '_'
  }

  /** The number holds no underscore. */
  lemma PrefixUnderscore(i: nat)
    ensures UnderscoreEnds(Prefix(i))
  {
    var pre := Prefix(i);
    NatToStringDigits(i);
    forall m | 0 <= m < |pre| - 1
      ensures pre[m] != '_'
    {
      if m > 0 {
        assert pre[m] == NatToString(i)[m - 1];
      }
    }
  }

  /** `name.substring(name.indexOf("_") + 1)` on a key of the parameter drops exactly
      the prefix. */
  lemma AttributeNameAfterPrefix(pre: string, k: string)
    requires UnderscoreEnds(pre) && StartsWith(k, pre)
    ensures IndexOfChar(k, '_', 0) + 1 == |pre|
  {
    forall m | 0 <= m < |pre| - 1
      ensures k[m] != '_'
    {
      assert k[m] == pre[m];
    }
    IndexOfCharIs(k, '_', 0, |pre| - 1);
  }

  /** `props.remove(key)` with a missing entry read as the empty string. */
  function Take(p: Props, key: string): (r: (string, Props))
    ensures r.1 == p - {key}
    ensures key in p ==> r.0 == p[key]
    ensures key !in p ==> r.0 == ""
  {
    if key in p then (p[key], p - {key}) else ("", p)
  }

  /** The lookup of the named attributes from position `j` on: each present entry is
      removed and kept under its name, and an input-file type also sets the mode and
      the type. */
  function Named(p: Props, pre: string, keys: AttributeKeys, j: nat, attrs: map<string, string>)
    : (r: (map<string, string>, Props))
    requires j <= |keys.names|
    decreases |keys.names| - j
  {
    if j == |keys.names| then (attrs, p)
    else
      var a := keys.names[j];
      var key := pre + a;
      if key in p then
        var put := attrs[a := p[key]];
        var marked := if a == keys.typeAttr && p[key] == keys.inputFileType
                      then put[keys.modeKey := keys.inputMode][keys.typeKey := keys.fileType]
                      else put;
        Named(p - {key}, pre, keys, j + 1, marked)
      else Named(p, pre, keys, j + 1, attrs)
  }

  /** The named lookup only removes entries of the names it visits, keeps every
      attribute it was given, and finds every name whose entry is present. */
  lemma {:induction false} NamedFacts(p: Props, pre: string, keys: AttributeKeys, j: nat,
                                      attrs: map<string, string>)
    requires j <= |keys.names|
    ensures var r := Named(p, pre, keys, j, attrs);
      (forall k :: k in r.1 ==> k in p && r.1[k] == p[k])
      && (forall k :: k in p && (forall m :: j <= m < |keys.names| ==> k != pre + keys.names[m])
            ==> k in r.1)
      && (forall x :: x in attrs ==> x in r.0)
      && (forall m :: j <= m < |keys.names| && pre + keys.names[m] in p ==> keys.names[m] in r.0)
    decreases |keys.names| - j
  {
    if j < |keys.names| {
      var a := keys.names[j];
      var key := pre + a;
      if key in p {
        var put := attrs[a := p[key]];
        var marked := if a == keys.typeAttr && p[key] == keys.inputFileType
                      then put[keys.modeKey := keys.inputMode][keys.typeKey := keys.fileType]
                      else put;
        NamedFacts(p - {key}, pre, keys, j + 1, marked);
        assert a in marked;
        var r := Named(p - {key}, pre, keys, j + 1, marked);
        forall m | j <= m < |keys.names| && pre + keys.names[m] in p
          ensures keys.names[m] in r.0
        {
          if keys.names[m] != a {
            Seqs.AppendDiffers(pre, keys.names[m], a);
          }
        }
        forall k | k in p && (forall m :: j <= m < |keys.names| ==> k != pre + keys.names[m])
          ensures k in p - {key}
        {
          assert k != pre + keys.names[j];
        }
      } else {
        NamedFacts(p, pre, keys, j + 1, attrs);
      }
    }
  }

  /** The keys still present that belong to a parameter. */
  function PrefixedKeys(p: Props, pre: string): set<string> {
    set k | k in p && StartsWith(k, pre)
  }

  /** Those keys as attributes, each under what follows the prefix. */
  function PrefixedAttrs(p: Props, pre: string): map<string, string> {
    map x | x in Suffixes(p, pre) && pre + x in p :: p[pre + x]
  }

  function Suffixes(p: Props, pre: string): set<string> {
    set k | k in p && StartsWith(k, pre) :: k[|pre|..]
  }

  /** Each entry of the parameter is found under what follows the prefix, and
      nothing else is there. */
  lemma PrefixedAttrsLookup(p: Props, pre: string)
    ensures var r := PrefixedAttrs(p, pre);
      (forall k :: k in p && StartsWith(k, pre) ==> k[|pre|..] in r && r[k[|pre|..]] == p[k])
      && (forall x :: x in r ==> pre + x in p)
  {
    var r := PrefixedAttrs(p, pre);
    forall k | k in p && StartsWith(k, pre)
      ensures k[|pre|..] in r && r[k[|pre|..]] == p[k]
    {
      assert k[|pre|..] in Suffixes(p, pre);
      assert k == pre + k[|pre|..];
    }
  }

  /** A parameter whose name entry is present and not empty: the table as its turn
      came, and its prefix. Its fields and attributes are read from that table. */
  datatype Pending = Pending(table: Props, pre: string)

  /** What one round of the decoder does with parameter `i`. */
  datatype Step = Skip | MissingName | Decoded(pending: Pending, rest: Props)

  /** One round: no name entry skips the number, an empty name is an error, and
      otherwise every entry of the parameter leaves the table. */
  function DecodeOne(p: Props, i: nat): Step {
    var pre := Prefix(i);
    if pre + "name" !in p then Skip
    else if p[pre + "name"] == "" then MissingName
    else Decoded(Pending(p, pre), Strip(p, pre))
  }

  /** The table without the entries that start with the prefix. */
  function Strip(p: Props, pre: string): Props {
    map k | k in p && !StartsWith(k, pre) :: p[k]
  }

  /** The name, value and description entries, each removed as it is read. */
  function Fields(p: Props, pre: string): (string, string, string, Props) {
    var nm := Take(p, pre + "name");
    var v := Take(nm.1, pre + "value");
    var d := Take(v.1, pre + "description");
    (nm.0, v.0, d.0, d.1)
  }

  /** The parameter read from its table: its fields, then its attributes, or none
      when it has no attribute. */
  function Complete(pd: Pending, keys: AttributeKeys): ParamInfo {
    var f := Fields(pd.table, pd.pre);
    var a := Attributes(f.3, pd.pre, keys).0;
    ParamInfo(f.0, f.1, f.2, if |a| > 0 then Some(a) else None)
  }

  /** Every pending parameter completed, in order. */
  function CompleteAll(pend: seq<Pending>, keys: AttributeKeys): (r: seq<ParamInfo>)
    ensures |r| == |pend|
  {
    Seqs.MapSeq(pend, CompleteWith(keys))
  }

  function CompleteWith(keys: AttributeKeys): Pending -> ParamInfo {
    pd => Complete(pd, keys)
  }

  /** The named attributes, then every other entry of the parameter, each removed as
      it is read; a later entry replaces an earlier one of the same name. */
  function Attributes(p: Props, pre: string, keys: AttributeKeys): (map<string, string>, Props) {
    var n := Named(p, pre, keys, 0, map[]);
    (n.0 + PrefixedAttrs(n.1, pre), n.1 - PrefixedKeys(n.1, pre))
  }

  /** The name, value and description are those the entries give. */
  predicate FromEntries(p: Props, pre: string, name: string, value: string, description: string) {
    pre + "name" in p && name == p[pre + "name"]
    && value == (if pre + "value" in p then p[pre + "value"] else "")
    && description == (if pre + "description" in p then p[pre + "description"] else "")
  }

  predicate Field(x: string) {
    x == "name" || x == "value" || x == "description"
  }

  /** Where the fields come from, and which entries reading them removes. */
  lemma FieldsFacts(p: Props, pre: string)
    requires pre + "name" in p
    ensures var f := Fields(p, pre);
      FromEntries(p, pre, f.0, f.1, f.2)
      && f.3 == p - {pre + "name", pre + "value", pre + "description"}
  {
    Seqs.AppendDiffers(pre, "value", "name");
    Seqs.AppendDiffers(pre, "description", "name");
    Seqs.AppendDiffers(pre, "description", "value");
  }

  lemma StartsWithConcat(pre: string, x: string)
    ensures StartsWith(pre + x, pre)
  {
    assert (pre + x)[..|pre|] == pre;
  }

  /** Reading the attributes removes exactly the entries of the parameter. */
  lemma AttributesRest(p: Props, pre: string, keys: AttributeKeys)
    ensures Attributes(p, pre, keys).1 == p - PrefixedKeys(p, pre)
  {
    NamedFacts(p, pre, keys, 0, map[]);
    forall m | 0 <= m < |keys.names|
      ensures StartsWith(pre + keys.names[m], pre)
    {
      StartsWithConcat(pre, keys.names[m]);
    }
  }

  /** Every entry of the parameter becomes an attribute under what follows the
      prefix; one that is not among the named attributes keeps its value. */
  lemma AttributesHave(p: Props, pre: string, keys: AttributeKeys, x: string)
    requires pre + x in p
    ensures var attrs := Attributes(p, pre, keys).0;
      x in attrs && (x !in keys.names ==> attrs[x] == p[pre + x])
  {
    var n := Named(p, pre, keys, 0, map[]);
    NamedFacts(p, pre, keys, 0, map[]);
    PrefixedAttrsLookup(n.1, pre);
    assert (pre + x)[|pre|..] == x;
    StartsWithConcat(pre, x);
    if x in keys.names {
      var m :| 0 <= m < |keys.names| && keys.names[m] == x;
      assert x in n.0;
    } else {
      forall m | 0 <= m < |keys.names|
        ensures pre + x != pre + keys.names[m]
      {
        Seqs.AppendDiffers(pre, x, keys.names[m]);
      }
      assert pre + x in n.1;
    }
  }

  /** What the loops of one round leave of the table is the table without the
      parameter's entries. */
  lemma StripFields(p: Props, pre: string, keys: AttributeKeys)
    requires pre + "name" in p
    ensures var f := Fields(p, pre);
      Attributes(f.3, pre, keys).1 == Strip(p, pre)
  {
    var f := Fields(p, pre);
    FieldsFacts(p, pre);
    AttributesRest(f.3, pre, keys);
    StartsWithConcat(pre, "name");
    StartsWithConcat(pre, "value");
    StartsWithConcat(pre, "description");
  }

  /** The decoder after the parameters 1 to n: the parameters read so far and the
      table that is left, or the number of the first parameter whose name is empty. */
  function Decode(props: Props, n: nat): Result<(seq<Pending>, Props), nat> {
    if n == 0 then Ok(([], props))
    else
      match Decode(props, n - 1)
      case Err(e) => Err(e)
      case Ok(acc) =>
        match DecodeOne(acc.1, n)
        case Skip => Ok(acc)
        case MissingName => Err(n)
        case Decoded(pd, rest) => Ok((acc.0 + [pd], rest))
  }

  /** The decoded parameters with their attributes, and the table that is left. */
  function DecodeManifest(props: Props, n: nat, keys: AttributeKeys)
    : Result<(seq<ParamInfo>, Props), nat>
  {
    match Decode(props, n)
    case Err(e) => Err(e)
    case Ok(acc) => Ok((CompleteAll(acc.0, keys), acc.1))
  }

  /** The numbers up to n that have a name entry, in order. */
  function Present(props: Props, n: nat): (r: seq<nat>)
    ensures forall m :: 0 <= m < |r| ==> 1 <= r[m] <= n && Prefix(r[m]) + "name" in props
  {
    if n == 0 then []
    else Present(props, n - 1) + (if Prefix(n) + "name" in props then [n] else [])
  }

  predicate NameEmpty(props: Props, i: nat) {
    Prefix(i) + "name" in props && props[Prefix(i) + "name"] == ""
  }

  /** The key belongs to one of the parameters 1 to n that have a name entry. */
  predicate Consumed(props: Props, n: nat, k: string)
    decreases n
  {
    n >= 1 && (Consumed(props, n - 1, k) || (StartsWith(k, Prefix(n)) && Prefix(n) + "name" in props))
  }

  /** Parameter `i` as read: a non-empty name entry, and every entry of the
      parameter in its table exactly as in the original. */
  ghost predicate Owns(props: Props, i: nat, pd: Pending) {
    pd.pre == Prefix(i)
    && pd.pre + "name" in props && props[pd.pre + "name"] != ""
    && forall k :: StartsWith(k, pd.pre) ==>
         (k in pd.table <==> k in props) && (k in props ==> pd.table[k] == props[k])
  }

  /** One parameter per number in `ids`, in order. */
  ghost predicate ParamsOf(props: Props, ids: seq<nat>, ps: seq<Pending>) {
    |ps| == |ids| && forall m :: 0 <= m < |ps| ==> Owns(props, ids[m], ps[m])
  }

  /** Parameter `i` as the task gets it: name, value and description from its
      entries, and each of its other entries as an attribute, with the entry's value
      when it is not one of the named attributes. */
  ghost predicate Described(props: Props, i: nat, keys: AttributeKeys, pi: ParamInfo) {
    var pre := Prefix(i);
    FromEntries(props, pre, pi.name, pi.value, pi.description) && pi.name != ""
    && forall x :: pre + x in props && !Field(x) ==>
         pi.attributes.Some? && x in pi.attributes.value
         && (x !in keys.names ==> pi.attributes.value[x] == props[pre + x])
  }

  /** No parameter before `n` consumes an entry of parameter `n`. */
  lemma NotConsumedEarlier(props: Props, n: nat, k: string)
    requires n >= 1
    requires StartsWith(k, Prefix(n))
    ensures !Consumed(props, n - 1, k)
  {
    NotConsumedBelow(props, n, n - 1, k);
  }

  lemma {:induction false} NotConsumedBelow(props: Props, n: nat, m: nat, k: string)
    requires m < n
    requires StartsWith(k, Prefix(n))
    ensures !Consumed(props, m, k)
  {
    if m >= 1 {
      PrefixDisjoint(n, m, k);
      NotConsumedBelow(props, n, m - 1, k);
    }
  }

  /** After a successful decoding up to n, an entry is left, with its value, exactly
      when none of the parameters 1 to n that have a name entry owns it. */
  lemma {:induction false} DecodeKey(props: Props, n: nat, k: string)
    requires Decode(props, n).Ok?
    ensures var rest := Decode(props, n).value.1;
      (k in rest <==> k in props && !Consumed(props, n, k))
      && (k in rest ==> rest[k] == props[k])
    decreases n
  {
    if n > 0 {
      var pre := Prefix(n);
      DecodeKey(props, n - 1, k);
      DecodeKey(props, n - 1, pre + "name");
      StartsWithConcat(pre, "name");
      NotConsumedEarlier(props, n, pre + "name");
    }
  }

  /** With no empty name among the first n, the decoder succeeds. */
  lemma {:induction false} DecodeOk(props: Props, n: nat)
    requires forall i :: 1 <= i <= n ==> !NameEmpty(props, i)
    ensures Decode(props, n).Ok?
    decreases n
  {
    if n > 0 {
      DecodeOk(props, n - 1);
      var pre := Prefix(n);
      StartsWithConcat(pre, "name");
      EntryKept(props, n, pre + "name");
      assert !NameEmpty(props, n);
    }
  }

  /** With no empty name among the first n, the decoder reads one parameter per name
      entry, in order of number, each from a table that still holds its entries. */
  lemma {:induction false} DecodeSpec(props: Props, n: nat)
    requires forall i :: 1 <= i <= n ==> !NameEmpty(props, i)
    ensures Decode(props, n).Ok?
    ensures ParamsOf(props, Present(props, n), Decode(props, n).value.0)
    decreases n
  {
    if n > 0 {
      DecodeSpec(props, n - 1);
      DecodeOk(props, n);
      var acc := Decode(props, n - 1).value;
      var pre := Prefix(n);
      StartsWithConcat(pre, "name");
      EntryKept(props, n, pre + "name");
      if pre + "name" in props {
        assert !NameEmpty(props, n);
        DecodeRound(props, n, acc);
      } else {
        assert Present(props, n) == Present(props, n - 1);
      }
    }
  }

  /** A number with a non-empty name entry adds its parameter. */
  lemma DecodeRound(props: Props, n: nat, acc: (seq<Pending>, Props))
    requires n >= 1
    requires Decode(props, n - 1) == Ok(acc)
    requires ParamsOf(props, Present(props, n - 1), acc.0)
    requires Prefix(n) + "name" in acc.1 && acc.1[Prefix(n) + "name"] != ""
    requires Prefix(n) + "name" in props && props[Prefix(n) + "name"] == acc.1[Prefix(n) + "name"]
    ensures Decode(props, n) == Ok((acc.0 + [Pending(acc.1, Prefix(n))], Strip(acc.1, Prefix(n))))
    ensures ParamsOf(props, Present(props, n), Decode(props, n).value.0)
  {
    EntriesKept(props, n, acc.1);
    assert Present(props, n) == Present(props, n - 1) + [n];
  }

  /** The entries of parameter `n` are still those of the original table when its
      turn comes. */
  lemma EntriesKept(props: Props, n: nat, p: Props)
    requires n >= 1
    requires Decode(props, n - 1).Ok? && p == Decode(props, n - 1).value.1
    ensures forall k :: StartsWith(k, Prefix(n)) ==>
      (k in p <==> k in props) && (k in props ==> p[k] == props[k])
  {
    forall k | StartsWith(k, Prefix(n))
      ensures (k in p <==> k in props) && (k in props ==> p[k] == props[k])
    {
      EntryKept(props, n, k);
    }
  }

  /** An entry of parameter `n` is in the table left by the parameters before it
      exactly when it is in the original, with the same value. */
  lemma EntryKept(props: Props, n: nat, k: string)
    requires n >= 1
    requires Decode(props, n - 1).Ok?
    requires StartsWith(k, Prefix(n))
    ensures var p := Decode(props, n - 1).value.1;
      (k in props <==> k in p) && (k in p ==> p[k] == props[k])
  {
    DecodeKey(props, n - 1, k);
    NotConsumedEarlier(props, n, k);
  }

  /** With no empty name among the first n, every parameter with a name entry comes
      out described by its entries, in order of number. */
  lemma DecodeManifestSpec(props: Props, n: nat, keys: AttributeKeys)
    requires forall i :: 1 <= i <= n ==> !NameEmpty(props, i)
    ensures DecodeManifest(props, n, keys).Ok?
    ensures var ps := DecodeManifest(props, n, keys).value.0;
      var ids := Present(props, n);
      |ps| == |ids| && forall m :: 0 <= m < |ps| ==> Described(props, ids[m], keys, ps[m])
  {
    DecodeSpec(props, n);
    var pend := Decode(props, n).value.0;
    var ids := Present(props, n);
    forall m | 0 <= m < |pend|
      ensures Described(props, ids[m], keys, CompleteAll(pend, keys)[m])
    {
      CompleteDescribed(props, ids[m], keys, pend[m]);
    }
  }

  /** Reading the fields and attributes of a parameter from a table that holds its
      entries describes it. */
  lemma CompleteDescribed(props: Props, i: nat, keys: AttributeKeys, pd: Pending)
    requires Owns(props, i, pd)
    ensures Described(props, i, keys, Complete(pd, keys))
  {
    var pre := pd.pre;
    var t := pd.table;
    StartsWithConcat(pre, "name");
    StartsWithConcat(pre, "value");
    StartsWithConcat(pre, "description");
    FieldsFacts(t, pre);
    var f := Fields(t, pre);
    forall x | pre + x in props && !Field(x)
      ensures var a := Attributes(f.3, pre, keys).0;
        x in a && (x !in keys.names ==> a[x] == props[pre + x])
    {
      StartsWithConcat(pre, x);
      Seqs.AppendDiffers(pre, x, "name");
      Seqs.AppendDiffers(pre, x, "value");
      Seqs.AppendDiffers(pre, x, "description");
      AttributesHave(f.3, pre, keys, x);
    }
  }

  /** The first empty name ends the decoding with its number, whatever follows. */
  lemma {:induction false} DecodeFails(props: Props, n: nat, keys: AttributeKeys, i: nat)
    requires 1 <= i <= n
    requires NameEmpty(props, i)
    requires forall j :: 1 <= j < i ==> !NameEmpty(props, j)
    ensures Decode(props, n) == Err(i)
    ensures DecodeManifest(props, n, keys) == Err(i)
    decreases n
  {
    if i < n {
      DecodeFails(props, n - 1, keys, i);
    } else {
      DecodeOk(props, n - 1);
      StartsWithConcat(Prefix(n), "name");
      EntryKept(props, n, Prefix(n) + "name");
    }
  }

  /** An error stays an error for every later number. */
  lemma {:induction false} DecodeErrStays(props: Props, i: nat, n: nat)
    requires i <= n
    requires Decode(props, i).Err?
    ensures Decode(props, n) == Decode(props, i)
    decreases n - i
  {
    if i < n {
      DecodeErrStays(props, i, n - 1);
    }
  }

  /** The decoding loop over the numbers 1 to `maxParameters`. */
  method DecodeParameters(props: Props, maxParameters: nat, keys: AttributeKeys)
    returns (r: Result<(seq<ParamInfo>, Props), nat>)
    ensures r == DecodeManifest(props, maxParameters, keys)
  {
    var p := props;
    var params: seq<ParamInfo> := [];
    ghost var pend: seq<Pending> := [];
    var i := 1;
    while i <= maxParameters
      invariant 1 <= i <= maxParameters + 1
      invariant Decode(props, i - 1) == Ok((pend, p))
      invariant params == CompleteAll(pend, keys)
    {
      var step, pi := DecodeParameter(p, i, keys);
      match step {
        case Skip =>
        case MissingName =>
          assert Decode(props, i) == Err(i);
          DecodeErrStays(props, i, maxParameters);
          return Err(i);
        case Decoded(pd, rest) =>
          Seqs.MapSnoc(pend, pd, CompleteWith(keys));
          params := params + [pi];
          pend := pend + [pd];
          p := rest;
      }
      i := i + 1;
    }
    return Ok((params, p));
  }

  /** One round of the loop: the name, value and description entries, the named
      attributes, then every other entry of the parameter, each removed as read. */
  method DecodeParameter(p: Props, i: nat, keys: AttributeKeys) returns (s: Step, pi: ParamInfo)
    ensures s == DecodeOne(p, i)
    ensures s.Decoded? ==> pi == Complete(s.pending, keys)
  {
    var pre := Prefix(i);
    pi := ParamInfo("", "", "", None);
    if pre + "name" !in p {
      return Skip, pi;
    }
    var name := p[pre + "name"];
    var q := p - {pre + "name"};
    if name == "" {
      return MissingName, pi;
    }
    var value := "";
    if pre + "value" in q {
      value := q[pre + "value"];
      q := q - {pre + "value"};
    }
    var description := "";
    if pre + "description" in q {
      description := q[pre + "description"];
      q := q - {pre + "description"};
    }
    assert (name, value, description, q) == Fields(p, pre);
    var attrs := NamedAttributes(q, pre, keys);
    q := Named(q, pre, keys, 0, map[]).1;
    PrefixUnderscore(i);
    attrs, q := OtherAttributes(q, pre, attrs);
    StripFields(p, pre, keys);
    pi := ParamInfo(name, value, description, if |attrs| > 0 then Some(attrs) else None);
    return Decoded(Pending(p, pre), q), pi;
  }

  /** The loop over the named attributes. */
  method NamedAttributes(p: Props, pre: string, keys: AttributeKeys) returns (attrs: map<string, string>)
    ensures attrs == Named(p, pre, keys, 0, map[]).0
  {
    attrs := map[];
    var q := p;
    var j := 0;
    while j < |keys.names|
      invariant 0 <= j <= |keys.names|
      invariant Named(q, pre, keys, j, attrs) == Named(p, pre, keys, 0, map[])
    {
      var a := keys.names[j];
      if pre + a in q {
        var v := q[pre + a];
        q := q - {pre + a};
        attrs := attrs[a := v];
        if a == keys.typeAttr && v == keys.inputFileType {
          attrs := attrs[keys.modeKey := keys.inputMode][keys.typeKey := keys.fileType];
        }
      }
      j := j + 1;
    }
  }

  /** The loop over the remaining entries of the parameter, in whatever order the
      table lists them: each goes under the text after its first underscore. */
  method OtherAttributes(p: Props, pre: string, named: map<string, string>)
    returns (attrs: map<string, string>, q: Props)
    requires UnderscoreEnds(pre)
    ensures attrs == named + PrefixedAttrs(p, pre)
    ensures q == p - PrefixedKeys(p, pre)
  {
    var todo := PrefixedKeys(p, pre);
    attrs := named;
    q := p;
    PrefixedAttrsNone(p - todo, pre);
    assert named + map[] == named;
    while todo != {}
      invariant todo <= PrefixedKeys(p, pre)
      invariant q == p - (PrefixedKeys(p, pre) - todo)
      invariant attrs == named + PrefixedAttrs(p - todo, pre)
      decreases |todo|
    {
      var k :| k in todo;
      OtherKey(p, pre, todo, k, q);
      var attribute := k[IndexOfChar(k, '_', 0) + 1..];
      OtherAttrsStep(p, pre, named, todo, k, attrs, q[k], attrs[attribute := q[k]]);
      attrs := attrs[attribute := q[k]];
      q := q - {k};
      todo := todo - {k};
    }
    assert p - {} == p;
  }

  /** The entry the loop takes is still in the table, with its original value, and
      its attribute name is what follows the prefix. */
  lemma OtherKey(p: Props, pre: string, todo: set<string>, k: string, q: Props)
    requires UnderscoreEnds(pre)
    requires todo <= PrefixedKeys(p, pre) && k in todo
    requires q == p - (PrefixedKeys(p, pre) - todo)
    ensures k in q && q[k] == p[k] && IndexOfChar(k, '_', 0) + 1 == |pre|
    ensures q - {k} == p - (PrefixedKeys(p, pre) - (todo - {k}))
  {
    MinusStep(p, PrefixedKeys(p, pre), todo, k, q);
    AttributeNameAfterPrefix(pre, k);
  }

  /** Taking one entry keeps the attributes equal to those of the entries taken. */
  lemma OtherAttrsStep(p: Props, pre: string, named: map<string, string>, todo: set<string>,
                       k: string, attrs: map<string, string>, v: string, attrs': map<string, string>)
    requires todo <= PrefixedKeys(p, pre) && k in todo
    requires k in p && v == p[k]
    requires attrs == named + PrefixedAttrs(p - todo, pre)
    requires attrs' == attrs[k[|pre|..] := v]
    ensures attrs' == named + PrefixedAttrs(p - (todo - {k}), pre)
  {
    PrefixedAttrsAdd(p, pre, todo, k);
    MergeUpdate(named, PrefixedAttrs(p - todo, pre), k[|pre|..], v);
  }

  lemma MinusStep(p: Props, all: set<string>, todo: set<string>, k: string, q: Props)
    requires todo <= all && k in todo && k in p
    requires q == p - (all - todo)
    ensures k in q && q[k] == p[k]
    ensures q - {k} == p - (all - (todo - {k}))
  {
  }

  /** Without entries of the parameter there are no further attributes. */
  lemma PrefixedAttrsNone(p: Props, pre: string)
    requires forall k :: k in p ==> !StartsWith(k, pre)
    ensures PrefixedAttrs(p, pre) == map[]
  {
    var r := PrefixedAttrs(p, pre);
    PrefixedAttrsLookup(p, pre);
    forall x | x in r
      ensures false
    {
      StartsWithConcat(pre, x);
    }
  }

  /** Taking one more entry of the parameter adds its attribute. */
  lemma PrefixedAttrsAdd(p: Props, pre: string, todo: set<string>, k: string)
    requires todo <= PrefixedKeys(p, pre) && k in todo
    ensures PrefixedAttrs(p - (todo - {k}), pre) == PrefixedAttrs(p - todo, pre)[k[|pre|..] := p[k]]
  {
    var before := PrefixedAttrs(p - todo, pre);
    var after := PrefixedAttrs(p - (todo - {k}), pre);
    var x0 := k[|pre|..];
    assert k == pre + x0;
    PrefixedAttrsLookup(p - todo, pre);
    PrefixedAttrsLookup(p - (todo - {k}), pre);
    forall x | x in after
      ensures x in before[x0 := p[k]] && after[x] == before[x0 := p[k]][x]
    {
      StartsWithConcat(pre, x);
      assert (pre + x)[|pre|..] == x;
      if x != x0 {
        assert pre + x in p - todo;
      }
    }
    forall x | x in before[x0 := p[k]]
      ensures x in after
    {
      StartsWithConcat(pre, x);
      assert (pre + x)[|pre|..] == x;
    }
  }

  lemma MergeUpdate(a: map<string, string>, b: map<string, string>, x: string, v: string)
    ensures (a + b)[x := v] == a + b[x := v]
  {
  }
}

=== FILE: odf_writer.dfy ===
/** The writer of ODF files, GenePattern's tab-separated data format with a
    header block. The model covers the output name and the header block: the
    writer's output is the text written so far, with "\n" ending each line. */
module Odf {
  import opened Wrappers
  import opened JavaText
  import opened Seqs

  const SUFFIX := ".odf"
  const TAB := '\t'

  /** `fixName`: ".odf" is appended unless the name already ends with it, in any
      case. */
  function FixName(name: string): string {
    if EndsWith(ToLower(name), SUFFIX) then name else name + SUFFIX
  }

  /** The fixed name ends with ".odf" in any case, keeps the given name as its
      start, adds nothing to a name that already ends so, and fixing twice is
      fixing once. */
  lemma FixNameSpec(name: string)
    ensures EndsWith(ToLower(FixName(name)), SUFFIX)
    ensures StartsWith(FixName(name), name)
    ensures EndsWith(ToLower(name), SUFFIX) <==> FixName(name) == name
    ensures FixName(FixName(name)) == FixName(name)
  {
    if !EndsWith(ToLower(name), SUFFIX) {
      var f := name + SUFFIX;
      ToLowerAppend(name, SUFFIX);
      assert ToLower(SUFFIX) == SUFFIX;
      var l := ToLower(f);
      assert l[|l| - |SUFFIX|..] == SUFFIX;
      assert f[..|name|] == name;
      assert f != name by {
        assert |f| != |name|;
      }
    }
  }

  /** `String.valueOf(int)`. */
  function ValueOf(i: int): (r: string)
    ensures |r| > 0
    ensures r[0] == '-' <==> i < 0
  {
    NatToStringDigits(if i < 0 then -i else i);
    if i < 0 then "-" + NatToString(-i) else NatToString(i)
  }

  /** Different ints are written as different texts. */
  lemma ValueOfInjective(i: int, j: int)
    ensures ValueOf(i) == ValueOf(j) ==> i == j
  {
    if ValueOf(i) == ValueOf(j) {
      if i < 0 {
        assert ValueOf(i)[1..] == NatToString(-i) && ValueOf(j)[1..] == NatToString(-j);
        NatToStringInjective(-i, -j);
      } else {
        NatToStringInjective(i, j);
      }
    }
  }

  /** A header entry, written as `key=value`. */
  datatype Header = Header(key: string, value: string)

  function HeaderLine(h: Header): string {
    h.key + "=" + h.value
  }

  /** The values separated by single tabs. */
  function TabJoin(values: seq<string>): string {
    if |values| == 0 then ""
    else if |values| == 1 then values[0]
    else values[0] + [TAB] + TabJoin(values[1..])
  }

  /** The line `printArray` writes: the key, a colon, then the values. */
  function ArrayLine(key: string, values: seq<string>): string {
    key + ":" + TabJoin(values)
  }

  /** The reader's view of a tab-separated line: the pieces between tabs. */
  function Fields(line: string): (r: seq<string>)
    ensures |r| > 0
    ensures forall i :: 0 <= i < |r| ==> TAB !in r[i]
    decreases |line|
  {
    var k := IndexOfChar(line, TAB, 0);
    IndexOfCharFirst(line, TAB, 0);
    if k == -1 then [line] else [line[..k]] + Fields(line[k + 1..])
  }

  /** The values of an array line read back, one field per value, when no value
      holds a tab: so no tab leads or trails and exactly one separates two values. */
  lemma {:induction false} FieldsTabJoin(values: seq<string>)
    requires |values| > 0
    requires forall i :: 0 <= i < |values| ==> TAB !in values[i]
    ensures Fields(TabJoin(values)) == values
    decreases |values|
  {
    var s := TabJoin(values);
    if |values| == 1 {
      IndexOfCharNone(s, TAB, 0);
    } else {
      var rest := TabJoin(values[1..]);
      var k := |values[0]|;
      assert s == values[0] + [TAB] + rest;
      assert s[k] == TAB;
      assert forall j :: 0 <= j < k ==> s[j] == values[0][j];
      IndexOfCharIs(s, TAB, 0, k);
      assert s[..k] == values[0];
      assert s[k + 1..] == rest;
      FieldsTabJoin(values[1..]);
      assert values == [values[0]] + values[1..];
    }
  }

  /** An array line starts with its key and a colon, and what follows reads back as
      its values. */
  lemma ArrayLineSpec(key: string, values: seq<string>)
    requires |values| > 0
    requires forall i :: 0 <= i < |values| ==> TAB !in values[i]
    ensures var line := ArrayLine(key, values);
      StartsWith(line, key + ":") && Fields(line[|key| + 1..]) == values
  {
    var line := ArrayLine(key, values);
    assert line[..|key| + 1] == key + ":";
    assert line[|key| + 1..] == TabJoin(values);
    FieldsTabJoin(values);
  }

  /** The number `printHeader` writes on its `HeaderLines=` line. */
  function HeaderCount(headers: seq<Header>, columnTypes: Option<seq<string>>): nat {
    |headers| + 3 + (if columnTypes.Some? then 1 else 0)
  }

  /** The lines of the header block before the headers. */
  function Preamble(columnNames: seq<string>, columnTypes: Option<seq<string>>, model: string,
                    headers: seq<Header>): seq<string>
  {
    ["ODF 1.0", "HeaderLines=" + NatToString(HeaderCount(headers, columnTypes)),
     ArrayLine("COLUMN_NAMES", columnNames)]
    + (if columnTypes.Some? then [ArrayLine("COLUMN_TYPES", columnTypes.value)] else [])
    + ["Model=" + model]
  }

  /** The lines of the header block, in order. */
  function HeaderBlock(columnNames: seq<string>, columnTypes: Option<seq<string>>, model: string,
                       headers: seq<Header>, dataLines: int): seq<string>
  {
    Preamble(columnNames, columnTypes, model, headers)
    + MapSeq(headers, HeaderLine)
    + ["DataLines=" + ValueOf(dataLines)]
  }

  /** The block opens with the version and the count, and the count is the number
      of lines that follow it: the column names, the column types when set, the
      model, one `key=value` line per header in the order they were added, and the
      number of data lines last. */
  lemma HeaderBlockSpec(columnNames: seq<string>, columnTypes: Option<seq<string>>, model: string,
                        headers: seq<Header>, dataLines: int)
    ensures var b := HeaderBlock(columnNames, columnTypes, model, headers, dataLines);
      var n := HeaderCount(headers, columnTypes);
      var first := if columnTypes.Some? then 5 else 4;
      |b| == n + 2
      && b[0] == "ODF 1.0" && b[1] == "HeaderLines=" + NatToString(n)
      && b[2] == ArrayLine("COLUMN_NAMES", columnNames)
      && (columnTypes.Some? ==> b[3] == ArrayLine("COLUMN_TYPES", columnTypes.value))
      && b[first - 1] == "Model=" + model
      && (forall i :: 0 <= i < |headers| ==> b[first + i] == headers[i].key + "=" + headers[i].value)
      && b[|b| - 1] == "DataLines=" + ValueOf(dataLines)
  {
    var b := HeaderBlock(columnNames, columnTypes, model, headers, dataLines);
    var first := if columnTypes.Some? then 5 else 4;
    var pre := Preamble(columnNames, columnTypes, model, headers);
    var hs := MapSeq(headers, HeaderLine);
    assert |pre| == first;
    assert b == pre + hs + ["DataLines=" + ValueOf(dataLines)];
    forall i | 0 <= i < |headers|
      ensures b[first + i] == headers[i].key + "=" + headers[i].value
    {
      assert b[first + i] == hs[i] == HeaderLine(headers[i]);
    }
  }

  /** Lines as text: each followed by a line break. */
  function Line(l: string): string {
    l + "\n"
  }

  function Text(lines: seq<string>): string {
    FlatMap(lines, Line)
  }

  /** The text of one run of lines and then another is the one text then the
      other. */
  lemma TextAppend(a: seq<string>, b: seq<string>)
    ensures Text(a + b) == Text(a) + Text(b)
  {
    FlatMapAppend(a, b, Line);
  }

  lemma TextOne(l: string)
    ensures Text([l]) == l + "\n"
  {
    assert Text([l]) == FlatMap([l][..0], Line) + Line(l);
    assert [l][..0] == [];
  }

  /** A writer of one ODF file. */
  class OdfWriter {
    /** The name of the file written, fixed by `FixName`. */
    const fileName: string
    const columnNames: seq<string>
    const model: string
    const dataLines: int
    var headers: seq<Header>
    var columnTypes: Option<seq<string>>
    /** Everything written so far. */
    var text: string

    /** A writer on `FixName(outputFileName)`, which starts with the execution log's
        lines when they are to be prepended (the log file's lines are given; none
        when it does not exist). */
    constructor (outputFileName: string, columnNames: seq<string>, model: string, dataLines: int,
                 prependExecutionLog: bool, executionLog: seq<string>)
      ensures fileName == FixName(outputFileName)
      ensures this.columnNames == columnNames && this.model == model && this.dataLines == dataLines
      ensures headers == [] && columnTypes == None
      ensures text == if prependExecutionLog then Text(executionLog) else ""
    {
      fileName := FixName(outputFileName);
      this.columnNames := columnNames;
      this.model := model;
      this.dataLines := dataLines;
      headers := [];
      columnTypes := None;
      text := if prependExecutionLog then Text(executionLog) else "";
    }

    method AddHeader(key: string, value: string)
      modifies this
      ensures headers == old(headers) + [Header(key, value)]
      ensures columnTypes == old(columnTypes) && text == old(text)
    {
      headers := headers + [Header(key, value)];
    }

    /** `addHeader(String, int)`: the value's decimal text. */
    method AddIntHeader(key: string, value: int)
      modifies this
      ensures headers == old(headers) + [Header(key, ValueOf(value))]
      ensures columnTypes == old(columnTypes) && text == old(text)
    {
      headers := headers + [Header(key, ValueOf(value))];
    }

    method SetColumnTypes(columnTypes: Option<seq<string>>)
      modifies this
      ensures this.columnTypes == columnTypes
      ensures headers == old(headers) && text == old(text)
    {
      this.columnTypes := columnTypes;
    }

    method Print(s: string)
      modifies this
      ensures text == old(text) + s
      ensures headers == old(headers) && columnTypes == old(columnTypes)
    {
      text := text + s;
    }

    method Println(s: string)
      modifies this
      ensures text == old(text) + s + "\n"
      ensures headers == old(headers) && columnTypes == old(columnTypes)
    {
      text := text + s + "\n";
    }

    /** `printArray`: one line, the key and the values. */
    method PrintArray(key: string, values: seq<string>)
      modifies this
      ensures text == old(text) + ArrayLine(key, values) + "\n"
      ensures headers == old(headers) && columnTypes == old(columnTypes)
    {
      Print(key + ":");
      ghost var start := text;
      for j := 0 to |values|
        invariant text == start + TabJoin(values[..j])
        invariant headers == old(headers) && columnTypes == old(columnTypes)
      {
        if j > 0 {
          Print([TAB]);
        }
        Print(values[j]);
        TabJoinSnoc(values[..j], values[j]);
        assert values[..j + 1] == values[..j] + [values[j]];
      }
      assert values[..|values|] == values;
      Println("");
    }

    /** `printHeader`: the header block. */
    method PrintHeader()
      modifies this
      ensures text == old(text) + Text(HeaderBlock(columnNames, columnTypes, model, headers, dataLines))
      ensures headers == old(headers) && columnTypes == old(columnTypes)
    {
      ghost var base := text;
      ghost var lines: seq<string> := [];
      Println("ODF 1.0");
      Wrote(text, base, lines, "ODF 1.0");
      lines := lines + ["ODF 1.0"];
      var headerLines := |headers| + 3;
      if columnTypes.Some? {
        headerLines := headerLines + 1;
      }
      Println("HeaderLines=" + NatToString(headerLines));
      Wrote(text, base, lines, "HeaderLines=" + NatToString(headerLines));
      lines := lines + ["HeaderLines=" + NatToString(headerLines)];
      PrintArray("COLUMN_NAMES", columnNames);
      Wrote(text, base, lines, ArrayLine("COLUMN_NAMES", columnNames));
      lines := lines + [ArrayLine("COLUMN_NAMES", columnNames)];
      if columnTypes.Some? {
        PrintArray("COLUMN_TYPES", columnTypes.value);
        Wrote(text, base, lines, ArrayLine("COLUMN_TYPES", columnTypes.value));
        lines := lines + [ArrayLine("COLUMN_TYPES", columnTypes.value)];
      }
      Println("Model=" + model);
      Wrote(text, base, lines, "Model=" + model);
      lines := lines + ["Model=" + model];
      assert lines == Preamble(columnNames, columnTypes, model, headers);
      PrintHeaderLines();
      Continued(text, base, lines, MapSeq(headers, HeaderLine));
      lines := lines + MapSeq(headers, HeaderLine);
      Println("DataLines=" + ValueOf(dataLines));
      Wrote(text, base, lines, "DataLines=" + ValueOf(dataLines));
    }

    /** The loop of `printHeader` over the headers, one `key=value` line each. */
    method PrintHeaderLines()
      modifies this
      ensures text == old(text) + Text(MapSeq(headers, HeaderLine))
      ensures headers == old(headers) && columnTypes == old(columnTypes)
    {
      ghost var base := text;
      for i := 0 to |headers|
        invariant headers == old(headers) && columnTypes == old(columnTypes)
        invariant text == base + Text(MapSeq(headers[..i], HeaderLine))
      {
        var h := headers[i];
        Print(h.key);
        Print("=");
        Println(h.value);
        HeaderWrote(text, base + Text(MapSeq(headers[..i], HeaderLine)), h);
        Wrote(text, base, MapSeq(headers[..i], HeaderLine), HeaderLine(h));
        MapSnoc(headers[..i], h, HeaderLine);
        assert headers[..i + 1] == headers[..i] + [h];
      }
      assert headers[..|headers|] == headers;
    }
  }

  /** Writing `b` after `a` gives the text of `a` and `b`. */
  lemma Continued(t: string, base: string, a: seq<string>, b: seq<string>)
    requires t == base + Text(a) + Text(b)
    ensures t == base + Text(a + b)
  {
    TextAppend(a, b);
    Assoc3(base, Text(a), Text(b));
  }

  /** The three prints of a header write its line. */
  lemma HeaderWrote(t: string, before: string, h: Header)
    requires t == before + h.key + "=" + h.value + "\n"
    ensures t == before + HeaderLine(h) + "\n"
  {
    Assoc4(before, h.key, "=", h.value);
  }

  /** Writing a line after `lines` gives the text of `lines` with that line. */
  lemma Wrote(t: string, base: string, lines: seq<string>, l: string)
    requires t == base + Text(lines) + l + "\n"
    ensures t == base + Text(lines + [l])
  {
    TextAppend(lines, [l]);
    TextOne(l);
  }

  lemma {:induction false} TabJoinSnoc(values: seq<string>, v: string)
    ensures TabJoin(values + [v]) == TabJoin(values) + (if |values| > 0 then [TAB] else []) + v
    decreases |values|
  {
    if |values| == 1 {
      assert (values + [v])[1..] == [v];
    } else if |values| > 1 {
      TabJoinSnoc(values[1..], v);
      assert (values + [v])[1..] == values[1..] + [v];
    }
  }
}

=== FILE: r_names.dfy ===
/** Legal R identifiers: the check `isRSafe` applies to task names, and `rEncode`,
    which writes any other name as a double-quoted R string literal. */
module RNames {
  import opened Wrappers
  import opened JavaText
  import opened Templating
  import opened Seqs

  /** The characters an R identifier may hold: ASCII letters, digits and the period. */
  const VALID_CHARS: set<char> :=
    set c: char | ('A' <= c <= 'Z') || ('a' <= c <= 'z') || ('0' <= c <= '9') || c == '.'

  /** The words R reserves, compared exactly (so "TRUE" is not among them). */
  const R_RESERVED: seq<string> :=
    ["if", "else", "repeat", "while", "function", "for", "in", "next", "break",
     "true", "false", "null", "na", "inf", "nan"]

  predicate IsDigit(c: char) {
    '0' <= c <= '9'
  }

  /** `isRSafe`: non-empty, no token left once the valid characters are taken as
      delimiters, not starting with a period or a digit, and not reserved. */
  predicate IsRSafe(name: string) {
    |name| > 0
    && |Tokens(name, VALID_CHARS)| == 0
    && name[0] != '.'
    && !IsDigit(name[0])
    && name !in R_RESERVED
  }

  /** The tokenizer test is the same as asking every character to be valid. */
  lemma RSafeIff(name: string)
    ensures IsRSafe(name) <==>
      (|name| > 0
       && (forall i :: 0 <= i < |name| ==> name[i] in VALID_CHARS)
       && name[0] != '.' && !IsDigit(name[0])
       && name !in R_RESERVED)
  {
    NoTokensIff(name, VALID_CHARS);
  }

  /** A safe name holds no double quote, so it never needs escaping. */
  lemma SafeHasNoQuote(name: string)
    requires IsRSafe(name)
    ensures '"' !in name
  {
    RSafeIff(name);
    assert '"' !in VALID_CHARS;
  }

  /** `rEncode`: a safe name as it is; any other name between double quotes, with
      each double quote inside escaped by a backslash. */
  function REncode(name: string): (r: string)
    ensures |r| >= |name|
  {
    if IsRSafe(name) then name
    else
      ReplaceAllOneChar(name, '"', "\\\"");
      EscapeLength(name);
      "\"" + ReplaceAll(name, "\"", "\\\"") + "\""
  }

  /** Escaping never shortens a name. */
  lemma {:induction false} EscapeLength(s: string)
    ensures |ReplaceChar(s, '"', "\\\"")| >= |s|
  {
    if |s| > 0 {
      EscapeLength(s[1..]);
    }
  }

  /** `rEncode` leaves a name unchanged exactly when the name is safe. */
  lemma REncodeIdentityIff(name: string)
    ensures REncode(name) == name <==> IsRSafe(name)
  {
    if !IsRSafe(name) {
      ReplaceAllOneChar(name, '"', "\\\"");
      EscapeLength(name);
      assert |REncode(name)| >= |name| + 2;
    }
  }

  /** Undoes the escaping of `rEncode`: each backslash followed by a double quote
      stands for the double quote, and every other character for itself. */
  function Unescape(t: string): (r: string)
    ensures |r| <= |t|
  {
    if |t| == 0 then ""
    else if |t| >= 2 && t[0] == '\\' && t[1] == '"' then "\"" + Unescape(t[2..])
    else [t[0]] + Unescape(t[1..])
  }

  /** The inverse of `rEncode` on its own terms: a quoted text loses its quotes and
      its escaped double quotes; anything else is the name itself. R's own reading
      of a string literal is `RRead` below. */
  function RDecode(t: string): string {
    if |t| >= 2 && t[0] == '"' && t[|t| - 1] == '"' then Unescape(t[1..|t| - 1]) else t
  }

  /** An escaped text never starts with a bare double quote. */
  lemma EscapedHead(s: string)
    requires |s| > 0
    ensures |ReplaceChar(s, '"', "\\\"")| > 0 && ReplaceChar(s, '"', "\\\"")[0] != '"'
  {
  }

  /** Unescaping undoes escaping. */
  lemma {:induction false} UnescapeEscape(s: string)
    ensures Unescape(ReplaceChar(s, '"', "\\\"")) == s
  {
    if |s| > 0 {
      var rest := ReplaceChar(s[1..], '"', "\\\"");
      UnescapeEscape(s[1..]);
      if s[0] == '"' {
        assert ReplaceChar(s, '"', "\\\"") == "\\\"" + rest;
        assert ("\\\"" + rest)[2..] == rest;
      } else {
        var t := [s[0]] + rest;
        assert ReplaceChar(s, '"', "\\\"") == t;
        if s[0] == '\\' && |rest| > 0 {
          EscapedHead(s[1..]);
          assert t[1] == rest[0];
        }
        ConsTail(s[0], rest);
        assert [s[0]] + s[1..] == s;
      }
    }
  }

  /** Stripping the quotes and undoing the quote escaping gives back the original
      name: `rEncode` loses nothing. */
  lemma DecodeEncode(name: string)
    ensures RDecode(REncode(name)) == name
  {
    if IsRSafe(name) {
      SafeHasNoQuote(name);
      if |name| >= 2 {
        assert name[0] != '"';
      }
    } else {
      ReplaceAllOneChar(name, '"', "\\\"");
      var e := ReplaceChar(name, '"', "\\\"");
      var t := "\"" + e + "\"";
      assert t[1..|t| - 1] == e;
      UnescapeEscape(name);
    }
  }

  // -------------------------------------------------- how R reads a string literal

  /** The character an R escape `\c` stands for, for the escapes that name a single
      character (section 10.3.1 of the R Language Definition, "Constants"). */
  function REscape(c: char): Option<char> {
    match c
    case '\\' => Some('\\')
    case '"' => Some('"')
    case '\'' => Some('\'')
    case 'n' => Some('\n')
    case 'r' => Some('\r')
    case 't' => Some('\t')
    case 'a' => Some('\U{0007}')
    case 'b' => Some('\U{0008}')
    case 'f' => Some('\U{000C}')
    case 'v' => Some('\U{000B}')
    case _ => None
  }

  /** R reading the characters after an opening double quote: the string's value up
      to the closing quote, and the text after that quote; None when the quote is
      never closed or an escape is not one of `REscape`'s. */
  function ReadBody(t: string): Option<(string, string)> {
    if |t| == 0 then None
    else if t[0] == '"' then Some(("", t[1..]))
    else if t[0] == '\\' then
      if |t| < 2 then None
      else match (REscape(t[1]), ReadBody(t[2..]))
        case (Some(c), Some((v, rest))) => Some(([c] + v, rest))
        case _ => None
    else match ReadBody(t[1..])
      case Some((v, rest)) => Some(([t[0]] + v, rest))
      case None => None
  }

  /** The words R's parser reserves, case-sensitively (section 10.3.3 of the R
      Language Definition, "Reserved words"): the keywords and the constants. */
  const R_KEYWORDS: seq<string> :=
    ["if", "else", "repeat", "while", "function", "for", "in", "next", "break",
     "TRUE", "FALSE", "NULL", "Inf", "NaN", "NA", "NA_integer_", "NA_real_",
     "NA_character_", "NA_complex_"]

  /** R reading a name written into a script: a double-quoted literal with nothing
      after its closing quote is its value, and an identifier that `isRSafe` accepts
      is itself unless R reserves the word. Any other text is taken as not a name
      (R accepts more identifiers, such as ones with an underscore, but `rEncode`
      never writes them bare). */
  function RRead(t: string): Option<string> {
    if |t| > 0 && t[0] == '"' then
      match ReadBody(t[1..])
      case Some((v, rest)) => if rest == "" then Some(v) else None
      case None => None
    else if IsRSafe(t) && t !in R_KEYWORDS then Some(t)
    else None
  }

  /** `rEncode` as written escapes double quotes only, so R cannot read back the
      name `a\`: its backslash escapes the closing quote. */
  lemma BackslashUnreadable()
    ensures REncode("a\\") == "\"a\\\"" && RRead(REncode("a\\")) == None
  {
    var name := "a\\";
    RSafeIff(name);
    assert name[1] !in VALID_CHARS;
    ReplaceAllOneChar(name, '"', "\\\"");
    assert ReplaceChar(name[1..], '"', "\\\"") == name[1..] by {
      assert name[1..] == "\\";
      assert ReplaceChar("", '"', "\\\"") == "";
    }
    assert [name[0]] + name[1..] == name;
    var t := "\"a\\\"";
    assert t[1..] == "a\\\"";
    assert ReadBody("\\\"") == None by {
      assert "\\\""[2..] == "";
    }
    assert "a\\\""[1..] == "\\\"";
  }

  /** ... and R reads the name `a\n` (a backslash and the letter n) as "a" and a
      newline. */
  lemma BackslashMisread()
    ensures REncode("a\\n") == "\"a\\n\"" && RRead(REncode("a\\n")) == Some("a\n")
  {
    var name := "a\\n";
    RSafeIff(name);
    assert name[1] !in VALID_CHARS;
    ReplaceAllOneChar(name, '"', "\\\"");
    assert ReplaceChar(name[1..], '"', "\\\"") == name[1..] by {
      assert name[1..] == "\\n";
      assert name[1..][1..] == "n";
      assert ReplaceChar("n", '"', "\\\"") == "n" by {
        assert "n"[1..] == "";
      }
    }
    assert [name[0]] + name[1..] == name;
    assert ReadBody("\\n\"") == Some(("\n", "")) by {
      assert "\\n\""[2..] == "\"";
      assert ReadBody("\"") == Some(("", "")) by {
        assert "\""[1..] == "";
      }
      assert REscape('n') == Some('\n');
      assert ['\n'] + "" == "\n";
    }
    assert ReadBody("a\\n\"") == Some(("a\n", "")) by {
      assert "a\\n\""[1..] == "\\n\"";
      assert ['a'] + "\n" == "a\n";
    }
    assert "\"a\\n\""[1..] == "a\\n\"";
  }

  /** `isRSafe` compares with lower-case words only, so it accepts `TRUE`, which
      `rEncode` then writes bare and R reads as the logical constant, not as a name. */
  lemma ConstantUnread()
    ensures IsRSafe("TRUE") && REncode("TRUE") == "TRUE" && RRead(REncode("TRUE")) == None
  {
    var name := "TRUE";
    RSafeIff(name);
    assert forall i :: 0 <= i < |name| ==> name[i] in VALID_CHARS;
    assert name in R_KEYWORDS;
  }

  /** The escaping `rEncode` evidently intends: a backslash before each backslash
      and each double quote, as an R string literal needs. */
  function EscapeForR(s: string): (r: string)
    ensures |r| >= |s|
  {
    if |s| == 0 then ""
    else (if s[0] == '\\' || s[0] == '"' then ['\\', s[0]] else [s[0]]) + EscapeForR(s[1..])
  }

  /** The safety test `isRSafe` evidently intends: also refusing the words R
      reserves in their own case, such as `TRUE` and `NA`. */
  predicate IsRSafeForR(name: string) {
    IsRSafe(name) && name !in R_KEYWORDS
  }

  /** `rEncode` with that test and that escaping: a safe name as it is, any other
      name as an R string literal. */
  function REncodeForR(name: string): string {
    if IsRSafeForR(name) then name else "\"" + EscapeForR(name) + "\""
  }

  /** R reads an escaped text followed by the closing quote as the text itself. */
  lemma {:induction false} ReadEscaped(s: string, rest: string)
    ensures ReadBody(EscapeForR(s) + "\"" + rest) == Some((s, rest))
  {
    var t := EscapeForR(s) + "\"" + rest;
    if |s| == 0 {
      assert t == "\"" + rest;
      assert t[1..] == rest;
    } else {
      ReadEscaped(s[1..], rest);
      var tail := EscapeForR(s[1..]) + "\"" + rest;
      if s[0] == '\\' || s[0] == '"' {
        assert t == ['\\', s[0]] + tail;
        assert t[2..] == tail;
      } else {
        assert t == [s[0]] + tail;
        assert t[1..] == tail;
      }
      assert [s[0]] + s[1..] == s;
    }
  }

  /** R reads back every name the corrected encoding writes, safe or not. */
  lemma RReadEncodeForR(name: string)
    ensures RRead(REncodeForR(name)) == Some(name)
  {
    if IsRSafeForR(name) {
      SafeHasNoQuote(name);
    } else {
      var t := "\"" + EscapeForR(name) + "\"";
      assert t[1..] == EscapeForR(name) + "\"" + "";
      ReadEscaped(name, "");
    }
  }

  /** Without a backslash in the name, the two escapings agree. */
  lemma {:induction false} EscapeAgrees(s: string)
    requires '\\' !in s
    ensures EscapeForR(s) == ReplaceChar(s, '"', "\\\"")
  {
    if |s| > 0 {
      EscapeAgrees(s[1..]);
    }
  }

  /** So R reads back what `rEncode` as written produces for every name without a
      backslash, except a word R reserves that `isRSafe` lets through bare, which R
      does not read as a name at all. */
  lemma RReadEncode(name: string)
    requires '\\' !in name
    ensures RRead(REncode(name)) == (if IsRSafe(name) && name in R_KEYWORDS then None else Some(name))
  {
    if !IsRSafe(name) {
      ReplaceAllOneChar(name, '"', "\\\"");
      EscapeAgrees(name);
      RReadEncodeForR(name);
    } else if name !in R_KEYWORDS {
      RReadEncodeForR(name);
    } else {
      SafeHasNoQuote(name);
    }
  }
}

=== FILE: seqs.dfy ===
/** Small facts about sequences, each stated in the exact shape the proofs elsewhere
    need, so that those proofs close by rewriting rather than by re-deriving
    sequence equalities element by element. */
module Seqs {
  lemma Assoc3<T>(a: seq<T>, b: seq<T>, c: seq<T>)
    ensures a + (b + c) == a + b + c
  {
  }

  lemma Assoc4<T>(a: seq<T>, b: seq<T>, c: seq<T>, d: seq<T>)
    ensures a + (b + c + d) == a + b + c + d
  {
  }

  lemma SplitAt<T>(s: seq<T>, k: nat)
    requires k <= |s|
    ensures s[..k] + s[k..] == s
  {
  }

  lemma Halves<T>(p: seq<T>, q: seq<T>)
    ensures (p + q)[..|p|] == p && (p + q)[|p|..] == q
  {
  }

  lemma SliceCons<T>(s: seq<T>, i: nat, k: nat)
    requires i < k <= |s|
    ensures s[i..k] == [s[i]] + s[i + 1..k]
  {
  }

  lemma SliceOfConcat<T>(a: seq<T>, b: seq<T>, k: nat)
    requires k <= |b|
    ensures (a + b)[..|a| + k] == a + b[..k] && (a + b)[|a| + k..] == b[k..]
  {
  }

  lemma SliceOfConcatMid<T>(a: seq<T>, b: seq<T>, i: nat, j: nat)
    requires i <= j <= |b|
    ensures (a + b)[|a| + i..|a| + j] == b[i..j]
  {
  }

  lemma TailSlice<T>(s: seq<T>, i: nat, j: nat)
    requires 0 < |s| && i <= j <= |s| - 1
    ensures s[1..][i..j] == s[i + 1..j + 1]
  {
  }

  lemma TailDrop<T>(s: seq<T>, i: nat)
    requires 0 < |s| && i <= |s| - 1
    ensures s[1..][i..] == s[i + 1..]
  {
  }

  lemma ConsTail<T>(x: T, ys: seq<T>)
    ensures ([x] + ys)[1..] == ys
  {
  }

  lemma TakeSnoc<T>(s: seq<T>, k: nat)
    requires k < |s|
    ensures s[..k + 1] == s[..k] + [s[k]]
  {
  }

  lemma SliceSnoc<T>(s: seq<T>, i: nat, k: nat)
    requires i <= k < |s|
    ensures s[i..k + 1] == s[i..k] + [s[k]]
  {
  }

  lemma DropCons<T>(s: seq<T>, k: nat)
    requires k < |s|
    ensures s[k..] == [s[k]] + s[k + 1..]
  {
  }

  /** Writing then removing the slot just after a prefix. */
  lemma WriteSlot<T>(p: seq<T>, x: T, v: T, rest: seq<T>)
    ensures (p + [x] + rest)[|p| := v] == p + [v] + rest
  {
  }

  lemma RemoveSlot<T>(p: seq<T>, v: T, rest: seq<T>)
    ensures (p + [v] + rest)[..|p|] + (p + [v] + rest)[|p| + 1..] == p + rest
  {
  }

  /** One element put in front shifts the last element of `w` to the end. */
  lemma ConsLast<T>(x: T, w: seq<T>)
    requires |w| > 0
    ensures ([x] + w)[|w|..] == [w[|w| - 1]]
  {
    assert ([x] + w)[|w|..][0] == w[|w| - 1];
  }

  lemma DropDrop<T>(s: seq<T>, i: nat, j: nat)
    requires i + j <= |s|
    ensures s[i..][j..] == s[i + j..]
  {
  }

  lemma DropSlice<T>(s: seq<T>, i: nat, a: nat, b: nat)
    requires i + a <= i + b <= |s|
    ensures s[i..][a..b] == s[i + a..i + b]
  {
  }

  lemma InPrefix<T>(a: seq<T>, b: seq<T>, x: T)
    requires a <= b && x in a
    ensures x in b
  {
    var k :| 0 <= k < |a| && a[k] == x;
    assert b[k] == x;
  }

  lemma PrefixTrans<T>(a: seq<T>, b: seq<T>, c: seq<T>)
    requires a <= b && b <= c
    ensures a <= c
  {
  }

  lemma PrefixOfConcat<T>(a: seq<T>, b: seq<T>)
    ensures a <= a + b
  {
  }

  lemma EmptyLast<T>(a: seq<T>, f: seq<T>, b: seq<T>)
    requires b == []
    ensures a + f + b == (a + b) + f
  {
    assert a + f + b == a + f;
    assert a + b == a;
  }

  lemma EmptyMid<T>(a: seq<T>, f: seq<T>, b: seq<T>)
    requires f == []
    ensures a + f + b == (a + b) + f
  {
    assert a + f == a;
    assert (a + b) + f == a + b;
  }

  lemma InMultiset<T>(r: seq<T>, o: seq<T>, x: T)
    requires multiset(r) == multiset(o) && x in r
    ensures x in o
  {
    assert x in multiset(r);
  }

  /** Different tails after the same head make different sequences. */
  lemma AppendDiffers<T>(h: seq<T>, a: seq<T>, b: seq<T>)
    requires a != b
    ensures h + a != h + b
  {
    assert (h + a)[|h|..] == a;
    assert (h + b)[|h|..] == b;
  }

  /** `f` applied to every element, in order. */
  function MapSeq<A, B>(s: seq<A>, f: A -> B): (r: seq<B>)
    ensures |r| == |s|
  {
    seq(|s|, m requires 0 <= m < |s| => f(s[m]))
  }

  lemma MapSnoc<A, B>(s: seq<A>, x: A, f: A -> B)
    ensures MapSeq(s + [x], f) == MapSeq(s, f) + [f(x)]
  {
    var a := MapSeq(s + [x], f);
    var b := MapSeq(s, f) + [f(x)];
    forall m | 0 <= m < |a|
      ensures a[m] == b[m]
    {
      if m < |s| {
        assert (s + [x])[m] == s[m];
      }
    }
  }

  /** The pieces `f` gives for the elements of `s`, joined in order. */
  function FlatMap<A, B>(s: seq<A>, f: A -> seq<B>): seq<B> {
    if |s| == 0 then [] else FlatMap(s[..|s| - 1], f) + f(s[|s| - 1])
  }

  lemma {:induction false} FlatMapAppend<A, B>(a: seq<A>, b: seq<A>, f: A -> seq<B>)
    ensures FlatMap(a + b, f) == FlatMap(a, f) + FlatMap(b, f)
    decreases |b|
  {
    if |b| == 0 {
      assert a + b == a;
    } else {
      var n := |b| - 1;
      assert (a + b)[..|a| + n] == a + b[..n];
      FlatMapAppend(a, b[..n], f);
    }
  }

  lemma {:induction false} FlatMapEmpty<A, B>(s: seq<A>, f: A -> seq<B>)
    ensures FlatMap(s, f) == [] <==> forall i :: 0 <= i < |s| ==> f(s[i]) == []
    decreases |s|
  {
    if |s| > 0 {
      var n := |s| - 1;
      FlatMapEmpty(s[..n], f);
      if FlatMap(s, f) == [] {
        forall i | 0 <= i < |s| ensures f(s[i]) == [] {
          if i < n {
            assert s[..n][i] == s[i];
          }
        }
      } else if FlatMap(s[..n], f) != [] {
        var i :| 0 <= i < n && f(s[..n][i]) != [];
        assert s[..n][i] == s[i];
      }
    }
  }

  lemma {:induction false} FlatMapFrom<A, B>(s: seq<A>, f: A -> seq<B>, y: B)
    requires y in FlatMap(s, f)
    ensures exists i :: 0 <= i < |s| && y in f(s[i])
    decreases |s|
  {
    var n := |s| - 1;
    if y !in f(s[n]) {
      FlatMapFrom(s[..n], f, y);
      var i :| 0 <= i < n && y in f(s[..n][i]);
      assert s[..n][i] == s[i];
    }
  }

  /** The elements of `s` that satisfy `p`, in order. */
  function Filter<T>(s: seq<T>, p: T -> bool): (r: seq<T>)
    ensures |r| <= |s|
  {
    if |s| == 0 then [] else Filter(s[..|s| - 1], p) + (if p(s[|s| - 1]) then [s[|s| - 1]] else [])
  }

  lemma {:induction false} FilterIn<T>(s: seq<T>, p: T -> bool, x: T)
    ensures x in Filter(s, p) <==> x in s && p(x)
    decreases |s|
  {
    if |s| > 0 {
      var n := |s| - 1;
      FilterIn(s[..n], p, x);
      assert s == s[..n] + [s[n]];
    }
  }

  lemma {:induction false} FilterAppend<T>(a: seq<T>, b: seq<T>, p: T -> bool)
    ensures Filter(a + b, p) == Filter(a, p) + Filter(b, p)
    decreases |b|
  {
    if |b| == 0 {
      assert a + b == a;
    } else {
      var n := |b| - 1;
      var last := if p(b[n]) then [b[n]] else [];
      assert (a + b)[..|a| + n] == a + b[..n];
      assert (a + b)[|a| + n] == b[n];
      assert Filter(a + b, p) == Filter(a + b[..n], p) + last;
      FilterAppend(a, b[..n], p);
      Assoc3(Filter(a, p), Filter(b[..n], p), last);
    }
  }
}

=== FILE: server_settings.dfy ===
/** The administrator's server-settings page: edits of the server's property table,
    several of whose entries hold comma-separated lists (the allowed client domains,
    the module and suite repository URLs). Reading, writing and persisting the
    property files, and the page framework, are outside the model; the tables are
    values the page object holds and updates. */
module Settings {
  import opened Wrappers
  import opened JavaText
  import opened Seqs

  type Props = map<string, string>

  const CLIENTS := "gp.allowed.clients"
  const LOCAL := "Local"
  const ANY := "Any"
  const SPECIFIED := "Specified"

  /** The page's modes and the property keys each one edits (none for the modes
      that are not property editors). */
  const MODES: map<string, Option<seq<string>>> := map[
    "Access" := Some([CLIENTS]),
    "Command Line Prefix" := Some([CLIENTS]),
    "File Purge" := Some(["purgeJobsAfter", "purgeTime"]),
    "Java Flag" := Some(["java_flags", "visualizer_java_flags", "r_flags"]),
    "Gene Pattern Log" := None,
    "Web Server Log" := None,
    "Repositories" := Some(["ModuleRepositoryURL", "ModuleRepositoryURLs",
                            "SuiteRepositoryURL", "SuiteRepositoryURLs"]),
    "Proxy" := Some(["http.proxyHost", "http.proxyPort", "http.proxyUser", "http.proxyPassword",
                     "ftp.proxyHost", "ftp.proxyPort", "ftp.proxyUser", "ftp.proxyPassword"]),
    "Database" := Some(["database.vendor", "HSQL_port", "HSQL.class", "HSQL.args", "HSQL.schema",
                        "hibernate.connection.driver_class", "hibernate.connection.shutdown",
                        "hibernate.connection.url", "hibernate.connection.username",
                        "hibernate.connection.password", "hibernate.dialect",
                        "hibernate.default_schema", "hibernate.connection.SetBigStringTryClob"]),
    "Programming Languages" := Some(["perl", "java", "R"]),
    "Advanced" := Some(["DefaultPatchRepositoryURL", "DefaultPatchURL", "patchQualifiers", "patches",
                        "ant", "resources", "index", "tasklib", "jobs", "tomcatCommonLib", "webappDir",
                        "log4j.appender.R.File", "pipeline.cp", "pipeline.main", "pipeline.vmargs",
                        "pipeline.decorator", "installedPatchLSIDs", "JavaGEInstallerURL", "num.threads"]),
    "Custom" := None,
    "Shut Down Server" := None]

  /** The first mode in sorted order, the one the page opens on. */
  const FIRST_MODE := "Access"

  /** A repository list: the key of the current URL, of the list, and of the
      default URL in the default settings. */
  datatype Repo = ModuleRepo | SuiteRepo {
    function CurrentKey(): string {
      if this == ModuleRepo then "ModuleRepositoryURL" else "SuiteRepositoryURL"
    }
    function ListKey(): string {
      if this == ModuleRepo then "ModuleRepositoryURLs" else "SuiteRepositoryURLs"
    }
    function DefaultKey(): string {
      if this == ModuleRepo then "DefaultModuleRepositoryURL" else "DefaultSuiteRepositoryURL"
    }
  }

  function Get(s: Props, key: string): Option<string> {
    if key in s then Some(s[key]) else None
  }

  // ---------------------------------------------------------------- client mode

  /** `getCurrentClientMode`: the stored value when it is "Local" or "Any", and
      "Specified" for anything else, a missing entry included. */
  function ClientModeOf(s: Props): (m: string)
    ensures m == LOCAL || m == ANY || m == SPECIFIED
    ensures m != SPECIFIED ==> Get(s, CLIENTS) == Some(m)
    ensures Get(s, CLIENTS) == Some(LOCAL) || Get(s, CLIENTS) == Some(ANY) ==> Get(s, CLIENTS) == Some(m)
  {
    var stored := Get(s, CLIENTS);
    if stored == Some(LOCAL) || stored == Some(ANY) then stored.value else SPECIFIED
  }

  // ---------------------------------------------------------------- comma lists

  /** What the string buffers of the list edits hold: each element followed by a
      comma. */
  function Terminated(xs: seq<string>): string {
    if |xs| == 0 then "" else Terminated(xs[..|xs| - 1]) + xs[|xs| - 1] + ","
  }

  /** Cutting the last comma off the buffer gives the joined list. */
  lemma {:induction false} TerminatedJoin(xs: seq<string>)
    requires |xs| > 0
    ensures Terminated(xs) == Join(xs) + ","
    decreases |xs|
  {
    var n := |xs| - 1;
    if n == 0 {
      assert Terminated(xs) == Terminated([]) + xs[0] + ",";
    } else {
      TerminatedJoin(xs[..n]);
      JoinSnoc(xs[..n], xs[n]);
      assert xs[..n] + [xs[n]] == xs;
    }
  }

  /** The buffer is empty exactly when the list is. */
  lemma TerminatedEmpty(xs: seq<string>)
    ensures |Terminated(xs)| == 0 <==> |xs| == 0
  {
    if |xs| > 0 {
      TerminatedJoin(xs);
    }
  }

  /** The buffer without its last comma, or "" when it is empty. */
  function Cut(buf: string): string {
    if |buf| > 0 then buf[..|buf| - 1] else ""
  }

  lemma CutTerminated(xs: seq<string>)
    ensures Cut(Terminated(xs)) == Join(xs)
  {
    if |xs| > 0 {
      TerminatedJoin(xs);
      var j := Join(xs);
      assert (j + ",")[..|j|] == j;
    }
  }

  /** The loop that copies the elements `keep` accepts into a buffer. */
  method Collect(result: seq<string>, keep: string -> bool) returns (buf: string)
    ensures buf == Terminated(Filter(result, keep))
  {
    buf := "";
    var i := 0;
    while i < |result|
      invariant 0 <= i <= |result|
      invariant buf == Terminated(Filter(result[..i], keep))
    {
      assert result[..i + 1][..i] == result[..i];
      ghost var kept := Filter(result[..i], keep);
      if keep(result[i]) {
        assert (kept + [result[i]])[..|kept|] == kept;
        buf := buf + result[i] + ",";
      } else {
        assert kept + [] == kept;
      }
      i := i + 1;
    }
    assert result[..i] == result;
  }

  /** The search loop, which stops at the first element equal to `x`; a missing `x`
      equals nothing. */
  method Occurs(result: seq<string>, x: Option<string>) returns (exist: bool)
    ensures exist <==> x.Some? && x.value in result
  {
    exist := false;
    var i := 0;
    while i < |result|
      invariant 0 <= i <= |result|
      invariant !exist && !(x.Some? && x.value in result[..i])
    {
      if Some(result[i]) == x {
        exist := true;
        break;
      }
      assert result[..i + 1] == result[..i] + [result[i]];
      i := i + 1;
    }
    assert !exist ==> result[..i] == result;
  }

  function Other(mode: Option<string>): string -> bool {
    x => Some(x) != mode
  }

  /** `removeDomain` on a list value: the entries other than `mode`, rejoined. */
  function RemoveDomainValue(all: string, mode: Option<string>): string {
    Join(Filter(Split(all), Other(mode)))
  }

  /** `removeDomain`: a missing entry is dereferenced. */
  function RemoveDomainIn(s: Props, mode: Option<string>): Result<Props, JavaError> {
    if CLIENTS !in s then Err(NullPointer)
    else Ok(s[CLIENTS := RemoveDomainValue(s[CLIENTS], mode)])
  }

  /** Removal keeps the entries other than `mode`, in order; rejoins them with a
      comma between each two; leaves "" when none remains; and the value it leaves
      splits into kept entries only. */
  lemma RemoveDomainSpec(all: string, mode: Option<string>, x: string)
    ensures var kept := Filter(Split(all), Other(mode));
      (x in kept <==> x in Split(all) && Some(x) != mode)
      && RemoveDomainValue(all, mode) == Join(kept)
      && (kept == [] ==> RemoveDomainValue(all, mode) == "")
      && (kept != [] && x in Split(RemoveDomainValue(all, mode)) ==> x in kept)
  {
    var kept := Filter(Split(all), Other(mode));
    FilterIn(Split(all), Other(mode), x);
    if kept != [] && x in Split(RemoveDomainValue(all, mode)) {
      forall i | 0 <= i < |kept| ensures ',' !in kept[i] {
        FilterIn(Split(all), Other(mode), kept[i]);
      }
      SplitJoinWithin(kept, x);
    }
  }

  /** After a removal the value splits into no piece equal to `mode`, unless
      nothing was left and `mode` is the empty string. */
  lemma RemovedDomainGone(all: string, mode: string)
    requires mode != ""
    ensures mode !in Split(RemoveDomainValue(all, Some(mode)))
  {
    var kept := Filter(Split(all), Other(Some(mode)));
    RemoveDomainSpec(all, Some(mode), mode);
  }

  /** A value without `d` among its pieces has none after a removal either. */
  lemma RemoveDomainKeepsOut(all: string, mode: Option<string>, d: string)
    requires d != "" && d !in Split(all)
    ensures d !in Split(RemoveDomainValue(all, mode))
  {
    RemoveDomainSpec(all, mode, d);
  }

  /** Every piece of the split is one of the pieces between commas. */
  lemma SplitOnlyAll(s: string, x: string)
    requires x in Split(s)
    ensures x in SplitAll(s)
  {
    if ',' !in s {
      IndexOfCharNone(s, ',', 0);
    } else {
      var r := Split(s);
      var i :| 0 <= i < |r| && r[i] == x;
      assert SplitAll(s)[i] == x;
    }
  }

  /** Appending a comma and an entry to a list value adds that entry and keeps the
      non-empty entries already there, and no other. */
  lemma AppendEntry(a: string, d: string, x: string)
    requires d != "" && ',' !in d && x != ""
    ensures d in Split(a + "," + d)
    ensures x in Split(a + "," + d) <==> x == d || x in Split(a)
  {
    var v := a + "," + d;
    SplitAllSnoc(a, d);
    SplitAllInSplit(v, d);
    if x in Split(a) {
      SplitOnlyAll(a, x);
      SplitAllInSplit(v, x);
    }
    if x in Split(v) && x != d {
      assert ',' in v by {
        assert v[|a|] == ',';
      }
      SplitOnlyAll(v, x);
      SplitAllInSplit(a, x);
    }
  }

  /** A list value with `d` added unless it is there; an empty list becomes `d`. */
  function AddedDomain(all: string, d: string): string {
    if d in Split(all) then all else if |all| > 0 then all + "," + d else d
  }

  /** Adding a domain puts it on the list, keeps the other domains, adds no other,
      and changes nothing when the domain is already there. */
  lemma AddedDomainSpec(all: string, d: string, x: string)
    requires d != "" && ',' !in d && x != ""
    ensures d in Split(AddedDomain(all, d))
    ensures x in Split(AddedDomain(all, d)) <==> x == d || x in Split(all)
    ensures d in Split(all) ==> AddedDomain(all, d) == all
  {
    if d !in Split(all) {
      if |all| > 0 {
        AppendEntry(all, d, x);
      } else {
        IndexOfCharNone(d, ',', 0);
        assert Split(d) == [d];
        assert Split(all) == [""];
      }
    }
  }

  /** `addSpecifiedClientMode`: only in the Specified mode; "Local" and "Any" are
      removed, then the specified domain is added at the end unless it is there; a
      domain that is not set is dereferenced, after the removals took effect. */
  function AddSpecified(s: Props, currentClientMode: string, specified: Option<string>)
    : (Props, Result<(), JavaError>)
  {
    if currentClientMode != SPECIFIED then (s, Ok(()))
    else match RemoveDomainIn(s, Some(LOCAL))
      case Err(e) => (s, Err(e))
      case Ok(s1) =>
        var s2 := RemoveDomainIn(s1, Some(ANY)).value;
        if specified.None? then (s2, Err(NullPointer))
        else (s2[CLIENTS := AddedDomain(s2[CLIENTS], specified.value)], Ok(()))
  }

  /** The domains list after the two removals. */
  function WithoutLocalAny(all: string): string {
    RemoveDomainValue(RemoveDomainValue(all, Some(LOCAL)), Some(ANY))
  }

  /** "Local" and "Any" are no longer on the list after the two removals. */
  lemma WithoutLocalAnySpec(all: string)
    ensures LOCAL !in Split(WithoutLocalAny(all)) && ANY !in Split(WithoutLocalAny(all))
  {
    var v1 := RemoveDomainValue(all, Some(LOCAL));
    RemovedDomainGone(all, LOCAL);
    RemoveDomainKeepsOut(v1, Some(ANY), LOCAL);
    RemovedDomainGone(v1, ANY);
  }

  /** In the Specified mode, adding a domain (set, non-empty, without a comma) leaves
      it among the domains, leaves neither "Local" nor "Any" (unless that is the
      domain added), adds nothing when it was already there, and changes no other
      entry. In any other mode nothing changes. */
  lemma AddSpecifiedSpec(s: Props, currentClientMode: string, d: string)
    requires CLIENTS in s && d != "" && ',' !in d
    ensures var (s', r) := AddSpecified(s, currentClientMode, Some(d));
      r.Ok?
      && (currentClientMode != SPECIFIED ==> s' == s)
      && (currentClientMode == SPECIFIED ==>
            var v := s'[CLIENTS];
            d in Split(v)
            && (d != LOCAL ==> LOCAL !in Split(v))
            && (d != ANY ==> ANY !in Split(v))
            && (d in Split(WithoutLocalAny(s[CLIENTS])) ==> v == WithoutLocalAny(s[CLIENTS]))
            && s'.Keys == s.Keys && (forall k :: k in s && k != CLIENTS ==> s'[k] == s[k]))
  {
    if currentClientMode == SPECIFIED {
      var v2 := WithoutLocalAny(s[CLIENTS]);
      WithoutLocalAnySpec(s[CLIENTS]);
      AddedDomainSpec(v2, d, LOCAL);
      AddedDomainSpec(v2, d, ANY);
    }
  }

  // ---------------------------------------------------------------- repositories

  /** `addRepositoryURL`: the current URL is appended to the list unless it is there;
      a missing list, or a missing current URL that must be appended, is
      dereferenced. */
  function AddRepository(s: Props, repo: Repo): (Props, Result<(), JavaError>) {
    if repo.ListKey() !in s then (s, Err(NullPointer))
    else
      var urls := s[repo.ListKey()];
      var current := Get(s, repo.CurrentKey());
      if current.Some? && current.value in Split(urls) then (s[repo.ListKey() := urls], Ok(()))
      else if current.None? then (s, Err(NullPointer))
      else (s[repo.ListKey() := urls + "," + current.value], Ok(()))
  }

  /** Adding puts the current URL among the list's URLs, keeps the URLs already
      there and adds no other, and adding again changes nothing. */
  lemma AddRepositorySpec(s: Props, repo: Repo, x: string)
    requires repo.ListKey() in s && repo.CurrentKey() in s
    requires s[repo.CurrentKey()] != "" && ',' !in s[repo.CurrentKey()] && x != ""
    ensures var (s', r) := AddRepository(s, repo);
      var cur := s[repo.CurrentKey()];
      r.Ok? && cur in Split(s'[repo.ListKey()])
      && (x in Split(s'[repo.ListKey()]) <==> x == cur || x in Split(s[repo.ListKey()]))
      && (cur in Split(s[repo.ListKey()]) ==> s' == s)
      && AddRepository(s', repo) == (s', Ok(()))
  {
    var urls := s[repo.ListKey()];
    var cur := s[repo.CurrentKey()];
    var s' := AddRepository(s, repo).0;
    assert |repo.CurrentKey()| != |repo.ListKey()|;
    if cur !in Split(urls) {
      AppendEntry(urls, cur, x);
      assert s'[repo.CurrentKey()] == cur;
      assert s'[repo.ListKey() := s'[repo.ListKey()]] == s';
    } else {
      assert s[repo.ListKey() := urls] == s;
    }
  }

  function NeitherOf(default: string, current: Option<string>): string -> bool {
    x => x != default && Some(x) != current
  }

  /** The list a removal leaves: the default, then the URLs that are neither the
      default nor the current one. */
  function DefaultFirst(urls: string, default: string, current: Option<string>): string {
    Join([default] + Filter(Split(urls), NeitherOf(default, current)))
  }

  /** The new list starts with the default (when that is not empty), holds neither
      the current URL nor a second copy of the default, and every other URL of the
      old list is on it. */
  lemma DefaultFirstSpec(urls: string, default: string, current: Option<string>, x: string)
    requires ',' !in default
    ensures var v := DefaultFirst(urls, default, current);
      (x in Split(v) ==> x == default || (x in Split(urls) && Some(x) != current))
      && (x in Split(urls) && x != default && Some(x) != current && x != "" ==> x in Split(v))
      && (default != "" ==> |Split(v)| > 0 && Split(v)[0] == default)
      && (forall i :: 0 < i < |Split(v)| ==> Split(v)[i] != default)
  {
    var kept := Filter(Split(urls), NeitherOf(default, current));
    var xs := [default] + kept;
    FilterIn(Split(urls), NeitherOf(default, current), x);
    forall i | 0 <= i < |xs| ensures ',' !in xs[i] {
      if i > 0 {
        FilterIn(Split(urls), NeitherOf(default, current), xs[i]);
      }
    }
    if x in Split(Join(xs)) {
      SplitJoinWithin(xs, x);
    }
    if x in kept && x != "" {
      KeptInJoin(xs, x);
    }
    if default != "" {
      FirstPiece(xs);
    }
    SplitJoinPrefix(xs);
    var r := Split(Join(xs));
    forall i | 0 < i < |r| ensures r[i] != default {
      assert r[i] == xs[i] == kept[i - 1];
      FilterIn(Split(urls), NeitherOf(default, current), r[i]);
    }
  }

  /** A non-empty element of a comma-free list is one of the pieces of its join. */
  lemma KeptInJoin(xs: seq<string>, x: string)
    requires x in xs && x != ""
    requires forall i :: 0 <= i < |xs| ==> ',' !in xs[i]
    ensures x in Split(Join(xs))
  {
    SplitAllJoin(xs);
    SplitAllInSplit(Join(xs), x);
  }

  /** `removeRepositoryURL`: unless the current URL is the default, the list becomes
      the default followed by the URLs that are neither the default nor the current
      one. A missing list, and a missing default, are dereferenced. */
  function RemoveRepository(s: Props, repo: Repo, default: Option<string>): (Props, Result<(), JavaError>) {
    if repo.ListKey() !in s || default.None? then (s, Err(NullPointer))
    else
      var current := Get(s, repo.CurrentKey());
      if Some(default.value) == current then (s, Ok(()))
      else (s[repo.ListKey() := DefaultFirst(s[repo.ListKey()], default.value, current)], Ok(()))
  }

  /** `removeModuleRepositoryURL` / `removeSuiteRepositoryURL`: the removal, then the
      current URL is reset to the default. */
  function RemoveRepositoryAndReset(s: Props, defaults: Props, repo: Repo): (Props, Result<(), JavaError>) {
    var default := Get(defaults, repo.DefaultKey());
    var (s1, r) := RemoveRepository(s, repo, default);
    if r.Err? then (s1, r) else (s1[repo.CurrentKey() := default.value], Ok(()))
  }

  /** With a list and a default, the removal succeeds and the current URL becomes the
      default; the list is rebuilt as above unless the current URL already was the
      default, and no other entry changes. Without either, nothing changes. */
  lemma RemoveRepositorySpec(s: Props, defaults: Props, repo: Repo, k: string)
    ensures var (s', r) := RemoveRepositoryAndReset(s, defaults, repo);
      var current := Get(s, repo.CurrentKey());
      (repo.ListKey() !in s || repo.DefaultKey() !in defaults ==> s' == s && r == Err(NullPointer))
      && (repo.ListKey() in s && repo.DefaultKey() in defaults ==>
            var d := defaults[repo.DefaultKey()];
            r.Ok? && Get(s', repo.CurrentKey()) == Some(d)
            && Get(s', repo.ListKey()) ==
                 (if Some(d) == current then Get(s, repo.ListKey())
                  else Some(DefaultFirst(s[repo.ListKey()], d, current)))
            && (k != repo.CurrentKey() && k != repo.ListKey() ==> Get(s', k) == Get(s, k)))
  {
    assert |repo.CurrentKey()| != |repo.ListKey()|;
  }

  /** The first piece of a joined list is its first element. */
  lemma FirstPiece(xs: seq<string>)
    requires |xs| > 0 && xs[0] != ""
    requires forall i :: 0 <= i < |xs| ==> ',' !in xs[i]
    ensures |Split(Join(xs))| > 0 && Split(Join(xs))[0] == xs[0]
  {
    if |xs| == 1 {
      assert Join(xs) == xs[0];
    } else {
      JoinHasComma(xs);
      SplitAllJoin(xs);
      var r := Split(Join(xs));
      assert r == DropTrailingEmpty(xs);
      assert |r| > 0;
    }
  }

  // ---------------------------------------------------------------- select lists

  /** `getSelectItems`: the list's pieces, or none when the entry is missing. */
  function GetSelectItems(s: Props, key: string): seq<string> {
    if key in s then Split(s[key]) else []
  }

  /** `setSelectItems` as written: the buffer's last character is cut off, which for
      an empty selection is `substring(0, -1)`. */
  function SetSelectItemsAsWritten(s: Props, key: string, values: seq<string>): (Props, Result<(), JavaError>) {
    var buf := Terminated(values);
    if |buf| == 0 then (s, Err(StringIndexOutOfBounds))
    else (s[key := buf[..|buf| - 1]], Ok(()))
  }

  /** Clearing every selection makes the written code throw. */
  lemma EmptySelectionThrows(s: Props, key: string)
    ensures SetSelectItemsAsWritten(s, key, []) == (s, Err(StringIndexOutOfBounds))
  {
  }

  /** `setSelectItems` as evidently intended: the selections joined, "" for none, as
      `removeDomain` does for an emptied list. */
  function SetSelectItems(s: Props, key: string, values: seq<string>): Props {
    s[key := Cut(Terminated(values))]
  }

  /** The corrected edit never fails, agrees with the written one wherever that one
      succeeds, stores the joined selections, and reads back as the same list when
      the selections hold no comma and do not end with an empty one. */
  lemma SetSelectItemsSpec(s: Props, key: string, values: seq<string>)
    ensures var s' := SetSelectItems(s, key, values);
      s'[key] == Join(values)
      && (SetSelectItemsAsWritten(s, key, values).1.Ok? ==> SetSelectItemsAsWritten(s, key, values).0 == s')
      && (SetSelectItemsAsWritten(s, key, values).1.Err? ==> values == [] && s'[key] == "")
      && (|values| > 0 && values[|values| - 1] != "" && (forall i :: 0 <= i < |values| ==> ',' !in values[i]) ==>
            GetSelectItems(s', key) == values)
  {
    CutTerminated(values);
    TerminatedEmpty(values);
    if |values| > 0 && values[|values| - 1] != "" && (forall i :: 0 <= i < |values| ==> ',' !in values[i]) {
      SplitJoin(values);
    }
  }

  // ---------------------------------------------------------------- restore

  /** A key the Module or Suite subtype of the Repositories mode does not cover. */
  predicate Skipped(key: string, subtype: string) {
    (subtype == "Module" && !Contains(key, "Module")) || (subtype == "Suite" && !Contains(key, "Suite"))
  }

  /** One key of `restore`: its default, or removed (and reported) when there is none. */
  function RestoreKey(s: Props, defaults: Props, key: string): Props {
    if key in defaults then s[key := defaults[key]] else s - {key}
  }

  /** The restore loop over the mode's keys, with the keys it removed. */
  function RestoreKeys(s: Props, defaults: Props, keys: seq<string>, subtype: string): (Props, seq<string>)
    decreases |keys|
  {
    if |keys| == 0 then (s, [])
    else
      var (s1, removed) := RestoreKeys(s, defaults, keys[..|keys| - 1], subtype);
      var key := keys[|keys| - 1];
      if Skipped(key, subtype) then (s1, removed)
      else if key in defaults then (RestoreKey(s1, defaults, key), removed)
      else (RestoreKey(s1, defaults, key), removed + [key])
  }

  /** `restore`: the current mode's keys are restored; in the Repositories mode the
      subtype comes from the page and restricts the keys, and a missing subtype is
      dereferenced. A mode with no keys changes nothing. */
  function RestoreMode(s: Props, defaults: Props, currentMode: string, subtype: Option<string>)
    : (Props, Result<seq<string>, JavaError>)
  {
    if currentMode !in MODES || MODES[currentMode].None? then (s, Ok([]))
    else
      var keys := MODES[currentMode].value;
      var sub := if currentMode == "Repositories" then subtype else Some("");
      if sub.None? then (s, Err(NullPointer))
      else
        var (s', removed) := RestoreKeys(s, defaults, keys, sub.value);
        (s', Ok(removed))
  }

  /** Each key the loop covers ends with its default, or removed and reported when
      it has none; every other key keeps its entry. */
  lemma {:induction false} RestoreKeysSpec(s: Props, defaults: Props, keys: seq<string>, subtype: string, k: string)
    ensures var (s', removed) := RestoreKeys(s, defaults, keys, subtype);
      (k in keys && !Skipped(k, subtype) ==>
         (k in defaults ==> k in s' && s'[k] == defaults[k])
         && (k !in defaults ==> k !in s' && k in removed))
      && (!(k in keys && !Skipped(k, subtype)) ==> Get(s', k) == Get(s, k))
      && (k in removed ==> k in keys && !Skipped(k, subtype) && k !in defaults)
    decreases |keys|
  {
    if |keys| > 0 {
      var n := |keys| - 1;
      RestoreKeysSpec(s, defaults, keys[..n], subtype, k);
      assert keys == keys[..n] + [keys[n]];
      assert k in keys <==> k in keys[..n] || k == keys[n];
    }
  }

  /** Restoring a mode touches no key outside it, and in the Repositories mode with
      the Module (or Suite) subtype no key outside that subtype. */
  lemma RestoreSpec(s: Props, defaults: Props, currentMode: string, subtype: Option<string>, k: string)
    requires currentMode in MODES && MODES[currentMode].Some?
    requires currentMode == "Repositories" ==> subtype.Some?
    ensures var (s', r) := RestoreMode(s, defaults, currentMode, subtype);
      var keys := MODES[currentMode].value;
      var sub := if currentMode == "Repositories" then subtype.value else "";
      r.Ok?
      && (k in keys && !Skipped(k, sub) ==>
            (k in defaults ==> Get(s', k) == Some(defaults[k]))
            && (k !in defaults ==> k !in s' && k in r.value))
      && (!(k in keys && !Skipped(k, sub)) ==> Get(s', k) == Get(s, k))
  {
    var keys := MODES[currentMode].value;
    var sub := if currentMode == "Repositories" then subtype.value else "";
    RestoreKeysSpec(s, defaults, keys, sub, k);
  }

  // ---------------------------------------------------------------- proxy

  /** `setProxyHost` / `setProxyPort` / `setProxyUser`: the http and ftp entries get
      the same value. */
  function SetProxy(s: Props, field: string, value: string): Props {
    s["http.proxy" + field := value]["ftp.proxy" + field := value]
  }

  /** Both entries hold the value, and no other entry changes. */
  lemma SetProxySpec(s: Props, field: string, value: string, k: string)
    ensures var s' := SetProxy(s, field, value);
      Get(s', "http.proxy" + field) == Some(value) && Get(s', "ftp.proxy" + field) == Some(value)
      && (k != "http.proxy" + field && k != "ftp.proxy" + field ==> Get(s', k) == Get(s, k))
  {
    assert ("http.proxy" + field)[0] != ("ftp.proxy" + field)[0];
  }

  // ---------------------------------------------------------------- the page object

  class ServerSettingsBean {
    var settings: Props
    var currentClientMode: string
    var specifiedClientMode: Option<string>
    var currentMode: string
    /** The JVM's system properties, where the proxy password is kept. */
    var systemProperties: Props
    const defaultSettings: Props

    /** The page over loaded settings and defaults, opened on the first mode. */
    constructor (settings: Props, defaultSettings: Props, systemProperties: Props)
      ensures this.settings == settings && this.defaultSettings == defaultSettings
      ensures this.systemProperties == systemProperties
      ensures currentClientMode == LOCAL && specifiedClientMode == None && currentMode == FIRST_MODE
    {
      this.settings := settings;
      this.defaultSettings := defaultSettings;
      this.systemProperties := systemProperties;
      currentClientMode := LOCAL;
      specifiedClientMode := None;
      currentMode := FIRST_MODE;
    }

    method SetCurrentMode(mode: string)
      modifies this
      ensures currentMode == mode && settings == old(settings)
      ensures currentClientMode == old(currentClientMode) && specifiedClientMode == old(specifiedClientMode)
      ensures systemProperties == old(systemProperties)
    {
      currentMode := mode;
    }

    method GetCurrentClientMode() returns (m: string)
      modifies this
      ensures m == ClientModeOf(settings) && currentClientMode == m
      ensures settings == old(settings) && specifiedClientMode == old(specifiedClientMode)
      ensures currentMode == old(currentMode) && systemProperties == old(systemProperties)
    {
      var stored := Get(settings, CLIENTS);
      if !(stored == Some(LOCAL) || stored == Some(ANY)) {
        currentClientMode := SPECIFIED;
      } else {
        currentClientMode := stored.value;
      }
      m := currentClientMode;
    }

    /** `setCurrentClientMode`: any mode but Specified is stored and clears the
        specified domain; Specified only changes the page's mode. */
    method SetCurrentClientMode(mode: string)
      modifies this
      ensures currentClientMode == mode
      ensures mode != SPECIFIED ==> settings == old(settings)[CLIENTS := mode] && specifiedClientMode == None
      ensures mode == SPECIFIED ==> settings == old(settings) && specifiedClientMode == old(specifiedClientMode)
      ensures currentMode == old(currentMode) && systemProperties == old(systemProperties)
    {
      currentClientMode := mode;
      if mode != SPECIFIED {
        settings := settings[CLIENTS := mode];
        specifiedClientMode := None;
      }
    }

    method SetSpecifiedClientMode(mode: Option<string>)
      modifies this
      ensures specifiedClientMode == mode && settings == old(settings)
      ensures currentClientMode == old(currentClientMode) && currentMode == old(currentMode)
      ensures systemProperties == old(systemProperties)
    {
      specifiedClientMode := mode;
    }

    method RemoveDomain(mode: Option<string>) returns (r: Result<(), JavaError>)
      modifies this
      ensures var e := RemoveDomainIn(old(settings), mode);
        (e.Ok? ==> r.Ok? && settings == e.value) && (e.Err? ==> r == Err(e.error) && settings == old(settings))
      ensures currentClientMode == old(currentClientMode) && specifiedClientMode == old(specifiedClientMode)
      ensures currentMode == old(currentMode) && systemProperties == old(systemProperties)
    {
      if CLIENTS !in settings {
        return Err(NullPointer);
      }
      var result := Split(settings[CLIENTS]);
      var buf := Collect(result, Other(mode));
      CutTerminated(Filter(result, Other(mode)));
      settings := settings[CLIENTS := Cut(buf)];
      return Ok(());
    }

    method AddSpecifiedClientMode() returns (r: Result<(), JavaError>)
      modifies this
      ensures (settings, r) == AddSpecified(old(settings), currentClientMode, specifiedClientMode)
      ensures currentClientMode == old(currentClientMode) && specifiedClientMode == old(specifiedClientMode)
      ensures currentMode == old(currentMode) && systemProperties == old(systemProperties)
    {
      if currentClientMode != SPECIFIED {
        return Ok(());
      }
      r := RemoveDomain(Some(LOCAL));
      if r.Err? {
        return;
      }
      r := RemoveDomain(Some(ANY));
      var all := settings[CLIENTS];
      var result := Split(all);
      var exist := Occurs(result, specifiedClientMode);
      if !exist && |all| > 0 {
        if specifiedClientMode.None? {
          return Err(NullPointer);
        }
        all := all + "," + specifiedClientMode.value;
      } else if |all| == 0 {
        if specifiedClientMode.None? {
          return Err(NullPointer);
        }
        all := specifiedClientMode.value;
      }
      settings := settings[CLIENTS := all];
      return Ok(());
    }

    method RemoveSpecifiedClientMode() returns (r: Result<(), JavaError>)
      modifies this
      ensures var e := RemoveDomainIn(old(settings), specifiedClientMode);
        (e.Ok? ==> r.Ok? && settings == e.value) && (e.Err? ==> r == Err(e.error) && settings == old(settings))
      ensures currentClientMode == old(currentClientMode) && specifiedClientMode == old(specifiedClientMode)
      ensures currentMode == old(currentMode) && systemProperties == old(systemProperties)
    {
      r := RemoveDomain(specifiedClientMode);
    }

    /** `getSpecifiedClientModes`: the pieces of the client list, none when the
        entry is missing; no piece holds the separating comma. */
    function GetSpecifiedClientModes(): (r: seq<string>)
      reads this
      ensures forall i :: 0 <= i < |r| ==> ',' !in r[i]
      ensures CLIENTS !in settings ==> r == []
    {
      GetSelectItems(settings, CLIENTS)
    }

    /** `setSpecifiedClientModes`: the selected domains become the client list, with
        the correction of `SetSelectItems` (an empty selection stores ""). */
    method SetSpecifiedClientModes(values: seq<string>)
      modifies this
      ensures settings == SetSelectItems(old(settings), CLIENTS, values)
      ensures currentClientMode == old(currentClientMode) && specifiedClientMode == old(specifiedClientMode)
      ensures currentMode == old(currentMode) && systemProperties == old(systemProperties)
      ensures |values| > 0 && values[|values| - 1] != "" && (forall i :: 0 <= i < |values| ==> ',' !in values[i]) ==>
        GetSpecifiedClientModes() == values
    {
      SetSelected(CLIENTS, values);
      SetSelectItemsSpec(old(settings), CLIENTS, values);
    }

    /** `setSelectItems`, corrected (see ## Findings in the README, lines 411-417) to
        store "" for an empty selection. */
    method SetSelected(key: string, values: seq<string>)
      modifies this
      ensures settings == SetSelectItems(old(settings), key, values)
      ensures currentClientMode == old(currentClientMode) && specifiedClientMode == old(specifiedClientMode)
      ensures currentMode == old(currentMode) && systemProperties == old(systemProperties)
    {
      var buf := Collect(values, x => true);
      assert Filter(values, x => true) == values by {
        FilterAll(values);
      }
      settings := settings[key := Cut(buf)];
    }

    method AddRepositoryURL(repo: Repo) returns (r: Result<(), JavaError>)
      modifies this
      ensures (settings, r) == AddRepository(old(settings), repo)
      ensures currentClientMode == old(currentClientMode) && specifiedClientMode == old(specifiedClientMode)
      ensures currentMode == old(currentMode) && systemProperties == old(systemProperties)
    {
      var current := Get(settings, repo.CurrentKey());
      if repo.ListKey() !in settings {
        return Err(NullPointer);
      }
      var urls := settings[repo.ListKey()];
      var exist := Occurs(Split(urls), current);
      if !exist {
        if current.None? {
          return Err(NullPointer);
        }
        urls := urls + "," + current.value;
      }
      settings := settings[repo.ListKey() := urls];
      return Ok(());
    }

    /** `getModuleRepositoryURLs` / `getSuiteRepositoryURLs`: the current URL is added,
        then the list is read. */
    method GetRepositoryURLs(repo: Repo) returns (r: Result<seq<string>, JavaError>)
      modifies this
      ensures var (s', e) := AddRepository(old(settings), repo);
        settings == s' && (e.Err? ==> r == Err(e.error)) && (e.Ok? ==> r == Ok(GetSelectItems(s', repo.ListKey())))
      ensures currentClientMode == old(currentClientMode) && specifiedClientMode == old(specifiedClientMode)
      ensures currentMode == old(currentMode) && systemProperties == old(systemProperties)
    {
      var e := AddRepositoryURL(repo);
      if e.Err? {
        return Err(e.error);
      }
      return Ok(GetSelectItems(settings, repo.ListKey()));
    }

    /** `setModuleRepositoryURLs` / `setSuiteRepositoryURLs`: the selected URLs become
        the list, with the correction of `SetSelectItems` (an empty selection stores ""). */
    method SetRepositoryURLs(repo: Repo, values: seq<string>)
      modifies this
      ensures settings == SetSelectItems(old(settings), repo.ListKey(), values)
      ensures currentClientMode == old(currentClientMode) && specifiedClientMode == old(specifiedClientMode)
      ensures currentMode == old(currentMode) && systemProperties == old(systemProperties)
    {
      SetSelected(repo.ListKey(), values);
    }

    method RemoveRepositoryURL(repo: Repo) returns (r: Result<(), JavaError>)
      modifies this
      ensures (settings, r) == RemoveRepositoryAndReset(old(settings), defaultSettings, repo)
      ensures currentClientMode == old(currentClientMode) && specifiedClientMode == old(specifiedClientMode)
      ensures currentMode == old(currentMode) && systemProperties == old(systemProperties)
    {
      var default := Get(defaultSettings, repo.DefaultKey());
      var current := Get(settings, repo.CurrentKey());
      if repo.ListKey() !in settings || default.None? {
        return Err(NullPointer);
      }
      if Some(default.value) != current {
        var result := Split(settings[repo.ListKey()]);
        var buf := Collect(result, NeitherOf(default.value, current));
        ghost var kept := Filter(result, NeitherOf(default.value, current));
        TerminatedJoin([default.value] + kept);
        CutTerminated([default.value] + kept);
        PrependTerminated(default.value, kept);
        settings := settings[repo.ListKey() := Cut(default.value + "," + buf)];
      }
      settings := settings[repo.CurrentKey() := default.value];
      return Ok(());
    }

    method Restore(subtype: Option<string>) returns (r: Result<seq<string>, JavaError>)
      modifies this
      ensures (settings, r) == RestoreMode(old(settings), defaultSettings, currentMode, subtype)
      ensures currentClientMode == old(currentClientMode) && specifiedClientMode == old(specifiedClientMode)
      ensures currentMode == old(currentMode) && systemProperties == old(systemProperties)
    {
      if currentMode !in MODES || MODES[currentMode].None? {
        return Ok([]);
      }
      var keys := MODES[currentMode].value;
      var sub := if currentMode == "Repositories" then subtype else Some("");
      if sub.None? {
        return Err(NullPointer);
      }
      var s, removed := RestoreLoop(settings, defaultSettings, keys, sub.value);
      settings := s;
      return Ok(removed);
    }

    method SetProxyHost(host: string)
      modifies this
      ensures settings == SetProxy(old(settings), "Host", host)
      ensures currentClientMode == old(currentClientMode) && specifiedClientMode == old(specifiedClientMode)
      ensures currentMode == old(currentMode) && systemProperties == old(systemProperties)
      ensures GetProxyHost() == Some(host)
    {
      settings := SetProxy(settings, "Host", host);
      assert "http.proxy" + "Host" == "http.proxyHost";
    }

    method SetProxyPort(port: string)
      modifies this
      ensures settings == SetProxy(old(settings), "Port", port)
      ensures currentClientMode == old(currentClientMode) && specifiedClientMode == old(specifiedClientMode)
      ensures currentMode == old(currentMode) && systemProperties == old(systemProperties)
      ensures GetProxyPort() == Some(port)
    {
      settings := SetProxy(settings, "Port", port);
      assert "http.proxy" + "Port" == "http.proxyPort";
    }

    method SetProxyUser(user: string)
      modifies this
      ensures settings == SetProxy(old(settings), "User", user)
      ensures currentClientMode == old(currentClientMode) && specifiedClientMode == old(specifiedClientMode)
      ensures currentMode == old(currentMode) && systemProperties == old(systemProperties)
      ensures GetProxyUser() == Some(user)
    {
      settings := SetProxy(settings, "User", user);
      assert "http.proxy" + "User" == "http.proxyUser";
    }

    /** `setProxyPassword`: kept in the system properties, not in the settings. */
    method SetProxyPassword(password: string)
      modifies this
      ensures systemProperties == SetProxy(old(systemProperties), "Password", password)
      ensures settings == old(settings)
      ensures currentClientMode == old(currentClientMode) && specifiedClientMode == old(specifiedClientMode)
      ensures currentMode == old(currentMode)
      ensures GetProxyPassword() == Some(password)
    {
      systemProperties := SetProxy(systemProperties, "Password", password);
      assert "http.proxy" + "Password" == "http.proxyPassword";
    }

    /** `getProxyHost`: the http entry, one of the two `setProxyHost` writes; None
        when it is missing. */
    function GetProxyHost(): (h: Option<string>)
      reads this
      ensures h.Some? <==> "http.proxyHost" in settings
      ensures h.Some? ==> settings["http.proxyHost"] == h.value
    {
      Get(settings, "http.proxyHost")
    }

    /** `getProxyPort`: the http entry, one of the two `setProxyPort` writes. */
    function GetProxyPort(): (p: Option<string>)
      reads this
      ensures p.Some? <==> "http.proxyPort" in settings
      ensures p.Some? ==> settings["http.proxyPort"] == p.value
    {
      Get(settings, "http.proxyPort")
    }

    /** `getProxyUser`: the http entry, one of the two `setProxyUser` writes. */
    function GetProxyUser(): (u: Option<string>)
      reads this
      ensures u.Some? <==> "http.proxyUser" in settings
      ensures u.Some? ==> settings["http.proxyUser"] == u.value
    {
      Get(settings, "http.proxyUser")
    }

    /** `getProxyPassword`: the http password among the system properties. */
    function GetProxyPassword(): (w: Option<string>)
      reads this
      ensures w.Some? <==> "http.proxyPassword" in systemProperties
      ensures w.Some? ==> systemProperties["http.proxyPassword"] == w.value
    {
      Get(systemProperties, "http.proxyPassword")
    }
  }

  lemma FilterAll(values: seq<string>)
    ensures Filter(values, x => true) == values
  {
    if |values| > 0 {
      FilterAll(values[..|values| - 1]);
      assert values[..|values| - 1] + [values[|values| - 1]] == values;
    }
  }

  /** The removal's buffer starts with the default and a comma. */
  lemma PrependTerminated(d: string, kept: seq<string>)
    ensures Terminated([d] + kept) == d + "," + Terminated(kept)
    decreases |kept|
  {
    if |kept| > 0 {
      var n := |kept| - 1;
      PrependTerminated(d, kept[..n]);
      assert ([d] + kept)[..|kept|] == [d] + kept[..n];
    }
  }

  /** The restore loop: each key not skipped gets its default or is removed. */
  method RestoreLoop(s: Props, defaults: Props, keys: seq<string>, subtype: string)
    returns (s': Props, removed: seq<string>)
    ensures (s', removed) == RestoreKeys(s, defaults, keys, subtype)
  {
    s', removed := s, [];
    var i := 0;
    while i < |keys|
      invariant 0 <= i <= |keys|
      invariant (s', removed) == RestoreKeys(s, defaults, keys[..i], subtype)
    {
      assert keys[..i + 1][..i] == keys[..i];
      var key := keys[i];
      if !Skipped(key, subtype) {
        if key in defaults {
          s' := s'[key := defaults[key]];
        } else {
          s' := s' - {key};
          removed := removed + [key];
        }
      }
      i := i + 1;
    }
    assert keys[..i] == keys;
  }
}

=== FILE: setup_props.dfy ===
/** The job properties that `setupProps` derives from the actual parameters: every
    actual under its own name, and for each input file the name it has in the job
    directory together with its `_path`, `_file`, `_extension` and `_basename`
    entries. The property table is a map that the two loops update in place. */
module SetupProps {
  import opened Wrappers
  import opened JavaText
  import opened Templating
  import opened Validation
  import opened Seqs

  /** The suffixes of the derived entries (INPUT_PATH, INPUT_FILE, INPUT_EXTENSION and
      INPUT_BASENAME); their values are defined outside this model. */
  datatype InputKeys = InputKeys(path: string, file: string, extension: string, basename: string)

  /** Suffixes that keep the five entries of one parameter apart. */
  predicate KeysDistinct(keys: InputKeys) {
    |keys.path| > 0 && |keys.file| > 0 && |keys.extension| > 0 && |keys.basename| > 0
    && keys.path != keys.file && keys.path != keys.extension && keys.path != keys.basename
    && keys.file != keys.extension && keys.file != keys.basename
    && keys.extension != keys.basename
  }

  /** The keys one input-file parameter writes. */
  function DerivedKeys(name: string, keys: InputKeys): set<string> {
    {name, name + keys.path, name + keys.file, name + keys.extension, name + keys.basename}
  }

  /** The first loop's effect: each actual under its name, a missing value as the
      empty string, a later actual replacing an earlier one of the same name. */
  function PutActuals(props: map<string, string>, actuals: seq<Actual>): map<string, string> {
    if |actuals| == 0 then props
    else
      var n := |actuals| - 1;
      PutActuals(props, actuals[..n])[actuals[n].name := actuals[n].value.GetOr("")]
  }

  method PopulateActuals(props: map<string, string>, actuals: seq<Actual>)
    returns (r: map<string, string>)
    ensures r == PutActuals(props, actuals)
  {
    r := props;
    var i := 0;
    while i < |actuals|
      invariant 0 <= i <= |actuals|
      invariant r == PutActuals(props, actuals[..i])
    {
      assert actuals[..i + 1][..i] == actuals[..i];
      r := r[actuals[i].name := actuals[i].value.GetOr("")];
      i := i + 1;
    }
    assert actuals[..|actuals|] == actuals;
  }

  /** After the first loop every actual can be looked up by name: the entry holds
      the value of the last actual of that name, or the empty string. */
  lemma {:induction false} PutActualsLast(props: map<string, string>, actuals: seq<Actual>, i: nat)
    requires i < |actuals|
    requires forall j :: i < j < |actuals| ==> actuals[j].name != actuals[i].name
    ensures var r := PutActuals(props, actuals);
      actuals[i].name in r && r[actuals[i].name] == actuals[i].value.GetOr("")
    decreases |actuals|
  {
    var n := |actuals| - 1;
    if i < n {
      var pre := actuals[..n];
      assert pre[i] == actuals[i];
      PutActualsLast(props, pre, i);
    }
  }

  /** A key that no actual names keeps its entry, and no other key appears. */
  lemma {:induction false} PutActualsOthers(props: map<string, string>, actuals: seq<Actual>, k: string)
    ensures var r := PutActuals(props, actuals);
      (k in r <==> k in props || exists i :: 0 <= i < |actuals| && actuals[i].name == k)
      && ((forall i :: 0 <= i < |actuals| ==> actuals[i].name != k) ==> k in r ==> r[k] == props[k])
    decreases |actuals|
  {
    if |actuals| > 0 {
      var n := |actuals| - 1;
      var pre := actuals[..n];
      PutActualsOthers(props, pre, k);
      if exists i :: 0 <= i < |pre| && pre[i].name == k {
        var i :| 0 <= i < |pre| && pre[i].name == k;
        assert actuals[i].name == k;
      }
      forall i | 0 <= i < n && actuals[i].name == k
        ensures pre[i].name == k
      {
      }
    }
  }

  /** `new File(outDir, new File(value).getName()).getName()`: the last component of
      the value, or of the job directory when the value names no file (a bare "/"). */
  function InputFileName(value: string, outDir: string): string {
    var n := FileName(value);
    if n == "" then FileName(outDir) else n
  }

  /** The "AxisNNNNNaxis_" prefix of an uploaded file is cut off. */
  function StripAxis(b: string): (r: string)
    ensures IsSuffix(r, b)
    ensures !StartsWith(b, "Axis") ==> r == b
  {
    if StartsWith(b, "Axis") then
      var j := IndexOfString(b, "axis_", 0);
      if j == -1 then b else b[j + 5..]
    else b
  }

  predicate IsUrl(value: string) {
    StartsWith(value, "http:") || StartsWith(value, "https:") || StartsWith(value, "ftp:")
  }

  /** What follows the last `c`, or all of `b` when it holds none. */
  function AfterLast(b: string, c: char): (r: string)
    ensures IsSuffix(r, b)
    ensures c !in r
  {
    var j := LastIndexOfChar(b, c);
    if j == -1 then b else b[j + 1..]
  }

  /** The base name of a URL: what follows its last query separators. */
  function UrlBase(b: string): (r: string)
    ensures IsSuffix(r, b)
    ensures '?' !in r && '&' !in r && '=' !in r
  {
    var q := AfterLast(b, '?');
    var a := AfterLast(q, '&');
    var e := AfterLast(a, '=');
    NotInSuffix(q, a, '?');
    NotInSuffix(a, e, '?');
    NotInSuffix(a, e, '&');
    SuffixTrans(e, a, q);
    SuffixTrans(e, q, b);
    e
  }

  predicate IsSuffix(r: string, b: string) {
    |r| <= |b| && r == b[|b| - |r|..]
  }

  lemma SuffixTrans(r: string, a: string, b: string)
    requires IsSuffix(r, a) && IsSuffix(a, b)
    ensures IsSuffix(r, b)
  {
    assert b[|b| - |a|..][|a| - |r|..] == b[|b| - |r|..];
  }

  lemma NotInSuffix(b: string, r: string, c: char)
    requires IsSuffix(r, b)
    requires c !in b
    ensures c !in r
  {
    forall k | 0 <= k < |r|
      ensures r[k] != c
    {
      assert r[k] == b[|b| - |r| + k];
    }
  }

  /** The extension: what follows the last period, or nothing. */
  function Extension(file: string): (r: string)
    ensures '.' !in r
  {
    var j := LastIndexOfChar(file, '.');
    if j == -1 then "" else file[j + 1..]
  }

  /** The file name without its extension and the period before it. */
  function Stem(file: string): string {
    var j := LastIndexOfChar(file, '.');
    if j == -1 then file else file[..j]
  }

  /** The stem and the extension rebuild the file name. */
  lemma StemExtension(file: string)
    ensures '.' in file ==> file == Stem(file) + "." + Extension(file)
    ensures '.' !in file ==> Stem(file) == file && Extension(file) == ""
  {
    var j := LastIndexOfChar(file, '.');
    if '.' in file {
      assert j != -1;
      assert file == file[..j] + [file[j]] + file[j + 1..];
    }
  }

  /** The five entries written for one input file with a non-empty value. */
  function DeriveInput(props: map<string, string>, name: string, value: string, outDir: string,
                       keys: InputKeys): map<string, string> {
    var inName := InputFileName(value, outDir);
    var file := StripAxis(inName);
    var stem := Stem(file);
    Entries(props, name, keys, inName, outDir, file, Extension(file),
            if IsUrl(value) then UrlBase(stem) else stem)
  }

  /** The table with the five entries of parameter `name` put in order. */
  function Entries(props: map<string, string>, name: string, keys: InputKeys,
                   inName: string, path: string, file: string, ext: string, base: string)
    : map<string, string>
  {
    props[name := inName]
         [name + keys.path := path]
         [name + keys.file := file]
         [name + keys.extension := ext]
         [name + keys.basename := base]
  }

  /** With distinct suffixes no entry of a parameter overwrites another. */
  lemma EntriesLookup(props: map<string, string>, name: string, keys: InputKeys,
                      inName: string, path: string, file: string, ext: string, base: string)
    requires KeysDistinct(keys)
    ensures var r := Entries(props, name, keys, inName, path, file, ext, base);
      r[name] == inName && r[name + keys.path] == path && r[name + keys.file] == file
      && r[name + keys.extension] == ext && r[name + keys.basename] == base
      && r.Keys == props.Keys + DerivedKeys(name, keys)
      && (forall k :: k in props && k !in DerivedKeys(name, keys) ==> r[k] == props[k])
  {
    LongerDiffers(name, keys.path);
    LongerDiffers(name, keys.file);
    LongerDiffers(name, keys.extension);
    LongerDiffers(name, keys.basename);
    AppendDiffers(name, keys.path, keys.file);
    AppendDiffers(name, keys.path, keys.extension);
    AppendDiffers(name, keys.path, keys.basename);
    AppendDiffers(name, keys.file, keys.extension);
    AppendDiffers(name, keys.file, keys.basename);
    AppendDiffers(name, keys.extension, keys.basename);
  }

  lemma LongerDiffers(name: string, a: string)
    requires |a| > 0
    ensures name + a != name
  {
    assert |name + a| > |name|;
  }

  /** What one input file adds: its name in the job directory, the job directory,
      the name without the upload prefix, its extension, and the base name, which
      with the extension rebuilds the file name of a local file and is stripped of
      query separators for a URL; nothing else changes. */
  lemma DeriveInputEntries(props: map<string, string>, name: string, value: string,
                           outDir: string, keys: InputKeys)
    requires KeysDistinct(keys)
    ensures var r := DeriveInput(props, name, value, outDir, keys);
      var file := r[name + keys.file];
      var ext := r[name + keys.extension];
      var base := r[name + keys.basename];
      r[name] == InputFileName(value, outDir)
      && r[name + keys.path] == outDir
      && file == StripAxis(r[name])
      && '.' !in ext
      && (!IsUrl(value) && '.' in file ==> file == base + "." + ext)
      && (!IsUrl(value) && '.' !in file ==> base == file && ext == "")
      && (IsUrl(value) ==> '?' !in base && '&' !in base && '=' !in base)
      && r.Keys == props.Keys + DerivedKeys(name, keys)
      && (forall k :: k in props && k !in DerivedKeys(name, keys) ==> r[k] == props[k])
  {
    var inName := InputFileName(value, outDir);
    var file := StripAxis(inName);
    var stem := Stem(file);
    var base := if IsUrl(value) then UrlBase(stem) else stem;
    EntriesLookup(props, name, keys, inName, outDir, file, Extension(file), base);
    StemExtension(file);
  }

  /** The second loop's effect: each actual whose first formal of that name is an
      input file with a non-empty value adds its derived entries. A formal of the
      name that is not an input file ends the search, so a later formal of the same
      name is never consulted. */
  function InputProps(props: map<string, string>, actuals: seq<Actual>, formals: seq<Formal>,
                      isInputFile: Formal -> bool, outDir: string, keys: InputKeys): map<string, string> {
    if |actuals| == 0 then props
    else
      var n := |actuals| - 1;
      var p := InputProps(props, actuals[..n], formals, isInputFile, outDir, keys);
      if IsInputActual(actuals[n], formals, isInputFile)
      then DeriveInput(p, actuals[n].name, actuals[n].value.value, outDir, keys)
      else p
  }

  /** An actual that gets derived entries. When the first formal of the name is an
      input file but the value is empty, the search goes on among the later formals;
      every one of them sees the same empty value, so nothing is written either way. */
  predicate IsInputActual(a: Actual, formals: seq<Formal>, isInputFile: Formal -> bool) {
    var f := FirstFormal(formals, a.name);
    f.Some? && isInputFile(formals[f.value]) && a.value.Some? && |a.value.value| > 0
  }

  method DeriveInputProps(props: map<string, string>, actuals: seq<Actual>, formals: seq<Formal>,
                          isInputFile: Formal -> bool, outDir: string, keys: InputKeys)
    returns (r: map<string, string>)
    ensures r == InputProps(props, actuals, formals, isInputFile, outDir, keys)
  {
    r := props;
    var i := 0;
    while i < |actuals|
      invariant 0 <= i <= |actuals|
      invariant r == InputProps(props, actuals[..i], formals, isInputFile, outDir, keys)
    {
      InputPropsStep(props, actuals, formals, isInputFile, outDir, keys, i);
      var f := FindFirstFormal(formals, actuals[i].name);
      if f.Some? && isInputFile(formals[f.value]) {
        var v := actuals[i].value;
        if v.Some? && |v.value| > 0 {
          r := DeriveInput(r, actuals[i].name, v.value, outDir, keys);
        }
      }
      i := i + 1;
    }
    assert actuals[..|actuals|] == actuals;
  }

  lemma InputPropsStep(props: map<string, string>, actuals: seq<Actual>, formals: seq<Formal>,
                       isInputFile: Formal -> bool, outDir: string, keys: InputKeys, i: nat)
    requires i < |actuals|
    ensures var p := InputProps(props, actuals[..i], formals, isInputFile, outDir, keys);
      InputProps(props, actuals[..i + 1], formals, isInputFile, outDir, keys)
      == if IsInputActual(actuals[i], formals, isInputFile)
         then DeriveInput(p, actuals[i].name, actuals[i].value.value, outDir, keys)
         else p
  {
    assert actuals[..i + 1][..i] == actuals[..i];
  }

  /** The inner search over the formals, which breaks at the first formal with the
      actual's name. */
  method FindFirstFormal(formals: seq<Formal>, name: string) returns (f: Option<nat>)
    ensures f == FirstFormal(formals, name)
  {
    var k := 0;
    while k < |formals|
      invariant 0 <= k <= |formals|
      invariant FirstFormalFrom(formals, name, k) == FirstFormal(formals, name)
    {
      if formals[k].name == name {
        return Some(k);
      }
      k := k + 1;
    }
    return None;
  }

  /** A key that no input actual derives from is left as it was. */
  lemma {:induction false} InputPropsOthers(props: map<string, string>, actuals: seq<Actual>,
                                            formals: seq<Formal>, isInputFile: Formal -> bool,
                                            outDir: string, keys: InputKeys, k: string)
    requires KeysDistinct(keys)
    requires forall i :: 0 <= i < |actuals| && IsInputActual(actuals[i], formals, isInputFile)
                         ==> k !in DerivedKeys(actuals[i].name, keys)
    ensures var r := InputProps(props, actuals, formals, isInputFile, outDir, keys);
      (k in r <==> k in props) && (k in props ==> r[k] == props[k])
    decreases |actuals|
  {
    if |actuals| > 0 {
      var n := |actuals| - 1;
      InputPropsOthers(props, actuals[..n], formals, isInputFile, outDir, keys, k);
      if IsInputActual(actuals[n], formals, isInputFile) {
        DeriveInputEntries(InputProps(props, actuals[..n], formals, isInputFile, outDir, keys),
                           actuals[n].name, actuals[n].value.value, outDir, keys);
      }
    }
  }

  /** Without input files the second loop leaves the table as the first built it. */
  lemma {:induction false} NoInputsNoChange(props: map<string, string>, actuals: seq<Actual>,
                                            formals: seq<Formal>, isInputFile: Formal -> bool,
                                            outDir: string, keys: InputKeys)
    requires forall i :: 0 <= i < |actuals| ==> !IsInputActual(actuals[i], formals, isInputFile)
    ensures InputProps(props, actuals, formals, isInputFile, outDir, keys) == props
    decreases |actuals|
  {
    if |actuals| > 0 {
      NoInputsNoChange(props, actuals[..|actuals| - 1], formals, isInputFile, outDir, keys);
    }
  }

  /** The whole of what `setupProps` adds to the table from the parameters. */
  method SetupParameterProps(props: map<string, string>, actuals: Option<seq<Actual>>,
                             formals: seq<Formal>, isInputFile: Formal -> bool,
                             outDir: string, keys: InputKeys)
    returns (r: map<string, string>)
    ensures actuals.None? ==> r == props
    ensures actuals.Some? ==>
      r == InputProps(PutActuals(props, actuals.value), actuals.value, formals, isInputFile, outDir, keys)
  {
    r := props;
    if actuals.Some? {
      r := PopulateActuals(r, actuals.value);
      r := DeriveInputProps(r, actuals.value, formals, isInputFile, outDir, keys);
    }
  }
}

=== FILE: substitute.dfy ===
/** Placeholder substitution in a module's command line: every `<name>` is replaced by
    the value of property `name`, decorated by the formal parameter's prefix attribute.
    The scan moves past each inserted value, so a value is never itself expanded. */
module Templating {
  import opened Wrappers
  import opened Seqs
  import opened JavaText

  /** The delimiters of a placeholder. */
  const LEFT: char := '<'
  const RIGHT: char := '>'

  /** Attribute names of a formal parameter: the presence of the first marks the
      parameter optional; the second is text put before a non-empty value. */
  const OPTIONAL_KEY: string := "optional"
  const PREFIX_KEY: string := "prefix_when_specified"

  /** Text a value holding a Windows program directory is rewritten to use. */
  const PROGRAM_FILES: string := "Program Files"
  const PROGRAM_FILES_SHORT: string := "Progra~1"

  /** A formal parameter of a module: its name, its default value and its attribute
      map, which Java may leave null (None). */
  datatype Formal = Formal(name: string, value: string, attributes: Option<map<string, string>>)

  /** The Hashtable of formals keyed on name: a later formal with the same name
      replaces an earlier one. */
  function ParamTable(formals: seq<Formal>): (t: map<string, Formal>)
    ensures forall i :: 0 <= i < |formals| ==> formals[i].name in t
    ensures forall n :: n in t ==> t[n].name == n && t[n] in formals
    ensures forall i :: 0 <= i < |formals| && LastOfName(formals, i) ==> t[formals[i].name] == formals[i]
  {
    if |formals| == 0 then map[]
    else
      var last := formals[|formals| - 1];
      var prefix := formals[..|formals| - 1];
      assert forall i :: 0 <= i < |prefix| ==> prefix[i] == formals[i];
      LastOfNameInPrefix(formals);
      ParamTable(prefix)[last.name := last]
  }

  /** No formal after position `i` carries the name of `formals[i]`. */
  predicate LastOfName(formals: seq<Formal>, i: nat)
    requires i < |formals|
  {
    forall j :: i < j < |formals| ==> formals[j].name != formals[i].name
  }

  /** The last of a name before the final formal stays the last of its name in the
      prefix, and its name differs from the final formal's. */
  lemma LastOfNameInPrefix(formals: seq<Formal>)
    requires |formals| > 0
    ensures forall i :: 0 <= i < |formals| - 1 && LastOfName(formals, i) ==>
      LastOfName(formals[..|formals| - 1], i) && formals[i].name != formals[|formals| - 1].name
  {
  }

  // ---------------------------------------------------------------- replace

  /** Every non-overlapping occurrence of `find`, left to right, replaced by `rep`. */
  function ReplaceAll(s: string, find: string, rep: string): string
    requires |find| > 0
  {
    ReplaceFrom(s, find, rep, 0)
  }

  /** The text of `s` from position `i` on, with the occurrences replaced. */
  function ReplaceFrom(s: string, find: string, rep: string, i: nat): string
    requires |find| > 0
    decreases |s| - i
  {
    if i >= |s| then ""
    else if MatchAt(s, find, i) then rep + ReplaceFrom(s, find, rep, i + |find|)
    else [s[i]] + ReplaceFrom(s, find, rep, i + 1)
  }

  /** The static `replace` helper: appends the text before each occurrence of `find`
      and then `rep`, resuming after the occurrence. With an empty `find` its
      loop never ends, so `find` must be non-empty. */
  method Replace(original: string, find: string, rep: string) returns (res: string)
    requires |find| > 0
    ensures res == ReplaceAll(original, find, rep)
  {
    res := "";
    var idx := 0;
    while true
      invariant 0 <= idx <= |original|
      invariant res + ReplaceFrom(original, find, rep, idx) == ReplaceAll(original, find, rep)
      decreases |original| - idx
    {
      var i := idx;
      var found := IndexOfString(original, find, idx);
      if found == -1 {
        assert ReplaceFrom(original, find, rep, i) == original[i..] by {
          ReplaceStep(original, find, rep, i);
        }
        res := res + original[i..];
        break;
      }
      var after := ReplaceFrom(original, find, rep, found + |find|);
      assert ReplaceFrom(original, find, rep, i) == original[i..found] + rep + after by {
        ReplaceStep(original, find, rep, i);
      }
      Assoc4(res, original[i..found], rep, after);
      res := res + original[i..found] + rep;
      idx := found + |find|;
    }
  }

  /** Text with no occurrence starting in it is copied as it is. */
  lemma {:induction false} ReplaceCopies(s: string, find: string, rep: string, i: nat, k: nat)
    requires |find| > 0 && i <= k <= |s|
    requires forall j :: i <= j < k ==> !MatchAt(s, find, j)
    ensures ReplaceFrom(s, find, rep, i) == s[i..k] + ReplaceFrom(s, find, rep, k)
    decreases k - i
  {
    if i < k {
      ReplaceCopies(s, find, rep, i + 1, k);
      SliceCons(s, i, k);
      Assoc3([s[i]], s[i + 1..k], ReplaceFrom(s, find, rep, k));
    }
  }

  /** One step of the replace loop: the text from `idx` is the text up to the next
      occurrence, then `rep`, then the text after the occurrence. */
  lemma ReplaceStep(s: string, find: string, rep: string, idx: nat)
    requires |find| > 0 && idx <= |s|
    ensures var k := IndexOfString(s, find, idx);
      ReplaceFrom(s, find, rep, idx)
      == if k == -1 then s[idx..] else s[idx..k] + rep + ReplaceFrom(s, find, rep, k + |find|)
  {
    IndexOfStringFirst(s, find, idx);
    var k := IndexOfString(s, find, idx);
    if k == -1 {
      ReplaceCopies(s, find, rep, idx, |s|);
    } else {
      ReplaceCopies(s, find, rep, idx, k);
    }
  }

  /** Replacing a single character replaces each of its occurrences and keeps every
      other character. */
  function ReplaceChar(s: string, c: char, rep: string): string {
    if |s| == 0 then "" else (if s[0] == c then rep else [s[0]]) + ReplaceChar(s[1..], c, rep)
  }

  lemma {:induction false} ReplaceAllOneChar(s: string, c: char, rep: string)
    ensures ReplaceAll(s, [c], rep) == ReplaceChar(s, c, rep)
  {
    ReplaceFromOneChar(s, c, rep, 0);
  }

  lemma {:induction false} ReplaceFromOneChar(s: string, c: char, rep: string, i: nat)
    requires i <= |s|
    ensures ReplaceFrom(s, [c], rep, i) == ReplaceChar(s[i..], c, rep)
    decreases |s| - i
  {
    if i < |s| {
      ReplaceFromOneChar(s, c, rep, i + 1);
      assert MatchAt(s, [c], i) <==> s[i] == c by {
        assert s[i..i + 1] == [s[i]];
      }
      assert s[i..][1..] == s[i + 1..];
    }
  }

  lemma ReplaceAllNonEmpty(s: string, find: string, rep: string)
    requires |find| > 0 && |rep| > 0 && |s| > 0
    ensures |ReplaceAll(s, find, rep)| > 0
  {
  }

  // ---------------------------------------------------------------- one placeholder

  /** The text a placeholder `<name>` is replaced by: the property value ("" when
      there is none), preceded by the formal's prefix when both are non-empty, with
      "Program Files" shortened. */
  function Replacement(name: string, props: map<string, string>, table: map<string, Formal>): (r: string)
    ensures r == "" <==> name !in props || props[name] == ""
  {
    var value := if name in props then props[name] else "";
    var prefixed :=
      if name in table && table[name].attributes.Some?
         && PREFIX_KEY in table[name].attributes.value
         && |value| > 0 && |table[name].attributes.value[PREFIX_KEY]| > 0
      then table[name].attributes.value[PREFIX_KEY] + value
      else value;
    if Contains(prefixed, PROGRAM_FILES) then
      ReplaceAllNonEmpty(prefixed, PROGRAM_FILES, PROGRAM_FILES_SHORT);
      ReplaceAll(prefixed, PROGRAM_FILES, PROGRAM_FILES_SHORT)
    else prefixed
  }

  /** A cited formal that has attributes but no "optional" one is required: citing
      it stops an empty result from becoming null. */
  predicate MarksRequired(name: string, table: map<string, Formal>) {
    name in table && table[name].attributes.Some? && OPTIONAL_KEY !in table[name].attributes.value
  }

  // ---------------------------------------------------------------- the whole line

  /** The replacement of every placeholder name, for given properties and formals. */
  function Values(props: map<string, string>, table: map<string, Formal>): string -> string {
    name => Replacement(name, props, table)
  }

  /** The result of a substitution pass: the new text and whether a required formal
      was cited on the way. */
  datatype Expansion = Expansion(text: string, citesRequired: bool)

  /** What the scan meets first in `s`: nothing more to substitute; a stdin
      redirection, kept up to and including its blank; or a placeholder from `at`
      (the `<`) to `close` (the `>`). */
  datatype Step = Stop | Redirect(upto: nat) | Placeholder(at: nat, close: nat)

  /** The first event of the scan: a `<` with no `>` after it stops the scan; a blank
      between `<` and the next `>` marks a stdin redirection. */
  function NextStep(s: string): (st: Step)
    ensures st.Redirect? ==> 0 < st.upto < |s|
    ensures st.Placeholder? ==> st.at < st.close < |s|
  {
    if |s| == 0 then Stop
    else
      var l := IndexOfChar(s, LEFT, 0);
      if l == -1 then Stop
      else
        var e := IndexOfChar(s, RIGHT, l + 1);
        if e == -1 then Stop
        else
          var b := IndexOfChar(s, ' ', l + 1);
          if b != -1 && b < e then Redirect(b + 1) else Placeholder(l, e)
  }

  /** One left-to-right pass over `s`, each placeholder `<name>` replaced by
      `values(name)`; after a placeholder the pass resumes after its closing
      delimiter in the ORIGINAL text, so an inserted value is never scanned. The
      cases are in ExpandCases; keeping them one call away means the verifier
      unfolds the pass one step at a time. */
  function Expand(s: string, values: string -> string, table: map<string, Formal>): Expansion
    decreases |s|, 1
  {
    ExpandCases(s, values, table)
  }

  /** The pass over `s`, by cases on the first event of the scan. */
  function ExpandCases(s: string, values: string -> string, table: map<string, Formal>): Expansion
    decreases |s|, 0
  {
    match NextStep(s)
    case Stop => Expansion(s, false)
    case Redirect(k) =>
      var rest := Expand(s[k..], values, table);
      Expansion(s[..k] + rest.text, rest.citesRequired)
    case Placeholder(l, e) =>
      var name := s[l + 1..e];
      var rest := Expand(s[e + 1..], values, table);
      Expansion(s[..l] + values(name) + rest.text, MarksRequired(name, table) || rest.citesRequired)
  }

  /** Expand when the scan meets nothing more. */
  lemma ExpandStops(s: string, values: string -> string, table: map<string, Formal>)
    requires NextStep(s) == Stop
    ensures Expand(s, values, table) == Expansion(s, false)
  {
  }

  /** Expand when the scan meets a stdin redirection: the text up to its blank is
      kept as it is. */
  lemma ExpandRedirect(s: string, k: nat, values: string -> string, table: map<string, Formal>)
    requires NextStep(s) == Redirect(k)
    ensures 0 < k < |s|
    ensures Expand(s, values, table).text == s[..k] + Expand(s[k..], values, table).text
    ensures Expand(s, values, table).citesRequired == Expand(s[k..], values, table).citesRequired
  {
  }

  /** Expand when the scan meets a placeholder from `l` to `e`. */
  lemma ExpandPlaceholder(s: string, l: nat, e: nat, values: string -> string, table: map<string, Formal>)
    requires NextStep(s) == Placeholder(l, e)
    ensures l < e < |s|
    ensures Expand(s, values, table).text == s[..l] + values(s[l + 1..e]) + Expand(s[e + 1..], values, table).text
    ensures Expand(s, values, table).citesRequired
         == (MarksRequired(s[l + 1..e], table) || Expand(s[e + 1..], values, table).citesRequired)
  {
  }

  /** `substitute`: null stays null; an empty result is null unless a required
      formal was cited. */
  function SubstituteSpec(commandLine: Option<string>, props: map<string, string>, formals: seq<Formal>): Option<string> {
    match commandLine
    case None => None
    case Some(t) =>
      var table := ParamTable(formals);
      var x := Expand(t, Values(props, table), table);
      if x.text == "" && !x.citesRequired then None else Some(x.text)
  }

  /** The loop of `substitute` on a growing buffer: each placeholder is spliced
      out of the buffer and the scan resumes just after the inserted value. */
  method Substitute(commandLine: Option<string>, props: map<string, string>, formals: seq<Formal>)
    returns (r: Option<string>)
    ensures r == SubstituteSpec(commandLine, props, formals)
  {
    if commandLine.None? {
      return None;
    }
    var t := commandLine.value;
    var table := IndexByName(formals);
    var isOptional := true;
    var buf := t;
    var start := 0;
    ghost var values := Values(props, table);
    ghost var done: string := "";
    ghost var rest := t;
    ghost var total := Expand(t, values, table);
    while start < |buf|
      invariant buf == done + rest && start == |done|
      invariant Holds(total, done, rest, isOptional, values, table)
      decreases |rest|
    {
      var l := IndexOfChar(buf, LEFT, start);
      if l == -1 {
        NoLeftStops(buf, done, rest, l);
        break;
      }
      start := l + 1;
      var end := IndexOfChar(buf, RIGHT, start);
      if end == -1 {
        NoRightStops(buf, done, rest, l, end);
        break;
      }
      var blank := IndexOfChar(buf, ' ', start);
      if blank != -1 && blank < end {
        done, rest := RedirectRound(buf, total, done, rest, isOptional, values, table, l, end, blank);
        start := blank + 1;
        continue;
      }
      var name := buf[start..end];
      var value := ReplacementFor(name, props, table);
      ValuesApply(name, props, table);
      ghost var wasOptional := isOptional;
      if MarksRequired(name, table) {
        isOptional := false;
      }
      done, rest := PlaceholderRound(buf, total, done, rest, wasOptional, isOptional, values, table, l, end, blank, value);
      buf := buf[..l] + value + buf[end + 1..];
      start := start + |value| - 1;
    }
    StopKeeps(total, done, rest, isOptional, values, table);
    if |buf| == 0 && isOptional {
      return None;
    }
    return Some(buf);
  }

  /** The Hashtable of formals keyed on name, built as `substitute` builds it. */
  method IndexByName(formals: seq<Formal>) returns (table: map<string, Formal>)
    ensures table == ParamTable(formals)
  {
    table := map[];
    var i := 0;
    while i < |formals|
      invariant 0 <= i <= |formals|
      invariant table == ParamTable(formals[..i])
    {
      assert formals[..i + 1][..i] == formals[..i];
      table := table[formals[i].name := formals[i]];
      i := i + 1;
    }
    assert formals[..|formals|] == formals;
  }

  /** The replacement text for one placeholder, computed step by step as `substitute`
      does. */
  method ReplacementFor(name: string, props: map<string, string>, table: map<string, Formal>) returns (value: string)
    ensures value == Replacement(name, props, table)
  {
    value := if name in props then props[name] else "";
    if name in table && table[name].attributes.Some? {
      var attrs := table[name].attributes.value;
      if |value| > 0 && PREFIX_KEY in attrs && |attrs[PREFIX_KEY]| > 0 {
        value := attrs[PREFIX_KEY] + value;
      }
    }
    if IndexOfString(value, PROGRAM_FILES, 0) != -1 {
      value := Replace(value, PROGRAM_FILES, PROGRAM_FILES_SHORT);
    }
  }

  lemma ValuesApply(name: string, props: map<string, string>, table: map<string, Formal>)
    ensures Values(props, table)(name) == Replacement(name, props, table)
  {
  }

  /** The loop invariant of Substitute: the text done so far followed by the
      expansion of the unscanned part is the expansion of the whole line, and a
      required formal is cited in the whole line exactly when one was met so far or
      is met in the unscanned part. */
  ghost predicate Holds(total: Expansion, done: string, rest: string, isOptional: bool,
                        values: string -> string, table: map<string, Formal>)
  {
    total.text == done + Expand(rest, values, table).text
    && total.citesRequired == (!isOptional || Expand(rest, values, table).citesRequired)
  }

  lemma StopKeeps(total: Expansion, done: string, rest: string, isOptional: bool,
                  values: string -> string, table: map<string, Formal>)
    requires Holds(total, done, rest, isOptional, values, table)
    requires NextStep(rest) == Stop
    ensures total.text == done + rest && total.citesRequired == !isOptional
  {
    ExpandStops(rest, values, table);
  }

  /** After a redirection the kept text moves from the unscanned part to the done
      part. */
  lemma RedirectKeeps(total: Expansion, done: string, rest: string, k: nat, isOptional: bool,
                      values: string -> string, table: map<string, Formal>)
    requires Holds(total, done, rest, isOptional, values, table)
    requires |rest| > 0 && NextStep(rest) == Redirect(k)
    ensures done + rest[..k] + rest[k..] == done + rest
    ensures Holds(total, done + rest[..k], rest[k..], isOptional, values, table)
  {
    ExpandRedirect(rest, k, values, table);
    Assoc3(done, rest[..k], Expand(rest[k..], values, table).text);
    Assoc3(done, rest[..k], rest[k..]);
    SplitAt(rest, k);
  }

  /** After a placeholder its replacement joins the done part and the unscanned part
      resumes after the closing delimiter. */
  lemma PlaceholderKeeps(total: Expansion, done: string, rest: string, l: nat, e: nat, name: string, value: string,
                         isOptional: bool, isOptional': bool, values: string -> string, table: map<string, Formal>)
    requires Holds(total, done, rest, isOptional, values, table)
    requires |rest| > 0 && NextStep(rest) == Placeholder(l, e)
    requires name == rest[l + 1..e] && value == values(name)
    requires isOptional' == (isOptional && !MarksRequired(name, table))
    ensures Holds(total, done + rest[..l] + value, rest[e + 1..], isOptional', values, table)
  {
    ExpandPlaceholder(rest, l, e, values, table);
    Assoc4(done, rest[..l], value, Expand(rest[e + 1..], values, table).text);
  }

  /** Splicing a value into the buffer in place of the placeholder `l..e` of the
      unscanned part. */
  lemma Splice(buf: string, done: string, rest: string, l: nat, e: nat, lr: nat, er: nat, value: string)
    requires buf == done + rest && l == |done| + lr && e == |done| + er && lr < er < |rest|
    ensures buf[..l] + value + buf[e + 1..] == done + rest[..lr] + value + rest[er + 1..]
  {
    SliceOfConcat(done, rest, lr);
    SliceOfConcat(done, rest, er + 1);
  }

  /** The name between the delimiters, read from the buffer, is read from the
      unscanned part. */
  lemma NameInRest(buf: string, done: string, rest: string, start: nat, end: nat, lr: nat, er: nat)
    requires buf == done + rest && start == |done| + lr + 1 && end == |done| + er && lr < er <= |rest|
    ensures buf[start..end] == rest[lr + 1..er]
  {
    SliceOfConcatMid(done, rest, lr + 1, er);
  }

  /** A search of the buffer from inside its unscanned part finds what the search of
      the unscanned part finds, shifted by the length of the done part. */
  lemma Found(buf: string, done: string, rest: string, c: char, from: nat, r: int) returns (rr: int)
    requires buf == done + rest && |done| <= from && r == IndexOfChar(buf, c, from)
    ensures rr == IndexOfChar(rest, c, from - |done|)
    ensures rr == -1 <==> r == -1
    ensures rr != -1 ==> r == |done| + rr
  {
    IndexOfCharAfterPrefix(done, rest, c, from - |done|);
    rr := IndexOfChar(rest, c, from - |done|);
  }

  /** No `<` from the scan position on: the scan stops. */
  lemma NoLeftStops(buf: string, done: string, rest: string, l: int)
    requires buf == done + rest && l == IndexOfChar(buf, LEFT, |done|) && l == -1
    ensures NextStep(rest) == Stop
  {
    var lr := Found(buf, done, rest, LEFT, |done|, l);
  }

  /** A `<` with no `>` after it: the scan stops. */
  lemma NoRightStops(buf: string, done: string, rest: string, l: int, end: int)
    requires buf == done + rest && l == IndexOfChar(buf, LEFT, |done|) && l != -1
    requires end == IndexOfChar(buf, RIGHT, l + 1) && end == -1
    ensures NextStep(rest) == Stop
  {
    var lr := Found(buf, done, rest, LEFT, |done|, l);
    var er := Found(buf, done, rest, RIGHT, l + 1, end);
  }

  /** A round of the scan that meets a stdin redirection keeps the invariant, with
      the text up to the blank moved to the done part. */
  lemma RedirectRound(buf: string, total: Expansion, done: string, rest: string, isOptional: bool,
                      values: string -> string, table: map<string, Formal>, l: int, end: int, blank: int)
    returns (done': string, rest': string)
    requires buf == done + rest && Holds(total, done, rest, isOptional, values, table)
    requires l == IndexOfChar(buf, LEFT, |done|) && l != -1
    requires end == IndexOfChar(buf, RIGHT, l + 1) && end != -1
    requires blank == IndexOfChar(buf, ' ', l + 1) && blank != -1 && blank < end
    ensures buf == done' + rest' && |done'| == blank + 1 && |rest'| < |rest|
    ensures Holds(total, done', rest', isOptional, values, table)
  {
    var lr := Found(buf, done, rest, LEFT, |done|, l);
    var er := Found(buf, done, rest, RIGHT, l + 1, end);
    var br := Found(buf, done, rest, ' ', l + 1, blank);
    assert NextStep(rest) == Redirect(br + 1);
    RedirectKeeps(total, done, rest, br + 1, isOptional, values, table);
    done', rest' := done + rest[..br + 1], rest[br + 1..];
  }

  /** A round of the scan that meets a placeholder keeps the invariant: splicing its
      replacement into the buffer gives the done part, the replacement, and the
      unscanned text after the closing delimiter. */
  lemma PlaceholderRound(buf: string, total: Expansion, done: string, rest: string, isOptional: bool, isOptional': bool,
                         values: string -> string, table: map<string, Formal>, l: int, end: int, blank: int, value: string)
    returns (done': string, rest': string)
    requires buf == done + rest && Holds(total, done, rest, isOptional, values, table)
    requires l == IndexOfChar(buf, LEFT, |done|) && l != -1
    requires end == IndexOfChar(buf, RIGHT, l + 1) && end != -1
    requires blank == IndexOfChar(buf, ' ', l + 1) && !(blank != -1 && blank < end)
    requires value == values(buf[l + 1..end])
    requires isOptional' == (isOptional && !MarksRequired(buf[l + 1..end], table))
    ensures l < end < |buf|
    ensures buf[..l] + value + buf[end + 1..] == done' + rest' && |done'| == l + |value| && |rest'| < |rest|
    ensures Holds(total, done', rest', isOptional', values, table)
  {
    var lr := Found(buf, done, rest, LEFT, |done|, l);
    var er := Found(buf, done, rest, RIGHT, l + 1, end);
    var br := Found(buf, done, rest, ' ', l + 1, blank);
    assert NextStep(rest) == Placeholder(lr, er);
    NameInRest(buf, done, rest, l + 1, end, lr, er);
    PlaceholderKeeps(total, done, rest, lr, er, rest[lr + 1..er], value, isOptional, isOptional', values, table);
    Splice(buf, done, rest, l, end, lr, er, value);
    done', rest' := done + rest[..lr] + value, rest[er + 1..];
  }

  // ---------------------------------------------------------------- properties

  /** Text without a `<` is left as it is. */
  lemma ExpandLiteral(s: string, values: string -> string, table: map<string, Formal>)
    requires LEFT !in s
    ensures Expand(s, values, table) == Expansion(s, false)
  {
    IndexOfCharNone(s, LEFT, 0);
    ExpandStops(s, values, table);
  }

  /** A non-empty line without a placeholder substitutes to itself. */
  lemma SubstituteLiteral(t: string, props: map<string, string>, formals: seq<Formal>)
    requires LEFT !in t && t != ""
    ensures SubstituteSpec(Some(t), props, formals) == Some(t)
  {
    ExpandLiteral(t, Values(props, ParamTable(formals)), ParamTable(formals));
  }

  /** `a<name>c`: the placeholder is replaced, the text before it is kept, and the
      pass carries on with the original text after it, so the inserted value is
      never scanned again. */
  lemma PlaceholderExpands(a: string, name: string, c: string, values: string -> string, table: map<string, Formal>)
    requires LEFT !in a && RIGHT !in name && ' ' !in name
    ensures Expand(a + [LEFT] + name + [RIGHT] + c, values, table)
         == Expansion(a + values(name) + Expand(c, values, table).text,
                      MarksRequired(name, table) || Expand(c, values, table).citesRequired)
  {
    PlaceholderShape(a, name, c);
    PlaceholderParts(a, name, c);
    ExpandPieces(a + [LEFT] + name + [RIGHT] + c, a, name, c, values, table);
  }

  /** Expand of a line whose first placeholder holds `name`, with `a` before it and
      `c` after it. */
  lemma ExpandPieces(s: string, a: string, name: string, c: string, values: string -> string, table: map<string, Formal>)
    requires NextStep(s) == Placeholder(|a|, |a| + 1 + |name|)
    requires s[..|a|] == a && s[|a| + 1..|a| + 1 + |name|] == name && s[|a| + 1 + |name| + 1..] == c
    ensures Expand(s, values, table)
         == Expansion(a + values(name) + Expand(c, values, table).text,
                      MarksRequired(name, table) || Expand(c, values, table).citesRequired)
  {
    ExpandPlaceholder(s, |a|, |a| + 1 + |name|, values, table);
    assert Expand(s, values, table).text == a + values(name) + Expand(c, values, table).text;
  }

  /** The scan of `a<name>c` meets the placeholder `<name>` first. */
  lemma PlaceholderShape(a: string, name: string, c: string)
    requires LEFT !in a && RIGHT !in name && ' ' !in name
    ensures NextStep(a + [LEFT] + name + [RIGHT] + c) == Placeholder(|a|, |a| + 1 + |name|)
  {
    var s := a + [LEFT] + name + [RIGHT] + c;
    var e := |a| + 1 + |name|;
    assert forall j :: 0 <= j < |a| ==> s[j] == a[j];
    assert s[|a|] == LEFT;
    IndexOfCharIs(s, LEFT, 0, |a|);
    assert forall j :: |a| + 1 <= j < e ==> s[j] == name[j - |a| - 1];
    assert s[e] == RIGHT;
    IndexOfCharIs(s, RIGHT, |a| + 1, e);
    IndexOfCharFirst(s, ' ', |a| + 1);
  }

  /** The pieces of `a<name>c`. */
  lemma PlaceholderParts(a: string, name: string, c: string)
    ensures var s := a + [LEFT] + name + [RIGHT] + c;
      var e := |a| + 1 + |name|;
      s[..|a|] == a && s[|a| + 1..e] == name && s[e + 1..] == c
  {
    var s := a + [LEFT] + name + [RIGHT] + c;
    var e := |a| + 1 + |name|;
    assert s[..|a|] == a;
    assert s[|a| + 1..e] == name;
    assert s[e + 1..] == c;
  }

  /** `a<x y...`: a blank before the closing `>` marks a stdin redirection; the text
      up to and including the blank is kept as it is. */
  lemma StdinRedirectKept(a: string, x: string, c: string, values: string -> string, table: map<string, Formal>)
    requires LEFT !in a && RIGHT !in x && ' ' !in x && RIGHT in c
    ensures Expand(a + [LEFT] + x + " " + c, values, table)
         == Expansion(a + [LEFT] + x + " " + Expand(c, values, table).text, Expand(c, values, table).citesRequired)
  {
    var s := a + [LEFT] + x + " " + c;
    var bl := |a| + 1 + |x|;
    assert forall j :: 0 <= j < |a| ==> s[j] == a[j];
    assert s[|a|] == LEFT;
    IndexOfCharIs(s, LEFT, 0, |a|);
    assert forall j :: |a| + 1 <= j < bl ==> s[j] == x[j - |a| - 1];
    assert s[bl] == ' ';
    IndexOfCharIs(s, ' ', |a| + 1, bl);
    var k :| 0 <= k < |c| && c[k] == RIGHT;
    assert s[bl + 1 + k] == RIGHT;
    var e := IndexOfChar(s, RIGHT, |a| + 1);
    IndexOfCharFirst(s, RIGHT, |a| + 1);
    assert e != -1 && e > bl;
    assert NextStep(s) == Redirect(bl + 1);
    ExpandRedirect(s, bl + 1, values, table);
    Halves(a + [LEFT] + x + " ", c);
  }

  /** `a<c` with no `>` after the `<`: nothing more is substituted. */
  lemma UnclosedPlaceholderKept(a: string, c: string, values: string -> string, table: map<string, Formal>)
    requires LEFT !in a && RIGHT !in c
    ensures Expand(a + [LEFT] + c, values, table) == Expansion(a + [LEFT] + c, false)
  {
    var s := a + [LEFT] + c;
    assert forall j :: 0 <= j < |a| ==> s[j] == a[j];
    assert s[|a|] == LEFT;
    IndexOfCharIs(s, LEFT, 0, |a|);
    assert forall j :: |a| + 1 <= j < |s| ==> s[j] == c[j - |a| - 1];
    IndexOfCharNone(s, RIGHT, |a| + 1);
    assert NextStep(s) == Stop;
    ExpandStops(s, values, table);
  }

  /** A placeholder whose name has no property becomes the empty string, whatever
      its formal says. */
  lemma UnknownNameBecomesEmpty(a: string, name: string, c: string, props: map<string, string>, table: map<string, Formal>)
    requires LEFT !in a && RIGHT !in name && ' ' !in name && name !in props
    ensures Expand(a + [LEFT] + name + [RIGHT] + c, Values(props, table), table).text
         == a + Expand(c, Values(props, table), table).text
  {
    ValuesApply(name, props, table);
    PlaceholderExpands(a, name, c, Values(props, table), table);
    assert a + "" == a;
  }

  /** A line that is one placeholder expands to its replacement. */
  lemma SingleToken(name: string, values: string -> string, table: map<string, Formal>)
    requires RIGHT !in name && ' ' !in name
    ensures Expand([LEFT] + name + [RIGHT], values, table) == Expansion(values(name), MarksRequired(name, table))
  {
    PlaceholderExpands("", name, "", values, table);
    assert "" + [LEFT] + name + [RIGHT] + "" == [LEFT] + name + [RIGHT];
    ExpandStops("", values, table);
    assert "" + values(name) + "" == values(name);
  }

  /** A single optional placeholder with no value substitutes to null: the token
      disappears from the argument list. */
  lemma OptionalEmptyTokenIsNull(name: string, props: map<string, string>, formals: seq<Formal>)
    requires RIGHT !in name && ' ' !in name
    requires name !in props || props[name] == ""
    requires !MarksRequired(name, ParamTable(formals))
    ensures SubstituteSpec(Some([LEFT] + name + [RIGHT]), props, formals) == None
  {
    ValuesApply(name, props, ParamTable(formals));
    SingleToken(name, Values(props, ParamTable(formals)), ParamTable(formals));
  }

  /** A placeholder of a required formal is never null, even when its value is
      empty. */
  lemma RequiredTokenIsKept(name: string, props: map<string, string>, formals: seq<Formal>)
    requires RIGHT !in name && ' ' !in name
    requires MarksRequired(name, ParamTable(formals))
    ensures SubstituteSpec(Some([LEFT] + name + [RIGHT]), props, formals)
         == Some(Replacement(name, props, ParamTable(formals)))
  {
    ValuesApply(name, props, ParamTable(formals));
    SingleToken(name, Values(props, ParamTable(formals)), ParamTable(formals));
  }

  /** A formal with a non-empty prefix attribute puts the prefix before a non-empty
      value, and adds nothing to an empty one. */
  lemma PrefixOnlyWhenSpecified(name: string, value: string, prefix: string, props: map<string, string>, table: map<string, Formal>)
    requires name in table && table[name].attributes.Some?
    requires PREFIX_KEY in table[name].attributes.value && table[name].attributes.value[PREFIX_KEY] == prefix
    requires |prefix| > 0 && !Contains(prefix + value, PROGRAM_FILES)
    requires (name in props && props[name] == value) || (name !in props && value == "")
    ensures Replacement(name, props, table) == if value == "" then "" else prefix + value
  {
  }

  /** A value without a blank cannot hold "Program Files". */
  lemma NoBlankNoProgramFiles(v: string)
    requires ' ' !in v
    ensures !Contains(v, PROGRAM_FILES)
  {
    forall k: nat | k + |PROGRAM_FILES| <= |v|
      ensures !MatchAt(v, PROGRAM_FILES, k)
    {
      assert v[k..k + |PROGRAM_FILES|][7] == v[k + 7] && v[k + 7] in v;
    }
    IndexOfStringFirst(v, PROGRAM_FILES, 0);
  }

  /** A value that itself reads like a placeholder is inserted verbatim: the pass
      does not scan what it inserted, so `<outer>` whose value is `<inner>` gives
      `<inner>`, not the value of `inner`. */
  lemma ValueIsNotRescanned(outer: string, inner: string, props: map<string, string>, formals: seq<Formal>)
    requires RIGHT !in outer && ' ' !in outer && RIGHT !in inner && ' ' !in inner
    requires outer in props && props[outer] == [LEFT] + inner + [RIGHT]
    requires outer !in ParamTable(formals)
    ensures SubstituteSpec(Some([LEFT] + outer + [RIGHT]), props, formals) == Some([LEFT] + inner + [RIGHT])
  {
    var table := ParamTable(formals);
    NoBlankNoProgramFiles([LEFT] + inner + [RIGHT]);
    assert Replacement(outer, props, table) == [LEFT] + inner + [RIGHT];
    ValuesApply(outer, props, table);
    SingleToken(outer, Values(props, table), table);
  }

  /** The first `c` at or after `from` is the first `c` at or after `to` when none
      lies between. */
  lemma IndexOfCharSkip(s: string, c: char, from: nat, to: nat)
    requires from <= to <= |s|
    requires forall k :: from <= k < to ==> s[k] != c
    ensures IndexOfChar(s, c, from) == IndexOfChar(s, c, to)
  {
    var r := IndexOfChar(s, c, to);
    IndexOfCharFirst(s, c, to);
    if r == -1 {
      IndexOfCharNone(s, c, from);
    } else {
      IndexOfCharIs(s, c, from, r);
    }
  }

  /** A scan event moved `n` positions to the right. */
  function Shift(st: Step, n: nat): Step {
    match st
    case Stop => Stop
    case Redirect(k) => Redirect(n + k)
    case Placeholder(l, e) => Placeholder(n + l, n + e)
  }

  /** Text without a `<` in front of a line does not change what the scan meets in
      the line; it only shifts it. */
  lemma NextStepAfterPrefix(a: string, r: string)
    requires LEFT !in a
    ensures NextStep(a + r) == Shift(NextStep(r), |a|)
  {
    var s := a + r;
    forall k | 0 <= k < |a| ensures s[k] != LEFT {
      assert s[k] == a[k];
    }
    IndexOfCharSkip(s, LEFT, 0, |a|);
    IndexOfCharAfterPrefix(a, r, LEFT, 0);
    var lr := IndexOfChar(r, LEFT, 0);
    assert IndexOfChar(s, LEFT, 0) == if lr == -1 then -1 else |a| + lr;
    if lr != -1 {
      IndexOfCharAfterPrefix(a, r, RIGHT, lr + 1);
      IndexOfCharAfterPrefix(a, r, ' ', lr + 1);
      assert |a| + (lr + 1) == |a| + lr + 1;
    }
  }

  /** So the pass over such a prefix and a line keeps the prefix and expands the
      line. */
  lemma ExpandAfterPrefix(a: string, r: string, values: string -> string, table: map<string, Formal>)
    requires LEFT !in a
    ensures Expand(a + r, values, table).text == a + Expand(r, values, table).text
    ensures Expand(a + r, values, table).citesRequired == Expand(r, values, table).citesRequired
  {
    var s := a + r;
    NextStepAfterPrefix(a, r);
    match NextStep(r)
    case Stop =>
      ExpandStops(s, values, table);
      ExpandStops(r, values, table);
    case Redirect(k) =>
      RedirectAfterPrefix(a, r, k, values, table);
    case Placeholder(l, e) =>
      PlaceholderAfterPrefix(a, r, l, e, values, table);
  }

  lemma RedirectAfterPrefix(a: string, r: string, k: nat, values: string -> string, table: map<string, Formal>)
    requires NextStep(r) == Redirect(k) && NextStep(a + r) == Redirect(|a| + k)
    ensures Expand(a + r, values, table).text == a + Expand(r, values, table).text
    ensures Expand(a + r, values, table).citesRequired == Expand(r, values, table).citesRequired
  {
    var s := a + r;
    var tail := Expand(r[k..], values, table);
    var x := Expand(s, values, table);
    var y := Expand(r, values, table);
    assert x.text == s[..|a| + k] + tail.text && x.citesRequired == tail.citesRequired by {
      RedirectPass(s, a, r, k, values, table);
    }
    assert y.text == r[..k] + tail.text && y.citesRequired == tail.citesRequired by {
      ExpandRedirect(r, k, values, table);
    }
    KeepPrefix(a, r, k, tail.text, x.text, y.text);
  }

  /** The pass over `s == a + r` when it meets a redirection inside `r`. */
  lemma RedirectPass(s: string, a: string, r: string, k: nat, values: string -> string, table: map<string, Formal>)
    requires s == a + r && NextStep(s) == Redirect(|a| + k) && k <= |r|
    ensures Expand(s, values, table).text == s[..|a| + k] + Expand(r[k..], values, table).text
    ensures Expand(s, values, table).citesRequired == Expand(r[k..], values, table).citesRequired
  {
    ExpandRedirect(s, |a| + k, values, table);
    SliceOfConcat(a, r, k);
  }

  lemma PlaceholderAfterPrefix(a: string, r: string, l: nat, e: nat, values: string -> string, table: map<string, Formal>)
    requires NextStep(r) == Placeholder(l, e) && NextStep(a + r) == Placeholder(|a| + l, |a| + e)
    ensures Expand(a + r, values, table).text == a + Expand(r, values, table).text
    ensures Expand(a + r, values, table).citesRequired == Expand(r, values, table).citesRequired
  {
    var s := a + r;
    var name := r[l + 1..e];
    var c := r[e + 1..];
    var tail := Expand(c, values, table);
    assert Expand(s, values, table)
        == Expansion(a + r[..l] + values(name) + tail.text, MarksRequired(name, table) || tail.citesRequired) by {
      PlaceholderSlices(s, a, r, l, e);
      SliceOfConcat(a, r, l);
      ExpandPieces(s, a + r[..l], name, c, values, table);
    }
    assert Expand(r, values, table)
        == Expansion(r[..l] + values(name) + tail.text, MarksRequired(name, table) || tail.citesRequired) by {
      ExpandPieces(r, r[..l], name, c, values, table);
    }
    Assoc4(a, r[..l], values(name), tail.text);
  }

  /** Where the parts of a placeholder inside `r` lie in `s == a + r`. */
  lemma PlaceholderSlices(s: string, a: string, r: string, l: nat, e: nat)
    requires s == a + r && l < e < |r|
    ensures s[|a| + l + 1..|a| + e] == r[l + 1..e] && s[|a| + e + 1..] == r[e + 1..]
  {
    SliceOfConcatMid(a, r, l + 1, e);
    SliceOfConcat(a, r, e + 1);
  }

  /** The text of the passes over `a + r` (`x`) and over `r` (`y`) when both keep the
      text before position `k` of `r` and continue with `tail`. */
  lemma KeepPrefix(a: string, r: string, k: nat, tail: string, x: string, y: string)
    requires k <= |r|
    requires x == (a + r)[..|a| + k] + tail
    requires y == r[..k] + tail
    ensures x == a + y
  {
    SliceOfConcat(a, r, k);
    Assoc3(a, r[..k], tail);
  }

  /** A kept stdin redirection is met again by a second scan, unless what follows
      it no longer holds a `>`; then the scan stops there. */
  lemma RedirectAgain(s: string, k: nat, r: string)
    requires NextStep(s) == Redirect(k)
    ensures NextStep(s[..k] + r) == Stop || NextStep(s[..k] + r) == Redirect(k)
  {
    var t := s[..k] + r;
    var l := IndexOfChar(s, LEFT, 0);
    var e := IndexOfChar(s, RIGHT, l + 1);
    var b := IndexOfChar(s, ' ', l + 1);
    assert forall j :: 0 <= j < k ==> t[j] == s[j];
    IndexOfCharFirst(s, LEFT, 0);
    IndexOfCharIs(t, LEFT, 0, l);
    IndexOfCharFirst(s, ' ', l + 1);
    IndexOfCharIs(t, ' ', l + 1, b);
    IndexOfCharFirst(s, RIGHT, l + 1);
    IndexOfCharFirst(t, RIGHT, l + 1);
  }

  /** A second pass over what a pass produced changes nothing when no inserted value
      holds a `<`: each placeholder is gone, and each kept redirection and each
      unclosed `<` is kept again. */
  lemma {:induction false} ExpandStable(s: string, values: string -> string, table: map<string, Formal>)
    requires forall name :: LEFT !in values(name)
    ensures Expand(Expand(s, values, table).text, values, table).text == Expand(s, values, table).text
    decreases |s|
  {
    match NextStep(s)
    case Stop =>
      ExpandStops(s, values, table);
    case Redirect(k) =>
      ExpandRedirect(s, k, values, table);
      var rest := Expand(s[k..], values, table).text;
      ExpandStable(s[k..], values, table);
      var t := s[..k] + rest;
      RedirectAgain(s, k, rest);
      if NextStep(t) == Stop {
        ExpandStops(t, values, table);
      } else {
        ExpandRedirect(t, k, values, table);
        assert t[..k] == s[..k] && t[k..] == rest;
      }
    case Placeholder(l, e) =>
      ExpandPlaceholder(s, l, e, values, table);
      var rest := Expand(s[e + 1..], values, table).text;
      ExpandStable(s[e + 1..], values, table);
      IndexOfCharFirst(s, LEFT, 0);
      var a := s[..l] + values(s[l + 1..e]);
      assert LEFT !in a;
      ExpandAfterPrefix(a, rest, values, table);
  }

  /** Substituting again what a substitution produced gives it back when no inserted
      value holds a `<`; a kept redirection such as `<x y` or an unclosed `<` stays
      as it is. An empty result that was kept because a required formal was cited
      becomes null the second time. */
  lemma ResolvedResultIsStable(t: string, u: string, props: map<string, string>, formals: seq<Formal>)
    requires forall name :: LEFT !in Replacement(name, props, ParamTable(formals))
    requires SubstituteSpec(Some(t), props, formals) == Some(u)
    ensures u != "" ==> SubstituteSpec(Some(u), props, formals) == Some(u)
    ensures u == "" ==> SubstituteSpec(Some(u), props, formals) == None
  {
    var table := ParamTable(formals);
    var values := Values(props, table);
    forall name ensures LEFT !in values(name) {
      ValuesApply(name, props, table);
    }
    ExpandStable(t, values, table);
    if u == "" {
      ExpandStops(u, values, table);
    }
  }
}

=== FILE: task_helpers.dfy ===
/** Small helpers of the task runner: the directory name of a task's files, the
    directory of a job, HTML escaping, and the comma-list of file endings. */
module TaskHelpers {
  import opened Wrappers
  import opened Seqs
  import opened JavaText

  // ---------------------------------------------------------------- makeDirName

  /** The directory name limit of Mac OS X. */
  const MAX_DIR_LENGTH: nat := 255

  /** The version part of a task directory name: "1" without an LSID, "tmp" for an
      LSID without a version. */
  function DirVersion(lsidVersion: Option<string>): string {
    match lsidVersion
    case None => "1"
    case Some(v) => if v == "" then "tmp" else v
  }

  /** `makeDirName`: as much of the task name as fits before ".version.invariant"
      within the limit. The invariant part (the task's id, or the base-36 hash of
      its name) is an input. A suffix longer than the limit makes `substring` throw. */
  function MakeDirName(lsidVersion: Option<string>, taskName: string, invariantPart: string): Result<string, JavaError> {
    var suffix := "." + DirVersion(lsidVersion) + "." + invariantPart;
    var room := MAX_DIR_LENGTH - |suffix|;
    if room < 0 then Err(StringIndexOutOfBounds)
    else Ok(taskName[..if room < |taskName| then room else |taskName|] + suffix)
  }

  /** A directory name ends with the version and invariant part, starts with a
      prefix of the task name, stays within the limit, and keeps the whole task name
      when it fits; the call fails exactly when the suffix alone is too long. */
  lemma MakeDirNameSpec(lsidVersion: Option<string>, taskName: string, invariantPart: string)
    ensures var suffix := "." + DirVersion(lsidVersion) + "." + invariantPart;
      var r := MakeDirName(lsidVersion, taskName, invariantPart);
      (r.Err? <==> |suffix| > MAX_DIR_LENGTH)
      && (r.Ok? ==>
            EndsWith(r.value, suffix)
            && StartsWith(taskName, r.value[..|r.value| - |suffix|])
            && |r.value| <= MAX_DIR_LENGTH
            && (|taskName| + |suffix| <= MAX_DIR_LENGTH ==> r.value == taskName + suffix)
            && (|taskName| + |suffix| > MAX_DIR_LENGTH ==> |r.value| == MAX_DIR_LENGTH))
  {
    var suffix := "." + DirVersion(lsidVersion) + "." + invariantPart;
    var r := MakeDirName(lsidVersion, taskName, invariantPart);
    if r.Ok? {
      var room := MAX_DIR_LENGTH - |suffix|;
      var keep := if room < |taskName| then room else |taskName|;
      assert r.value == taskName[..keep] + suffix;
      assert r.value[|r.value| - |suffix|..] == suffix;
      assert r.value[..|r.value| - |suffix|] == taskName[..keep];
      assert taskName[..|taskName[..keep]|] == taskName[..keep];
      if |taskName| + |suffix| <= MAX_DIR_LENGTH {
        assert taskName[..keep] == taskName;
      }
    }
  }

  // ---------------------------------------------------------------- getJobDir

  /** `getJobDir`: the job number under the jobs directory, joined by exactly one
      separator. The "jobs" system property is an input; a missing property throws. */
  function JobDir(jobsProperty: Option<string>, jobNumber: string): Result<string, JavaError> {
    match jobsProperty
    case None => Err(NullPointer)
    case Some(dir) => Ok((if EndsWith(dir, "/") then dir else dir + "/") + jobNumber)
  }

  /** A jobs directory given with or without its trailing separator names the same
      job directory. */
  lemma JobDirOneSeparator(dir: string, jobNumber: string)
    requires !EndsWith(dir, "/")
    ensures JobDir(Some(dir), jobNumber) == Ok(dir + "/" + jobNumber)
    ensures JobDir(Some(dir + "/"), jobNumber) == Ok(dir + "/" + jobNumber)
  {
    assert (dir + "/")[|dir + "/"| - 1..] == "/";
  }

  // ---------------------------------------------------------------- csvToVector and hasEnding

  /** The separators of a list of file endings. */
  const CSV_DELIMS: set<char> := {',', ';', ' '}

  /** `csvToVector`: the tokenizer's loop, one token per round. */
  method CsvToVector(csv: string) returns (entries: seq<string>)
    ensures entries == Tokens(csv, CSV_DELIMS)
  {
    entries := [];
    var rest := csv;
    while |Tokens(rest, CSV_DELIMS)| > 0
      invariant entries + Tokens(rest, CSV_DELIMS) == Tokens(csv, CSV_DELIMS)
      decreases |rest|
    {
      var tokens := Tokens(rest, CSV_DELIMS);
      ConsTail(tokens[0], tokens[1..]);
      Assoc3(entries, [tokens[0]], tokens[1..]);
      entries := entries + [tokens[0]];
      rest := AfterFirst(rest, CSV_DELIMS);
    }
    assert entries + [] == entries;
  }

  /** Entries that are non-empty and free of separators, written with commas, read
      back as themselves. */
  lemma {:induction false} CsvRoundTrip(entries: seq<string>)
    requires forall i :: 0 <= i < |entries| ==> |entries[i]| > 0
    requires forall i, k :: 0 <= i < |entries| && 0 <= k < |entries[i]| ==> entries[i][k] !in CSV_DELIMS
    ensures Tokens(Join(entries), CSV_DELIMS) == entries
    decreases |entries|
  {
    if |entries| == 1 {
      TokensOfSingle(entries[0], CSV_DELIMS);
    } else if |entries| > 1 {
      var rest := entries[1..];
      CsvRoundTrip(rest);
      TokensOfSingle(entries[0], CSV_DELIMS);
      TokensAround(entries[0], ',', Join(rest), CSV_DELIMS);
      assert entries[0] + "," + Join(rest) == entries[0] + [','] + Join(rest);
      ConsTail(entries[0], rest);
    }
  }

  /** `hasEnding`: the text after the last period of the lower-cased file name is
      one of the lower-cased endings; without a period the empty ending is looked
      for. The property holding the endings is an input. */
  predicate HasEnding(fileName: string, endings: string) {
    var listed := Tokens(ToLower(endings), CSV_DELIMS);
    var name := ToLower(FileName(fileName));
    var dot := LastIndexOfChar(name, '.');
    if dot == -1 then "" in listed else name[dot + 1..] in listed
  }

  /** The tokenizer never yields an empty ending, so a file name without a period,
      or ending with one, never has an ending. */
  lemma NoExtensionNoEnding(fileName: string, endings: string)
    ensures var name := ToLower(FileName(fileName));
      var dot := LastIndexOfChar(name, '.');
      dot == -1 || dot == |name| - 1 ==> !HasEnding(fileName, endings)
  {
  }

  /** The endings are compared ignoring case: lower-casing them first changes
      nothing. */
  lemma HasEndingIgnoresCase(fileName: string, endings: string)
    ensures HasEnding(fileName, ToLower(endings)) == HasEnding(fileName, endings)
  {
    ToLowerTwice(endings);
  }

  // ---------------------------------------------------------------- htmlEncode

  /** A character and the name of its HTML entity. */
  type EntityTable = seq<(char, string)>

  /** The ASCII characters HTML reserves. */
  const ASCII_ENTITIES: EntityTable :=
    [('&', "amp"), ('<', "lt"), ('>', "gt"), ('"', "quot")]

  /** Characters of the C1 control range, escaped by numeric references. */
  const NUMERIC_ENTITIES: EntityTable :=
    [('\U{0083}', "#131"), ('\U{0084}', "#132"), ('\U{0085}', "#133"), ('\U{0086}', "#134"), ('\U{0087}', "#135"),
     ('\U{0089}', "#137"), ('\U{008A}', "#138"), ('\U{008B}', "#139"), ('\U{008C}', "#140"), ('\U{0091}', "#145"),
     ('\U{0092}', "#146"), ('\U{0093}', "#147"), ('\U{0094}', "#148"), ('\U{0095}', "#149"), ('\U{0096}', "#150"),
     ('\U{0097}', "#151"), ('\U{0099}', "#153"), ('\U{009A}', "#154"), ('\U{009B}', "#155"), ('\U{009C}', "#156"),
     ('\U{009F}', "#159")]

  /** Latin-1 symbols from U+00A0 to U+00B3. */
  const LATIN1_A0: EntityTable :=
    [('\U{00A0}', "nbsp"), ('\U{00A1}', "iexcl"), ('\U{00A2}', "cent"), ('\U{00A3}', "pound"), ('\U{00A4}', "curren"),
     ('\U{00A5}', "yen"), ('\U{00A6}', "brvbar"), ('\U{00A7}', "sect"), ('\U{00A8}', "uml"), ('\U{00A9}', "copy"),
     ('\U{00AA}', "ordf"), ('\U{00AB}', "laquo"), ('\U{00AC}', "not"), ('\U{00AD}', "shy"), ('\U{00AE}', "reg"),
     ('\U{00AF}', "macr"), ('\U{00B0}', "deg"), ('\U{00B1}', "plusmn"), ('\U{00B2}', "sup2"), ('\U{00B3}', "sup3")]

  /** Latin-1 symbols from U+00B4 to U+00BF. */
  const LATIN1_B4: EntityTable :=
    [('\U{00B4}', "acute"), ('\U{00B5}', "micro"), ('\U{00B6}', "para"), ('\U{00B7}', "middot"), ('\U{00B8}', "cedil"),
     ('\U{00B9}', "sup1"), ('\U{00BA}', "ordm"), ('\U{00BB}', "raquo"), ('\U{00BC}', "frac14"), ('\U{00BD}', "frac12"),
     ('\U{00BE}', "frac34"), ('\U{00BF}', "iquest")]

  /** Latin-1 capital letters from U+00C0 to U+00CF. */
  const LATIN1_C0: EntityTable :=
    [('\U{00C0}', "Agrave"), ('\U{00C1}', "Aacute"), ('\U{00C2}', "Acirc"), ('\U{00C3}', "Atilde"), ('\U{00C4}', "Auml"),
     ('\U{00C5}', "Aring"), ('\U{00C6}', "AElig"), ('\U{00C7}', "Ccedil"), ('\U{00C8}', "Egrave"), ('\U{00C9}', "Eacute"),
     ('\U{00CA}', "Ecirc"), ('\U{00CB}', "Euml"), ('\U{00CC}', "Igrave"), ('\U{00CD}', "Iacute"), ('\U{00CE}', "Icirc"),
     ('\U{00CF}', "Iuml")]

  /** Latin-1 letters from U+00D0 to U+00DF. */
  const LATIN1_D0: EntityTable :=
    [('\U{00D0}', "ETH"), ('\U{00D1}', "Ntilde"), ('\U{00D2}', "Ograve"), ('\U{00D3}', "Oacute"), ('\U{00D4}', "Ocirc"),
     ('\U{00D5}', "Otilde"), ('\U{00D6}', "Ouml"), ('\U{00D7}', "times"), ('\U{00D8}', "Oslash"), ('\U{00D9}', "Ugrave"),
     ('\U{00DA}', "Uacute"), ('\U{00DB}', "Ucirc"), ('\U{00DC}', "Uuml"), ('\U{00DD}', "Yacute"), ('\U{00DE}', "THORN"),
     ('\U{00DF}', "szlig")]

  /** Latin-1 small letters from U+00E0 to U+00EF. */
  const LATIN1_E0: EntityTable :=
    [('\U{00E0}', "agrave"), ('\U{00E1}', "aacute"), ('\U{00E2}', "acirc"), ('\U{00E3}', "atilde"), ('\U{00E4}', "auml"),
     ('\U{00E5}', "aring"), ('\U{00E6}', "aelig"), ('\U{00E7}', "ccedil"), ('\U{00E8}', "egrave"), ('\U{00E9}', "eacute"),
     ('\U{00EA}', "ecirc"), ('\U{00EB}', "euml"), ('\U{00EC}', "igrave"), ('\U{00ED}', "iacute"), ('\U{00EE}', "icirc"),
     ('\U{00EF}', "iuml")]

  /** Latin-1 letters from U+00F0 to U+00FF, then the euro entry. */
  const LATIN1_F0: EntityTable :=
    [('\U{00F0}', "eth"), ('\U{00F1}', "ntilde"), ('\U{00F2}', "ograve"), ('\U{00F3}', "oacute"), ('\U{00F4}', "ocirc"),
     ('\U{00F5}', "otilde"), ('\U{00F6}', "ouml"), ('\U{00F7}', "divid"), ('\U{00F8}', "oslash"), ('\U{00F9}', "ugrave"),
     ('\U{00FA}', "uacute"), ('\U{00FB}', "ucirc"), ('\U{00FC}', "uuml"), ('\U{00FD}', "yacute"), ('\U{00FE}', "thorn"),
     ('\U{00FF}', "yuml"), ('\U{0080}', "euro")]

  /** The characters `htmlEncode` escapes, with their entity names, group after group
      in the order of the Java table `ENTITIES`. */
  const ENTITIES: EntityTable :=
    ASCII_ENTITIES + NUMERIC_ENTITIES + LATIN1_A0 + LATIN1_B4 + LATIN1_C0 + LATIN1_D0
    + LATIN1_E0 + LATIN1_F0

  /** The characters of the table, in order: the string searched by `indexOf`. */
  function EntityMap(table: EntityTable): (r: string)
    ensures |r| == |table| && forall i :: 0 <= i < |table| ==> r[i] == table[i].0
  {
    if |table| == 0 then "" else EntityMap(table[..|table| - 1]) + [table[|table| - 1].0]
  }

  /** The escapes of the table, "&name;". */
  function QuickEntities(table: EntityTable): (r: seq<string>)
    ensures |r| == |table| && forall i :: 0 <= i < |table| ==> r[i] == "&" + table[i].1 + ";"
  {
    if |table| == 0 then [] else QuickEntities(table[..|table| - 1]) + ["&" + table[|table| - 1].1 + ";"]
  }

  /** The first table entry for a character. */
  function EntityIndex(table: EntityTable, c: char): (r: Option<nat>)
    ensures r.Some? ==> r.value < |table| && table[r.value].0 == c
                        && forall j :: 0 <= j < r.value ==> table[j].0 != c
    ensures r.None? ==> forall j :: 0 <= j < |table| ==> table[j].0 != c
  {
    if |table| == 0 then None
    else if table[0].0 == c then Some(0)
    else match EntityIndex(table[1..], c)
      case None => None
      case Some(j) => Some(j + 1)
  }

  /** The search of the characters string finds the first entry for a character. */
  lemma EntityIndexOf(table: EntityTable, c: char)
    ensures IndexOfChar(EntityMap(table), c, 0) == match EntityIndex(table, c) case None => -1 case Some(j) => j
  {
    var m := EntityMap(table);
    match EntityIndex(table, c)
    case None => IndexOfCharNone(m, c, 0);
    case Some(j) => IndexOfCharIs(m, c, 0, j);
  }

  /** One character, escaped by the first table entry for it, or as it is. */
  function EncodeChar(table: EntityTable, c: char): string {
    match EntityIndex(table, c)
    case None => [c]
    case Some(j) => "&" + table[j].1 + ";"
  }

  function Encode(table: EntityTable, s: string): string {
    if |s| == 0 then "" else Encode(table, s[..|s| - 1]) + EncodeChar(table, s[|s| - 1])
  }

  /** `htmlEncode`: null becomes the empty string. */
  function HtmlEncodeSpec(src: Option<string>): string {
    match src
    case None => ""
    case Some(s) => Encode(ENTITIES, s)
  }

  /** The loop of `htmlEncode` over the characters, with the lookup tables built by
      the static initializer. */
  method HtmlEncode(src: Option<string>) returns (res: string)
    ensures res == HtmlEncodeSpec(src)
  {
    var table := ENTITIES;
    if src.None? {
      return "";
    }
    var s := src.value;
    var entityMap := EntityMap(table);
    var quickEntities := QuickEntities(table);
    res := "";
    var i := 0;
    while i < |s|
      invariant i <= |s|
      invariant res == Encode(table, s[..i])
    {
      var c := s[i];
      var idx := IndexOfChar(entityMap, c, 0);
      EntityIndexOf(table, c);
      if idx == -1 {
        res := res + [c];
      } else {
        res := res + quickEntities[idx];
      }
      assert s[..i + 1][..i] == s[..i];
      i := i + 1;
    }
    assert s[..i] == s;
  }

  /** The text with no character of the table is left as it is. */
  lemma {:induction false} EncodePlain(table: EntityTable, s: string)
    requires forall i :: 0 <= i < |s| ==> s[i] !in EntityMap(table)
    ensures Encode(table, s) == s
    decreases |s|
  {
    if |s| > 0 {
      var n := |s| - 1;
      EncodePlain(table, s[..n]);
      IndexOfCharNone(EntityMap(table), s[n], 0);
      assert s[..n] + [s[n]] == s;
    }
  }

  lemma {:induction false} EncodeAppend(table: EntityTable, a: string, b: string)
    ensures Encode(table, a + b) == Encode(table, a) + Encode(table, b)
    decreases |b|
  {
    if |b| == 0 {
      assert a + b == a;
    } else {
      var n := |b| - 1;
      var ab := a + b;
      EncodeAppend(table, a, b[..n]);
      SliceOfConcat(a, b, n);
      assert ab[|ab| - 1] == b[n];
      var last := EncodeChar(table, b[n]);
      assert Encode(table, ab) == Encode(table, a + b[..n]) + last;
      assert Encode(table, b) == Encode(table, b[..n]) + last;
      Assoc3(Encode(table, a), Encode(table, b[..n]), last);
    }
  }

  /** The index of the first entry with the given entity name. */
  function NameIndex(table: EntityTable, name: string): (r: Option<nat>)
    ensures r.Some? ==> r.value < |table| && table[r.value].1 == name
    ensures r.None? ==> forall j :: 0 <= j < |table| ==> table[j].1 != name
  {
    if |table| == 0 then None
    else if table[0].1 == name then Some(0)
    else match NameIndex(table[1..], name)
      case None => None
      case Some(j) => Some(j + 1)
  }

  /** The table's own inverse: "&name;" with a name of the table stands for that
      entry's character; anything else stands for itself. */
  function Decode(table: EntityTable, s: string): string
    decreases |s|
  {
    if |s| == 0 then ""
    else if s[0] == '&' && IndexOfChar(s, ';', 1) != -1 then
      var k := IndexOfChar(s, ';', 1);
      match NameIndex(table, s[1..k])
      case None => [s[0]] + Decode(table, s[1..])
      case Some(j) => [table[j].0] + Decode(table, s[k + 1..])
    else [s[0]] + Decode(table, s[1..])
  }

  /** A table whose escapes read back unambiguously: the ampersand is escaped, and
      the entity names are distinct and hold no semicolon. */
  predicate Readable(table: EntityTable) {
    '&' in EntityMap(table)
    && (forall i :: 0 <= i < |table| ==> ';' !in table[i].1)
    && (forall i, j :: 0 <= i < j < |table| ==> table[i].1 != table[j].1)
  }

  /** One escaped character reads back as itself. */
  lemma DecodeChar(table: EntityTable, c: char, rest: string)
    requires Readable(table)
    ensures Decode(table, EncodeChar(table, c) + rest) == [c] + Decode(table, rest)
  {
    match EntityIndex(table, c)
    case None =>
      assert c != '&';
      var s := [c] + rest;
      assert s[1..] == rest;
    case Some(idx) =>
      var name := table[idx].1;
      var s := "&" + name + ";" + rest;
      assert s[1..|name| + 1] == name;
      assert s[|name| + 1] == ';';
      IndexOfCharIs(s, ';', 1, |name| + 1);
      assert NameIndex(table, name) == Some(idx);
      assert s[|name| + 2..] == rest;
  }

  /** Reading back what `htmlEncode` wrote gives the original text. */
  lemma {:induction false} DecodeEncode(table: EntityTable, s: string)
    requires Readable(table)
    ensures Decode(table, Encode(table, s)) == s
    decreases |s|
  {
    if |s| > 0 {
      var rest := s[1..];
      DecodeEncode(table, rest);
      EncodeAppend(table, [s[0]], rest);
      assert [s[0]] + rest == s;
      assert [s[0]][..0] == [];
      assert Encode(table, [s[0]]) == EncodeChar(table, s[0]);
      DecodeChar(table, s[0], Encode(table, rest));
    }
  }

  // ------------------------------------------------- the program's entity table

  /** No two entries share a name. */
  predicate NamesDistinct(t: EntityTable) {
    forall i, j :: 0 <= i < j < |t| ==> t[i].1 != t[j].1
  }

  /** No entry of `a` has the name of an entry of `b`. */
  predicate NamesApart(a: EntityTable, b: EntityTable) {
    forall i, j :: 0 <= i < |a| && 0 <= j < |b| ==> a[i].1 != b[j].1
  }

  predicate NoSemicolon(t: EntityTable) {
    forall i :: 0 <= i < |t| ==> ';' !in t[i].1
  }

  /** The name at position `k` differs from every name before it. */
  predicate NewName(t: EntityTable, k: nat)
    requires k < |t|
  {
    forall i :: 0 <= i < k ==> t[i].1 != t[k].1
  }

  /** Names each new when they appear are distinct; checking one name at a time
      against those before it keeps the table facts small. */
  lemma DistinctByNewNames(t: EntityTable)
    requires forall k :: 0 <= k < |t| ==> NewName(t, k)
    ensures NamesDistinct(t)
  {
    forall i, j | 0 <= i < j < |t| ensures t[i].1 != t[j].1 {
      assert NewName(t, j);
    }
  }

  /** Every name of `t` starts with '#' (`starts` true), or none does. */
  predicate HashNames(t: EntityTable, starts: bool) {
    forall i :: 0 <= i < |t| ==> |t[i].1| > 0 && (t[i].1[0] == '#' <==> starts)
  }

  /** Numeric references and named entities never share a name. */
  lemma ApartByHash(a: EntityTable, b: EntityTable, numericFirst: bool)
    requires HashNames(a, numericFirst) && HashNames(b, !numericFirst)
    ensures NamesApart(a, b)
  {
  }

  lemma ApartConcat(a: EntityTable, b: EntityTable, c: EntityTable)
    requires NamesApart(a, c) && NamesApart(b, c)
    ensures NamesApart(a + b, c)
  {
    forall i, j | 0 <= i < |a + b| && 0 <= j < |c| ensures (a + b)[i].1 != c[j].1 {
      if i >= |a| {
        assert (a + b)[i] == b[i - |a|];
      }
    }
  }

  /** Appending a group whose names are new keeps the names distinct and free of
      semicolons. */
  lemma AddGroup(p: EntityTable, c: EntityTable)
    requires NamesDistinct(p) && NoSemicolon(p)
    requires NamesDistinct(c) && NoSemicolon(c) && NamesApart(p, c)
    ensures NamesDistinct(p + c) && NoSemicolon(p + c)
  {
    var t := p + c;
    forall i, j | 0 <= i < j < |t| ensures t[i].1 != t[j].1 {
      if j < |p| {
      } else if i < |p| {
        assert t[j] == c[j - |p|];
      } else {
        assert t[i] == c[i - |p|] && t[j] == c[j - |p|];
      }
    }
    forall i | 0 <= i < |t| ensures ';' !in t[i].1 {
      if i >= |p| {
        assert t[i] == c[i - |p|];
      }
    }
  }

  lemma AsciiGroupDistinct()
    ensures NamesDistinct(ASCII_ENTITIES)
  {
    assert forall k :: 0 <= k < |ASCII_ENTITIES| ==> NewName(ASCII_ENTITIES, k);
    DistinctByNewNames(ASCII_ENTITIES);
  }

  lemma AsciiGroupClean()
    ensures NoSemicolon(ASCII_ENTITIES) && HashNames(ASCII_ENTITIES, false)
  {
  }

  lemma NumericGroupDistinct()
    ensures NamesDistinct(NUMERIC_ENTITIES)
  {
    assert forall k :: 0 <= k < |NUMERIC_ENTITIES| ==> NewName(NUMERIC_ENTITIES, k);
    DistinctByNewNames(NUMERIC_ENTITIES);
  }

  lemma NumericGroupClean()
    ensures NoSemicolon(NUMERIC_ENTITIES) && HashNames(NUMERIC_ENTITIES, true)
  {
  }

  lemma A0GroupDistinct()
    ensures NamesDistinct(LATIN1_A0)
  {
    assert forall k :: 0 <= k < |LATIN1_A0| ==> NewName(LATIN1_A0, k);
    DistinctByNewNames(LATIN1_A0);
  }

  lemma A0GroupClean()
    ensures NoSemicolon(LATIN1_A0) && HashNames(LATIN1_A0, false)
  {
  }

  lemma B4GroupDistinct()
    ensures NamesDistinct(LATIN1_B4)
  {
    assert forall k :: 0 <= k < |LATIN1_B4| ==> NewName(LATIN1_B4, k);
    DistinctByNewNames(LATIN1_B4);
  }

  lemma B4GroupClean()
    ensures NoSemicolon(LATIN1_B4) && HashNames(LATIN1_B4, false)
  {
  }

  lemma C0GroupDistinct()
    ensures NamesDistinct(LATIN1_C0)
  {
    assert forall k :: 0 <= k < |LATIN1_C0| ==> NewName(LATIN1_C0, k);
    DistinctByNewNames(LATIN1_C0);
  }

  lemma C0GroupClean()
    ensures NoSemicolon(LATIN1_C0) && HashNames(LATIN1_C0, false)
  {
  }

  lemma D0GroupDistinct()
    ensures NamesDistinct(LATIN1_D0)
  {
    assert forall k :: 0 <= k < |LATIN1_D0| ==> NewName(LATIN1_D0, k);
    DistinctByNewNames(LATIN1_D0);
  }

  lemma D0GroupClean()
    ensures NoSemicolon(LATIN1_D0) && HashNames(LATIN1_D0, false)
  {
  }

  lemma E0GroupDistinct()
    ensures NamesDistinct(LATIN1_E0)
  {
    assert forall k :: 0 <= k < |LATIN1_E0| ==> NewName(LATIN1_E0, k);
    DistinctByNewNames(LATIN1_E0);
  }

  lemma E0GroupClean()
    ensures NoSemicolon(LATIN1_E0) && HashNames(LATIN1_E0, false)
  {
  }

  lemma F0GroupDistinct()
    ensures NamesDistinct(LATIN1_F0)
  {
    assert forall k :: 0 <= k < |LATIN1_F0| ==> NewName(LATIN1_F0, k);
    DistinctByNewNames(LATIN1_F0);
  }

  lemma F0GroupClean()
    ensures NoSemicolon(LATIN1_F0) && HashNames(LATIN1_F0, false)
  {
  }

  lemma ApartAsciiA0()
    ensures NamesApart(ASCII_ENTITIES, LATIN1_A0)
  {
  }

  lemma ApartAsciiB4()
    ensures NamesApart(ASCII_ENTITIES, LATIN1_B4)
  {
  }

  lemma ApartA0B4()
    ensures NamesApart(LATIN1_A0, LATIN1_B4)
  {
  }

  lemma ApartAsciiC0()
    ensures NamesApart(ASCII_ENTITIES, LATIN1_C0)
  {
  }

  lemma ApartA0C0()
    ensures NamesApart(LATIN1_A0, LATIN1_C0)
  {
  }

  lemma ApartB4C0()
    ensures NamesApart(LATIN1_B4, LATIN1_C0)
  {
  }

  lemma ApartAsciiD0()
    ensures NamesApart(ASCII_ENTITIES, LATIN1_D0)
  {
  }

  lemma ApartA0D0()
    ensures NamesApart(LATIN1_A0, LATIN1_D0)
  {
  }

  lemma ApartB4D0()
    ensures NamesApart(LATIN1_B4, LATIN1_D0)
  {
  }

  lemma ApartC0D0()
    ensures NamesApart(LATIN1_C0, LATIN1_D0)
  {
  }

  lemma ApartAsciiE0()
    ensures NamesApart(ASCII_ENTITIES, LATIN1_E0)
  {
  }

  lemma ApartA0E0()
    ensures NamesApart(LATIN1_A0, LATIN1_E0)
  {
  }

  lemma ApartB4E0()
    ensures NamesApart(LATIN1_B4, LATIN1_E0)
  {
  }

  lemma ApartC0E0()
    ensures NamesApart(LATIN1_C0, LATIN1_E0)
  {
  }

  lemma ApartD0E0()
    ensures NamesApart(LATIN1_D0, LATIN1_E0)
  {
  }

  lemma ApartAsciiF0()
    ensures NamesApart(ASCII_ENTITIES, LATIN1_F0)
  {
  }

  lemma ApartA0F0()
    ensures NamesApart(LATIN1_A0, LATIN1_F0)
  {
  }

  lemma ApartB4F0()
    ensures NamesApart(LATIN1_B4, LATIN1_F0)
  {
  }

  lemma ApartC0F0()
    ensures NamesApart(LATIN1_C0, LATIN1_F0)
  {
  }

  lemma ApartD0F0()
    ensures NamesApart(LATIN1_D0, LATIN1_F0)
  {
  }

  lemma ApartE0F0()
    ensures NamesApart(LATIN1_E0, LATIN1_F0)
  {
  }

  /** The program's table reads back unambiguously: the ampersand is escaped, and its
      122 entity names are distinct and hold no semicolon. */
  lemma EntitiesReadable()
    ensures Readable(ENTITIES)
  {
    var (a, n, a0, b4) := (ASCII_ENTITIES, NUMERIC_ENTITIES, LATIN1_A0, LATIN1_B4);
    var (c0, d0, e0, f0) := (LATIN1_C0, LATIN1_D0, LATIN1_E0, LATIN1_F0);
    AsciiGroupDistinct();
    AsciiGroupClean();
    NumericGroupDistinct();
    NumericGroupClean();
    A0GroupDistinct();
    A0GroupClean();
    B4GroupDistinct();
    B4GroupClean();
    C0GroupDistinct();
    C0GroupClean();
    D0GroupDistinct();
    D0GroupClean();
    E0GroupDistinct();
    E0GroupClean();
    F0GroupDistinct();
    F0GroupClean();
    ApartAsciiA0();
    ApartAsciiB4();
    ApartA0B4();
    ApartAsciiC0();
    ApartA0C0();
    ApartB4C0();
    ApartAsciiD0();
    ApartA0D0();
    ApartB4D0();
    ApartC0D0();
    ApartAsciiE0();
    ApartA0E0();
    ApartB4E0();
    ApartC0E0();
    ApartD0E0();
    ApartAsciiF0();
    ApartA0F0();
    ApartB4F0();
    ApartC0F0();
    ApartD0F0();
    ApartE0F0();
    ApartByHash(a, n, false);
    AddGroup(a, n);
    ApartByHash(n, a0, true);
    ApartConcat(a, n, a0);
    AddGroup(a + n, a0);
    ApartByHash(n, b4, true);
    ApartConcat(a, n, b4);
    ApartConcat(a + n, a0, b4);
    AddGroup(a + n + a0, b4);
    ApartByHash(n, c0, true);
    ApartConcat(a, n, c0);
    ApartConcat(a + n, a0, c0);
    ApartConcat(a + n + a0, b4, c0);
    AddGroup(a + n + a0 + b4, c0);
    ApartByHash(n, d0, true);
    ApartConcat(a, n, d0);
    ApartConcat(a + n, a0, d0);
    ApartConcat(a + n + a0, b4, d0);
    ApartConcat(a + n + a0 + b4, c0, d0);
    AddGroup(a + n + a0 + b4 + c0, d0);
    ApartByHash(n, e0, true);
    ApartConcat(a, n, e0);
    ApartConcat(a + n, a0, e0);
    ApartConcat(a + n + a0, b4, e0);
    ApartConcat(a + n + a0 + b4, c0, e0);
    ApartConcat(a + n + a0 + b4 + c0, d0, e0);
    AddGroup(a + n + a0 + b4 + c0 + d0, e0);
    ApartByHash(n, f0, true);
    ApartConcat(a, n, f0);
    ApartConcat(a + n, a0, f0);
    ApartConcat(a + n + a0, b4, f0);
    ApartConcat(a + n + a0 + b4, c0, f0);
    ApartConcat(a + n + a0 + b4 + c0, d0, f0);
    ApartConcat(a + n + a0 + b4 + c0 + d0, e0, f0);
    AddGroup(a + n + a0 + b4 + c0 + d0 + e0, f0);
    assert ENTITIES[0].0 == '&';
  }

  /** Reading back what `htmlEncode` writes, with the program's own table, gives the
      original text; null was written as the empty text. */
  lemma HtmlDecodeEncode(src: Option<string>)
    ensures src.Some? ==> Decode(ENTITIES, HtmlEncodeSpec(src)) == src.value
    ensures src.None? ==> HtmlEncodeSpec(src) == ""
  {
    if src.Some? {
      EntitiesReadable();
      DecodeEncode(ENTITIES, src.value);
    }
  }
}

=== FILE: validator.dfy ===
/** `validateParameters` and `validateSubstitutions`: the checks of a task's
    parameters and command line. Every problem found is appended to the list and
    the scan goes on, so the caller sees all of them at once. A problem is a value
    here; the message text `validateParameters` builds around it is not modelled. */
module Validation {
  import opened Wrappers
  import opened Seqs
  import opened JavaText
  import opened Templating
  import opened RNames

  /** An actual parameter: its name and its value, which may be null. */
  datatype Actual = Actual(name: string, value: Option<string>)

  datatype Problem =
    | IllegalTaskName(taskName: string)
    | NoCommandLine
    | DeclaredTwice(name: string)
    | NotInDefinition(name: string)
    | NotCited(name: string)
    | BlankRequired(name: string)
    | ReservedName(name: string)
    | DefaultNotInChoices(name: string, dflt: string)
    | ValueNotInChoices(name: string, value: Option<string>)
    | NoSubstitution(name: string)

  /** What one validation works against. The constants of IGPConstants and the
      choice parsing of ParameterInfo are not part of this model: the names that need
      no citation (`unrequired`, written with their delimiters), the reserved names,
      the attribute key of a default value, the separator inside a choice entry, the
      suffix of the derived input-path properties, and the choice list of a formal's
      value (None when it has no choices) are inputs. `runtime` is true when the
      actual parameters are not the formal ones themselves. */
  datatype Context = Context(
    commandLine: string,
    formals: seq<Formal>,
    runtime: bool,
    enforceNonBlank: bool,
    unrequired: seq<string>,
    reserved: seq<string>,
    defaultKey: string,
    typeSeparator: set<char>,
    inputPathSuffix: string,
    choices: string -> Option<seq<string>>)

  /** A name as the command line cites it. */
  function Tag(name: string): string {
    [LEFT] + name + [RIGHT]
  }

  /** A formal whose attributes carry a non-empty "optional" entry. */
  predicate Optional(f: Formal) {
    f.attributes.Some? && OPTIONAL_KEY in f.attributes.value && f.attributes.value[OPTIONAL_KEY] != ""
  }

  // ---------------------------------------------------------------- searches

  /** The first formal with the given name. */
  function FirstFormal(formals: seq<Formal>, name: string): (r: Option<nat>)
    ensures r.Some? ==> r.value < |formals| && formals[r.value].name == name
                        && forall k :: 0 <= k < r.value ==> formals[k].name != name
    ensures r.None? ==> forall k :: 0 <= k < |formals| ==> formals[k].name != name
  {
    FirstFormalFrom(formals, name, 0)
  }

  function FirstFormalFrom(formals: seq<Formal>, name: string, i: nat): (r: Option<nat>)
    requires i <= |formals|
    ensures r.Some? ==> i <= r.value < |formals| && formals[r.value].name == name
                        && forall k :: i <= k < r.value ==> formals[k].name != name
    ensures r.None? ==> forall k :: i <= k < |formals| ==> formals[k].name != name
    decreases |formals| - i
  {
    if i == |formals| then None
    else if formals[i].name == name then Some(i)
    else FirstFormalFrom(formals, name, i + 1)
  }

  /** The loop over the formals that stops at the first one with the name. */
  method FindFormal(formals: seq<Formal>, name: string) returns (r: Option<nat>)
    ensures r == FirstFormal(formals, name)
  {
    var i := 0;
    while i < |formals|
      invariant i <= |formals|
      invariant forall k :: 0 <= k < i ==> formals[k].name != name
    {
      if formals[i].name == name {
        return Some(i);
      }
      i := i + 1;
    }
    return None;
  }

  /** The formal named `name` exists and is optional. */
  predicate DeclaredOptional(name: string, formals: seq<Formal>) {
    match FirstFormal(formals, name)
    case None => false
    case Some(k) => Optional(formals[k])
  }

  /** The two sides of a choice entry `value=label`: its first and second tokens,
      "" for a missing one. */
  function ChoiceSides(entry: string, sep: set<char>): (string, string) {
    var t := Tokens(entry, sep);
    (if |t| > 0 then t[0] else "", if |t| > 1 then t[1] else "")
  }

  /** String.equals against a possibly null value. */
  predicate ChoiceMatches(entry: string, x: Option<string>, sep: set<char>) {
    x.Some? && (ChoiceSides(entry, sep).0 == x.value || ChoiceSides(entry, sep).1 == x.value)
  }

  predicate InChoices(choices: seq<string>, x: Option<string>, sep: set<char>) {
    exists i :: 0 <= i < |choices| && ChoiceMatches(choices[i], x, sep)
  }

  /** The loop over the choice entries that stops at the first one whose value or
      label equals `x`. */
  method FindChoice(choices: seq<string>, x: Option<string>, sep: set<char>) returns (found: bool)
    ensures found == InChoices(choices, x, sep)
  {
    var i := 0;
    while i < |choices|
      invariant i <= |choices|
      invariant forall k :: 0 <= k < i ==> !ChoiceMatches(choices[k], x, sep)
    {
      var t := Tokens(choices[i], sep);
      var lhs := "";
      var rhs := "";
      if |t| > 0 {
        lhs := t[0];
      }
      if |t| > 1 {
        rhs := t[1];
      }
      if x.Some? && (lhs == x.value || rhs == x.value) {
        return true;
      }
      i := i + 1;
    }
    return false;
  }

  // ---------------------------------------------------------------- one actual parameter

  /** A required formal must be cited; at run time its value must not be blank
      unless the formal has a default. */
  function CitationProblems(a: Actual, f: Formal, ctx: Context): seq<Problem> {
    if Optional(f) then []
    else if !Contains(ctx.commandLine, Tag(a.name)) then [NotCited(a.name)]
    else if ctx.enforceNonBlank && (a.value.None? || a.value.value == "") && f.value == "" then [BlankRequired(a.name)]
    else []
  }

  /** One problem for each reserved name equal to `name` ignoring case. */
  function ReservedProblems(name: string, reserved: seq<string>): (r: seq<Problem>)
    ensures forall p :: p in r ==> p == ReservedName(name)
    ensures |r| > 0 <==> exists j :: 0 <= j < |reserved| && ToLower(reserved[j]) == ToLower(name)
  {
    if |reserved| == 0 then []
    else
      var n := |reserved| - 1;
      var before := ReservedProblems(name, reserved[..n]);
      assert forall j :: 0 <= j < n ==> reserved[..n][j] == reserved[j];
      before + (if ToLower(reserved[n]) == ToLower(name) then [ReservedName(name)] else [])
  }

  /** The attribute value of the default, when the formal has attributes and one. */
  function DefaultOf(f: Formal, key: string): Option<string> {
    if f.attributes.Some? && key in f.attributes.value then Some(f.attributes.value[key]) else None
  }

  /** A non-empty default of a choice parameter must be among its choices. */
  function DefaultProblems(a: Actual, f: Formal, ctx: Context): seq<Problem> {
    var d := DefaultOf(f, ctx.defaultKey);
    var cs := ctx.choices(f.value);
    if d.Some? && d.value != "" && cs.Some? && !InChoices(cs.value, d, ctx.typeSeparator)
    then [DefaultNotInChoices(a.name, d.value)] else []
  }

  /** At run time the actual value of a choice parameter must be among its choices;
      a null value never is. */
  function ValueProblems(a: Actual, f: Formal, ctx: Context): seq<Problem> {
    var cs := ctx.choices(f.value);
    if ctx.runtime && cs.Some? && !InChoices(cs.value, a.value, ctx.typeSeparator)
    then [ValueNotInChoices(a.name, a.value)] else []
  }

  /** The problems found for one actual parameter, given the names seen before it:
      a repeated name; then nothing more for a name that needs no citation; a name
      no formal has; or the checks against the first formal of that name. */
  function ActualProblems(a: Actual, seen: seq<string>, ctx: Context): seq<Problem> {
    var dup := if a.name in seen then [DeclaredTwice(a.name)] else [];
    if Tag(a.name) in ctx.unrequired then dup
    else
      match FirstFormal(ctx.formals, a.name)
      case None => dup + [NotInDefinition(a.name)]
      case Some(k) => dup + FormalProblems(a, ctx.formals[k], ctx)
  }

  /** The checks of an actual parameter against its formal, in the order of
      `validateParameters`, corrected (see ## Findings in the README, lines 1866-1867):
      a formal without attributes is checked as a required formal without a default. */
  function FormalProblems(a: Actual, f: Formal, ctx: Context): seq<Problem> {
    CitationProblems(a, f, ctx) + ReservedProblems(a.name, ctx.reserved)
    + DefaultProblems(a, f, ctx) + ValueProblems(a, f, ctx)
  }

  /** As written, the default is read from the formal's attributes without the null
      test made a few lines before, so a formal without attributes throws. */
  function ActualProblemsAsWritten(a: Actual, seen: seq<string>, ctx: Context): Result<seq<Problem>, JavaError> {
    if Tag(a.name) !in ctx.unrequired && FirstFormal(ctx.formals, a.name).Some?
       && ctx.formals[FirstFormal(ctx.formals, a.name).value].attributes.None?
    then Err(NullPointer)
    else Ok(ActualProblems(a, seen, ctx))
  }

  /** The body of the loop over the actual parameters, one problem appended at a
      time, with the null-attributes correction of `FormalProblems`. */
  method CheckActual(a: Actual, seen: seq<string>, ctx: Context) returns (found: seq<Problem>)
    ensures found == ActualProblems(a, seen, ctx)
  {
    var dup: seq<Problem> := [];
    if a.name in seen {
      dup := [DeclaredTwice(a.name)];
    }
    if Tag(a.name) in ctx.unrequired {
      return dup;
    }
    var k := FindFormal(ctx.formals, a.name);
    if k.None? {
      return dup + [NotInDefinition(a.name)];
    }
    var more := CheckFormal(a, ctx.formals[k.value], ctx);
    return dup + more;
  }

  /** The checks against the formal: citation, reserved names, default, value;
      corrected, a formal without attributes does not throw (see `FormalProblems`). */
  method CheckFormal(a: Actual, f: Formal, ctx: Context) returns (found: seq<Problem>)
    ensures found == FormalProblems(a, f, ctx)
  {
    found := [];
    if !Optional(f) {
      if !Contains(ctx.commandLine, Tag(a.name)) {
        found := found + [NotCited(a.name)];
      } else if ctx.enforceNonBlank && (a.value.None? || a.value.value == "") && f.value == "" {
        found := found + [BlankRequired(a.name)];
      }
    }
    assert found == CitationProblems(a, f, ctx);
    var reserved := CheckReserved(a.name, ctx.reserved);
    found := found + reserved;
    var d := DefaultOf(f, ctx.defaultKey);
    var cs := ctx.choices(f.value);
    if d.Some? && d.value != "" && cs.Some? {
      var ok := FindChoice(cs.value, d, ctx.typeSeparator);
      if !ok {
        found := found + [DefaultNotInChoices(a.name, d.value)];
      }
    }
    assert found == CitationProblems(a, f, ctx) + ReservedProblems(a.name, ctx.reserved) + DefaultProblems(a, f, ctx);
    if ctx.runtime && cs.Some? {
      var ok := FindChoice(cs.value, a.value, ctx.typeSeparator);
      if !ok {
        found := found + [ValueNotInChoices(a.name, a.value)];
      }
    }
  }

  /** The loop over the reserved names. */
  method CheckReserved(name: string, reserved: seq<string>) returns (found: seq<Problem>)
    ensures found == ReservedProblems(name, reserved)
  {
    found := [];
    var j := 0;
    while j < |reserved|
      invariant j <= |reserved|
      invariant found == ReservedProblems(name, reserved[..j])
    {
      assert reserved[..j + 1][..j] == reserved[..j];
      if ToLower(reserved[j]) == ToLower(name) {
        found := found + [ReservedName(name)];
      }
      j := j + 1;
    }
    assert reserved[..j] == reserved;
  }

  // ---------------------------------------------------------------- all actual parameters

  /** The names of the actual parameters, in order. */
  function Names(xs: seq<Actual>): (r: seq<string>)
    ensures |r| == |xs| && forall i :: 0 <= i < |xs| ==> r[i] == xs[i].name
  {
    if |xs| == 0 then [] else Names(xs[..|xs| - 1]) + [xs[|xs| - 1].name]
  }

  /** The problems of every actual parameter, each checked against the names before
      it. */
  function ParameterProblems(xs: seq<Actual>, ctx: Context): seq<Problem> {
    if |xs| == 0 then []
    else
      var n := |xs| - 1;
      ParameterProblems(xs[..n], ctx) + ActualProblems(xs[n], Names(xs[..n]), ctx)
  }

  /** `validateParameters`: the task name must be R-safe, the command line must not
      be blank, then the actual parameters are checked, then the command line's
      substitutions; corrected in both of its parts (see `FormalProblems` and
      `SubstitutionProblems`). */
  function ValidationSpec(taskName: string, actuals: Option<seq<Actual>>, props: map<string, string>, ctx: Context): seq<Problem> {
    (if !IsRSafe(taskName) then [IllegalTaskName(taskName)] else [])
    + (if Trim(ctx.commandLine) == "" then [NoCommandLine] else [])
    + (if actuals.Some? then ParameterProblems(actuals.value, ctx) else [])
    + SubstitutionProblems(ctx.commandLine, props, ctx.formals, ctx.inputPathSuffix)
  }

  method ValidateParameters(taskName: string, actuals: Option<seq<Actual>>, props: map<string, string>, ctx: Context)
    returns (problems: seq<Problem>)
    ensures problems == ValidationSpec(taskName, actuals, props, ctx)
  {
    var nameProblems: seq<Problem> := [];
    if !IsRSafe(taskName) {
      nameProblems := [IllegalTaskName(taskName)];
    }
    var lineProblems: seq<Problem> := [];
    if Trim(ctx.commandLine) == "" {
      lineProblems := [NoCommandLine];
    }
    var found: seq<Problem> := [];
    if actuals.Some? {
      found := CheckActuals(actuals.value, ctx);
    }
    problems := ValidateSubstitutions(ctx.commandLine, props, ctx.formals, ctx.inputPathSuffix,
                                      nameProblems + lineProblems + found);
  }

  /** The loop over the actual parameters, with the names seen so far. */
  method CheckActuals(xs: seq<Actual>, ctx: Context) returns (problems: seq<Problem>)
    ensures problems == ParameterProblems(xs, ctx)
  {
    problems := [];
    var seen: seq<string> := [];
    var i := 0;
    while i < |xs|
      invariant i <= |xs|
      invariant seen == Names(xs[..i])
      invariant problems == ParameterProblems(xs[..i], ctx)
    {
      ParameterProblemsSnoc(xs, i, ctx);
      var found := CheckActual(xs[i], seen, ctx);
      problems := problems + found;
      seen := seen + [xs[i].name];
      i := i + 1;
    }
    assert xs[..i] == xs;
  }

  lemma ParameterProblemsSnoc(xs: seq<Actual>, i: nat, ctx: Context)
    requires i < |xs|
    ensures ParameterProblems(xs[..i + 1], ctx) == ParameterProblems(xs[..i], ctx) + ActualProblems(xs[i], Names(xs[..i]), ctx)
    ensures Names(xs[..i + 1]) == Names(xs[..i]) + [xs[i].name]
  {
    assert xs[..i + 1][..i] == xs[..i];
  }

  // ---------------------------------------------------------------- properties of validateParameters

  /** Nothing stops the scan: the problems of every actual parameter are in the
      result. */
  lemma {:induction false} ActualProblemsKept(xs: seq<Actual>, i: nat, ctx: Context)
    requires i < |xs|
    ensures forall p :: p in ActualProblems(xs[i], Names(xs[..i]), ctx) ==> p in ParameterProblems(xs, ctx)
  {
    ParameterProblemsSnoc(xs, i, ctx);
    ProblemsPrefix(xs, i + 1, |xs|, ctx);
    assert xs[..|xs|] == xs;
    forall p | p in ActualProblems(xs[i], Names(xs[..i]), ctx)
      ensures p in ParameterProblems(xs, ctx)
    {
      InPrefix(ParameterProblems(xs[..i + 1], ctx), ParameterProblems(xs, ctx), p);
    }
  }

  /** The problems of the first parameters begin the problems of more of them. */
  lemma {:induction false} ProblemsPrefix(xs: seq<Actual>, i: nat, j: nat, ctx: Context)
    requires i <= j <= |xs|
    ensures ParameterProblems(xs[..i], ctx) <= ParameterProblems(xs[..j], ctx)
    decreases j - i
  {
    if i < j {
      ProblemsPrefix(xs, i, j - 1, ctx);
      ParameterProblemsSnoc(xs, j - 1, ctx);
      var before := ParameterProblems(xs[..j - 1], ctx);
      PrefixOfConcat(before, ActualProblems(xs[j - 1], Names(xs[..j - 1]), ctx));
      PrefixTrans(ParameterProblems(xs[..i], ctx), before, ParameterProblems(xs[..j], ctx));
    }
  }

  /** Each problem comes from one actual parameter. */
  lemma {:induction false} ProblemHasSource(xs: seq<Actual>, p: Problem, ctx: Context)
    requires p in ParameterProblems(xs, ctx)
    ensures exists i :: 0 <= i < |xs| && p in ActualProblems(xs[i], Names(xs[..i]), ctx)
    decreases |xs|
  {
    var n := |xs| - 1;
    if p !in ActualProblems(xs[n], Names(xs[..n]), ctx) {
      ProblemHasSource(xs[..n], p, ctx);
      var i :| 0 <= i < n && p in ActualProblems(xs[..n][i], Names(xs[..n][..i]), ctx);
      assert xs[..n][i] == xs[i];
      assert xs[..n][..i] == xs[..i];
    }
  }

  /** A name declared twice is reported. */
  lemma DuplicateReported(xs: seq<Actual>, i: nat, j: nat, ctx: Context)
    requires i < j < |xs| && xs[i].name == xs[j].name
    ensures DeclaredTwice(xs[j].name) in ParameterProblems(xs, ctx)
  {
    assert Names(xs[..j])[i] == xs[i].name;
    ActualProblemsKept(xs, j, ctx);
  }

  /** Only a name declared twice is reported as such. */
  lemma DuplicateOnlyWhenRepeated(xs: seq<Actual>, name: string, ctx: Context)
    requires DeclaredTwice(name) in ParameterProblems(xs, ctx)
    ensures exists i, j :: 0 <= i < j < |xs| && xs[i].name == name && xs[j].name == name
  {
    ProblemHasSource(xs, DeclaredTwice(name), ctx);
    var j :| 0 <= j < |xs| && DeclaredTwice(name) in ActualProblems(xs[j], Names(xs[..j]), ctx);
    DuplicateSource(xs[j], Names(xs[..j]), ctx, name);
    var i :| 0 <= i < j && Names(xs[..j])[i] == name;
    assert xs[..j][i] == xs[i];
  }

  /** Only the repeated-name test reports a duplicate. */
  lemma DuplicateSource(a: Actual, seen: seq<string>, ctx: Context, name: string)
    requires DeclaredTwice(name) in ActualProblems(a, seen, ctx)
    ensures a.name == name && name in seen
  {
    if Tag(a.name) !in ctx.unrequired && FirstFormal(ctx.formals, a.name).Some? {
      var f := ctx.formals[FirstFormal(ctx.formals, a.name).value];
      assert DeclaredTwice(name) !in ReservedProblems(a.name, ctx.reserved);
      assert DeclaredTwice(name) !in FormalProblems(a, f, ctx);
    }
  }

  /** An actual parameter no formal has is reported, unless it needs no citation. */
  lemma UndefinedReported(xs: seq<Actual>, i: nat, ctx: Context)
    requires i < |xs| && Tag(xs[i].name) !in ctx.unrequired
    requires forall k :: 0 <= k < |ctx.formals| ==> ctx.formals[k].name != xs[i].name
    ensures NotInDefinition(xs[i].name) in ParameterProblems(xs, ctx)
  {
    ActualProblemsKept(xs, i, ctx);
  }

  /** A required formal that the command line does not cite is reported. */
  lemma UncitedReported(xs: seq<Actual>, i: nat, k: nat, ctx: Context)
    requires i < |xs| && Tag(xs[i].name) !in ctx.unrequired
    requires k < |ctx.formals| && ctx.formals[k].name == xs[i].name && !Optional(ctx.formals[k])
    requires forall m :: 0 <= m < k ==> ctx.formals[m].name != xs[i].name
    requires !Contains(ctx.commandLine, Tag(xs[i].name))
    ensures NotCited(xs[i].name) in ParameterProblems(xs, ctx)
  {
    assert FirstFormal(ctx.formals, xs[i].name) == Some(k);
    ActualProblemsKept(xs, i, ctx);
  }

  /** Only an actual parameter that needs a citation and that no formal has is
      reported as missing from the definition. */
  lemma UndefinedOnlyWhenUndeclared(xs: seq<Actual>, name: string, ctx: Context)
    requires NotInDefinition(name) in ParameterProblems(xs, ctx)
    ensures exists i :: 0 <= i < |xs| && xs[i].name == name
    ensures Tag(name) !in ctx.unrequired
    ensures forall k :: 0 <= k < |ctx.formals| ==> ctx.formals[k].name != name
  {
    ProblemHasSource(xs, NotInDefinition(name), ctx);
    var i :| 0 <= i < |xs| && NotInDefinition(name) in ActualProblems(xs[i], Names(xs[..i]), ctx);
    UndefinedSource(xs[i], Names(xs[..i]), ctx, name);
  }

  /** Only the test for a missing formal reports one. */
  lemma UndefinedSource(a: Actual, seen: seq<string>, ctx: Context, name: string)
    requires NotInDefinition(name) in ActualProblems(a, seen, ctx)
    ensures a.name == name && Tag(name) !in ctx.unrequired && FirstFormal(ctx.formals, name).None?
  {
    forall f: Formal ensures NotInDefinition(name) !in FormalProblems(a, f, ctx) {
      assert NotInDefinition(name) !in ReservedProblems(a.name, ctx.reserved);
    }
  }

  /** Only an actual parameter that needs a citation, whose first formal of that name
      is required, and that the command line does not cite is reported as uncited. */
  lemma UncitedOnlyWhenRequired(xs: seq<Actual>, name: string, ctx: Context)
    requires NotCited(name) in ParameterProblems(xs, ctx)
    ensures exists i :: 0 <= i < |xs| && xs[i].name == name
    ensures Tag(name) !in ctx.unrequired && !Contains(ctx.commandLine, Tag(name))
    ensures exists k :: 0 <= k < |ctx.formals| && ctx.formals[k].name == name && !Optional(ctx.formals[k])
                        && forall m :: 0 <= m < k ==> ctx.formals[m].name != name
  {
    ProblemHasSource(xs, NotCited(name), ctx);
    var i :| 0 <= i < |xs| && NotCited(name) in ActualProblems(xs[i], Names(xs[..i]), ctx);
    UncitedSource(xs[i], Names(xs[..i]), ctx, name);
    var k := FirstFormal(ctx.formals, name).value;
    assert ctx.formals[k].name == name;
  }

  /** Only the citation test reports an uncited formal, and only for a required one. */
  lemma UncitedSource(a: Actual, seen: seq<string>, ctx: Context, name: string)
    requires NotCited(name) in ActualProblems(a, seen, ctx)
    ensures a.name == name && Tag(name) !in ctx.unrequired && !Contains(ctx.commandLine, Tag(name))
    ensures FirstFormal(ctx.formals, name).Some?
    ensures !Optional(ctx.formals[FirstFormal(ctx.formals, name).value])
  {
    assert Tag(a.name) !in ctx.unrequired;
    assert FirstFormal(ctx.formals, a.name).Some?;
    var f := ctx.formals[FirstFormal(ctx.formals, a.name).value];
    assert NotCited(name) !in ReservedProblems(a.name, ctx.reserved);
    assert NotCited(name) in CitationProblems(a, f, ctx);
  }

  /** As written, an actual parameter whose formal has no attributes at all throws
      instead of being checked. */
  lemma NullAttributesThrow(a: Actual, seen: seq<string>, ctx: Context, k: nat)
    requires Tag(a.name) !in ctx.unrequired
    requires k < |ctx.formals| && ctx.formals[k].name == a.name && ctx.formals[k].attributes.None?
    requires forall m :: 0 <= m < k ==> ctx.formals[m].name != a.name
    ensures ActualProblemsAsWritten(a, seen, ctx) == Err(NullPointer)
  {
    assert FirstFormal(ctx.formals, a.name) == Some(k);
  }

  /** Corrected, a formal without attributes is a required formal without a
      default: an uncited one is reported and no default is checked. */
  lemma NullAttributesAreRequired(a: Actual, seen: seq<string>, ctx: Context, k: nat)
    requires Tag(a.name) !in ctx.unrequired
    requires k < |ctx.formals| && ctx.formals[k].name == a.name && ctx.formals[k].attributes.None?
    requires forall m :: 0 <= m < k ==> ctx.formals[m].name != a.name
    requires !Contains(ctx.commandLine, Tag(a.name))
    ensures NotCited(a.name) in ActualProblems(a, seen, ctx)
    ensures forall d :: DefaultNotInChoices(a.name, d) !in ActualProblems(a, seen, ctx)
  {
    assert FirstFormal(ctx.formals, a.name) == Some(k);
    var f := ctx.formals[k];
    assert DefaultProblems(a, f, ctx) == [];
    forall d ensures DefaultNotInChoices(a.name, d) !in ActualProblems(a, seen, ctx) {
      assert DefaultNotInChoices(a.name, d) !in ReservedProblems(a.name, ctx.reserved);
    }
  }

  // ---------------------------------------------------------------- validateSubstitutions

  /** The names the scan of `substitute` looks up, in order: the scan skips stdin
      redirections and stops at a `<` without a `>` after it. */
  function CitedNames(s: string): seq<string>
    decreases |s|, 1
  {
    CitedCases(s)
  }

  /** CitedNames by cases on the first event of the scan, one call away so that the
      verifier unfolds the scan one step at a time. */
  function CitedCases(s: string): seq<string>
    decreases |s|, 0
  {
    match NextStep(s)
    case Stop => []
    case Redirect(k) => CitedNames(s[k..])
    case Placeholder(l, e) => [s[l + 1..e]] + CitedNames(s[e + 1..])
  }

  /** The problem for one cited name: none for a derived input-path name, a name
      with a property, or an optional formal. */
  function MissingOne(name: string, props: map<string, string>, formals: seq<Formal>, suffix: string): seq<Problem> {
    if !EndsWith(name, suffix) && name !in props && !DeclaredOptional(name, formals)
    then [NoSubstitution(name)] else []
  }

  function Unsubstituted(names: seq<string>, props: map<string, string>, formals: seq<Formal>, suffix: string): seq<Problem> {
    if |names| == 0 then []
    else MissingOne(names[0], props, formals, suffix) + Unsubstituted(names[1..], props, formals, suffix)
  }

  /** `validateSubstitutions` (corrected): every name the substitution looks up must
      have a property, unless it is an input-path name or an optional formal's. */
  function SubstitutionProblems(s: string, props: map<string, string>, formals: seq<Formal>, suffix: string): seq<Problem> {
    Unsubstituted(CitedNames(s), props, formals, suffix)
  }

  lemma UnsubstitutedCons(name: string, rest: seq<string>, props: map<string, string>, formals: seq<Formal>, suffix: string)
    ensures Unsubstituted([name] + rest, props, formals, suffix)
         == MissingOne(name, props, formals, suffix) + Unsubstituted(rest, props, formals, suffix)
  {
    ConsTail(name, rest);
  }

  /** A search of the line from inside its suffix `s[start..]` is the search of the
      suffix, shifted. */
  lemma ShiftSearch(s: string, start: nat, c: char, from: nat)
    requires start <= from && start <= |s|
    ensures var r := IndexOfChar(s[start..], c, from - start);
      IndexOfChar(s, c, from) == if r == -1 then -1 else start + r
  {
    SplitAt(s, start);
    IndexOfCharAfterPrefix(s[..start], s[start..], c, from - start);
  }

  /** The first event of a scan, in terms of the three searches it makes. */
  lemma NextStepIs(t: string, lt: int, et: int, bt: int)
    requires lt == IndexOfChar(t, LEFT, 0)
    requires lt != -1 ==> et == IndexOfChar(t, RIGHT, lt + 1) && bt == IndexOfChar(t, ' ', lt + 1)
    ensures NextStep(t) == if lt == -1 || et == -1 then Stop
                           else if bt != -1 && bt < et then Redirect(bt + 1)
                           else Placeholder(lt, et)
  {
  }

  /** The scan from `start` meets what the searches of the whole line from `start`
      find. */
  lemma ScanAt(s: string, start: nat, l: int, e: int, b: int)
    requires start <= |s| && l == IndexOfChar(s, LEFT, start)
    requires l != -1 ==> e == IndexOfChar(s, RIGHT, l) && b == IndexOfChar(s, ' ', l)
    ensures l != -1 ==> start <= l
    ensures l != -1 && b != -1 ==> l < b
    ensures l != -1 && e != -1 ==> l < e
    ensures NextStep(s[start..]) == if l == -1 || e == -1 then Stop
                                    else if b != -1 && b < e then Redirect(b + 1 - start)
                                    else Placeholder(l - start, e - start)
  {
    var t := s[start..];
    ShiftSearch(s, start, LEFT, start);
    var lt := IndexOfChar(t, LEFT, 0);
    if lt == -1 {
      NextStepIs(t, lt, 0, 0);
    } else {
      assert l == start + lt;
      assert t[lt] == LEFT;
      assert IndexOfChar(t, RIGHT, lt) == IndexOfChar(t, RIGHT, lt + 1);
      assert IndexOfChar(t, ' ', lt) == IndexOfChar(t, ' ', lt + 1);
      ShiftSearch(s, start, RIGHT, l);
      ShiftSearch(s, start, ' ', l);
      var et := IndexOfChar(t, RIGHT, lt + 1);
      var bt := IndexOfChar(t, ' ', lt + 1);
      assert e == if et == -1 then -1 else start + et;
      assert b == if bt == -1 then -1 else start + bt;
      NextStepIs(t, lt, et, bt);
    }
  }

  lemma CitedStep(t: string)
    ensures NextStep(t).Stop? ==> CitedNames(t) == []
    ensures NextStep(t).Redirect? ==> CitedNames(t) == CitedNames(t[NextStep(t).upto..])
    ensures NextStep(t).Placeholder? ==>
      CitedNames(t) == [t[NextStep(t).at + 1..NextStep(t).close]] + CitedNames(t[NextStep(t).close + 1..])
  {
  }

  lemma CitedRedirect(s: string, start: nat, k: nat)
    requires start <= |s| && NextStep(s[start..]) == Redirect(k)
    ensures start + k <= |s| && CitedNames(s[start..]) == CitedNames(s[start + k..])
  {
    CitedStep(s[start..]);
    DropDrop(s, start, k);
  }

  lemma CitedPlaceholder(s: string, start: nat, l: nat, e: nat)
    requires start <= l <= e && start <= |s| && NextStep(s[start..]) == Placeholder(l - start, e - start)
    ensures l < e < |s|
    ensures CitedNames(s[start..]) == [s[l + 1..e]] + CitedNames(s[e + 1..])
  {
    CitedStep(s[start..]);
    DropDrop(s, start, e - start + 1);
    DropSlice(s, start, l - start + 1, e - start);
  }

  /** The loop invariant of the scan: what is reported so far and what the rest of
      the line will report make the report of the whole line. */
  ghost predicate Scanned(r: seq<Problem>, s: string, start: nat, want: seq<Problem>,
                          props: map<string, string>, formals: seq<Formal>, suffix: string) {
    start <= |s| && r + Unsubstituted(CitedNames(s[start..]), props, formals, suffix) == want
  }

  /** The scan stops: nothing more is looked up. */
  lemma StopTail(s: string, start: nat, l: int, e: int, b: int)
    requires start <= |s| && l == IndexOfChar(s, LEFT, start)
    requires l != -1 ==> e == IndexOfChar(s, RIGHT, l) && b == IndexOfChar(s, ' ', l)
    requires l == -1 || e == -1
    ensures CitedNames(s[start..]) == []
  {
    ScanAt(s, start, l, e, b);
    CitedStep(s[start..]);
  }

  /** The scan meets a stdin redirection and resumes after its blank. */
  lemma RedirectTail(s: string, start: nat, l: int, e: int, b: int)
    requires start <= |s| && l == IndexOfChar(s, LEFT, start) && l != -1
    requires e == IndexOfChar(s, RIGHT, l) && b == IndexOfChar(s, ' ', l)
    requires e != -1 && b != -1 && b < e
    ensures start < b + 1 <= |s| && CitedNames(s[start..]) == CitedNames(s[b + 1..])
  {
    ScanAt(s, start, l, e, b);
    CitedRedirect(s, start, b + 1 - start);
  }

  /** The scan meets the name between `l` and `e` and resumes after the `>`. */
  lemma NameTail(s: string, start: nat, l: int, e: int, b: int)
    requires start <= |s| && l == IndexOfChar(s, LEFT, start) && l != -1
    requires e == IndexOfChar(s, RIGHT, l) && b == IndexOfChar(s, ' ', l)
    requires e != -1 && !(b != -1 && b < e)
    ensures start <= l < e < |s|
    ensures CitedNames(s[start..]) == [s[l + 1..e]] + CitedNames(s[e + 1..])
  {
    ScanAt(s, start, l, e, b);
    CitedPlaceholder(s, start, l, e);
  }

  /** The test of one name: a property, an input-path suffix or an optional formal
      covers it. */
  method CheckName(name: string, props: map<string, string>, formals: seq<Formal>, suffix: string)
    returns (missing: seq<Problem>)
    ensures missing == MissingOne(name, props, formals, suffix)
  {
    missing := [];
    if !EndsWith(name, suffix) && name !in props {
      var k := FindFormal(formals, name);
      var isOptional := k.Some? && Optional(formals[k.value]);
      if !isOptional {
        missing := [NoSubstitution(name)];
      }
    }
  }

  /** The outcome of one round of the scan from `start`: where the next round
      starts, the name it checks, if any, and whether the scan stops. */
  datatype Round = Round(next: nat, name: Option<string>, stop: bool)

  /** What a round means for the names the substitution looks up: a stopping round
      leaves none; any other round moves forward and consumes the names up to where
      the next round starts, the one it checks and no other. */
  ghost predicate Consumes(s: string, start: nat, rd: Round) {
    start <= |s|
    && (rd.stop ==> rd.name.None? && CitedNames(s[start..]) == [])
    && (!rd.stop ==> start < rd.next <= |s|)
    && (!rd.stop && rd.name.None? ==> CitedNames(s[start..]) == CitedNames(s[rd.next..]))
    && (rd.name.Some? ==> !rd.stop && CitedNames(s[start..]) == [rd.name.value] + CitedNames(s[rd.next..]))
  }

  /** Each round keeps the scan invariant, and a stopping round has reported
      everything. */
  lemma RoundKeeps(r: seq<Problem>, s: string, start: nat, want: seq<Problem>,
                   props: map<string, string>, formals: seq<Formal>, suffix: string, rd: Round, missing: seq<Problem>)
    requires start < |s| && Scanned(r, s, start, want, props, formals, suffix)
    requires Consumes(s, start, rd)
    requires missing == if rd.name.Some? then MissingOne(rd.name.value, props, formals, suffix) else []
    ensures rd.stop ==> r == want
    ensures !rd.stop ==> start < rd.next && Scanned(r + missing, s, rd.next, want, props, formals, suffix)
  {
    if rd.stop {
      assert r + [] == r;
    } else if rd.name.None? {
      assert r + [] == r;
    } else {
      var rest := Unsubstituted(CitedNames(s[rd.next..]), props, formals, suffix);
      UnsubstitutedCons(rd.name.value, CitedNames(s[rd.next..]), props, formals, suffix);
      Assoc3(r, missing, rest);
    }
  }

  /** The scan of `validateSubstitutions`, corrected (see ## Findings in the README,
      lines 1982-1983): from each `<`, the next `>` and the next blank decide
      between a stdin redirection, skipped up to its blank, and a name, checked and
      skipped up to its `>`. */
  method ValidateSubstitutions(commandLine: string, props: map<string, string>, formals: seq<Formal>, suffix: string,
                               problems: seq<Problem>)
    returns (r: seq<Problem>)
    ensures r == problems + SubstitutionProblems(commandLine, props, formals, suffix)
  {
    r := problems;
    var start := 0;
    ghost var want := problems + SubstitutionProblems(commandLine, props, formals, suffix);
    assert commandLine[0..] == commandLine;
    var stop := false;
    while start < |commandLine| && !stop
      invariant start <= |commandLine|
      invariant stop ==> r == want
      invariant !stop ==> Scanned(r, commandLine, start, want, props, formals, suffix)
      decreases |commandLine| - start, !stop
    {
      var round := ScanRound(commandLine, start);
      var missing: seq<Problem> := [];
      if round.name.Some? {
        missing := CheckName(round.name.value, props, formals, suffix);
      }
      RoundKeeps(r, commandLine, start, want, props, formals, suffix, round, missing);
      if round.stop {
        stop := true;
      } else {
        r := r + missing;
        start := round.next;
      }
    }
    if !stop {
      EndRound(r, commandLine, start, want, props, formals, suffix);
    }
  }

  /** One round of the loop of `validateSubstitutions`: a `<` and the next `>` and blank
      after it, with the corrected blank test (a blank before the `>` makes a stdin
      redirection). */
  method ScanRound(s: string, start: nat) returns (round: Round)
    requires start <= |s|
    ensures Consumes(s, start, round)
  {
    var l := IndexOfChar(s, LEFT, start);
    if l == -1 {
      StopTail(s, start, l, -1, -1);
      return Round(start, None, true);
    }
    var end := IndexOfChar(s, RIGHT, l);
    var blank := IndexOfChar(s, ' ', l);
    if end == -1 {
      StopTail(s, start, l, end, blank);
      return Round(start, None, true);
    }
    if blank != -1 && blank < end {
      RedirectTail(s, start, l, end, blank);
      return Round(blank + 1, None, false);
    }
    NameTail(s, start, l, end, blank);
    return Round(end + 1, Some(s[l + 1..end]), false);
  }

  lemma EndRound(r: seq<Problem>, s: string, start: nat, want: seq<Problem>,
                 props: map<string, string>, formals: seq<Formal>, suffix: string)
    requires Scanned(r, s, start, want, props, formals, suffix) && start >= |s|
    ensures r == want
  {
    assert s[start..] == [];
    CitedStep(s[start..]);
  }

  // ---------------------------------------------------------------- properties of validateSubstitutions

  /** The names the validation checks are exactly the names the substitution looks
      up: two property tables that agree on them substitute the same text. */
  lemma {:induction false} ExpandReadsOnlyCited(s: string, v1: string -> string, v2: string -> string, table: map<string, Formal>)
    requires forall n :: n in CitedNames(s) ==> v1(n) == v2(n)
    ensures Expand(s, v1, table) == Expand(s, v2, table)
    decreases |s|
  {
    CitedStep(s);
    match NextStep(s)
    case Stop =>
      ExpandStops(s, v1, table);
      ExpandStops(s, v2, table);
    case Redirect(k) =>
      ExpandRedirect(s, k, v1, table);
      ExpandRedirect(s, k, v2, table);
      ExpandReadsOnlyCited(s[k..], v1, v2, table);
    case Placeholder(l, e) =>
      ExpandPlaceholder(s, l, e, v1, table);
      ExpandPlaceholder(s, l, e, v2, table);
      assert s[l + 1..e] in CitedNames(s);
      ExpandReadsOnlyCited(s[e + 1..], v1, v2, table);
  }

  /** A command line is reported for a name exactly when that name is looked up and
      neither a property, an input-path suffix nor an optional formal covers it. */
  lemma {:induction false} ReportedIff(names: seq<string>, props: map<string, string>, formals: seq<Formal>, suffix: string, name: string)
    ensures NoSubstitution(name) in Unsubstituted(names, props, formals, suffix)
        <==> name in names && !EndsWith(name, suffix) && name !in props && !DeclaredOptional(name, formals)
    decreases |names|
  {
    if |names| > 0 {
      ReportedIff(names[1..], props, formals, suffix, name);
      assert names == [names[0]] + names[1..];
    }
  }

  // ---------------------------------------------------------------- the blank before `>`

  /** As written the blank is searched for from the `<` and one is added to its
      position before it is compared with the `>`: a blank just before the `>` is
      not taken for a stdin redirection. */
  function NextStepAsWritten(s: string): Step {
    if |s| == 0 then Stop
    else
      var l := IndexOfChar(s, LEFT, 0);
      if l == -1 then Stop
      else
        var e := IndexOfChar(s, RIGHT, l + 1);
        if e == -1 then Stop
        else
          var b := IndexOfChar(s, ' ', l + 1);
          if b != -1 && b + 1 < e then Redirect(b + 1) else Placeholder(l, e)
  }

  function CitedNamesAsWritten(s: string): seq<string>
    decreases |s|
  {
    match NextStepAsWritten(s)
    case Stop => []
    case Redirect(k) => if 0 < k <= |s| then CitedNamesAsWritten(s[k..]) else []
    case Placeholder(l, e) => if l < e < |s| then [s[l + 1..e]] + CitedNamesAsWritten(s[e + 1..]) else []
  }

  /** The searches on `<name >`. */
  lemma BlankBeforeClose(name: string)
    requires LEFT !in name && RIGHT !in name && ' ' !in name
    ensures var s := Tag(name + " ");
      IndexOfChar(s, LEFT, 0) == 0 && IndexOfChar(s, RIGHT, 1) == |name| + 2
      && IndexOfChar(s, ' ', 1) == |name| + 1
      && s[|name| + 2..] == [RIGHT] && s[1..|name| + 2] == name + " " && s[|name| + 3..] == []
  {
    var s := Tag(name + " ");
    assert s == [LEFT] + name + [' '] + [RIGHT];
    assert forall j :: 1 <= j < |name| + 1 ==> s[j] == name[j - 1];
    IndexOfCharIs(s, LEFT, 0, 0);
    IndexOfCharIs(s, RIGHT, 1, |name| + 2);
    IndexOfCharIs(s, ' ', 1, |name| + 1);
    assert s[|name| + 2..] == [RIGHT];
    assert s[1..|name| + 2] == name + " ";
  }

  lemma CloseOnly()
    ensures CitedNames([RIGHT]) == [] && CitedNamesAsWritten([RIGHT]) == []
  {
    IndexOfCharNone([RIGHT], LEFT, 0);
  }

  /** As written, `<name >` is checked as the name `name ` (with its blank), and
      reported when nothing covers it. */
  lemma BlankBeforeCloseReported(name: string, props: map<string, string>, formals: seq<Formal>, suffix: string)
    requires LEFT !in name && RIGHT !in name && ' ' !in name
    requires !EndsWith(name + " ", suffix) && name + " " !in props && !DeclaredOptional(name + " ", formals)
    ensures CitedNamesAsWritten(Tag(name + " ")) == [name + " "]
    ensures Unsubstituted(CitedNamesAsWritten(Tag(name + " ")), props, formals, suffix) == [NoSubstitution(name + " ")]
  {
    BlankBeforeClose(name);
    var s := Tag(name + " ");
    assert NextStepAsWritten(s) == Placeholder(0, |name| + 2);
    assert CitedNamesAsWritten(s[|name| + 3..]) == [];
    UnsubstitutedCons(name + " ", [], props, formals, suffix);
  }

  /** Corrected, `<name >` is a stdin redirection as it is for the substitution,
      which leaves it in place: nothing is looked up and nothing reported. */
  lemma BlankBeforeCloseSkipped(name: string, props: map<string, string>, formals: seq<Formal>, suffix: string)
    requires LEFT !in name && RIGHT !in name && ' ' !in name
    ensures CitedNames(Tag(name + " ")) == []
    ensures SubstitutionProblems(Tag(name + " "), props, formals, suffix) == []
  {
    BlankBeforeClose(name);
    var s := Tag(name + " ");
    assert NextStep(s) == Redirect(|name| + 2);
    CloseOnly();
  }
}

=== FILE: wrappers.dfy ===
/** Optional values and results with an error, used for the nullable references and
    the exceptions of the modelled Java code. */
module Wrappers {
  datatype Option<T> = None | Some(value: T) {
    function GetOr(default: T): T {
      match this
      case None => default
      case Some(v) => v
    }
  }

  datatype Result<T, E> = Ok(value: T) | Err(error: E)
}
